=== FILE: README.md ===
# rag-eval in Dafny

A model of the core of rag-eval, a Streamlit application that evaluates the answers of a
retrieval-augmented generation (RAG) pipeline. The model covers these parts:

- **Stores and configuration.** The per-session key/value store and its first-run defaults. The
  configuration snapshot `load_config` builds from the store. The literal tables: the built-in
  rubric of eight metrics, the embedding catalogue, the providers and their base URLs, and the RAG
  answer prompt.
- **Services.** The LLM and embedding client factories. The Milvus vector-store setup and its
  connection test. The RAG chain with its seeded memory.
- **Judging.** The evaluation service that asks a judge model to grade an answer. It builds the
  grading prompt, chooses the judge client, classifies call failures, recovers JSON from the reply
  and completes it into an evaluation whose top-level keys and rubric ids all pass the
  completion's Python `in` tests (`in` on a `metrics` text or list passes without an entry).
- **Tabs.** The Configuration, Select Models, Custom Metrics, Evaluation Data, RAG Generation, Run
  Evaluation and Results tabs, each as the state change a button press or upload makes to the store.

Each Python module is a Dafny module:

- Pure helpers are functions.
- State that the source updates in place is imperative Dafny:
  - the session store is the class `Session.SessionState`, whose `entries` map the tab handlers reassign;
  - the chain memory is the class `RagService.ChatMemory`;
  - the Milvus connection registry is `VectorstoreService.Milvus`.
- Loops in the source are `while` and `for` loops proved against specification functions. Examples: the
  evaluation loop over the sheet's rows, the RAG generation loop, the JSON-pattern cascade and
  the results sort.
- Everything the application hands to a foreign library is a function parameter:
  - the chat-model call;
  - the chain call;
  - `json.loads`;
  - the clock;
  - the Milvus driver's replies.

  The model states what the application does with each result.

Shared modules:

- `Wrappers` has `Option` and `Result`.
- `Text` has the Python string operations the code uses.
- `PyJson` models JSON values as Python dicts with insertion order, plus the faults of Python's
  dynamic typing that the code can hit.
- `Domain` has metrics, model entries, documents and data-frame tables.

## Model

| member | source | states |
|---|---|---|
| Text.TrimStart | src/services/rag_service.py:18 | what is removed from the front is all whitespace, and what is left starts with a non-space |
| Text.TrimEnd | src/services/rag_service.py:18 | what is removed from the back is all whitespace, and what is left ends with a non-space |
| Text.Strip | src/services/rag_service.py:18 | `strip()` leaves a text that neither starts nor ends with whitespace |
| Text.StripEmptyIffBlank | src/services/rag_service.py:18 | `s.strip()` is empty exactly when every character of `s` is whitespace |
| Text.StripKeepsTrimmed | src/services/evaluation_service.py:246 | a text already free of outer whitespace is its own `strip()` |
| Text.Lower | src/ui/custom_metrics_tab.py:32 | `lower()` keeps the length and maps each character by the ASCII case map |
| Text.FindFrom | src/services/evaluation_service.py:235 | the search result is an occurrence at or after the start with none before it, or there is none at all |
| Text.FindFromIs | src/services/evaluation_service.py:235 | an occurrence with none before it is what the search reports |
| Text.ContainsAt | src/services/vectorstore_service.py:36 | an occurrence at any index makes `needle in hay` true |
| Text.StartsAtPrefix | src/services/evaluation_service.py:226-229 | an occurrence of a text is an occurrence of each of its prefixes |
| Text.StartsAtShift | src/services/evaluation_service.py:28-41 | an occurrence moves right by the length of any text put in front |
| Text.StartsAtExtend | src/services/evaluation_service.py:28-41 | an occurrence stays put when text is appended |
| Text.StartsAtConcat | src/services/evaluation_service.py:28-41 | an occurrence in the middle piece of a concatenation, shifted by the first piece |
| Text.JoinAt | src/services/evaluation_service.py:17-22 | `sep.join(parts)` shows part i at its offset, followed by the separator when another part follows |
| Text.NatToString | src/utils/helpers.py:12-13 | `str(n)` is a non-empty run of decimal digits |
| Text.NatToStringRoundTrip | src/utils/helpers.py:12-13 | reading back `str(n)` gives `n` |
| Text.FourDigits | src/utils/helpers.py:12 | a number drawn from 1000..9999 is written with four digits |
| Text.StrLessIrreflexive | src/ui/results_tab.py:29 | string order: no text is below itself |
| Text.StrLessTransitive | src/ui/results_tab.py:29 | string order is transitive |
| Text.StrLessTotal | src/ui/results_tab.py:29 | of two different texts one is below the other |
| Text.StrLessAsymmetric | src/ui/results_tab.py:29 | string order is asymmetric |
| Text.IsSpace | src/services/rag_service.py:18 | the characters `str.strip()` removes; `Text.Strip` and its lemmas are stated over it |
| Text.IsBlank | src/services/rag_service.py:18 | a text that `strip()` empties; `Text.StripEmptyIffBlank` ties it to `Text.Strip` |
| Text.LowerChar | src/ui/custom_metrics_tab.py:32 | the ASCII case mapping of `lower()`, one character at a time; `Text.Lower` is built from it |
| Text.StartsWith | src/services/evaluation_service.py:116 | `s.startswith(prefix)`, the Claude key test that `JudgeClient.ClaudeJudge` states its outcome with |
| Text.EndsWith | src/services/vectorstore_service.py:37-41 | a text ends with a given suffix; `VectorstoreService.FailureMessage` states with it that every failure text ends with the raw error |
| Text.StartsAt | src/services/evaluation_service.py:28-41 | a text occurs at a given index of another; the `EvaluationPrompt.PromptShows*` lemmas state where the prompt pieces lie with it |
| Text.Contains | src/services/vectorstore_service.py:36 | Python's `needle in hay` on texts: an occurrence at some index; `Text.ContainsAt` and `Text.FindFromIs` relate it to the search |
| Text.Join | src/services/evaluation_service.py:17-22 | `sep.join(parts)`; `Text.JoinAt` states where each part lies in it |
| Text.JoinOffset | src/services/evaluation_service.py:17-22 | the index where a part begins in the joined text, as `Text.JoinAt` states it |
| Text.StartsAtPairShift | src/services/evaluation_service.py:28-41 | two adjacent occurrences stay adjacent occurrences, moved by its length, once a prefix is put before the text |
| Text.StartsAtPairConcat | src/services/evaluation_service.py:28-41 | two adjacent occurrences in the middle piece of a three-piece concatenation are occurrences in the whole, moved by the first piece's length |
| Text.DigitChar | src/utils/helpers.py:13 | the character of a decimal digit, from which `Text.NatToString` writes numbers |
| Text.IsDigit | src/utils/helpers.py:13 | a decimal digit character, as a generated name ends with four of them (`Helpers.CollectionNameRoundTrip`) |
| Text.DigitsValue | src/utils/helpers.py:12-13 | `int(s)` of a text of digits; `Text.NatToStringRoundTrip` shows it inverts `Text.NatToString` |
| Text.IntToString | src/services/vectorstore_service.py:37 | `str(n)` for any integer, a minus sign before a negative one; used for the port in the connection failure text |
| Text.StrLess | src/ui/results_tab.py:29 | Python's `<` on texts, code-point lexicographic; the `Text.StrLess*` lemmas prove it a strict total order |
| FormatTemplate.Escape | src/services/rag_service.py:26-29 | doubling braces never shortens a literal |
| FormatTemplate.Slots | src/services/rag_service.py:26-29 | a template has at most one variable per segment |
| FormatTemplate.CloseBrace | src/services/rag_service.py:26-29 | the formatter's scan finds the first `}` at or after a position, or reports that there is none |
| FormatTemplate.CloseBraceAt | src/services/rag_service.py:26-29 | a `}` with none before it is the one the scan finds |
| FormatTemplate.FieldsSkipEscaped | src/services/rag_service.py:26-29 | escaped literal text contributes no variables |
| FormatTemplate.FieldsReadSlot | src/services/rag_service.py:26-29 | a `{name}` whose name has no brace, `:` or `!` is read back as the variable `name` |
| FormatTemplate.FieldsOfRender | src/services/rag_service.py:26-29 | rendering a well-formed template and reading back its variables gives exactly its slots, in order |
| FormatTemplate.PlainName | src/services/rag_service.py:26-29 | a variable name the formatter reads back unchanged: no braces, and no `:` or `!`, which start a format spec or a conversion; `FormatTemplate.FieldsOfRender` assumes it of every slot |
| FormatTemplate.WellFormed | src/services/rag_service.py:26-29 | every slot of a template holds a plain name, the precondition of `FormatTemplate.FieldsOfRender` |
| FormatTemplate.Render | src/services/rag_service.py:26-29 | the template text written from literal pieces (braces doubled by `FormatTemplate.Escape`) and `{name}` slots; `FormatTemplate.FieldsOfRender` reads its slots back |
| FormatTemplate.Fields | src/services/rag_service.py:26-29 | the field names Python's formatter finds in a template, in order, with format specs and conversions dropped and `{}` read as the empty name, or none when it is malformed; `FormatTemplate.FieldsOfRender`, `FormatTemplate.FieldsReadField` and the example lemmas state it |
| FormatTemplate.FieldName | src/services/rag_service.py:26-29 | the field name of a replacement field is its text before the first `:` or `!`, and holds neither |
| FormatTemplate.ConversionOk | src/services/rag_service.py:26-29 | a `!` conversion is one character followed by the end of the field or by `:` |
| FormatTemplate.FieldAt | src/services/rag_service.py:26-29 | a replacement field names a variable exactly when it holds no `{` and its conversion is well formed, and the variable is its field name |
| FormatTemplate.FieldParts | src/services/rag_service.py:26-29 | in `{f}` followed by more text, the scan opens a field at the first `{`, closes it at the `}` after `f` and resumes after it |
| FormatTemplate.FieldsReadField | src/services/rag_service.py:26-29 | `{f}` is read as the field name of `f`, its format spec and conversion dropped |
| FormatTemplate.FieldsDropSpec | src/services/rag_service.py:26-29 | `{a:b}` holds the variable `a` |
| FormatTemplate.FieldsDropConversion | src/services/rag_service.py:26-29 | `{a!r:>5}` holds the variable `a` |
| FormatTemplate.FieldsAutoNumbered | src/services/rag_service.py:26-29 | `{}` holds one field, with the empty name |
| FormatTemplate.FieldsBadConversion | src/services/rag_service.py:26-29 | `{a!}` and `{a!rx}` are malformed |
| Constants.BuiltInMetricIds | src/config/constants.py:93-126 | the built-in rubric's ids are the eight listed ones, in order, pairwise distinct, with non-empty names |
| Constants.DefaultIdsDistinct | src/config/constants.py:93-126 | the eight built-in ids are pairwise distinct |
| Constants.DefaultMetricsShape | src/config/constants.py:93-126 | the built-in rubric has the eight ids, distinct, each with a name and description |
| Constants.ProvidersHaveBaseUrls | src/config/constants.py:7-14 | every provider offered by the model forms has a base URL |
| Constants.EmbeddingCatalogueConsistent | src/config/constants.py:17-90 | each catalogue model's name is its key and its dimension count is positive; exactly the OpenAI and OpenAI-compatible models need a key; exactly the Ollama ones are marked as needing Ollama |
| Constants.RagPromptSlots | src/config/constants.py:129-148 | the RAG answer prompt's variables are context, chat_history and question, in that order |
| Constants.RagPromptWellFormed | src/config/constants.py:129-148 | the RAG answer prompt has no stray braces |
| Constants.SlotNamesPlain | src/config/constants.py:129-148 | the names context, chat_history and question are read back unchanged |
| Constants.RagTemplateVariables | src/config/constants.py:129-148 | a formatter reading the RAG answer prompt finds exactly context, chat_history and question |
| Constants.BuiltInMetrics | src/config/constants.py:93-126 | the eight built-in ids and names in dictionary order, around given descriptions; `Constants.BuiltInMetricIds` and `Constants.DefaultIdsDistinct` state its ids |
| Constants.RagPromptSegments | src/config/constants.py:129-148 | the RAG answer prompt as literal pieces and three slots; `Constants.RagPromptSlots` and `Constants.RagTemplateVariables` state its slots |
| Constants.CatalogueEntryConsistent | src/config/constants.py:17-90 | an embedding catalogue entry is keyed by its own name, has a positive dimension and needs a key exactly under the two OpenAI providers; `Constants.EmbeddingCatalogueConsistent` proves it of every entry |
| Session.WriteKeepsWellTyped | src/config/session.py:9-34 | writing a key a value of the kind it holds keeps every typed key holding its kind |
| Session.SessionState.constructor | src/config/session.py:7-8 | a session's store starts empty |
| Session.SessionState.Set | src/ui/config_tab.py:86 | assigning a key changes that key and nothing else |
| Session.SessionState.SetDefault | src/config/session.py:9-10 | a key is written only when it is absent |
| Session.InitializeSessionState | src/config/session.py:7-34 | the store after initialising is the thirteen default-if-absent writes, in the source's order |
| Session.InitializedIsOverlayOfEmpty | src/config/session.py:7-34 | initialising equals what it writes into an empty store, overlaid by the store's old contents |
| Session.InitializedEmpty | src/config/session.py:9-34 | an empty store receives exactly the thirteen defaults |
| Session.InitializedIsOverlay | src/config/session.py:7-34 | initialising equals the thirteen defaults overlaid by whatever the store already held |
| Session.DefaultStep | src/config/session.py:9-10 | one default-if-absent write preserves "defaults written so far, overlaid by the original" |
| Session.InitializeKeeps | src/config/session.py:21-22 | no value already stored is overwritten; all thirteen keys are present afterwards; a fresh session starts on collection rag_collection_eerrur_8415 |
| Session.InitializedNoop | src/config/session.py:7-34 | a store that already holds all thirteen keys is left unchanged |
| Session.InitializeIdempotent | src/config/session.py:7-34 | initialising twice is the same as initialising once |
| Session.LoadConfig | src/config/session.py:37-103 | a selected entry forces "Custom Models" and supplies the model and key for its role; otherwise the stored settings apply with their defaults. The Milvus host defaults to "standalone" inside Docker and "localhost" outside. The embedding base URL falls back to the DeepInfra URL setting |
| Session.EvalFallbackChains | src/config/session.py:69-72 | with no evaluation entry selected, the evaluation model falls back from eval_model to claude_model to the Sonnet literal, and the key from eval_api_key to claude_api_key to "" |
| Session.LoadConfigDefaults | src/config/session.py:75-102 | on an empty store the snapshot holds every documented default: port 19530, 5 chunks, size 1000, overlap 50, temperature 0.1, OpenAI gpt-4o, and so on |
| Session.Fits | src/config/session.py:80-103 | a stored value has the kind its key is read back with |
| Session.KindOf | src/config/session.py:80-103 | the kind of value each key read back by `load_config` and the tabs holds (text, integer, real, entry, metrics, records, table) |
| Session.WellTyped | src/config/session.py:7-34 | every typed key holds a value of its kind: the store invariant that `Session.WriteKeepsWellTyped` and the writers' contracts keep |
| Session.InitialValues | src/config/session.py:9-34 | the thirteen keys a fresh session holds and their first values; `Session.InitializedEmpty` proves initialization of an empty store yields them |
| Session.WithDefault | src/config/session.py:9-10 | `if key not in store: store[key] = v`; `Session.DefaultStep` states it |
| Session.Initialized | src/config/session.py:7-34 | the store after the thirteen default writes in order; `Session.InitializedIsOverlay` and `Session.InitializeIdempotent` state it |
| Session.GetStr | src/config/session.py:50-52 | `st.session_state.get(key, default)` for a text key; `Session.LoadConfigDefaults` states each default it supplies |
| Session.GetInt | src/config/session.py:82 | `st.session_state.get(key, default)` for an integer key, as `Session.LoadConfigDefaults` states it |
| Session.GetReal | src/config/session.py:102 | `st.session_state.get(key, default)` for a real key, as `Session.LoadConfigDefaults` states it |
| Session.Selected | src/config/session.py:40-42 | `st.session_state.get(key, None)` for a selected model entry, truthy exactly when an entry is saved; `Session.LoadConfig` branches on it |
| Helpers.CollectionName | src/utils/helpers.py:9-13 | a generated collection name has 26 characters: the prefix, the six drawn letters, an underscore and four digits |
| Helpers.CollectionNameRoundTrip | src/utils/helpers.py:11-13 | the two draws can be read back from the name, so different draws give different names |
| Helpers.DefaultCollectionIsGenerated | src/config/session.py:21-22 | the default collection has exactly the shape of a generated name |
| Helpers.SampleEvaluationData | src/utils/helpers.py:16-41 | the evaluation template has the Question, Ground truth and Chat history columns and five rows |
| Helpers.SampleQuestionsData | src/utils/helpers.py:44-55 | the question template has only the Question column and five rows |
| Helpers.SampleEvaluationShape | src/utils/helpers.py:33-39 | every template cell is filled; exactly the first and fourth rows have an empty history |
| Helpers.SampleQuestionsMatch | src/utils/helpers.py:19-25 | the question template lists the evaluation template's questions in the same order |
| Helpers.LowercaseLetters | src/utils/helpers.py:11 | six draws from `string.ascii_lowercase`; `Helpers.CollectionNameRoundTrip` recovers them |
| Helpers.CollectionDraws | src/utils/helpers.py:11-13 | the letters and the number a generated name was built from; `Helpers.CollectionNameRoundTrip` proves it inverts `Helpers.CollectionName` |
| SampleTemplates.SampleEvaluationAccepted | src/ui/eval_data_tab.py:45-75 | the Evaluation Data tab accepts the evaluation template unchanged and counts three rows with a history |
| SampleTemplates.SampleQuestionsAnswerable | src/ui/rag_gen_tab.py:61-78 | the RAG Generation tab finds a question in every row of the question template and starts each from an empty conversation |
| RagService.ChatMemory.constructor | src/services/rag_service.py:12-16 | a new memory buffer holds no messages |
| RagService.ChatMemory.AddUserMessage | src/services/rag_service.py:19 | appends one human message |
| RagService.ChatMemory.AddAiMessage | src/services/rag_service.py:20 | appends one AI message |
| RagService.SeedMessages | src/services/rag_service.py:18-20 | a new chain's memory is empty or exactly the seed prompt followed by the earlier conversation |
| RagService.SeededIffStripNonEmpty | src/services/rag_service.py:18 | the memory is seeded exactly when the earlier conversation is non-empty after `strip()`, and then it holds that conversation |
| RagService.CreateRagChain | src/services/rag_service.py:10-40 | a chain gets fresh memory holding the seed messages, memory key chat_history and output key answer, retrieves `numChunks` chunks, declares the three prompt variables and returns source documents |
| RagService.ChainVariablesMatchTemplate | src/services/rag_service.py:26-29 | the variables a chain declares are exactly the ones a formatter finds in its prompt |
| RagService.GenerateRagResponse | src/services/rag_service.py:43-55 | a chain result with an answer gives that answer and its documents, or none; a raised call gives "Error generating response: …" and no documents; a result without "answer" gives the KeyError text |
| RagService.RagPrompt | src/services/rag_service.py:26-29 | the template every chain answers with; `RagService.ChainVariablesMatchTemplate` proves its variables are the three declared |
| EvaluationPrompt.ChunkLabels | src/services/evaluation_service.py:17 | chunk i is labelled "Chunk i+1: " followed by the chunk |
| EvaluationPrompt.MetricLines | src/services/evaluation_service.py:19-22 | rubric entry i reads "i+1. **name**: description" |
| EvaluationPrompt.ChatHistorySection | src/services/evaluation_service.py:24-26 | the history section is empty or the heading followed by the history |
| EvaluationPrompt.ChatHistoryShownIffStripNonEmpty | src/services/evaluation_service.py:25 | the history section appears exactly when the history is non-empty after `strip()` |
| EvaluationPrompt.ChunkBetween | src/services/evaluation_service.py:17 | chunk i, placed between any two texts, starts at its join offset with its label |
| EvaluationPrompt.MetricBetween | src/services/evaluation_service.py:19-22 | rubric entry i, placed between any two texts, starts at its join offset with its number |
| EvaluationPrompt.PromptShowsChunk | src/services/evaluation_service.py:17-36 | every retrieved chunk appears in the prompt labelled "Chunk i+1", in input order, followed by a blank line when another follows |
| EvaluationPrompt.PromptShowsMetric | src/services/evaluation_service.py:19-41 | every rubric entry appears in the prompt numbered i+1, in rubric order, followed by a blank line when another follows |
| EvaluationPrompt.PromptShowsChatHistory | src/services/evaluation_service.py:24-34 | a non-blank history appears under its heading right after the case section |
| EvaluationPrompt.BlankHistoryOmitted | src/services/evaluation_service.py:24-34 | a blank history adds nothing between the case section and the chunks |
| EvaluationPrompt.ChunkLabel | src/services/evaluation_service.py:17 | `f"Chunk {i+1}: {chunk}"`; `EvaluationPrompt.ChunkLabels` and `EvaluationPrompt.PromptShowsChunk` state it |
| EvaluationPrompt.ChunksText | src/services/evaluation_service.py:17 | the labelled chunks joined by blank lines; `EvaluationPrompt.ChunkBetween` states where each label lies in it |
| EvaluationPrompt.MetricLine | src/services/evaluation_service.py:20 | `f"{i+1}. **{name}**: {description}"`; `EvaluationPrompt.MetricLines` and `EvaluationPrompt.PromptShowsMetric` state it |
| EvaluationPrompt.MetricsText | src/services/evaluation_service.py:19-22 | the numbered rubric entries joined by blank lines; `EvaluationPrompt.MetricBetween` states where each lies in it |
| EvaluationPrompt.TaskContext | src/services/evaluation_service.py:28-33 | the opening and the question, response and ground truth lines of the prompt |
| EvaluationPrompt.PromptBeforeChunks | src/services/evaluation_service.py:28-35 | the prompt up to the chunk list, the chat history section included; `EvaluationPrompt.PromptShowsChatHistory` locates the history in it |
| EvaluationPrompt.PromptAfterChunks | src/services/evaluation_service.py:38-103 | the rubric heading, the rubric entries and the grading instructions after the chunks |
| EvaluationPrompt.PromptWith | src/services/evaluation_service.py:28-103 | the prompt around given fixed texts; the `EvaluationPrompt.PromptShows*` lemmas hold for any such texts |
| EvaluationPrompt.CreateEvaluationPrompt | src/services/evaluation_service.py:12-105 | `create_evaluation_prompt` with the source's fixed texts; `EvaluationPrompt.PromptShowsChunk`, `EvaluationPrompt.PromptShowsMetric`, `EvaluationPrompt.PromptShowsChatHistory` and `EvaluationPrompt.BlankHistoryOmitted` state what it contains |
| EvaluationPrompt.MetricOffset | src/services/evaluation_service.py:36-41 | the index where rubric entry i begins in the prompt, as `EvaluationPrompt.PromptShowsMetric` states it |
| Domain.Ids | src/services/evaluation_service.py:297-298 | the keys of the rubric, one per metric, in rubric order |
| Domain.PageContents | src/ui/run_eval_tab.py:136 | one chunk text per retrieved document, in retrieval order |
| Domain.DistinctIds | src/ui/custom_metrics_tab.py:34-35 | no two metrics share an id, the invariant `CustomMetricsTab.AddKeepsDistinct` and `CustomMetricsTab.RemoveKeepsDistinct` keep |
| Domain.IdsTail | src/services/evaluation_service.py:297-298 | an id is among a non-empty list's ids exactly when it is the first one's or among the rest's |
| Domain.IdsPrepend | src/services/evaluation_service.py:297-298 | the ids of a list with a metric put in front are that metric's id followed by the others' |
| Domain.ModelEntry.TemperatureOr | src/services/llm_service.py:19 | `entry.get('temperature', d)`: the entry's temperature when it holds one, else `d`; `LlmService.CustomEntryOverridesArguments` states the outcome |
| Domain.ModelEntry.FixedTemperatureOr | src/services/llm_service.py:20 | `entry.get('fixed_temperature', d)`, as `LlmService.GetLlmProvider` reads it |
| Domain.CellText | src/services/evaluation_service.py:33 | `str(cell)`: a text cell's text, "nan" for an empty one, as the grading prompt writes the ground truth |
| Domain.At | src/ui/run_eval_tab.py:122-124 | `row[col]` of a data frame, NaN where the row has no such column; `RunEvalTab.ReadRow` states what it reads |
| PyJson.Lookup | src/services/evaluation_service.py:270 | a key has a value exactly when the dict holds it, and that value is stored under it |
| PyJson.LookupFirst | src/services/evaluation_service.py:270 | the value under a key is the one its entry holds |
| PyJson.SetField | src/services/evaluation_service.py:271 | after `d[key] = v` the key holds `v`; an existing key is replaced in place without growing the dict |
| PyJson.SetFieldOthers | src/services/evaluation_service.py:271 | `d[key] = v` leaves every other key's value as it was |
| PyJson.SetFieldAppends | src/services/evaluation_service.py:277-280 | a new key is appended after the existing entries, which keep their order |
| PyJson.PyGet | src/services/evaluation_service.py:270 | `v.get(key, default)` succeeds exactly on a dict, giving the stored value or the default |
| PyJson.PyGetItem | src/services/evaluation_service.py:271 | `v[key]` succeeds exactly on a dict holding the key, giving its value |
| PyJson.FieldValues | src/services/evaluation_service.py:279 | `values()` lists the dict's values in insertion order |
| PyJson.TypeName | src/ui/run_eval_tab.py:192 | `type(v).__name__` of a JSON value, whole numbers as `int`; the fault texts name types with it |
| PyJson.FaultText | src/services/evaluation_service.py:297 | `str(e)` of each modelled exception, as the sentinels write it; `PyJson.SumFaultTexts` states the `sum` texts |
| PyJson.HasKey | src/services/evaluation_service.py:270 | some field of a dictionary has the key; `PyJson.Lookup` finds a value exactly when it holds |
| PyJson.PyIn | src/services/evaluation_service.py:270 | `key in v`: a key test on a dict, membership on a list, a substring test on a text, a raise otherwise; `JudgeCompletion.FillFaults` and `EvaluationService.KeysPresent` state its outcomes |
| PyJson.PySubscript | src/services/evaluation_service.py:271 | `d[key]` on a dictionary: its value, or a `KeyError` when absent; `PyJson.PyGetItem` states it |
| PyJson.PySetItem | src/services/evaluation_service.py:271 | `v[key] = x`: the dictionary with the field set, a raise on a non-dict; `PyJson.SetField` and `PyJson.SetFieldOthers` state the field update |
| PyJson.PyValues | src/services/evaluation_service.py:279 | `v.values()` on a dictionary, in field order; `PyJson.FieldValues` states it |
| PyJson.NumberOf | src/services/evaluation_service.py:280 | the number a value stands for in Python arithmetic (`bool` as 0 or 1), none for other values |
| PyJson.PySum | src/services/evaluation_service.py:280 | `sum(values)` from an `int` 0; `PyJson.SumFault` and `PyJson.SumFaultTexts` state its raise |
| PyJson.SumFrom | src/services/evaluation_service.py:280 | the rest of a `sum` whose running total has a given type, which becomes `float` once a `float` is added |
| PyJson.SumFault | src/services/evaluation_service.py:280 | `sum` raises at the first non-number, naming the running total's type (`float` once a float preceded it, else the starting type) and the non-number's |
| PyJson.SumFaultTexts | src/services/evaluation_service.py:280 | `sum([7.5, "x"])` raises "unsupported operand type(s) for +: 'float' and 'str'", and `sum([7, "x"])` names an `int` total |
| LlmService.FixedTemperatureFamily | src/services/llm_service.py:36-37 | the four fixed-temperature markers amount to "the lower-cased name contains gpt-5 or o1" |
| LlmService.GetLlmProvider | src/services/llm_service.py:9-85 | which providers succeed; Custom Models needs a selected entry and takes name, key, base URL and temperature from it, with temperature 1.0 when the entry's flag is set; OpenAI and DeepInfra use temperature 1.0 for the fixed-temperature families; DeepInfra reads its base URL from the store; Groq and Together AI pass the arguments through; anything else raises "Unsupported provider" |
| LlmService.CustomEntryOverridesArguments | src/services/llm_service.py:12-33 | with an entry selected, the model name and key passed in make no difference to the Custom Models client |
| LlmService.IsFixedTemperatureModel | src/services/llm_service.py:36-37 | a model name whose lower case contains one of the four fixed-temperature markers; `LlmService.FixedTemperatureFamily` states it |
| EmbeddingService.CompatibleBaseUrl | src/services/embedding_service.py:30-44 | the override wins; otherwise Custom Models with a selected entry uses the entry's URL; otherwise the embedding URL setting, then the DeepInfra URL setting, then the DeepInfra default |
| EmbeddingService.TryCreateEmbeddings | src/services/embedding_service.py:17-82 | exactly which calls build a client: OpenAI with a key, OpenAI-compatible or Custom Models with a key and the client library, and HuggingFace, SentenceTransformers and Ollama always. Each error message is stated. The client always carries the requested model |
| EmbeddingService.CreateEmbeddings | src/services/embedding_service.py:15-85 | the call never raises: it returns a client, or None together with the shown "Error creating embeddings: …" message |
| EmbeddingService.OverrideIgnoresEntry | src/services/embedding_service.py:30-32 | with a base-URL override the selected entry's URL and key are not used |
| EmbeddingService.CompatibleEmbeddingsClient.constructor | src/services/embedding_service.py:49-52 | the wrapper keeps the key, URL and model it was built with |
| EmbeddingService.CompatibleEmbeddingsClient.DocumentsRequest | src/services/embedding_service.py:54-58 | the documents request names the wrapper's model and the float format and sends a list holding each input turned into a string: strings as they are, other values by `str()` |
| EmbeddingService.CompatibleEmbeddingsClient.QueryRequest | src/services/embedding_service.py:60-63 | a query is sent with the wrapper's model and the float format, and its input is the query turned into a string and sent bare, not as a list; a documents request for the same input sends the one-element list of that string |
| EmbeddingService.CompatibleApiKey | src/services/embedding_service.py:30-44 | the key the compatible client receives: the selected entry's non-empty key replaces the passed one on the branch reading the entry; `EmbeddingService.TryCreateEmbeddings` states it |
| EmbeddingService.SafeText | src/services/embedding_service.py:56 | `t if isinstance(t, str) else str(t)` for an embedding input; the request members state it |
| JudgeClient.ClaudeJudge | src/services/evaluation_service.py:115-126 | a Claude judge is built exactly when the key starts with "sk-", with temperature 0.1, 4096 max tokens, 2 retries and a 360 s timeout; otherwise the key-format ValueError |
| JudgeClient.CustomJudge | src/services/evaluation_service.py:134-167 | a custom judge needs the entry's key and uses it. The URL passed in wins over the entry's. Fixed-temperature model names get temperature 1.0 and the completion-token keyword; others get the entry's temperature (default 0.1) and max tokens |
| JudgeClient.OpenAIJudge | src/services/evaluation_service.py:168-198 | an OpenAI judge needs a key; fixed-temperature model names get temperature 1.0 and the completion-token keyword, others 0.1 and max tokens |
| JudgeClient.ChooseJudge | src/services/evaluation_service.py:114-198 | Claude, Custom Models (failing when no entry is selected) and every other provider name as OpenAI; the judge always uses the requested model and every failure is a ValueError |
| JudgeClient.CustomJudgeIgnoresPassedKey | src/services/evaluation_service.py:139 | for Custom Models the key passed in plays no part |
| JudgeClient.CompletionTokensIffFixed | src/services/evaluation_service.py:145-198 | a judge gets the completion-token keyword exactly when it is not Claude and the model has a fixed temperature, and then its temperature is 1.0 |
| JudgeClient.ClassifyInvokeError | src/services/evaluation_service.py:205-221 | a failed invocation is re-raised by its lower-cased message: "connection" as a ConnectionError, then "authentication" or "unauthorized" as an invalid-key ValueError, then "rate" as the rate-limit ValueError, otherwise unchanged |
| JudgeClient.ValueError | src/services/evaluation_service.py:117 | a raised `ValueError` with its message, as the judge checks raise them |
| JudgeClient.ProviderName | src/services/evaluation_service.py:208 | the service a classified invocation error names: Claude for Claude, OpenAI otherwise; `JudgeClient.ClassifyInvokeError` states the messages |
| JudgeClient.ConnectionMessage | src/services/evaluation_service.py:209-214 | the text of the connection error raised for a failed invocation |
| JudgeClient.InvalidKeyMessage | src/services/evaluation_service.py:217 | the text of the invalid key error raised for an authentication failure |
| JudgeExtraction.SpaceRun | src/services/evaluation_service.py:226 | the greedy `\s*` run: all whitespace, ending at the text's end or a non-space |
| JudgeExtraction.LooseFrom | src/services/evaluation_service.py:226 | a capture of the loose JSON fence starts right after a newline within the whitespace run and ends where a closing "\n```" begins |
| JudgeExtraction.LastIndexOf | src/services/evaluation_service.py:229 | the last occurrence of a character, or none anywhere |
| JudgeExtraction.MatchAt | src/services/evaluation_service.py:225-243 | a pattern's capture at a position lies within the reply and starts at or after that position |
| JudgeExtraction.Search | src/services/evaluation_service.py:235 | `re.search` reports a position where the pattern matches |
| JudgeExtraction.SearchFinds | src/services/evaluation_service.py:235 | `re.search` reports the leftmost matching position |
| JudgeExtraction.SearchMisses | src/services/evaluation_service.py:235-236 | with no matching position `re.search` reports no match |
| JudgeExtraction.Attempts | src/services/evaluation_service.py:234-252 | one outcome per pattern, in the fixed order |
| JudgeExtraction.PatternLoop | src/services/evaluation_service.py:232-252 | the loop leaves the dictionary of the first pattern whose stripped capture parses, or None |
| JudgeExtraction.ExtractEvaluation | src/services/evaluation_service.py:223-266 | the recovered value is the loop's dictionary, else the parse of the whole stripped reply, else the soft default |
| JudgeExtraction.FirstParsedIs | src/services/evaluation_service.py:250 | the loop stops at the first pass that parses, whatever later patterns would give |
| JudgeExtraction.FirstParsedNone | src/services/evaluation_service.py:232-252 | without a pass that parses the loop leaves None |
| JudgeExtraction.FirstParsedPatternWins | src/services/evaluation_service.py:234-252 | when the patterns before pattern i do not parse and pattern i does, pattern i's dictionary is the result |
| JudgeExtraction.NothingCaptured | src/services/evaluation_service.py:254-266 | when no pattern parses, the whole reply is parsed, and when that fails too the soft default is used |
| JudgeExtraction.SoftDefaultFields | src/services/evaluation_service.py:261-266 | the soft default holds score 5, an empty `metrics`, the fixed summary and the raw-response recommendations, and nothing else |
| JudgeExtraction.BraceSpanIsFirstToLast | src/services/evaluation_service.py:229-240 | the raw-object pattern captures from the first '{' to the last '}', and matches exactly when such a '}' follows the first '{' |
| JudgeExtraction.NoFenceNoMatch | src/services/evaluation_service.py:226-228 | the three fenced patterns never match a reply without "```" |
| JudgeExtraction.UnfencedReply | src/services/evaluation_service.py:225-252 | a reply without a code fence is read from its brace span alone |
| JudgeExtraction.FencedCapture | src/services/evaluation_service.py:226 | a reply opening with a JSON fence has the fence body captured up to the first closing fence |
| JudgeExtraction.FencedReply | src/services/evaluation_service.py:226-250 | a fenced JSON reply whose body parses yields that body's dictionary, whatever follows the fence |
| JudgeExtraction.InText | src/services/evaluation_service.py:235 | a capture range lies inside the reply |
| JudgeExtraction.Capture | src/services/evaluation_service.py:235-243 | the text a pattern captures from the reply (group 1, or the whole match for the brace pattern); `JudgeExtraction.FencedCapture` and `JudgeExtraction.BraceSpanIsFirstToLast` state it |
| JudgeExtraction.Attempt | src/services/evaluation_service.py:235-249 | one pass of the pattern loop: the capture, stripped and parsed; `JudgeExtraction.Attempts` collects them |
| JudgeExtraction.FirstParsed | src/services/evaluation_service.py:234-252 | the dictionary the loop leaves: the first successful parse; `JudgeExtraction.FirstParsedIs`, `JudgeExtraction.FirstParsedNone` and `JudgeExtraction.FirstParsedPatternWins` state it |
| JudgeExtraction.Cascade | src/services/evaluation_service.py:232-252 | the pattern loop over the four patterns; `JudgeExtraction.PatternLoop` computes it and `JudgeExtraction.UnfencedReply` and `JudgeExtraction.FencedReply` state it on both reply shapes |
| JudgeExtraction.WholeParse | src/services/evaluation_service.py:257 | `json.loads(evaluation.strip())`, the second fallback |
| JudgeExtraction.SoftDefault | src/services/evaluation_service.py:261-266 | the minimal evaluation when nothing parses; `JudgeExtraction.SoftDefaultFields` states its fields |
| JudgeExtraction.Fallback | src/services/evaluation_service.py:255-266 | the loop's dictionary, else the whole-reply parse, else the soft default; `JudgeExtraction.NothingCaptured` states the chain |
| JudgeExtraction.Recover | src/services/evaluation_service.py:223-266 | the dictionary recovery hands to completion; `JudgeExtraction.ExtractEvaluation` computes it and `JudgeExtraction.NothingCaptured` states its fallbacks |
| JudgeCompletion.ScoresOr5 | src/services/evaluation_service.py:279 | one score per metric entry |
| JudgeCompletion.CompleteEvaluation | src/services/evaluation_service.py:268-288 | the in-place completion steps give the completion result, including the exception raised on a badly shaped reply |
| JudgeCompletion.FillOneKeeps | src/services/evaluation_service.py:269-274 | a rubric pass that does not raise leaves its key in `metrics` and keeps every key already there |
| JudgeCompletion.FillCoversRubric | src/services/evaluation_service.py:269-274 | after a rubric loop that does not raise, every rubric id and every earlier metric is in `metrics` |
| JudgeCompletion.FillOnDict | src/services/evaluation_service.py:269-274 | on a dict whose `metrics` is a dict the loop never raises. Scored entries and extra keys are kept, an unscored rubric id gets the neutral entry, and nothing outside `metrics` changes |
| JudgeCompletion.FillFaults | src/services/evaluation_service.py:270-271 | the loop raises on its first id when the reply is not a dict (AttributeError on `get`) or has no `metrics` (KeyError) |
| JudgeCompletion.Scores | src/services/evaluation_service.py:279 | one number per metric entry |
| JudgeCompletion.SumOfScores | src/services/evaluation_service.py:279-280 | on scorable metrics, `sum` of the scores-or-5 list is the sum of the scores |
| JudgeCompletion.OverallIsMean | src/services/evaluation_service.py:277-280 | a missing overall score is appended as the mean of the metric scores, 5 for an entry without a score |
| JudgeCompletion.OverallKept | src/services/evaluation_service.py:277 | an overall score that is present is kept as it is |
| JudgeCompletion.SumBounds | src/services/evaluation_service.py:280 | a sum of scores lies between count times the lower bound and count times the upper bound |
| JudgeCompletion.MeanWithinScale | src/services/evaluation_service.py:280 | the computed overall score stays within any scale that holds the scores and 5 |
| JudgeCompletion.PlaceholderOnlyWhenAbsent | src/services/evaluation_service.py:283-286 | a present summary or recommendations is kept; a missing one is appended with its placeholder |
| JudgeCompletion.EnsureFieldKeeps | src/services/evaluation_service.py:283-286 | after a placeholder step the key is present, nothing present is lost, and other keys keep their values |
| JudgeCompletion.EnsureOverallKeeps | src/services/evaluation_service.py:277-280 | after the overall step the score is present, nothing present is lost, and other keys keep their values |
| JudgeCompletion.CompletedHasAllKeys | src/services/evaluation_service.py:268-288 | a completion that does not raise holds the overall score, summary and recommendations, and every rubric id in `metrics` |
| JudgeCompletion.FillOne | src/services/evaluation_service.py:269-274 | one rubric pass, updating the nested `metrics` dictionary in place; `JudgeCompletion.FillOneKeeps` and `JudgeCompletion.FillFaults` state it |
| JudgeCompletion.FillMetrics | src/services/evaluation_service.py:269-274 | the rubric loop, stopping at the first raise; `JudgeCompletion.FillCoversRubric` and `JudgeCompletion.FillOnDict` state it |
| JudgeCompletion.ComputedOverall | src/services/evaluation_service.py:279-280 | the mean of the metric scores, 5 without any; `JudgeCompletion.OverallIsMean` states it |
| JudgeCompletion.EnsureOverall | src/services/evaluation_service.py:277-280 | `overall_score` set when absent; `JudgeCompletion.OverallKept` and `JudgeCompletion.EnsureOverallKeeps` state it |
| JudgeCompletion.EnsureField | src/services/evaluation_service.py:283-286 | a text field set when absent; `JudgeCompletion.EnsureFieldKeeps` and `JudgeCompletion.PlaceholderOnlyWhenAbsent` state it |
| JudgeCompletion.Complete | src/services/evaluation_service.py:268-288 | the whole completion block; `JudgeCompletion.CompleteEvaluation` computes it and `JudgeCompletion.CompletedHasAllKeys` states its result |
| JudgeCompletion.MetricsOf | src/services/evaluation_service.py:270 | `d.get('metrics', {})` of a dictionary |
| JudgeCompletion.Sum | src/services/evaluation_service.py:280 | the sum of a list of scores; `JudgeCompletion.SumBounds` bounds it |
| JudgeCompletion.MeanOr5 | src/services/evaluation_service.py:280 | the mean of the scores, 5 without any; `JudgeCompletion.MeanWithinScale` keeps it within the score scale |
| JudgeCompletion.ScoreOr5 | src/services/evaluation_service.py:279 | `m.get('score', 5)` as a number, none when it raises or is not a number; `JudgeCompletion.ScoresOr5` states it over the entries |
| JudgeCompletion.Scorable | src/services/evaluation_service.py:279-280 | every metric entry gives a number to the mean, the premise of `JudgeCompletion.OverallIsMean` |
| JudgeCompletion.QuotientBounds | src/services/evaluation_service.py:280 | a total between lo and hi times n, divided by n, lies between lo and hi |
| JudgeCompletion.SumOfScoresFrom | src/services/evaluation_service.py:279-280 | when every entry is scorable, their scores are read without a raise and `sum` of them from a running total of any type is the sum of their numbers |
| EvaluationService.ZeroEntriesCover | src/services/evaluation_service.py:297-326 | the sentinel's metrics hold the zero entry for exactly the rubric ids |
| EvaluationService.SentinelShape | src/services/evaluation_service.py:295-329 | a sentinel scores 0 and carries the zero metrics, its summary and its recommendations |
| EvaluationService.SentinelHasAllKeys | src/services/evaluation_service.py:295-329 | every sentinel holds the keys a completed evaluation holds |
| EvaluationService.InvokeAndComplete | src/services/evaluation_service.py:202-301 | invoking, classifying the failure, recovering and completing give the specified value |
| EvaluationService.EvaluateWith | src/services/evaluation_service.py:200-301 | prompting then invoking gives the specified value |
| EvaluationService.EvaluateResponse | src/services/evaluation_service.py:108-329 | `evaluate_response` step by step gives the specified value |
| EvaluationService.JudgedHasAllKeys | src/services/evaluation_service.py:202-301 | every reply ends in a value holding the overall score, summary, recommendations and every rubric id |
| EvaluationService.PromptedHasAllKeys | src/services/evaluation_service.py:200-301 | the same holds whatever prompt the judge is given |
| EvaluationService.EvaluateAlwaysComplete | src/services/evaluation_service.py:108-329 | whatever the provider, key, reply or parse outcome, the result has the overall score, summary and recommendations, and every rubric id passes the `in` test of line 270 against its `metrics` |
| EvaluationService.BadClaudeKeyNeverInvokes | src/services/evaluation_service.py:116-117 | a Claude key without "sk-" yields the key-format sentinel whatever the judge would have replied |
| EvaluationService.CompleteReplyKept | src/services/evaluation_service.py:268-288 | a reply that already has every key is returned unchanged |
| EvaluationService.FillKeepsComplete | src/services/evaluation_service.py:269-274 | the rubric loop leaves unchanged a reply whose `metrics` already scores every id |
| EvaluationService.ZeroEntry | src/services/evaluation_service.py:297 | a sentinel's metric entry: score 0 and the error text |
| EvaluationService.ZeroEntries | src/services/evaluation_service.py:297-298 | a zero entry for every rubric id in order; `EvaluationService.ZeroEntriesCover` states it |
| EvaluationService.Sentinel | src/services/evaluation_service.py:295-301 | the dictionary returned in place of an evaluation on failure; `EvaluationService.SentinelShape` and `EvaluationService.SentinelHasAllKeys` state it |
| EvaluationService.ParseSentinel | src/services/evaluation_service.py:295-301 | the sentinel for a raise during completion, with its texts |
| EvaluationService.EvalSentinel | src/services/evaluation_service.py:323-329 | the sentinel for a raise while choosing or invoking the judge, with its texts |
| EvaluationService.KeysPresent | src/services/evaluation_service.py:270-286 | a dictionary holding the three top-level keys and a metrics dictionary answers `in` with True for each, and for an id of its metrics |
| EvaluationService.Completed | src/services/evaluation_service.py:223-301 | the completed recovered dictionary, or the parse sentinel; `EvaluationService.CompleteReplyKept` and `EvaluationService.FillKeepsComplete` state it |
| EvaluationService.Judged | src/services/evaluation_service.py:202-301 | the invocation and completion once the judge is built; `EvaluationService.InvokeAndComplete` computes it and `EvaluationService.JudgedHasAllKeys` states its result |
| EvaluationService.Prompted | src/services/evaluation_service.py:200-301 | the prompt built and the judge invoked on it; `EvaluationService.EvaluateWith` computes it and `EvaluationService.PromptedHasAllKeys` states its result |
| EvaluationService.Evaluate | src/services/evaluation_service.py:108-329 | `evaluate_response`; `EvaluationService.EvaluateResponse` computes it, `EvaluationService.EvaluateAlwaysComplete` and `EvaluationService.BadClaudeKeyNeverInvokes` state its result |
| ConfigTab.ConnectionArgsOf | src/ui/config_tab.py:26-33 | the test's connection arguments always carry host and port, and carry user and password exactly when they are non-empty |
| ConfigTab.ConnectsWithForm | src/ui/config_tab.py:26-36 | the probe connects with exactly the form's host, port, user and password |
| ConfigTab.TestMilvusConnection | src/ui/config_tab.py:25-41 | the test runs the probe on the form's arguments, records its driver calls and shows its outcome |
| ConfigTab.BannerMatchesProbe | src/ui/config_tab.py:37-41 | the banner is a success exactly when the driver is present and connect, list and disconnect all succeed; every failure shows the Docker hint |
| ConfigTab.ApplyToHolds | src/ui/config_tab.py:86 | after `update` the store holds every value of the update under its key |
| ConfigTab.ApplyToMilvus | src/ui/config_tab.py:67-86 | after `update` the store holds the four Milvus values |
| ConfigTab.ApplyToModels | src/ui/config_tab.py:72-86 | after `update` the store holds the three providers and three model names |
| ConfigTab.ApplyToKeys | src/ui/config_tab.py:74-86 | after `update` the store holds the three cleared keys and the Ollama URL |
| ConfigTab.ApplyToRag | src/ui/config_tab.py:82-86 | after `update` the store holds the three slider values |
| ConfigTab.ApplyToKeeps | src/ui/config_tab.py:86 | `update` leaves every key it does not name as it was, present or absent |
| ConfigTab.ApplyToKeepsSelected | src/ui/config_tab.py:86 | Save never changes which entries are selected |
| ConfigTab.SaveUpdate | src/ui/config_tab.py:62-85 | a selected entry writes "Custom Models" and the entry's name for its role; otherwise the snapshot's provider and model are written back. All three keys are cleared, the Ollama URL is reset, and the form fields are written as entered |
| ConfigTab.SaveConfiguration | src/ui/config_tab.py:60-87 | the Save button leaves the store as the specified update of it |
| ConfigTab.SaveKeepsWellTyped | src/ui/config_tab.py:66-86 | Save writes text and integers where they belong, so a well-typed store stays well typed |
| ConfigTab.ApplyKeepsWellTyped | src/ui/config_tab.py:86 | every value an update writes has its key's kind |
| ConfigTab.LoadHeld | src/config/session.py:37-103 | a store holding an update's values yields a snapshot with those Milvus, RAG and Ollama values, and for roles without an entry that provider, model and key |
| ConfigTab.LoadAfterSave | src/ui/config_tab.py:60-86 | after Save the next snapshot has the form's Milvus and slider values, the same providers and models as before, and an empty key for every role without a selected entry |
| ConfigTab.SaveIdempotent | src/ui/config_tab.py:60-86 | pressing Save twice with the same form is the same as pressing it once |
| ConfigTab.ReapplySame | src/ui/config_tab.py:86 | applying the same update twice is applying it once |
| ConfigTab.SliderValuesSaved | src/ui/config_tab.py:50-57 | after Save the snapshot's chunk count is 1..10, the chunk size 100..2000 in steps of 100, and the overlap 0..200 in steps of 10 |
| ConfigTab.OverlapMayExceedSize | src/ui/config_tab.py:53-57 | the sliders admit an overlap of 200 with chunks of 100 |
| ConfigTab.OnSliders | src/ui/config_tab.py:50-57 | the values the three RAG sliders can take; `ConfigTab.SliderValuesSaved` states it |
| ConfigTab.BannerOf | src/ui/config_tab.py:37-41 | the success or error banner for a probe result; `ConfigTab.BannerMatchesProbe` states it |
| ConfigTab.SettingsUpdate.ApplyTo | src/ui/config_tab.py:86 | `st.session_state.update(update_dict)`; `ConfigTab.ApplyToHolds` and `ConfigTab.ApplyToKeeps` state it |
| ConfigTab.SettingsUpdate.HeldBy | src/ui/config_tab.py:66-85 | the store holds every value of the update under its key |
| ConfigTab.SettingsUpdate.MilvusHeldBy | src/ui/config_tab.py:67-70 | the store holds the update's four connection values |
| ConfigTab.SettingsUpdate.ModelsHeldBy | src/ui/config_tab.py:72-80 | the store holds the update's providers and model names |
| ConfigTab.SettingsUpdate.KeysHeldBy | src/ui/config_tab.py:74-79 | the store holds the update's three emptied API keys |
| ConfigTab.SettingsUpdate.RagHeldBy | src/ui/config_tab.py:81-84 | the store holds the update's Ollama URL and slider values |
| ConfigTab.Written | src/ui/config_tab.py:66-85 | the seventeen keys an update writes; `ConfigTab.ApplyToKeeps` keeps every other key |
| ConfigTab.Saved | src/ui/config_tab.py:60-87 | the store after Save; `ConfigTab.SaveConfiguration` computes it and `ConfigTab.LoadAfterSave` and `ConfigTab.SaveIdempotent` state it |
| ConfigTab.LoadHeldMilvus | src/config/session.py:81-84 | `load_config` on a store holding an update reads back its connection values |
| ConfigTab.LoadHeldRag | src/config/session.py:95-101 | `load_config` on a store holding an update reads back its RAG values |
| ConfigTab.LoadHeldInference | src/config/session.py:55-62 | `load_config` on a store holding an update reads back its inference settings |
| ConfigTab.LoadHeldEvaluation | src/config/session.py:65-72 | `load_config` on a store holding an update reads back its evaluation settings |
| ConfigTab.LoadHeldEmbedding | src/config/session.py:45-52 | `load_config` on a store holding an update reads back its embedding settings |
| CustomMetricsTab.MetricId | src/ui/custom_metrics_tab.py:32 | the id has the name's length and maps each character by lower-casing, with spaces and hyphens becoming `_` |
| CustomMetricsTab.MetricIdIdempotent | src/ui/custom_metrics_tab.py:32 | deriving an id from an id gives it back |
| CustomMetricsTab.SimilarNamesShareId | src/ui/custom_metrics_tab.py:32-36 | "Task Completion" and "task-completion" get the same id, so the second is refused |
| CustomMetricsTab.AfterAdd | src/ui/custom_metrics_tab.py:30-47 | the list changes exactly when both fields are filled and the derived id is new, and then the new metric is appended |
| CustomMetricsTab.AddKeepsDistinct | src/ui/custom_metrics_tab.py:34-42 | adding keeps the custom ids pairwise distinct |
| CustomMetricsTab.BuiltInIdsNotChecked | src/ui/custom_metrics_tab.py:34-35 | a custom metric named "Correctness" is accepted although its id is a built-in one |
| CustomMetricsTab.AfterRemove | src/ui/custom_metrics_tab.py:18 | `pop(i)` removes exactly entry i: the entries before it stay, those after it move up one, and nothing else is lost |
| CustomMetricsTab.RemoveKeepsDistinct | src/ui/custom_metrics_tab.py:18 | removing keeps the custom ids pairwise distinct |
| CustomMetricsTab.AddMetric | src/ui/custom_metrics_tab.py:30-47 | the submit handler reports missing field, duplicate id or added, and leaves the stored list as specified |
| CustomMetricsTab.RemoveMetric | src/ui/custom_metrics_tab.py:17-19 | the Remove button stores the list without entry i |
| CustomMetricsTab.IdChar | src/ui/custom_metrics_tab.py:32 | the id character for a name character: lower case, spaces and hyphens as `_`; `CustomMetricsTab.MetricId` is built from it |
| CustomMetricsTab.AddOutcomeOf | src/ui/custom_metrics_tab.py:30-47 | the outcome of the add form: a missing field, a duplicate id, or an added metric; `CustomMetricsTab.AfterAdd` states each |
| CustomMetricsTab.CustomMetrics | src/ui/custom_metrics_tab.py:11-18 | the custom metrics the store holds |
| EvalDataTab.WithHistory | src/ui/eval_data_tab.py:49-55 | the normalised sheet has the same rows; the history column exists (appended last when it was missing) and holds text in every row: the row's history, or "" for an empty cell or a missing column. Every other cell is unchanged |
| EvalDataTab.WithHistoryIdempotent | src/ui/eval_data_tab.py:49-55 | normalising a normalised sheet changes nothing |
| EvalDataTab.UploadOf | src/ui/eval_data_tab.py:45-79 | a sheet is accepted exactly when it has the Question and Ground truth columns, and is then normalised; otherwise the columns found are reported |
| EvalDataTab.UploadEvaluationData | src/ui/eval_data_tab.py:42-79 | an accepted sheet replaces `evaluation_data`; a rejected one leaves the store as it was |
| EvalDataTab.AcceptedRowsReadable | src/ui/eval_data_tab.py:45-59 | an accepted sheet keeps every row with a text history, so the evaluation run reads a row exactly when its question has text, and with that row's history |
| EvalDataTab.CountWithHistory | src/ui/eval_data_tab.py:71 | the count of rows with a history is zero exactly when every history is "" |
| EvalDataTab.StatisticsOf | src/ui/eval_data_tab.py:61-75 | the tiles show the number of questions and, when the upload had a history column, "0" exactly when every row's history is empty |
| EvalDataTab.HasRequiredColumns | src/ui/eval_data_tab.py:45-46 | the sheet has the Question and Ground truth columns; `EvalDataTab.UploadOf` accepts exactly such sheets |
| EvalDataTab.FilledHistory | src/ui/eval_data_tab.py:49-55 | the history text a row ends up with after the fill; `EvalDataTab.WithHistory` states it |
| SelectModelsTab.KeyOf | src/ui/select_models_tab.py:13-20 | every role's entry lives under a key that holds model entries |
| SelectModelsTab.KeysDistinct | src/ui/select_models_tab.py:13-20 | different roles use different keys |
| SelectModelsTab.EnsureSelectionKeys | src/ui/select_models_tab.py:13-20 | the four default-if-absent writes |
| SelectModelsTab.SelectionKeysKeepSelection | src/ui/select_models_tab.py:13-20 | those writes never change a selection, and afterwards every role's key is present |
| SelectModelsTab.IndexOf | src/ui/select_models_tab.py:64 | `index` finds the first position holding the value |
| SelectModelsTab.ProviderIndex | src/ui/select_models_tab.py:63-64 | the provider box starts at the stored provider when it is offered, else at the first provider |
| SelectModelsTab.Prefill | src/ui/select_models_tab.py:40-163 | a form opens with the stored entry's name, key, fixed-temperature flag (default off) and temperature (default 0.1), or blank fields with those defaults |
| SelectModelsTab.BaseUrl | src/ui/select_models_tab.py:59 | every form saves the DeepInfra base URL, which is non-empty |
| SelectModelsTab.EntryFor | src/ui/select_models_tab.py:79-342 | the saved entry carries the form's name, key and provider and the DeepInfra URL. Embedding entries have automatic dimensions and require a key; only chat entries keep the temperature settings |
| SelectModelsTab.AfterSubmit | src/ui/select_models_tab.py:75-87 | a submit with name, URL and key replaces the role's entry, and otherwise changes nothing |
| SelectModelsTab.SubmitForm | src/ui/select_models_tab.py:75-87 | Save reports success exactly when name and key are filled, leaving the store as specified |
| SelectModelsTab.SubmitSelects | src/ui/select_models_tab.py:75-87 | a valid submit selects the form's entry for its role, an invalid one keeps the old selection, and other roles are never touched |
| SelectModelsTab.PrefillRoundTrip | src/ui/select_models_tab.py:113-178 | reopening a form after a valid submit shows what was submitted |
| SelectModelsTab.PrefillTemperatureOnSlider | src/ui/select_models_tab.py:156-163 | the temperature a form starts from lies on its 0.0..2.0 slider |
| SelectModelsTab.SubmitReachesConfig | src/config/session.py:44-72 | after a valid submit for inference, evaluation or embedding, the snapshot uses "Custom Models" with the new model name and key |
| SelectModelsTab.Status | src/ui/select_models_tab.py:361-371 | a role shows "✅ Configured" exactly when an entry is selected |
| SelectModelsTab.WithSelectionKeys | src/ui/select_models_tab.py:13-20 | the four default writes at the top of the tab; `SelectModelsTab.EnsureSelectionKeys` computes it and `SelectModelsTab.SelectionKeysKeepSelection` states it |
| SelectModelsTab.StoredProvider | src/ui/select_models_tab.py:63 | the provider the stored entry names, DeepInfra without one; `SelectModelsTab.ProviderIndex` states the index it leads to |
| SelectModelsTab.OnWidgets | src/ui/select_models_tab.py:66-71 | the values the form widgets can produce; `SelectModelsTab.PrefillRoundTrip` is stated over them |
| SelectModelsTab.Accepted | src/ui/select_models_tab.py:76 | a submit with name, base URL and key filled in; `SelectModelsTab.AfterSubmit` states both outcomes |
| VectorstoreService.Milvus.constructor | src/services/vectorstore_service.py:9-13 | the record of driver calls starts empty |
| VectorstoreService.Milvus.Record | src/services/vectorstore_service.py:23-45 | each driver call is appended to the record as it is made |
| VectorstoreService.FailureMessage | src/services/vectorstore_service.py:35-41 | a failed probe's message ends with the raw error. A connection or "unavailable" failure names the host and port, an authentication failure opens with the authentication text, and any other failure with "Connection test failed" |
| VectorstoreService.ProbeResult | src/services/vectorstore_service.py:16-47 | the probe passes exactly when pymilvus is installed and connect, list and disconnect all return. Without pymilvus it gives the install hint; a pass gives "Connection successful!"; a failure's message ends with the first error |
| VectorstoreService.ProbeCalls | src/services/vectorstore_service.py:23-45 | the probe makes two to four driver calls: it first connects, lists the collections exactly when the connection succeeded, and always ends by disconnecting |
| VectorstoreService.TestConnection | src/services/vectorstore_service.py:16-47 | the probe, call by call, returns the specified outcome and records exactly the specified calls |
| VectorstoreService.Guarded | src/services/vectorstore_service.py:53-72 | a store is built exactly when the probe passed and construction did not raise. A failed probe shows its message and attempts nothing; a construction error is shown with the Docker hint when it is a connection error |
| VectorstoreService.SetupVectorstore | src/services/vectorstore_service.py:50-72 | the probe, then `Milvus.from_documents` only when it passed, with the specified store or notice and calls |
| VectorstoreService.GetExistingVectorstore | src/services/vectorstore_service.py:75-96 | the probe, then opening the collection only when it passed, with the specified store or notice and calls |
| VectorstoreService.SourcesOf | src/services/vectorstore_service.py:103-106 | the set holds exactly the 'source' values of the documents that have one |
| VectorstoreService.InsertSorted | src/services/vectorstore_service.py:107 | inserting a new string into an increasing list keeps it increasing, adds exactly that string and grows it by one |
| VectorstoreService.CollectionFiles | src/services/vectorstore_service.py:99-110 | the collection's files are the distinct 'source' values of the sampled documents in increasing string order, or none when the search raises |
| VectorstoreService.HostOf | src/services/vectorstore_service.py:25 | `connection_args.get("host", "localhost")` |
| VectorstoreService.PortOf | src/services/vectorstore_service.py:26 | `connection_args.get("port", 19530)` |
| VectorstoreService.Classify | src/services/vectorstore_service.py:36-41 | the failure kind a probe error's lower-cased text selects; `VectorstoreService.FailureMessage` states the texts |
| VectorstoreService.Address | src/services/vectorstore_service.py:37 | the `host:port` text of the connection failure message |
| VectorstoreService.FirstError | src/services/vectorstore_service.py:23-33 | the first error raised inside the probe's `try`; `VectorstoreService.ProbeResult` states the result it leads to |
| VectorstoreService.ConnectCall | src/services/vectorstore_service.py:23-29 | the `connections.connect` call of a probe; `VectorstoreService.ProbeCalls` states the call sequence |
| VectorstoreService.Increasing | src/services/vectorstore_service.py:107 | strictly increasing in Python's text order, so sorted and free of duplicates; `VectorstoreService.CollectionFiles` returns such a list |
| RunEvalTab.StartCheck | src/ui/run_eval_tab.py:101-103 | a run starts exactly when both the answering key and the judge key are set; otherwise the error names the evaluation provider |
| RunEvalTab.Upsert | src/ui/run_eval_tab.py:107-110 | writing a metric with a new id appends it; writing an existing id keeps the ids and their order |
| RunEvalTab.Find | src/ui/run_eval_tab.py:107 | an id reads an entry exactly when the rubric holds that id, and the entry has that id |
| RunEvalTab.LastWithId | src/ui/run_eval_tab.py:106-110 | the last custom entry with an id exists exactly when some entry has that id |
| RunEvalTab.UpsertFind | src/ui/run_eval_tab.py:107-110 | writing one entry changes what its own id reads and nothing else |
| RunEvalTab.MergedFind | src/ui/run_eval_tab.py:105-110 | in the merged rubric an id reads the last custom metric with that id, else the built-in one |
| RunEvalTab.MergedIds | src/ui/run_eval_tab.py:105-110 | the merged rubric holds exactly the built-in and the custom ids |
| RunEvalTab.MergedKeepsBaseOrder | src/ui/run_eval_tab.py:105 | the built-in ids keep their places at the head of the merged rubric |
| RunEvalTab.UpsertKeepsDistinct | src/ui/run_eval_tab.py:107 | a dict write never makes an id appear twice |
| RunEvalTab.MergedKeepsDistinct | src/ui/run_eval_tab.py:105-110 | merging never makes an id appear twice |
| RunEvalTab.MergeRubric | src/ui/run_eval_tab.py:105-110 | the custom-metric loop builds the merged rubric |
| RunEvalTab.DistinctIdCount | src/ui/run_eval_tab.py:105-110 | with distinct ids there are as many ids as entries |
| RunEvalTab.IdSetIsIds | src/ui/run_eval_tab.py:105-110 | the id set holds exactly the ids of the list |
| RunEvalTab.TotalMetrics | src/ui/run_eval_tab.py:105-110 | a run grades as many metrics as there are distinct ids among the built-in and custom ones |
| RunEvalTab.DisplayedTotalOvercounts | src/ui/run_eval_tab.py:61 | a custom metric that reuses a built-in id makes the summary line count one metric more than a run grades |
| RunEvalTab.CorrectnessOvercount | src/ui/run_eval_tab.py:61 | after adding a custom "Correctness" metric the summary shows 9 metrics while a run grades 8 |
| RunEvalTab.ReadRow | src/ui/run_eval_tab.py:122-129 | a row is read exactly when its question is text and, when the column exists, its history is text. Then question and history are the cells' texts and the ground truth is the cell itself, NaN when empty. Otherwise the run raises |
| RunEvalTab.RecordsPerRow | src/ui/run_eval_tab.py:118-180 | a run stores one record per row, in row order, exactly when every row reads; otherwise it stops at the first row that raises |
| RunEvalTab.RecordsFailureSticks | src/ui/run_eval_tab.py:121-180 | once a row has raised, later rows change nothing |
| RunEvalTab.RunRow | src/ui/run_eval_tab.py:122-180 | one pass builds the chain seeded with the row's history, answers, grades the answer against the retrieved chunks and assembles the record |
| RunEvalTab.RowStep | src/ui/run_eval_tab.py:121-180 | one pass of the row loop after readable rows leaves the records of one more row, or the row's raise |
| RunEvalTab.RunRows | src/ui/run_eval_tab.py:118-182 | the row loop over `head(n)` gives the specified records or the first raised message |
| RunEvalTab.ScoresPerRecord | src/ui/run_eval_tab.py:192-193 | a metric's score list has one score per record, in record order, exactly when every record yields one |
| RunEvalTab.MeanWithin | src/ui/run_eval_tab.py:194 | the mean of scores on a scale stays on that scale |
| RunEvalTab.AverageScores | src/ui/run_eval_tab.py:190-194 | the average loop gives the specified averages, or the first failure |
| RunEvalTab.AveragesFailureSticks | src/ui/run_eval_tab.py:191-194 | once an average has raised, later metrics change nothing |
| RunEvalTab.AveragesPerKey | src/ui/run_eval_tab.py:190-194 | the averages are, key by key in rubric order, the means of that key's scores |
| RunEvalTab.MissingScoreCountsZero | src/ui/run_eval_tab.py:192 | a metric the judge left out, or an entry without a score, counts as 0 |
| RunEvalTab.SentinelScoresZero | src/ui/run_eval_tab.py:192 | an evaluation that failed scores 0 on every metric |
| RunEvalTab.AveragesWithinScale | src/ui/run_eval_tab.py:190-194 | with every score on the 0-10 scale, every average is on it too, and there is one per rubric id |
| RunEvalTab.CompletedNeedsKeys | src/ui/run_eval_tab.py:83-119 | a run completes only with a vector store, evaluation data, both keys and a client for the configured provider |
| RunEvalTab.CompletedRecordCount | src/ui/run_eval_tab.py:86-119 | a completed run evaluated exactly the number of questions the slider chose (one for a single-row sheet), so it stores at least one and at most the row count of records |
| RunEvalTab.EmptySheetNeverRuns | src/ui/run_eval_tab.py:86-98 | a sheet without rows gives the `EmptySheet` outcome: its slider over 1..0 raises before Start is drawn |
| RunEvalTab.SliderStartOnSlider | src/ui/run_eval_tab.py:88-98 | the question slider's start value `min(5, rows)` lies on the slider, and the questions taken are between one and the row count |
| RunEvalTab.RecordsOfRun | src/ui/run_eval_tab.py:119-180 | a completed run holds one record per evaluated row. Each record is that row's answer and evaluation, with the model label and the collection |
| RunEvalTab.RowRecordGraded | src/ui/run_eval_tab.py:161-175 | every stored evaluation is a dict with an overall score, a summary and recommendations, and every rubric id passes the `in` test against its `metrics`, whatever the judge replied |
| RunEvalTab.RunRubric | src/ui/run_eval_tab.py:105-110 | the rubric a run grades against is never empty and holds every built-in and custom id |
| RunEvalTab.StartEvaluation | src/ui/run_eval_tab.py:83-204 | pressing Start, with the slider on its range, gives the specified outcome (`EmptySheet` for a sheet without rows); only a completed run replaces `evaluation_results`, and every other outcome, `EmptySheet` included, leaves the store as it was |
| RunEvalTab.Merged | src/ui/run_eval_tab.py:105-110 | the rubric after writing the custom metrics over the built-in ones; `RunEvalTab.MergedFind` and `RunEvalTab.MergedIds` state it |
| RunEvalTab.IdSet | src/ui/run_eval_tab.py:105-110 | the set of a rubric's ids; `RunEvalTab.IdSetIsIds` states it |
| RunEvalTab.DisplayedTotal | src/ui/run_eval_tab.py:61 | the "Total Metrics" count as written; `RunEvalTab.DisplayedTotalOvercounts` states its error |
| RunEvalTab.EvalBaseUrl | src/ui/run_eval_tab.py:153-158 | the base URL passed to the judge: the selected evaluation entry's, for Custom Models |
| RunEvalTab.Grader | src/ui/run_eval_tab.py:161-167 | `evaluate_response` with the run's arguments fixed; `RunEvalTab.RowRecordGraded` states its result |
| RunEvalTab.Settings | src/ui/run_eval_tab.py:112-119 | the settings a run fixes before its row loop |
| RunEvalTab.RowRecord | src/ui/run_eval_tab.py:122-179 | the record of one row; `RunEvalTab.RunRow` computes it and `RunEvalTab.RowRecordGraded` states it |
| RunEvalTab.RowFn | src/ui/run_eval_tab.py:121-180 | the record of a row under a run's settings |
| RunEvalTab.Records | src/ui/run_eval_tab.py:118-180 | the records of the first rows or the first row's raise; `RunEvalTab.RunRows` computes it and `RunEvalTab.RecordsPerRow` and `RunEvalTab.RecordsFailureSticks` state it |
| RunEvalTab.RecordsStep | src/ui/run_eval_tab.py:121-180 | a readable row after readable rows adds its record at the end |
| RunEvalTab.RecordsStop | src/ui/run_eval_tab.py:121-126 | an unreadable row after readable rows ends the records with its raise |
| RunEvalTab.MetricScore | src/ui/run_eval_tab.py:192 | `r['evaluation']['metrics'].get(key, {}).get('score', 0)`; `RunEvalTab.MissingScoreCountsZero` and `RunEvalTab.SentinelScoresZero` state it |
| RunEvalTab.ScoresOf | src/ui/run_eval_tab.py:192-193 | one metric's scores over the records; `RunEvalTab.ScoresPerRecord` states it |
| RunEvalTab.Mean | src/ui/run_eval_tab.py:194 | `np.mean(scores) if scores else 0`; `RunEvalTab.MeanWithin` bounds it |
| RunEvalTab.Averages | src/ui/run_eval_tab.py:190-194 | each rubric id's average in rubric order; `RunEvalTab.AverageScores` computes it and `RunEvalTab.AveragesPerKey` and `RunEvalTab.AveragesWithinScale` state it |
| RunEvalTab.ZeroScoreFrom | src/ui/run_eval_tab.py:192 | an evaluation whose entry for an id is absent or scores 0 yields 0 for it |
| RunEvalTab.RagReady | src/ui/run_eval_tab.py:72 | a vector store is connected |
| RunEvalTab.EvalReady | src/ui/run_eval_tab.py:78 | evaluation data is loaded |
| RunEvalTab.CustomMetricsOf | src/ui/run_eval_tab.py:106 | the custom metrics the store holds |
| RunEvalTab.NumQuestions | src/ui/run_eval_tab.py:88-98 | the number of questions: one for a one-row sheet, else the slider value; `RunEvalTab.CompletedRecordCount` states it |
| RunEvalTab.OnSlider | src/ui/run_eval_tab.py:92-98 | the slider value lies between 1 and the row count when the slider is drawn; `RunEvalTab.SliderStartOnSlider` proves its starting value does |
| RunEvalTab.SliderFits | src/ui/run_eval_tab.py:86-98 | the slider value of a store with loaded data lies on its slider, the precondition of `RunEvalTab.Run` |
| RunEvalTab.Head | src/ui/run_eval_tab.py:119 | the row count `df.head(n)` keeps |
| RunEvalTab.RunConfigured | src/ui/run_eval_tab.py:100-194 | the key check, rubric, client, row loop and averages of a Start press; `RunEvalTab.CompletedNeedsKeys` states it |
| RunEvalTab.RunRecords | src/ui/run_eval_tab.py:118-194 | the row loop and averages of a run; `RunEvalTab.RecordsOfRun` states it |
| RunEvalTab.Run | src/ui/run_eval_tab.py:83-194 | a press of Start; `RunEvalTab.StartEvaluation` computes it and `RunEvalTab.CompletedNeedsKeys`, `RunEvalTab.CompletedRecordCount` and `RunEvalTab.EmptySheetNeverRuns` state it |
| ResultsTab.Insert | src/ui/results_tab.py:27-29 | inserting one element grows the list by one and adds exactly that element |
| ResultsTab.SortDesc | src/ui/results_tab.py:27-29 | the sorted copy is a permutation of the log |
| ResultsTab.InsertDescending | src/ui/results_tab.py:27-29 | inserting into a descending list keeps it descending |
| ResultsTab.SortDescending | src/ui/results_tab.py:27-29 | the sorted copy is descending by its key: no element is below a later one |
| ResultsTab.WithKey | src/ui/results_tab.py:27-29 | the elements with a given key form a sub-list |
| ResultsTab.WithKeyConcat | src/ui/results_tab.py:27-29 | the elements with a key in a concatenation are those of each part, in order |
| ResultsTab.WithKeyNone | src/ui/results_tab.py:27-29 | a list without a key has no elements with that key |
| ResultsTab.InsertWithKey | src/ui/results_tab.py:27-29 | inserting puts the new element after every element with the same key |
| ResultsTab.SortStable | src/ui/results_tab.py:27-29 | elements with equal keys leave the sort in the order they entered it |
| ResultsTab.OrdersAreStrict | src/ui/results_tab.py:27-29 | `<` on scores and `<` on timestamp strings are strict orders |
| ResultsTab.OverallScore | src/ui/results_tab.py:27-34 | a record has a comparable overall score exactly when its evaluation is a dict whose `overall_score` (0 when absent) is a number |
| ResultsTab.Ranks | src/ui/results_tab.py:27-32 | every record is paired, in log order, with its overall score, or there is none when some record lacks one |
| ResultsTab.SortedProperties | src/ui/results_tab.py:25-29 | the sort only reorders. "Overall Score" puts higher scores first and "Timestamp" later timestamps first, each keeping log order among equal keys. "Question" keeps log order |
| ResultsTab.DisplayName | src/ui/results_tab.py:68 | a metric is shown under its rubric name, or under its id when the rubric lacks it |
| ResultsTab.MergedDisplayName | src/ui/results_tab.py:61-68 | a custom metric's name wins over a built-in one with the same id, and an unknown id is shown as itself |
| ResultsTab.LinesOf | src/ui/results_tab.py:57-70 | one line per metric entry in dict order, each with the entry's score (0 when absent), explanation ('' when absent) and display name, exactly when every entry is a dict |
| ResultsTab.MetricLines | src/ui/results_tab.py:56-57 | an evaluation that is not a dict raises on `get`; one without `metrics` shows no lines |
| ResultsTab.Selected | src/ui/results_tab.py:31-35 | the records expanded are exactly those whose overall score reaches the minimum, in sorted order |
| ResultsTab.Expanders | src/ui/results_tab.py:31-84 | one expander per selected record, numbered by its place in the sorted list, or none when a record's metrics raise |
| ResultsTab.ViewOf | src/ui/results_tab.py:15-128 | the notice is shown exactly when the log is empty; a record without a comparable score makes the tab raise |
| ResultsTab.InsertionSort | src/ui/results_tab.py:25-29 | the sorting loop gives the sorted copy |
| ResultsTab.SortResults | src/ui/results_tab.py:25-29 | the sorted copy for the chosen mode |
| ResultsTab.ShowResults | src/ui/results_tab.py:11-84 | the tab shows the specified view over the stored log and the merged rubric, and changes nothing in the store |
| ResultsTab.FixedColumns | src/ui/results_tab.py:90-99 | the leading columns exist exactly when the evaluation is a dict |
| ResultsTab.Rows | src/ui/results_tab.py:88-113 | one export row per record, in log order, exactly when every record yields one |
| ResultsTab.RowsFailureSticks | src/ui/results_tab.py:89-113 | a record that raises stops the export with its fault |
| ResultsTab.LinesFailureSticks | src/ui/results_tab.py:101-111 | a malformed metric entry stops the row with its fault |
| ResultsTab.BuildRow | src/ui/results_tab.py:90-113 | the per-record loop builds the specified row |
| ResultsTab.AddMetricColumns | src/ui/results_tab.py:102-111 | the metric loop writes, entry by entry in the order of the evaluation's metrics, the named "Score" and "Explanation" columns of each entry, or fails with the first malformed entry's fault, exactly as the entries' line list says |
| ResultsTab.ExportRows | src/ui/results_tab.py:15-115 | the export button exists exactly when the log is non-empty and the list above it did not raise; pressed, it exports one row per stored record in log order, neither sorted nor filtered |
| ResultsTab.ExportLoop | src/ui/results_tab.py:88-115 | the loop under the export button equals the rows of the stored log, in log order, or its first fault |
| ResultsTab.MissesMetricColumns | src/ui/results_tab.py:110-111 | a leading column never has the name of a metric column |
| ResultsTab.ColumnNames | src/ui/results_tab.py:110-111 | a score column and an explanation column never share a name; two metrics share a column only when they share a display name |
| ResultsTab.AddColumnsKeeps | src/ui/results_tab.py:102-111 | writing metric columns leaves every other column alone |
| ResultsTab.LastLineWins | src/ui/results_tab.py:102-111 | a metric's columns hold its score and explanation unless a later metric has the same display name |
| ResultsTab.FixedColumnsKept | src/ui/results_tab.py:90-111 | the leading columns other than the overall score are never overwritten |
| ResultsTab.LeadingColumnValues | src/ui/results_tab.py:90-99 | the leading columns hold the record's fields and the overall score |
| ResultsTab.OverallKept | src/ui/results_tab.py:95-110 | with no metric displayed as "Overall", the overall score column keeps its value |
| ResultsTab.ExportRowColumns | src/ui/results_tab.py:90-113 | every export row holds the record's question, ground truth (an empty cell for NaN), history, response, model, collection and timestamp, and its overall score (0 when absent) unless a metric is displayed as "Overall" |
| ResultsTab.StrictOrder | src/ui/results_tab.py:27-29 | a comparison is irreflexive and transitive, the premise of the sort lemmas |
| ResultsTab.Descending | src/ui/results_tab.py:27-29 | no element ranks below a later one; `ResultsTab.SortDescending` proves the sort's result is |
| ResultsTab.RealLess | src/ui/results_tab.py:27 | `<` on scores; `ResultsTab.OrdersAreStrict` proves it strict |
| ResultsTab.ScoreOf | src/ui/results_tab.py:27 | the sort key of the score order |
| ResultsTab.TimestampOf | src/ui/results_tab.py:29 | the sort key of the timestamp order |
| ResultsTab.Sorted | src/ui/results_tab.py:25-29 | the sorted copy the view walks through; `ResultsTab.SortResults` computes it and `ResultsTab.SortedProperties` states it |
| ResultsTab.LinesUnder | src/ui/results_tab.py:56-70 | the metric lines of an evaluation under a fixed rubric |
| ResultsTab.CellValue | src/ui/results_tab.py:92 | what the export writes for a sheet cell: its text, or an empty cell for NaN |
| ResultsTab.LeadingColumns | src/ui/results_tab.py:90-99 | the eight leading columns of an export row; `ResultsTab.LeadingColumnValues` states them |
| ResultsTab.AddColumns | src/ui/results_tab.py:101-111 | the score and explanation columns written for each metric line in turn; `ResultsTab.AddColumnsKeeps` and `ResultsTab.LastLineWins` state it |
| ResultsTab.AddLine | src/ui/results_tab.py:102-111 | a well-formed entry after well-formed entries adds its line, and so its two columns |
| ResultsTab.ExportRow | src/ui/results_tab.py:89-113 | the export row of one record; `ResultsTab.BuildRow` computes it and `ResultsTab.ExportRowColumns` states it |
| ResultsTab.RowUnder | src/ui/results_tab.py:89-113 | the export row of a record under a fixed rubric |
| ResultsTab.NotMetricColumn | src/ui/results_tab.py:110-111 | a column name that cannot be a score or explanation column; `ResultsTab.MissesMetricColumns` is stated over it |
| RagGenTab.AnswersPerRow | src/ui/rag_gen_tab.py:121-151 | the loop answers the rows in order, each from its own question and its own earlier conversation, and fails with the slicing fault exactly when some question cell is empty |
| RagGenTab.AnswerRow | src/ui/rag_gen_tab.py:122-141 | one row's answer is the chain's answer for the question, seeded with the row's history, or the error text when the call raises |
| RagGenTab.AnswerRows | src/ui/rag_gen_tab.py:113-151 | the row loop, which reads the input histories before the column is cleared, computes the specified answers |
| RagGenTab.OutputTable | src/ui/rag_gen_tab.py:141-157 | the saved table has exactly the Question and Chat history columns, one row per answered question, with the answer in Chat history |
| RagGenTab.CompletedCount | src/ui/rag_gen_tab.py:186-187 | the count never exceeds the rows and equals them exactly when every answer is non-empty |
| RagGenTab.SliderStartOnSlider | src/ui/rag_gen_tab.py:84-94 | the slider's initial value lies within its range |
| RagGenTab.GenerateAnswers | src/ui/rag_gen_tab.py:19-191 | the handler's outcome is the specified one; only a completed generation stores its table under `rag_generation_results`, and every other outcome leaves the store unchanged |
| RagGenTab.GeneratedRows | src/ui/rag_gen_tab.py:19-160 | a generation needs a vector store, a Question column, an LLM key and a client; it answers the first rows up to the slider value, each from the uploaded question and its filled history |
| RagGenTab.FailedCallCountsAsCompleted | src/services/rag_service.py:51-55 | a chain call that raises still gives a non-empty answer, so the Completed tile counts that row |
| RagGenTab.Answer | src/ui/rag_gen_tab.py:128-138 | one row's answer from a chain seeded with its history; `RagGenTab.AnswerRow` states it |
| RagGenTab.HistoryText | src/ui/rag_gen_tab.py:116-123 | the history a row hands to the chain |
| RagGenTab.Answers | src/ui/rag_gen_tab.py:121-151 | the answers to the first questions, or the first empty question's raise; `RagGenTab.AnswerRows` computes it and `RagGenTab.AnswersPerRow` states it |
| RagGenTab.GenerationOf | src/ui/rag_gen_tab.py:57-191 | a press of Generate Answers; `RagGenTab.GenerateAnswers` computes it and `RagGenTab.GeneratedRows` and `RagGenTab.CompletedCount` state it |

## Left out

- Streamlit rendering is not modelled: headers, markdown, metric tiles, expanders' layout, progress bars, spinners and download buttons. `app.py` is not part of this model.
- `src/ui/rag_tab.py` (text splitting, embedding and collection creation), `src/services/ocr_service.py` and `src/utils/file_processing.py` are not part of this model. They are thin layers over PDF, image and document libraries.
- Foreign libraries are parameters or opaque values: the chat models, the embeddings client, the retrieval chain, the Milvus driver and `json.loads`. Embedding vectors and HTTP requests are not modelled; only the arguments the application hands over are.
- Python's regular-expression engine is not modelled. The four JSON patterns are written as explicit substring searches.
- Excel reading and writing are not modelled. A sheet is a `Table` of rows whose cells are text or NaN.
- `random`, `datetime.now()` and the `/.dockerenv` test are parameters (the clock, the collection-name draws, `dockerEnv`).
- Floating point is not modelled. Scores, means, temperatures and slider values are exact reals.
- Client retries and timeouts are constants handed to the clients. Their effect is not modelled.
- `Text.Lower` lowers ASCII letters only; Python's `str.lower` also folds other scripts.
- FormatTemplate.Fields: a format spec holding nested `{...}` fields (`{a:{b}}`) is read as malformed, and an index part `[...]` of a field name is not scanned separately for `:` and `!`; Python's formatter accepts both. The RAG answer prompt uses neither.
- Python's int and float are both reals. A fault message names a whole number `int` and any other number `float`, so a float such as `5.0` is named `int`; the running total of `sum` turns `float` by the same reading, so `sum([5.0, "x"])` is reported with an `'int'` total where Python says `'float'`.
- ResultsTab.CellValue: an empty sheet cell is written as JSON `null`; the spreadsheet file pandas writes from it is not modelled.
- Slider and select-box values are parameters, constrained to what the widget can produce (`RunEvalTab.OnSlider` for the question sliders of both the Run Evaluation and the RAG Generation tab, `ConfigTab.OnSliders`, `SelectModelsTab.OnWidgets`).
- RunEvalTab.StartEvaluation: takes the built-in rubric and the prompt's grading texts as parameters instead of reading the constants, so the contract holds for any rubric with distinct ids.
- RunEvalTab.ReadRow: the fault texts are CPython's messages for slicing and stripping NaN; the traceback is not modelled.
- RunEvalTab.MetricScore: a non-numeric score makes the mean fail with a fault naming the operand type, not with numpy's own message.
- ResultsTab.ShowResults: takes the built-in rubric as a parameter. A tab that raises is the view `Raised`, without Streamlit's message.
- ResultsTab.ExportRows: takes the built-in rubric as a parameter. The Excel file and its download are not modelled.
- ResultsTab.SortResults: Python's sort is Timsort and the model uses an insertion sort. Both are stable, so the results are equal.
- A metric whose display name is "Overall" overwrites the "Overall Score" export column. The model keeps this as the source does (`ResultsTab.OverallKept` states when it cannot happen).
- RagGenTab.GenerateAnswers: an empty sheet makes the question slider raise. This is the outcome `EmptySheet`, and Streamlit's message text is not modelled. The per-row status line, expanders and progress bar are not modelled.
- The "Completed" tile counts rows whose chain call failed, because their answer is the error text (`RagGenTab.FailedCallCountsAsCompleted`).
- The average-answer-length tile of the RAG Generation tab and the average-length tiles of the Evaluation Data tab are not modelled; they are float means over text lengths.
- VectorstoreService.SetupVectorstore: the error notices are the `Notice` values. The Docker hint's text is not modelled, only whether it is shown.
- VectorstoreService.TestConnection: an error while disconnecting in the `finally` block is not modelled; the driver's replies are parameters.
- ConfigTab.SaveConfiguration: the quick-start and model hints are not modelled. The port is an integer. The chunk overlap may exceed the chunk size, as in the source (`ConfigTab.OverlapMayExceedSize`), because the text splitter is not part of this model.
- SelectModelsTab: the display of the current entry under each form is not modelled.

Behaviour of the code worth knowing, which the model keeps:

- A completed evaluation keeps metric keys the rubric does not name. Completion only adds the missing ones.
- With the "Custom Models" provider, `get_llm_provider` sets the temperature from the entry's `fixed_temperature` flag. The judge client decides by the model name.
- The "Custom Models" judge uses the selected entry's key whenever the entry has one, not the key passed in.
- The judge treats any provider other than "Claude" and "Custom Models" as OpenAI.
- The output skeleton in the grading prompt lists the eight built-in ids, whatever the rubric.
- Completion checks a rubric id with Python's `in` on whatever `metrics` holds. A `metrics` that is a text containing the id, or a list holding the id, passes without any entry for it; the run's averages then raise at `src/ui/run_eval_tab.py:192`.
- `sum` over the scores names the type of its running total in its error: `'int'` until a `float` has been added, `'float'` after (`PyJson.SumFault`).

## Findings

| source | as written | input that shows it | evidently intended | confidence | as-written member | corrected member |
|---|---|---|---|---|---|---|
| src/ui/run_eval_tab.py:61 | the "Total Metrics" line shows the number of built-in metrics plus the number of custom metrics | a custom metric named "Correctness" is accepted (`src/ui/custom_metrics_tab.py:34-35` checks only custom ids); its id "correctness" replaces the built-in entry, so 9 is shown while 8 metrics are graded | the number of distinct metric ids a run grades | not executed | RunEvalTab.CorrectnessOvercount | RunEvalTab.TotalMetrics |

=== FILE: completion.dfy ===
/** Schema completion in `evaluate_response`: whatever dictionary recovery produced, every rubric
    metric gets an entry, a missing overall score is computed from the metric scores, and a
    missing summary or recommendations gets a placeholder.  The dictionary code is Python's, so
    a value of the wrong type raises; each raise is a `Fault`. */
module JudgeCompletion {
  import opened Wrappers
  import opened PyJson

  const NEUTRAL_SCORE: real := 5.0

  /** The entry a rubric metric the judge did not score receives. */
  const DEFAULT_METRIC_ENTRY: Json :=
    JObj([Field("score", JNum(5.0)), Field("explanation", JStr("Metric not evaluated or parsing failed"))])

  const SUMMARY_PLACEHOLDER: string := "Evaluation completed with parsing issues"
  const RECOMMENDATIONS_PLACEHOLDER: string := "Review the raw response for complete details"

  /** One pass of the rubric loop: `if key not in d.get('metrics', {}): d['metrics'][key] = ...`.
      The nested dictionary is updated in place, so `d` holds the new entry afterwards. */
  function FillOne(d: Json, key: string): Result<Json, Fault> {
    var metrics :- PyGet(d, "metrics", JObj([]));
    var present :- PyIn(key, metrics);
    if present then Success(d)
    else
      var target :- PySubscript(d.fields, "metrics");
      var updated :- PySetItem(target, key, DEFAULT_METRIC_ENTRY);
      Success(JObj(SetField(d.fields, "metrics", updated)))
  }

  /** The rubric loop over `ids` in order, stopping at the first raise. */
  function FillMetrics(d: Json, ids: seq<string>): Result<Json, Fault>
    decreases |ids|
  {
    if ids == [] then Success(d)
    else
      var next :- FillOne(d, ids[0]);
      FillMetrics(next, ids[1..])
  }

  /** `[m.get('score', 5) for m in values]`. */
  function ScoresOr5(values: seq<Json>): (r: Result<seq<Json>, Fault>)
    ensures r.Success? ==> |r.value| == |values|
  {
    if values == [] then Success([])
    else
      var head :- PyGet(values[0], "score", JNum(NEUTRAL_SCORE));
      var rest :- ScoresOr5(values[1..]);
      Success([head] + rest)
  }

  /** The overall score computed from `d['metrics']`: the mean of the scores, 5 without any. */
  function ComputedOverall(d: Json): Result<Json, Fault> {
    var metrics :- PyGet(d, "metrics", JObj([]));
    var values :- PyValues(metrics);
    var scores :- ScoresOr5(values);
    if scores == [] then Success(JNum(NEUTRAL_SCORE))
    else
      var total :- PySum(scores);
      Success(JNum(total / |scores| as real))
  }

  /** `if 'overall_score' not in d: d['overall_score'] = ...`. */
  function EnsureOverall(d: Json): Result<Json, Fault> {
    var present :- PyIn("overall_score", d);
    if present then Success(d)
    else
      var overall :- ComputedOverall(d);
      PySetItem(d, "overall_score", overall)
  }

  /** `if key not in d: d[key] = text`. */
  function EnsureField(d: Json, key: string, text: string): Result<Json, Fault> {
    var present :- PyIn(key, d);
    if present then Success(d) else PySetItem(d, key, JStr(text))
  }

  /** The whole completion block. */
  function Complete(d: Json, ids: seq<string>): Result<Json, Fault> {
    var filled :- FillMetrics(d, ids);
    var scored :- EnsureOverall(filled);
    var summarised :- EnsureField(scored, "summary", SUMMARY_PLACEHOLDER);
    EnsureField(summarised, "recommendations", RECOMMENDATIONS_PLACEHOLDER)
  }

  /** The completion block as the source runs it: the rubric loop updating the dictionary, then
      the three checks in order; the first raise ends it. */
  method CompleteEvaluation(d: Json, ids: seq<string>) returns (r: Result<Json, Fault>)
    ensures r == Complete(d, ids)
  {
    var current := d;
    var i := 0;
    while i < |ids|
      invariant i <= |ids|
      invariant FillMetrics(d, ids) == FillMetrics(current, ids[i..])
    {
      assert ids[i..][1..] == ids[i + 1..];
      var step := FillOne(current, ids[i]);
      if step.Failure? {
        return Failure(step.error);
      }
      current := step.value;
      i := i + 1;
    }
    assert ids[i..] == [];
    var scored := EnsureOverall(current);
    if scored.Failure? {
      return Failure(scored.error);
    }
    var summarised := EnsureField(scored.value, "summary", SUMMARY_PLACEHOLDER);
    if summarised.Failure? {
      return Failure(summarised.error);
    }
    r := EnsureField(summarised.value, "recommendations", RECOMMENDATIONS_PLACEHOLDER);
  }

  /** `d.get('metrics', {})` for a dictionary `d`. */
  function MetricsOf(d: Json): Json
    requires d.JObj?
  {
    Lookup(d.fields, "metrics").GetOr(JObj([]))
  }

  /** A pass that succeeds leaves its key in `metrics`, and keeps every key that was there. */
  lemma FillOneKeeps(d: Json, key: string, k: string)
    requires FillOne(d, key).Success?
    ensures d.JObj? && FillOne(d, key).value.JObj?
    ensures PyIn(key, MetricsOf(FillOne(d, key).value)) == Success(true)
    ensures PyIn(k, MetricsOf(d)) == Success(true) ==> PyIn(k, MetricsOf(FillOne(d, key).value)) == Success(true)
  {
    var metrics := MetricsOf(d);
    if PyIn(key, metrics) != Success(true) {
      var target := PySubscript(d.fields, "metrics").value;
      assert target == metrics;
      var updated := PySetItem(target, key, DEFAULT_METRIC_ENTRY).value;
      var ms := target.fields;
      assert updated == JObj(SetField(ms, key, DEFAULT_METRIC_ENTRY));
      assert MetricsOf(FillOne(d, key).value) == updated;
      assert Lookup(SetField(ms, key, DEFAULT_METRIC_ENTRY), key).Some?;
      if k != key && HasKey(ms, k) {
        SetFieldOthers(ms, key, DEFAULT_METRIC_ENTRY, k);
        assert Lookup(SetField(ms, key, DEFAULT_METRIC_ENTRY), k).Some?;
      }
    }
  }

  /** After a rubric loop that does not raise, every rubric id is `in` the metrics. */
  lemma {:induction false} FillCoversRubric(d: Json, ids: seq<string>, k: string)
    requires FillMetrics(d, ids).Success?
    requires k in ids || (d.JObj? && PyIn(k, MetricsOf(d)) == Success(true))
    ensures FillMetrics(d, ids).value.JObj? || ids == []
    ensures FillMetrics(d, ids).value.JObj? ==> PyIn(k, MetricsOf(FillMetrics(d, ids).value)) == Success(true)
    decreases |ids|
  {
    if ids != [] {
      var next := FillOne(d, ids[0]).value;
      FillOneKeeps(d, ids[0], k);
      if k == ids[0] || k !in ids[1..] {
        assert PyIn(k, MetricsOf(next)) == Success(true);
      }
      FillCoversRubric(next, ids[1..], k);
    }
  }

  /** On a dictionary whose `metrics` is a dictionary the loop never raises: each rubric id the
      judge did not score gets the neutral entry, scored entries and extra keys are kept, and
      nothing outside `metrics` changes. */
  lemma {:induction false} FillOnDict(fs: seq<Field>, ms: seq<Field>, ids: seq<string>, k: string)
    requires Lookup(fs, "metrics") == Some(JObj(ms))
    ensures FillMetrics(JObj(fs), ids).Success? && FillMetrics(JObj(fs), ids).value.JObj?
    ensures k != "metrics" ==> Lookup(FillMetrics(JObj(fs), ids).value.fields, k) == Lookup(fs, k)
    ensures var filled := Lookup(FillMetrics(JObj(fs), ids).value.fields, "metrics");
      && filled.Some? && filled.value.JObj?
      && Lookup(filled.value.fields, k) ==
           if HasKey(ms, k) then Lookup(ms, k)
           else if k in ids then Some(DEFAULT_METRIC_ENTRY)
           else None
    decreases |ids|
  {
    if ids != [] {
      var key := ids[0];
      if HasKey(ms, key) {
        assert FillOne(JObj(fs), key) == Success(JObj(fs));
        FillOnDict(fs, ms, ids[1..], k);
      } else {
        var ms2 := SetField(ms, key, DEFAULT_METRIC_ENTRY);
        var fs2 := SetField(fs, "metrics", JObj(ms2));
        assert FillOne(JObj(fs), key) == Success(JObj(fs2));
        FillOnDict(fs2, ms2, ids[1..], k);
        if k != "metrics" {
          SetFieldOthers(fs, "metrics", JObj(ms2), k);
        }
        if k != key {
          SetFieldOthers(ms, key, DEFAULT_METRIC_ENTRY, k);
        }
      }
    }
  }

  /** The loop raises on its first id when the reply is not a dictionary (`.get`), or is one
      without `metrics` (`d['metrics']`). */
  lemma FillFaults(d: Json, ids: seq<string>)
    requires ids != []
    ensures !d.JObj? ==> FillMetrics(d, ids) == Failure(AttributeError(TypeName(d), "get"))
    ensures d.JObj? && Lookup(d.fields, "metrics").None? ==>
      FillMetrics(d, ids) == Failure(KeyError("metrics"))
  {
  }

  function Sum(xs: seq<real>): real {
    if xs == [] then 0.0 else xs[0] + Sum(xs[1..])
  }

  /** The mean of the scores, 5 when there are none. */
  function MeanOr5(xs: seq<real>): real {
    if xs == [] then NEUTRAL_SCORE else Sum(xs) / |xs| as real
  }

  /** The number a metric entry counts with in the overall score: its `score`, 5 without one;
      None when `m.get('score', 5)` raises or gives a non-number. */
  function ScoreOr5(m: Json): Option<real> {
    match m
    case JObj(fs) =>
      (match Lookup(fs, "score")
       case None => Some(NEUTRAL_SCORE)
       case Some(v) => NumberOf(v))
    case _ => None
  }

  predicate Scorable(ms: seq<Field>) {
    forall i :: 0 <= i < |ms| ==> ScoreOr5(ms[i].value).Some?
  }

  function Scores(ms: seq<Field>): (r: seq<real>)
    requires Scorable(ms)
    ensures |r| == |ms|
  {
    if ms == [] then [] else [ScoreOr5(ms[0].value).value] + Scores(ms[1..])
  }

  lemma SumOfScores(ms: seq<Field>)
    requires Scorable(ms)
    ensures ScoresOr5(FieldValues(ms)).Success?
    ensures PySum(ScoresOr5(FieldValues(ms)).value) == Success(Sum(Scores(ms)))
  {
    SumOfScoresFrom(ms, "int");
  }

  /** The same whatever the type of the running total. */
  lemma {:induction false} SumOfScoresFrom(ms: seq<Field>, totalType: string)
    requires Scorable(ms)
    ensures ScoresOr5(FieldValues(ms)).Success?
    ensures SumFrom(ScoresOr5(FieldValues(ms)).value, totalType) == Success(Sum(Scores(ms)))
  {
    if ms != [] {
      assert FieldValues(ms)[1..] == FieldValues(ms[1..]);
      var head := PyGet(ms[0].value, "score", JNum(NEUTRAL_SCORE)).value;
      SumOfScoresFrom(ms[1..], if TypeName(head) == "float" then "float" else totalType);
    }
  }

  /** A missing overall score becomes the mean of the metric scores (5 for an entry without
      one, 5 when there are no entries), appended as the last key. */
  lemma OverallIsMean(fs: seq<Field>, ms: seq<Field>)
    requires Lookup(fs, "overall_score").None?
    requires Lookup(fs, "metrics") == Some(JObj(ms)) && Scorable(ms)
    ensures EnsureOverall(JObj(fs)) == Success(JObj(fs + [Field("overall_score", JNum(MeanOr5(Scores(ms))))]))
  {
    var d := JObj(fs);
    assert PyIn("overall_score", d) == Success(false);
    assert PyGet(d, "metrics", JObj([])) == Success(JObj(ms));
    assert PyValues(JObj(ms)) == Success(FieldValues(ms));
    SumOfScores(ms);
    var scores := ScoresOr5(FieldValues(ms)).value;
    var mean := MeanOr5(Scores(ms));
    if ms == [] {
      assert scores == [];
      assert ComputedOverall(d) == Success(JNum(mean));
    } else {
      assert scores != [];
      assert ComputedOverall(d) == Success(JNum(Sum(Scores(ms)) / |scores| as real));
    }
    SetFieldAppends(fs, "overall_score", JNum(mean));
  }

  /** An overall score that is present is kept as it is, even a non-number. */
  lemma OverallKept(fs: seq<Field>)
    requires Lookup(fs, "overall_score").Some?
    ensures EnsureOverall(JObj(fs)) == Success(JObj(fs))
  {
  }

  lemma {:induction false} SumBounds(xs: seq<real>, lo: real, hi: real)
    requires forall i :: 0 <= i < |xs| ==> lo <= xs[i] <= hi
    ensures lo * |xs| as real <= Sum(xs) <= hi * |xs| as real
  {
    if xs != [] {
      SumBounds(xs[1..], lo, hi);
    }
  }

  /** Dividing a total that lies between `lo * n` and `hi * n` by `n` lands between `lo` and `hi`. */
  lemma QuotientBounds(total: real, n: real, lo: real, hi: real)
    requires n > 0.0 && lo * n <= total <= hi * n
    ensures lo <= total / n <= hi
  {
    var m := total / n;
    assert m * n == total;
    assert (m - lo) * n == total - lo * n;
    assert (hi - m) * n == hi * n - total;
  }

  /** The computed overall score stays within the scale of the metric scores. */
  lemma MeanWithinScale(xs: seq<real>, lo: real, hi: real)
    requires lo <= NEUTRAL_SCORE <= hi
    requires forall i :: 0 <= i < |xs| ==> lo <= xs[i] <= hi
    ensures lo <= MeanOr5(xs) <= hi
  {
    if xs != [] {
      SumBounds(xs, lo, hi);
      QuotientBounds(Sum(xs), |xs| as real, lo, hi);
    }
  }

  /** A summary or recommendations text that is present is kept; a missing one becomes the
      placeholder, appended as the last key. */
  lemma PlaceholderOnlyWhenAbsent(fs: seq<Field>, key: string, text: string)
    ensures Lookup(fs, key).Some? ==> EnsureField(JObj(fs), key, text) == Success(JObj(fs))
    ensures Lookup(fs, key).None? ==> EnsureField(JObj(fs), key, text) == Success(JObj(fs + [Field(key, JStr(text))]))
  {
    if Lookup(fs, key).None? {
      SetFieldAppends(fs, key, JStr(text));
    }
  }

  /** One `if key not in d: d[key] = ...` step that does not raise: afterwards the key is
      `in` the value, whatever was `in` it stays, and on a dictionary the other keys keep their
      values. */
  lemma EnsureFieldKeeps(d: Json, key: string, text: string, k: string)
    requires EnsureField(d, key, text).Success?
    ensures var r := EnsureField(d, key, text).value;
      && PyIn(key, r) == Success(true)
      && (PyIn(k, d) == Success(true) ==> PyIn(k, r) == Success(true))
      && (d.JObj? <==> r.JObj?)
      && (d.JObj? && k != key ==> Lookup(r.fields, k) == Lookup(d.fields, k))
  {
    if d.JObj? && k != key {
      SetFieldOthers(d.fields, key, JStr(text), k);
    }
  }

  lemma EnsureOverallKeeps(d: Json, k: string)
    requires EnsureOverall(d).Success?
    ensures var r := EnsureOverall(d).value;
      && PyIn("overall_score", r) == Success(true)
      && (PyIn(k, d) == Success(true) ==> PyIn(k, r) == Success(true))
      && (d.JObj? <==> r.JObj?)
      && (d.JObj? && k != "overall_score" ==> Lookup(r.fields, k) == Lookup(d.fields, k))
  {
    if d.JObj? && PyIn("overall_score", d) == Success(false) {
      var overall := ComputedOverall(d).value;
      assert EnsureOverall(d).value == JObj(SetField(d.fields, "overall_score", overall));
      if k != "overall_score" {
        SetFieldOthers(d.fields, "overall_score", overall, k);
      }
    }
  }

  /** Whatever value completion finishes with holds the overall score, the summary and the
      recommendations, and, for a non-empty rubric, is a dictionary whose metrics hold every
      rubric id. */
  lemma CompletedHasAllKeys(d: Json, ids: seq<string>, k: string)
    requires Complete(d, ids).Success?
    ensures var r := Complete(d, ids).value;
      && PyIn("overall_score", r) == Success(true)
      && PyIn("summary", r) == Success(true)
      && PyIn("recommendations", r) == Success(true)
    ensures ids != [] ==> Complete(d, ids).value.JObj?
    ensures k in ids ==> PyIn(k, MetricsOf(Complete(d, ids).value)) == Success(true)
  {
    var filled := FillMetrics(d, ids).value;
    var scored := EnsureOverall(filled).value;
    var summarised := EnsureField(scored, "summary", SUMMARY_PLACEHOLDER).value;
    var r := EnsureField(summarised, "recommendations", RECOMMENDATIONS_PLACEHOLDER).value;
    assert r == Complete(d, ids).value;
    if k in ids {
      FillCoversRubric(d, ids, k);
    } else if ids != [] {
      FillCoversRubric(d, ids, ids[0]);
    }
    EnsureOverallKeeps(filled, "metrics");
    EnsureFieldKeeps(scored, "summary", SUMMARY_PLACEHOLDER, "metrics");
    EnsureFieldKeeps(scored, "summary", SUMMARY_PLACEHOLDER, "overall_score");
    EnsureFieldKeeps(summarised, "recommendations", RECOMMENDATIONS_PLACEHOLDER, "metrics");
    EnsureFieldKeeps(summarised, "recommendations", RECOMMENDATIONS_PLACEHOLDER, "overall_score");
    EnsureFieldKeeps(summarised, "recommendations", RECOMMENDATIONS_PLACEHOLDER, "summary");
  }
}

=== FILE: config_tab.dfy ===
/** The Configuration tab: the Milvus connection test built from the form fields, the three RAG
    sliders, and the Save button that writes the form and the model choices back into the
    session store with one `update`. */
module ConfigTab {
  import opened Wrappers
  import opened Domain
  import Session
  import VectorstoreService

  /** The four Milvus fields of the form, as the widgets return them. */
  datatype MilvusForm = MilvusForm(host: string, port: int, user: string, password: string)

  /** The three RAG sliders. */
  datatype RagForm = RagForm(numChunks: int, chunkSize: int, chunkOverlap: int)

  /** The values the sliders can take: 1..10 chunks, chunks of 100..2000 characters in steps of
      100, an overlap of 0..200 in steps of 10. */
  predicate OnSliders(r: RagForm) {
    && 1 <= r.numChunks <= 10
    && 100 <= r.chunkSize <= 2000 && r.chunkSize % 100 == 0
    && 0 <= r.chunkOverlap <= 200 && r.chunkOverlap % 10 == 0
  }

  /** The `connection_args` of the test button: host and port always, user and password only
      when they are not empty. */
  function ConnectionArgsOf(f: MilvusForm): (a: VectorstoreService.ConnectionArgs)
    ensures a.host == Some(f.host) && a.port == Some(f.port)
    ensures a.user.Some? <==> f.user != ""
    ensures a.password.Some? <==> f.password != ""
    ensures a.user.Some? ==> a.user.value == f.user
    ensures a.password.Some? ==> a.password.value == f.password
  {
    VectorstoreService.ConnectionArgs(
      Some(f.host), Some(f.port),
      if f.user != "" then Some(f.user) else None,
      if f.password != "" then Some(f.password) else None)
  }

  /** The probe connects with exactly what the form holds: leaving out an empty user or
      password is the same as passing it empty. */
  lemma ConnectsWithForm(f: MilvusForm)
    ensures VectorstoreService.ConnectCall(ConnectionArgsOf(f)) ==
      VectorstoreService.Connect("default", f.host, f.port, f.user, f.password)
  {
  }

  /** The banner under the test button. */
  datatype Banner = SuccessBanner(text: string) | ErrorBanner(text: string, dockerHint: bool)

  function BannerOf(ok: bool, message: string): Banner {
    if ok then SuccessBanner("✅ " + message) else ErrorBanner("❌ " + message, true)
  }

  /** The test button: the probe runs on the form's arguments, and its outcome is shown. */
  method TestMilvusConnection(milvus: VectorstoreService.Milvus, available: bool, f: MilvusForm,
                              replies: VectorstoreService.Replies)
    returns (banner: Banner)
    modifies milvus
    ensures var (ok, message) := VectorstoreService.ProbeResult(available, ConnectionArgsOf(f), replies);
      banner == BannerOf(ok, message)
    ensures milvus.log == old(milvus.log) +
      (if available then VectorstoreService.ProbeCalls(ConnectionArgsOf(f), replies) else [])
  {
    var ok, message := VectorstoreService.TestConnection(milvus, available, ConnectionArgsOf(f), replies);
    banner := BannerOf(ok, message);
  }

  /** A test banner is a success exactly when the probe passed, and the Docker hint comes with
      every failure. */
  lemma BannerMatchesProbe(available: bool, f: MilvusForm, replies: VectorstoreService.Replies)
    ensures var (ok, message) := VectorstoreService.ProbeResult(available, ConnectionArgsOf(f), replies);
      var b := BannerOf(ok, message);
      && (b.SuccessBanner? <==> available && replies.connect.None? && replies.list.None? && replies.disconnect.None?)
      && (b.ErrorBanner? ==> b.dockerHint)
  {
  }

  const CUSTOM_MODELS := "Custom Models"

  /** The `update_dict` of the Save button, one field per key it holds. */
  datatype SettingsUpdate = SettingsUpdate(
    milvusHost: string, milvusPort: int, milvusUser: string, milvusPassword: string,
    provider: string, modelName: string, apiKey: string,
    evalProvider: string, evalApiKey: string, evalModel: string,
    embeddingProvider: string, embeddingApiKey: string, embeddingModel: string,
    ollamaBaseUrl: string, numChunks: int, chunkSize: int, chunkOverlap: int)
  {
    /** `st.session_state.update(self)`: each key is overwritten, every other key kept. */
    function ApplyTo(m: map<Session.Key, Session.Value>): map<Session.Key, Session.Value> {
      m[Session.MilvusHost := Session.VStr(milvusHost)]
       [Session.MilvusPort := Session.VInt(milvusPort)]
       [Session.MilvusUser := Session.VStr(milvusUser)]
       [Session.MilvusPassword := Session.VStr(milvusPassword)]
       [Session.Provider := Session.VStr(provider)]
       [Session.ModelName := Session.VStr(modelName)]
       [Session.ApiKey := Session.VStr(apiKey)]
       [Session.EvalProvider := Session.VStr(evalProvider)]
       [Session.EvalApiKey := Session.VStr(evalApiKey)]
       [Session.EvalModel := Session.VStr(evalModel)]
       [Session.EmbeddingProvider := Session.VStr(embeddingProvider)]
       [Session.EmbeddingApiKey := Session.VStr(embeddingApiKey)]
       [Session.EmbeddingModel := Session.VStr(embeddingModel)]
       [Session.OllamaBaseUrl := Session.VStr(ollamaBaseUrl)]
       [Session.NumChunks := Session.VInt(numChunks)]
       [Session.ChunkSize := Session.VInt(chunkSize)]
       [Session.ChunkOverlap := Session.VInt(chunkOverlap)]
    }

    /** The store `s` holds every value of this update under its key. */
    predicate HeldBy(s: map<Session.Key, Session.Value>) {
      MilvusHeldBy(s) && ModelsHeldBy(s) && KeysHeldBy(s) && RagHeldBy(s)
    }

    predicate MilvusHeldBy(s: map<Session.Key, Session.Value>) {
      && Session.MilvusHost in s && s[Session.MilvusHost] == Session.VStr(milvusHost)
      && Session.MilvusPort in s && s[Session.MilvusPort] == Session.VInt(milvusPort)
      && Session.MilvusUser in s && s[Session.MilvusUser] == Session.VStr(milvusUser)
      && Session.MilvusPassword in s && s[Session.MilvusPassword] == Session.VStr(milvusPassword)
    }

    predicate ModelsHeldBy(s: map<Session.Key, Session.Value>) {
      && Session.Provider in s && s[Session.Provider] == Session.VStr(provider)
      && Session.ModelName in s && s[Session.ModelName] == Session.VStr(modelName)
      && Session.EvalProvider in s && s[Session.EvalProvider] == Session.VStr(evalProvider)
      && Session.EvalModel in s && s[Session.EvalModel] == Session.VStr(evalModel)
      && Session.EmbeddingProvider in s && s[Session.EmbeddingProvider] == Session.VStr(embeddingProvider)
      && Session.EmbeddingModel in s && s[Session.EmbeddingModel] == Session.VStr(embeddingModel)
    }

    predicate KeysHeldBy(s: map<Session.Key, Session.Value>) {
      && Session.ApiKey in s && s[Session.ApiKey] == Session.VStr(apiKey)
      && Session.EvalApiKey in s && s[Session.EvalApiKey] == Session.VStr(evalApiKey)
      && Session.EmbeddingApiKey in s && s[Session.EmbeddingApiKey] == Session.VStr(embeddingApiKey)
      && Session.OllamaBaseUrl in s && s[Session.OllamaBaseUrl] == Session.VStr(ollamaBaseUrl)
    }

    predicate RagHeldBy(s: map<Session.Key, Session.Value>) {
      && Session.NumChunks in s && s[Session.NumChunks] == Session.VInt(numChunks)
      && Session.ChunkSize in s && s[Session.ChunkSize] == Session.VInt(chunkSize)
      && Session.ChunkOverlap in s && s[Session.ChunkOverlap] == Session.VInt(chunkOverlap)
    }
  }

  /** The seventeen keys an update writes. */
  predicate Written(k: Session.Key) {
    || k.MilvusHost? || k.MilvusPort? || k.MilvusUser? || k.MilvusPassword?
    || k.Provider? || k.ModelName? || k.ApiKey?
    || k.EvalProvider? || k.EvalApiKey? || k.EvalModel?
    || k.EmbeddingProvider? || k.EmbeddingApiKey? || k.EmbeddingModel?
    || k.OllamaBaseUrl? || k.NumChunks? || k.ChunkSize? || k.ChunkOverlap?
  }

  /** After an update the store holds the update's values, and every other key is as it was. */
  lemma ApplyToHolds(u: SettingsUpdate, m: map<Session.Key, Session.Value>)
    ensures u.HeldBy(u.ApplyTo(m))
  {
    ApplyToMilvus(u, m);
    ApplyToModels(u, m);
    ApplyToKeys(u, m);
    ApplyToRag(u, m);
  }

  lemma ApplyToKeeps(u: SettingsUpdate, m: map<Session.Key, Session.Value>)
    ensures forall k :: !Written(k) ==> (k in u.ApplyTo(m) <==> k in m)
    ensures forall k :: !Written(k) && k in m ==> u.ApplyTo(m)[k] == m[k]
  {
  }

  /** An update leaves the selected entries as they were. */
  lemma ApplyToKeepsSelected(u: SettingsUpdate, m: map<Session.Key, Session.Value>)
    ensures Session.Selected(u.ApplyTo(m), Session.SelectedInferenceModel) == Session.Selected(m, Session.SelectedInferenceModel)
    ensures Session.Selected(u.ApplyTo(m), Session.SelectedEvaluationModel) == Session.Selected(m, Session.SelectedEvaluationModel)
    ensures Session.Selected(u.ApplyTo(m), Session.SelectedEmbeddingModel) == Session.Selected(m, Session.SelectedEmbeddingModel)
  {
    ApplyToKeeps(u, m);
    assert !Written(Session.SelectedInferenceModel);
    assert !Written(Session.SelectedEvaluationModel);
    assert !Written(Session.SelectedEmbeddingModel);
  }

  lemma ApplyToMilvus(u: SettingsUpdate, m: map<Session.Key, Session.Value>)
    ensures u.MilvusHeldBy(u.ApplyTo(m))
  {
  }

  lemma ApplyToModels(u: SettingsUpdate, m: map<Session.Key, Session.Value>)
    ensures u.ModelsHeldBy(u.ApplyTo(m))
  {
  }

  lemma ApplyToKeys(u: SettingsUpdate, m: map<Session.Key, Session.Value>)
    ensures u.KeysHeldBy(u.ApplyTo(m))
  {
  }

  lemma ApplyToRag(u: SettingsUpdate, m: map<Session.Key, Session.Value>)
    ensures u.RagHeldBy(u.ApplyTo(m))
  {
  }

  /** The `update_dict` of the Save button.  `m` is the store, and `c` the `load_config`
      snapshot taken from it when the tab was drawn. */
  function SaveUpdate(m: map<Session.Key, Session.Value>, c: Session.Config, f: MilvusForm, r: RagForm)
    : (u: SettingsUpdate)
    // a selected entry turns its role to "Custom Models" under the entry's name, and without
    // one the snapshot's provider and model are written back
    ensures var e := Session.Selected(m, Session.SelectedInferenceModel);
      && (u.provider == CUSTOM_MODELS || e.None?)
      && (if e.Some? then u.modelName == e.value.name
          else u.provider == c.provider && u.modelName == c.modelName)
    ensures var e := Session.Selected(m, Session.SelectedEvaluationModel);
      && (u.evalProvider == CUSTOM_MODELS || e.None?)
      && (if e.Some? then u.evalModel == e.value.name
          else u.evalProvider == c.evalProvider && u.evalModel == c.evalModel)
    ensures var e := Session.Selected(m, Session.SelectedEmbeddingModel);
      && (u.embeddingProvider == CUSTOM_MODELS || e.None?)
      && (if e.Some? then u.embeddingModel == e.value.name
          else u.embeddingProvider == c.embeddingProvider && u.embeddingModel == c.embeddingModel)
    // the three keys are cleared and the Ollama URL is reset
    ensures u.apiKey == u.evalApiKey == u.embeddingApiKey == ""
    ensures u.ollamaBaseUrl == Session.DEFAULT_OLLAMA_BASE_URL
    // the form fields are written as entered
    ensures (u.milvusHost, u.milvusPort, u.milvusUser, u.milvusPassword) == (f.host, f.port, f.user, f.password)
    ensures (u.numChunks, u.chunkSize, u.chunkOverlap) == (r.numChunks, r.chunkSize, r.chunkOverlap)
  {
    var inference := Session.Selected(m, Session.SelectedInferenceModel);
    var evaluation := Session.Selected(m, Session.SelectedEvaluationModel);
    var embedding := Session.Selected(m, Session.SelectedEmbeddingModel);
    SettingsUpdate(
      milvusHost := f.host,
      milvusPort := f.port,
      milvusUser := f.user,
      milvusPassword := f.password,
      provider := if inference.Some? then CUSTOM_MODELS else c.provider,
      modelName := if inference.Some? then inference.value.name else c.modelName,
      apiKey := "",
      evalProvider := if evaluation.Some? then CUSTOM_MODELS else c.evalProvider,
      evalApiKey := "",
      evalModel := if evaluation.Some? then evaluation.value.name else c.evalModel,
      embeddingProvider := if embedding.Some? then CUSTOM_MODELS else c.embeddingProvider,
      embeddingApiKey := "",
      embeddingModel := if embedding.Some? then embedding.value.name else c.embeddingModel,
      ollamaBaseUrl := Session.DEFAULT_OLLAMA_BASE_URL,
      numChunks := r.numChunks,
      chunkSize := r.chunkSize,
      chunkOverlap := r.chunkOverlap)
  }

  /** The store after Save. */
  function Saved(m: map<Session.Key, Session.Value>, dockerEnv: bool, f: MilvusForm, r: RagForm)
    : map<Session.Key, Session.Value>
  {
    SaveUpdate(m, Session.LoadConfig(m, dockerEnv), f, r).ApplyTo(m)
  }

  /** The Save button, with the snapshot of the store the tab was drawn from (`dockerEnv` says
      whether `/.dockerenv` exists). */
  method SaveConfiguration(st: Session.SessionState, dockerEnv: bool, f: MilvusForm, r: RagForm)
    modifies st
    ensures st.entries == Saved(old(st.entries), dockerEnv, f, r)
  {
    var c := Session.LoadConfig(st.entries, dockerEnv);
    var u := SaveUpdate(st.entries, c, f, r);
    st.entries := u.ApplyTo(st.entries);
  }

  /** Save writes only text and integers where they belong, so a well-typed store stays so. */
  lemma SaveKeepsWellTyped(m: map<Session.Key, Session.Value>, dockerEnv: bool, f: MilvusForm, r: RagForm)
    requires Session.WellTyped(m)
    ensures Session.WellTyped(Saved(m, dockerEnv, f, r))
  {
    var u := SaveUpdate(m, Session.LoadConfig(m, dockerEnv), f, r);
    ApplyKeepsWellTyped(u, m);
  }

  /** Every value an update writes has its key's type. */
  lemma ApplyKeepsWellTyped(u: SettingsUpdate, m: map<Session.Key, Session.Value>)
    requires Session.WellTyped(m)
    ensures Session.WellTyped(u.ApplyTo(m))
  {
  }

  /** What `load_config` reads from a store that holds an update and otherwise agrees with `m`
      on the selected entries. */
  lemma LoadHeld(u: SettingsUpdate, m: map<Session.Key, Session.Value>, s: map<Session.Key, Session.Value>,
                 dockerEnv: bool)
    requires u.HeldBy(s)
    requires Session.Selected(s, Session.SelectedInferenceModel) == Session.Selected(m, Session.SelectedInferenceModel)
    requires Session.Selected(s, Session.SelectedEvaluationModel) == Session.Selected(m, Session.SelectedEvaluationModel)
    requires Session.Selected(s, Session.SelectedEmbeddingModel) == Session.Selected(m, Session.SelectedEmbeddingModel)
    ensures var c := Session.LoadConfig(s, dockerEnv);
      && (c.milvusHost, c.milvusPort, c.milvusUser, c.milvusPassword)
         == (u.milvusHost, u.milvusPort, u.milvusUser, u.milvusPassword)
      && (c.numChunks, c.chunkSize, c.chunkOverlap) == (u.numChunks, u.chunkSize, u.chunkOverlap)
      && c.ollamaBaseUrl == u.ollamaBaseUrl
      && (Session.Selected(m, Session.SelectedInferenceModel).None? ==>
            (c.provider, c.modelName, c.apiKey) == (u.provider, u.modelName, u.apiKey))
      && (Session.Selected(m, Session.SelectedEvaluationModel).None? ==>
            (c.evalProvider, c.evalModel, c.evalApiKey) == (u.evalProvider, u.evalModel, u.evalApiKey))
      && (Session.Selected(m, Session.SelectedEmbeddingModel).None? ==>
            (c.embeddingProvider, c.embeddingModel, c.embeddingApiKey)
            == (u.embeddingProvider, u.embeddingModel, u.embeddingApiKey))
  {
    LoadHeldMilvus(u, s, dockerEnv);
    LoadHeldRag(u, s, dockerEnv);
    if Session.Selected(m, Session.SelectedInferenceModel).None? {
      LoadHeldInference(u, s, dockerEnv);
    }
    if Session.Selected(m, Session.SelectedEvaluationModel).None? {
      LoadHeldEvaluation(u, s, dockerEnv);
    }
    if Session.Selected(m, Session.SelectedEmbeddingModel).None? {
      LoadHeldEmbedding(u, s, dockerEnv);
    }
  }

  lemma LoadHeldMilvus(u: SettingsUpdate, s: map<Session.Key, Session.Value>, dockerEnv: bool)
    requires u.MilvusHeldBy(s)
    ensures var c := Session.LoadConfig(s, dockerEnv);
      (c.milvusHost, c.milvusPort, c.milvusUser, c.milvusPassword)
      == (u.milvusHost, u.milvusPort, u.milvusUser, u.milvusPassword)
  {
  }

  lemma LoadHeldRag(u: SettingsUpdate, s: map<Session.Key, Session.Value>, dockerEnv: bool)
    requires u.RagHeldBy(s) && u.KeysHeldBy(s)
    ensures var c := Session.LoadConfig(s, dockerEnv);
      && (c.numChunks, c.chunkSize, c.chunkOverlap) == (u.numChunks, u.chunkSize, u.chunkOverlap)
      && c.ollamaBaseUrl == u.ollamaBaseUrl
  {
  }

  lemma LoadHeldInference(u: SettingsUpdate, s: map<Session.Key, Session.Value>, dockerEnv: bool)
    requires u.ModelsHeldBy(s) && u.KeysHeldBy(s)
    requires Session.Selected(s, Session.SelectedInferenceModel).None?
    ensures var c := Session.LoadConfig(s, dockerEnv);
      (c.provider, c.modelName, c.apiKey) == (u.provider, u.modelName, u.apiKey)
  {
  }

  lemma LoadHeldEvaluation(u: SettingsUpdate, s: map<Session.Key, Session.Value>, dockerEnv: bool)
    requires u.ModelsHeldBy(s) && u.KeysHeldBy(s)
    requires Session.Selected(s, Session.SelectedEvaluationModel).None?
    ensures var c := Session.LoadConfig(s, dockerEnv);
      (c.evalProvider, c.evalModel, c.evalApiKey) == (u.evalProvider, u.evalModel, u.evalApiKey)
  {
  }

  lemma LoadHeldEmbedding(u: SettingsUpdate, s: map<Session.Key, Session.Value>, dockerEnv: bool)
    requires u.ModelsHeldBy(s) && u.KeysHeldBy(s)
    requires Session.Selected(s, Session.SelectedEmbeddingModel).None?
    ensures var c := Session.LoadConfig(s, dockerEnv);
      (c.embeddingProvider, c.embeddingModel, c.embeddingApiKey)
      == (u.embeddingProvider, u.embeddingModel, u.embeddingApiKey)
  {
  }

  /** What the next `load_config` reads after Save: the form's Milvus and RAG settings, the same
      providers and models as before, and, for a role without a selected entry, an empty key
      (Save forgets a key typed outside the model forms). */
  lemma LoadAfterSave(m: map<Session.Key, Session.Value>, dockerEnv: bool, f: MilvusForm, r: RagForm)
    ensures var before := Session.LoadConfig(m, dockerEnv);
      var after := Session.LoadConfig(Saved(m, dockerEnv, f, r), dockerEnv);
      && after.milvusHost == f.host && after.milvusPort == f.port
      && after.milvusUser == f.user && after.milvusPassword == f.password
      && after.numChunks == r.numChunks && after.chunkSize == r.chunkSize
      && after.chunkOverlap == r.chunkOverlap
      && after.ollamaBaseUrl == Session.DEFAULT_OLLAMA_BASE_URL
      && after.provider == before.provider && after.modelName == before.modelName
      && after.evalProvider == before.evalProvider && after.evalModel == before.evalModel
      && after.embeddingProvider == before.embeddingProvider
      && after.embeddingModel == before.embeddingModel
      && (Session.Selected(m, Session.SelectedInferenceModel).None? ==> after.apiKey == "")
      && (Session.Selected(m, Session.SelectedEvaluationModel).None? ==> after.evalApiKey == "")
      && (Session.Selected(m, Session.SelectedEmbeddingModel).None? ==> after.embeddingApiKey == "")
  {
    var u := SaveUpdate(m, Session.LoadConfig(m, dockerEnv), f, r);
    var s := u.ApplyTo(m);
    ApplyToHolds(u, m);
    ApplyToKeepsSelected(u, m);
    LoadHeld(u, m, s, dockerEnv);
  }

  /** Pressing Save a second time with the same form changes nothing more. */
  lemma SaveIdempotent(m: map<Session.Key, Session.Value>, dockerEnv: bool, f: MilvusForm, r: RagForm)
    ensures Saved(Saved(m, dockerEnv, f, r), dockerEnv, f, r) == Saved(m, dockerEnv, f, r)
  {
    var u := SaveUpdate(m, Session.LoadConfig(m, dockerEnv), f, r);
    var s := u.ApplyTo(m);
    ApplyToHolds(u, m);
    ApplyToKeepsSelected(u, m);
    LoadHeld(u, m, s, dockerEnv);
    var u2 := SaveUpdate(s, Session.LoadConfig(s, dockerEnv), f, r);
    assert u2 == u;
    ReapplySame(u, m);
  }

  /** Applying the same update twice is applying it once. */
  lemma ReapplySame(u: SettingsUpdate, m: map<Session.Key, Session.Value>)
    ensures u.ApplyTo(u.ApplyTo(m)) == u.ApplyTo(m)
  {
  }

  /** The next `load_config` after Save returns slider values in the sliders' ranges: at least
      one chunk retrieved and chunks of at least 100 characters.  Nothing ties the overlap to
      the chunk size: an overlap of 200 may be saved with chunks of 100. */
  lemma SliderValuesSaved(m: map<Session.Key, Session.Value>, dockerEnv: bool, f: MilvusForm, r: RagForm)
    requires OnSliders(r)
    ensures var after := Session.LoadConfig(Saved(m, dockerEnv, f, r), dockerEnv);
      && 1 <= after.numChunks <= 10 && 100 <= after.chunkSize <= 2000 && 0 <= after.chunkOverlap <= 200
      && after.chunkSize % 100 == 0 && after.chunkOverlap % 10 == 0
  {
    LoadAfterSave(m, dockerEnv, f, r);
  }

  /** The sliders accept an overlap larger than the chunk size. */
  lemma OverlapMayExceedSize()
    ensures OnSliders(RagForm(5, 100, 200))
  {
  }
}

=== FILE: constants.dfy ===
/** The literal tables of the application: the built-in rubric, the embedding catalogue, the
    provider list with its base URLs, the RAG prompt template and the default collection. */
module Constants {
  import opened Wrappers
  import opened Domain
  import opened FormatTemplate
  import Text

  /** The collection a new session starts on. */
  const DEFAULT_COLLECTION: string := "rag_collection_eerrur_8415"

  /** Base URLs of the OpenAI-compatible hosts. */
  const BASE_URLS: map<string, string> := map["DeepInfra" := "https://api.deepinfra.com/v1/openai"]

  /** The hosts a "Select Models" form offers. */
  const PROVIDERS: seq<string> := ["DeepInfra"]

  /** One entry of the embedding catalogue. */
  datatype EmbeddingModel = EmbeddingModel(
    name: string,
    dimensions: nat,
    description: string,
    requiresApiKey: bool,
    requiresOllama: Option<bool>)

  /** The embedding catalogue: for each provider, its models keyed by model name. */
  const EMBEDDING_MODELS: seq<(string, seq<(string, EmbeddingModel)>)> := [
    ("OpenAI", [
      ("text-embedding-3-large", EmbeddingModel("text-embedding-3-large", 3072, "Highest quality OpenAI embeddings", true, None)),
      ("text-embedding-3-small", EmbeddingModel("text-embedding-3-small", 1536, "Cost-effective OpenAI embeddings", true, None))
    ]),
    ("OpenAI-Compatible", [
      ("Qwen/Qwen3-Embedding-8B", EmbeddingModel("Qwen/Qwen3-Embedding-8B", 4096, "Qwen3 8B embeddings via OpenAI-compatible API (e.g., DeepInfra)", true, None))
    ]),
    ("HuggingFace", [
      ("BAAI/bge-large-en-v1.5", EmbeddingModel("BAAI/bge-large-en-v1.5", 1024, "High quality open-source embeddings", false, None)),
      ("sentence-transformers/all-MiniLM-L6-v2", EmbeddingModel("sentence-transformers/all-MiniLM-L6-v2", 384, "Fast, lightweight embeddings", false, None)),
      ("intfloat/e5-large-v2", EmbeddingModel("intfloat/e5-large-v2", 1024, "State-of-the-art open-source embeddings", false, None))
    ]),
    ("SentenceTransformers", [
      ("all-MiniLM-L6-v2", EmbeddingModel("all-MiniLM-L6-v2", 384, "Fast local embeddings", false, None)),
      ("all-mpnet-base-v2", EmbeddingModel("all-mpnet-base-v2", 768, "High quality local embeddings", false, None))
    ]),
    ("Ollama", [
      ("llama2", EmbeddingModel("llama2", 4096, "Llama 2 embeddings via Ollama", false, Some(true))),
      ("mistral", EmbeddingModel("mistral", 4096, "Mistral embeddings via Ollama", false, Some(true)))
    ])
  ]

  /** The built-in rubric, in the order the prompt lists it. */
  const DEFAULT_METRICS: seq<Metric> := BuiltInMetrics(METRIC_DESCRIPTIONS)

  /** The built-in ids and names, paired with the given descriptions. */
  function BuiltInMetrics(d: seq<string>): seq<Metric>
    requires |d| == 8
  {
    [ Metric("answer_relevancy", "Answer Relevancy", d[0]),
      Metric("task_completion", "Task Completion", d[1]),
      Metric("correctness", "Correctness", d[2]),
      Metric("hallucination", "Hallucination", d[3]),
      Metric("contextual_relevancy", "Contextual Relevancy", d[4]),
      Metric("responsible_metrics", "Responsible Metrics", d[5]),
      Metric("task_specific", "Task-Specific Metrics", d[6]),
      Metric("engagement", "Engagement / User Satisfaction", d[7]) ]
  }

  const METRIC_DESCRIPTIONS: seq<string> := [
    ANSWER_RELEVANCY_DESCRIPTION, TASK_COMPLETION_DESCRIPTION, CORRECTNESS_DESCRIPTION,
    HALLUCINATION_DESCRIPTION, CONTEXTUAL_RELEVANCY_DESCRIPTION, RESPONSIBLE_METRICS_DESCRIPTION,
    TASK_SPECIFIC_DESCRIPTION, ENGAGEMENT_DESCRIPTION ]

  const ANSWER_RELEVANCY_DESCRIPTION: string :=
    "Determines whether an LLM output is able to address the given input in an informative and concise manner. The response should directly answer the question without unnecessary information."
  const TASK_COMPLETION_DESCRIPTION: string :=
    "Determines whether an LLM agent is able to complete the task it was set out to do. Evaluate if all aspects of the requested task have been addressed."
  const CORRECTNESS_DESCRIPTION: string :=
    "Determines whether an LLM output is factually correct based on the provided ground truth. Compare the response against the ground truth for accuracy."
  const HALLUCINATION_DESCRIPTION: string :=
    "Determines whether an LLM output contains fake or made-up information not supported by the context or ground truth. Check for fabricated facts or unsupported claims."
  const CONTEXTUAL_RELEVANCY_DESCRIPTION: string :=
    "Determines whether the retriever in a RAG-based LLM system is able to extract the most relevant information for your LLM as context. Evaluate if the retrieved chunks are pertinent to the question."
  const RESPONSIBLE_METRICS_DESCRIPTION: string :=
    "Includes metrics such as bias and toxicity, which determines whether an LLM output contains harmful, offensive, or biased content."
  const TASK_SPECIFIC_DESCRIPTION: string :=
    "Includes metrics such as summarization quality, format adherence, or other custom criteria depending on the specific use-case."
  const ENGAGEMENT_DESCRIPTION: string :=
    "Evaluates the usefulness, engaging nature, and overall user satisfaction potential of the response. Consider clarity, helpfulness, user-friendliness, and how well it maintains conversation flow with the chat history."

  /** The answer prompt of the RAG chain, as literal pieces and the three variable slots. */
  const RAG_PROMPT_SEGMENTS: seq<Segment> := RagPromptSegments(RAG_PROMPT_INSTRUCTIONS)

  function RagPromptSegments(instructions: string): seq<Segment> {
    [ Lit(instructions),
      Slot("context"),
      Lit("\n\nChat History:\n"),
      Slot("chat_history"),
      Lit("\n\nQuestion: "),
      Slot("question"),
      Lit("\nAnswer:") ]
  }

  /** The instructions that precede the retrieved context. */
  const RAG_PROMPT_INSTRUCTIONS: string :=
    "To generate your answer: \n"
      + " - Carefully analyze the question and identify the key information needed to address it \n"
      + " - Locate the specific parts of each context that contain this key information \n"
      + " - Concisely summarize the relevant information from the  context(s) in your own words \n"
      + " - Provide a direct answer to the question \n"
      + " - Give detailed and accurate responses for things like 'write a blog' or long-form questions. \n"
      + " - For greeting messages, please greet the user appropriately. \n"
      + " - Please refrain from inventing responses. \n"
      + " - If the `Question` is not related to the provided `Context` and `Chat History`  then kindly RESPOND with 'I'm sorry, but that topic is beyond what I currently know.'. \n"
      + "Use the following context to answer the question: \n"
      + " ------ \n"
      + "\n"
      + "Context:\n"

  const RAG_PROMPT_TEMPLATE: string := Render(RAG_PROMPT_SEGMENTS)

  const DEFAULT_METRIC_IDS: seq<string> := ["answer_relevancy", "task_completion", "correctness",
    "hallucination", "contextual_relevancy", "responsible_metrics", "task_specific", "engagement"]

  /** Whatever the descriptions, the built-in rubric's ids are the eight below, in order and
      pairwise distinct, and every entry has a name. */
  lemma BuiltInMetricIds(d: seq<string>)
    requires |d| == 8
    ensures Ids(BuiltInMetrics(d)) == DEFAULT_METRIC_IDS
    ensures DistinctIds(BuiltInMetrics(d))
    ensures forall i :: 0 <= i < 8 ==> BuiltInMetrics(d)[i].name != []
  {
    var ms := BuiltInMetrics(d);
    assert forall i :: 0 <= i < 8 ==> ms[i].id == DEFAULT_METRIC_IDS[i];
    DefaultIdsDistinct();
  }

  lemma DefaultIdsDistinct()
    ensures forall i, j :: 0 <= i < j < |DEFAULT_METRIC_IDS| ==> DEFAULT_METRIC_IDS[i] != DEFAULT_METRIC_IDS[j]
  {
    var ids := DEFAULT_METRIC_IDS;
    assert ids[0][0] == 'a' && ids[1][0] == 't' && ids[2][0] == 'c' && ids[3][0] == 'h';
    assert ids[4][0] == 'c' && ids[5][0] == 'r' && ids[6][0] == 't' && ids[7][0] == 'e';
    assert ids[2][1] == 'o' && ids[4][1] == 'o' && ids[2][2] == 'r' && ids[4][2] == 'n';
    assert ids[1][5] == 'c' && ids[6][5] == 's';
  }

  /** The built-in rubric has eight entries with pairwise distinct ids, in a fixed order, and
      every entry has a name and a description. */
  lemma DefaultMetricsShape()
    ensures Ids(DEFAULT_METRICS) == DEFAULT_METRIC_IDS
    ensures DistinctIds(DEFAULT_METRICS)
    ensures forall i :: 0 <= i < |DEFAULT_METRICS| ==>
      DEFAULT_METRICS[i].name != [] && DEFAULT_METRICS[i].description != []
  {
    BuiltInMetricIds(METRIC_DESCRIPTIONS);
  }

  /** Every offered provider has a base URL. */
  lemma ProvidersHaveBaseUrls()
    ensures forall p :: p in PROVIDERS ==> p in BASE_URLS
  {
  }

  /** In the embedding catalogue each model's name is its key, its dimension count is positive,
      and a key is required exactly for the OpenAI and OpenAI-Compatible providers. */
  lemma EmbeddingCatalogueConsistent()
    ensures forall i :: 0 <= i < |EMBEDDING_MODELS| ==>
      forall j :: 0 <= j < |EMBEDDING_MODELS[i].1| ==>
        CatalogueEntryConsistent(EMBEDDING_MODELS[i].0, EMBEDDING_MODELS[i].1[j])
  {
  }

  predicate CatalogueEntryConsistent(provider: string, entry: (string, EmbeddingModel)) {
    && entry.1.name == entry.0
    && entry.1.dimensions > 0
    && (entry.1.requiresApiKey <==> provider == "OpenAI" || provider == "OpenAI-Compatible")
  }

  /** Whatever the instructions say, the slots of the RAG prompt are context, chat_history and
      question, in that order. */
  lemma RagPromptSlots(instructions: string)
    ensures Slots(RagPromptSegments(instructions)) == ["context", "chat_history", "question"]
  {
    var s := RagPromptSegments(instructions);
    assert s[6..][1..] == [];
    assert Slots(s[6..]) == [];
    assert s[5..][1..] == s[6..];
    assert Slots(s[5..]) == ["question"];
    assert s[4..][1..] == s[5..];
    assert Slots(s[4..]) == ["question"];
    assert s[3..][1..] == s[4..];
    assert Slots(s[3..]) == ["chat_history", "question"];
    assert s[2..][1..] == s[3..];
    assert Slots(s[2..]) == ["chat_history", "question"];
    assert s[1..][1..] == s[2..];
    assert Slots(s[1..]) == ["context", "chat_history", "question"];
  }

  lemma RagPromptWellFormed(instructions: string)
    ensures WellFormed(RagPromptSegments(instructions))
  {
    var s := RagPromptSegments(instructions);
    SlotNamesPlain();
    forall i | 0 <= i < |s| ensures s[i].Slot? ==> PlainName(s[i].name) {
      assert s[i].Slot? ==> i == 1 || i == 3 || i == 5;
    }
  }

  /** The three slot names of the RAG prompt are read back unchanged. */
  lemma SlotNamesPlain()
    ensures PlainName("context") && PlainName("chat_history") && PlainName("question")
  {
  }

  /** A formatter finds exactly the variables context, chat_history and question in the RAG
      prompt, each once and in that order. */
  lemma RagTemplateVariables()
    ensures Fields(RAG_PROMPT_TEMPLATE) == Some(["context", "chat_history", "question"])
  {
    RagPromptSlots(RAG_PROMPT_INSTRUCTIONS);
    RagPromptWellFormed(RAG_PROMPT_INSTRUCTIONS);
    FieldsOfRender(RAG_PROMPT_SEGMENTS);
  }
}

=== FILE: custom_metrics.dfy ===
/** The Custom Metrics tab: adding a metric (its id derived from its name, both fields required,
    no id twice among the custom metrics) and removing one by its position.  Both update the
    `custom_metrics` list of the session store in place. */
module CustomMetricsTab {
  import opened Domain
  import Text
  import Session

  /** The id character for a name character: lower case, with spaces and hyphens as `_`. */
  function IdChar(c: char): char {
    if c == ' ' || c == '-' then '_' else Text.LowerChar(c)
  }

  /** `name.lower().replace(" ", "_").replace("-", "_")`. */
  function MetricId(name: string): (id: string)
    ensures |id| == |name| && forall i :: 0 <= i < |name| ==> id[i] == IdChar(name[i])
  {
    seq(|name|, i requires 0 <= i < |name| => IdChar(name[i]))
  }

  /** An id contains no upper-case letter, space or hyphen, so deriving an id from an id gives it
      back. */
  lemma MetricIdIdempotent(name: string)
    ensures MetricId(MetricId(name)) == MetricId(name)
  {
    var id := MetricId(name);
    forall i | 0 <= i < |id|
      ensures IdChar(id[i]) == id[i]
    {
      var c := name[i];
      if !(c == ' ' || c == '-') && 'A' <= c <= 'Z' {
        assert 'a' <= id[i] <= 'z';
      }
    }
  }

  /** Names that differ only in letter case or in a space where the other has a hyphen get the
      same id, so the second of them is refused as a duplicate. */
  lemma SimilarNamesShareId()
    ensures MetricId("Task Completion") == MetricId("task-completion") == "task_completion"
  {
  }

  /** What a submit of the add form did. */
  datatype AddOutcome = Added | MissingField | DuplicateId

  function AddOutcomeOf(metrics: seq<Metric>, name: string, description: string): AddOutcome {
    if name == "" || description == "" then MissingField
    else if MetricId(name) in Ids(metrics) then DuplicateId
    else Added
  }

  /** The custom metrics after a submit of the add form. */
  function AfterAdd(metrics: seq<Metric>, name: string, description: string): (r: seq<Metric>)
    ensures AddOutcomeOf(metrics, name, description) == Added <==> r != metrics
    ensures AddOutcomeOf(metrics, name, description) == Added ==>
      r == metrics + [Metric(MetricId(name), name, description)]
  {
    if AddOutcomeOf(metrics, name, description) == Added then
      metrics + [Metric(MetricId(name), name, description)]
    else metrics
  }

  /** Adding keeps the custom ids pairwise distinct. */
  lemma AddKeepsDistinct(metrics: seq<Metric>, name: string, description: string)
    requires DistinctIds(metrics)
    ensures DistinctIds(AfterAdd(metrics, name, description))
  {
    var r := AfterAdd(metrics, name, description);
    if r != metrics {
      var id := MetricId(name);
      forall i, j | 0 <= i < j < |r|
        ensures r[i].id != r[j].id
      {
        if j == |metrics| {
          assert r[i].id == Ids(metrics)[i];
        }
      }
    }
  }

  /** Only the custom metrics are searched for a clash: a name whose id is a built-in one is
      accepted. */
  lemma BuiltInIdsNotChecked(metrics: seq<Metric>, description: string)
    requires description != "" && "correctness" !in Ids(metrics)
    ensures AfterAdd(metrics, "Correctness", description) ==
      metrics + [Metric("correctness", "Correctness", description)]
  {
    assert MetricId("Correctness") == "correctness";
  }

  /** The custom metrics after the Remove button of entry `i`. */
  function AfterRemove(metrics: seq<Metric>, i: nat): (r: seq<Metric>)
    requires i < |metrics|
    ensures |r| == |metrics| - 1
    ensures forall j :: 0 <= j < i ==> r[j] == metrics[j]
    ensures forall j :: i <= j < |r| ==> r[j] == metrics[j + 1]
    ensures multiset(r) + multiset{metrics[i]} == multiset(metrics)
  {
    assert metrics == metrics[..i] + [metrics[i]] + metrics[i + 1..];
    metrics[..i] + metrics[i + 1..]
  }

  /** Removing keeps the custom ids pairwise distinct. */
  lemma RemoveKeepsDistinct(metrics: seq<Metric>, i: nat)
    requires i < |metrics| && DistinctIds(metrics)
    ensures DistinctIds(AfterRemove(metrics, i))
  {
    var r := AfterRemove(metrics, i);
    forall a, b | 0 <= a < b < |r|
      ensures r[a].id != r[b].id
    {
      var a' := if a < i then a else a + 1;
      var b' := if b < i then b else b + 1;
      assert r[a] == metrics[a'] && r[b] == metrics[b'];
    }
  }

  /** The custom metrics the store holds. */
  function CustomMetrics(m: map<Session.Key, Session.Value>): seq<Metric>
    requires Session.CustomMetrics in m && m[Session.CustomMetrics].VMetrics?
  {
    m[Session.CustomMetrics].metrics
  }

  /** The add form's submit handler. */
  method AddMetric(st: Session.SessionState, name: string, description: string) returns (outcome: AddOutcome)
    requires Session.CustomMetrics in st.entries && st.entries[Session.CustomMetrics].VMetrics?
    modifies st
    ensures outcome == AddOutcomeOf(CustomMetrics(old(st.entries)), name, description)
    ensures st.entries ==
      old(st.entries)[Session.CustomMetrics :=
                        Session.VMetrics(AfterAdd(CustomMetrics(old(st.entries)), name, description))]
  {
    var metrics := st.entries[Session.CustomMetrics].metrics;
    if name == "" || description == "" {
      return MissingField;
    }
    var id := MetricId(name);
    if id in Ids(metrics) {
      return DuplicateId;
    }
    st.Set(Session.CustomMetrics, Session.VMetrics(metrics + [Metric(id, name, description)]));
    outcome := Added;
  }

  /** The Remove button of entry `i`: `custom_metrics.pop(i)`. */
  method RemoveMetric(st: Session.SessionState, i: nat)
    requires Session.CustomMetrics in st.entries && st.entries[Session.CustomMetrics].VMetrics?
    requires i < |CustomMetrics(st.entries)|
    modifies st
    ensures st.entries ==
      old(st.entries)[Session.CustomMetrics := Session.VMetrics(AfterRemove(CustomMetrics(old(st.entries)), i))]
  {
    var metrics := st.entries[Session.CustomMetrics].metrics;
    st.Set(Session.CustomMetrics, Session.VMetrics(metrics[..i] + metrics[i + 1..]));
  }
}

=== FILE: domain.dfy ===
/** The records the application passes between its tabs and services: rubric metrics, the saved
    model entries, retrieved documents, uploaded tables and evaluation records. */
module Domain {
  import opened Wrappers
  import PyJson

  /** A rubric entry: the id the judge keys its scores by, a display name and the text the
      grading prompt shows for it. */
  datatype Metric = Metric(id: string, name: string, description: string)

  function Ids(ms: seq<Metric>): (r: seq<string>)
    ensures |r| == |ms| && forall i {:trigger r[i]} :: 0 <= i < |ms| ==> r[i] == ms[i].id
  {
    if ms == [] then [] else [ms[0].id] + Ids(ms[1..])
  }

  /** An id is among a non-empty list's ids when it is the first one's or among the rest's. */
  lemma IdsTail(ms: seq<Metric>, x: string)
    requires ms != []
    ensures x in Ids(ms) <==> ms[0].id == x || x in Ids(ms[1..])
  {
    if x in Ids(ms) && ms[0].id != x {
      var j :| 0 <= j < |ms| && Ids(ms)[j] == x;
      assert Ids(ms[1..])[j - 1] == x;
    }
    if x in Ids(ms[1..]) {
      var j :| 0 <= j < |ms[1..]| && Ids(ms[1..])[j] == x;
      assert Ids(ms)[j + 1] == x;
    }
  }

  lemma IdsPrepend(m: Metric, ms: seq<Metric>)
    ensures Ids([m] + ms) == [m.id] + Ids(ms)
  {
    assert ([m] + ms)[1..] == ms;
  }

  predicate DistinctIds(ms: seq<Metric>) {
    forall i, j :: 0 <= i < j < |ms| ==> ms[i].id != ms[j].id
  }

  /** The model entry each "Select Models" form saves.  All three shapes carry a name, a key,
      a base URL and a provider; embedding entries add dimensions and the key requirement,
      inference and evaluation entries the temperature settings. */
  datatype ModelEntry =
    | EmbeddingEntry(name: string, apiKey: string, baseUrl: string, provider: string,
                     dimensions: Option<nat>, requiresApiKey: bool)
    | ChatEntry(name: string, apiKey: string, baseUrl: string, provider: string,
                fixedTemperature: bool, temperature: real)
    | OcrEntry(name: string, apiKey: string, baseUrl: string, provider: string)
  {
    /** `entry.get('temperature', d)`. */
    function TemperatureOr(d: real): real {
      if ChatEntry? then temperature else d
    }

    /** `entry.get('fixed_temperature', d)`. */
    function FixedTemperatureOr(d: bool): bool {
      if ChatEntry? then fixedTemperature else d
    }
  }

  /** A retrieved chunk: its text and the metadata it was stored with. */
  datatype Document = Document(pageContent: string, metadata: map<string, string>)

  function PageContents(docs: seq<Document>): (r: seq<string>)
    ensures |r| == |docs| && forall i :: 0 <= i < |docs| ==> r[i] == docs[i].pageContent
  {
    if docs == [] then [] else [docs[0].pageContent] + PageContents(docs[1..])
  }

  /** A spreadsheet cell as pandas reads it: text, or an empty cell (NaN). */
  datatype Cell = Text(s: string) | NaN

  /** `str(cell)`: an empty cell reads as the float NaN. */
  function CellText(c: Cell): string {
    match c
    case Text(s) => s
    case NaN => "nan"
  }

  /** A data frame: the column names in order and one row per record.  A row without a column
      holds NaN there, as pandas fills it. */
  datatype Table = Table(columns: seq<string>, rows: seq<map<string, Cell>>)

  function At(t: Table, i: nat, col: string): Cell
    requires i < |t.rows|
  {
    if col in t.rows[i] then t.rows[i][col] else NaN
  }

  /** One entry of the result log a run produces. */
  datatype EvalRecord = EvalRecord(
    question: string,
    groundTruth: Cell,            // the raw cell: an empty one stays NaN
    chatHistory: string,
    response: string,
    retrievedChunks: seq<string>,
    evaluation: PyJson.Json,
    model: string,
    collection: string,
    timestamp: string)
}

=== FILE: embedding.dfy ===
/** Choosing the embedding client: the key requirement, where the base URL and key of an
    OpenAI-compatible endpoint come from, and the provider dispatch.  `create_embeddings`
    catches every error, shows it, and returns None. */
module EmbeddingService {
  import opened Wrappers
  import opened Domain
  import Session

  /** The arguments each embedding constructor receives.  The HuggingFace constructor's fixed
      keyword arguments (CPU device, remote code trusted, normalised embeddings) are implied. */
  datatype EmbeddingClient =
    | OpenAIEmbeddings(apiKey: string, model: string)
    | CompatibleEmbeddings(apiKey: string, baseUrl: string, model: string)
    | HuggingFaceEmbeddings(model: string)
    | SentenceTransformerEmbeddings(model: string)
    | OllamaEmbeddings(model: string, baseUrl: string)

  const DEEPINFRA_BASE_URL: string := "https://api.deepinfra.com/v1/openai"

  /** The base URL of an OpenAI-compatible endpoint: the override when given, else the selected
      custom entry's URL (Custom Models only), else the session's embedding URL, else the
      session's DeepInfra URL, else the DeepInfra default. */
  function CompatibleBaseUrl(m: map<Session.Key, Session.Value>, provider: string,
                             baseUrlOverride: string): (url: string)
    ensures baseUrlOverride != "" ==> url == baseUrlOverride
    ensures baseUrlOverride == "" && provider == "Custom Models" &&
            Session.Selected(m, Session.SelectedEmbeddingModel).Some? ==>
      url == Session.Selected(m, Session.SelectedEmbeddingModel).value.baseUrl
    ensures baseUrlOverride == "" &&
            (provider != "Custom Models" || Session.Selected(m, Session.SelectedEmbeddingModel).None?) ==>
      url == Session.GetStr(m, Session.EmbeddingOpenaiBaseUrl,
                            Session.GetStr(m, Session.DeepinfraBaseUrl, DEEPINFRA_BASE_URL))
  {
    if baseUrlOverride != "" then baseUrlOverride
    else if provider == "Custom Models" && Session.Selected(m, Session.SelectedEmbeddingModel).Some? then
      Session.Selected(m, Session.SelectedEmbeddingModel).value.baseUrl
    else
      Session.GetStr(m, Session.EmbeddingOpenaiBaseUrl,
                     Session.GetStr(m, Session.DeepinfraBaseUrl, DEEPINFRA_BASE_URL))
  }

  /** The key an OpenAI-compatible client receives: the selected custom entry's key replaces the
      passed one when it is non-empty, on the branch that reads the entry (no override). */
  function CompatibleApiKey(m: map<Session.Key, Session.Value>, provider: string, apiKey: string,
                            baseUrlOverride: string): string
  {
    var selected := Session.Selected(m, Session.SelectedEmbeddingModel);
    if baseUrlOverride == "" && provider == "Custom Models" && selected.Some? && selected.value.apiKey != ""
    then selected.value.apiKey
    else apiKey
  }

  /** The body of the `try` in `create_embeddings`; an empty `apiKey` or `baseUrlOverride`
      stands for None, and `clientAvailable` for the import of the OpenAI client succeeding. */
  function TryCreateEmbeddings(m: map<Session.Key, Session.Value>, provider: string, modelName: string,
                               apiKey: string, ollamaBaseUrl: string, baseUrlOverride: string,
                               clientAvailable: bool): (r: Result<EmbeddingClient, string>)
    ensures r.Success? <==>
      || (provider == "OpenAI" && apiKey != "")
      || (provider in {"OpenAI-Compatible", "Custom Models"} && apiKey != "" && clientAvailable)
      || provider in {"HuggingFace", "SentenceTransformers", "Ollama"}
    // the passed key is checked before any entry could replace it
    ensures provider == "OpenAI" && apiKey == "" ==> r == Failure("OpenAI API key is required")
    ensures provider in {"OpenAI-Compatible", "Custom Models"} && apiKey == "" ==>
      r == Failure("API key is required for OpenAI-Compatible embeddings")
    ensures provider in {"OpenAI-Compatible", "Custom Models"} && apiKey != "" && !clientAvailable ==>
      r == Failure("openai package not available. Please install openai>=1.0.0")
    ensures r.Success? && provider in {"OpenAI-Compatible", "Custom Models"} ==>
      r.value == CompatibleEmbeddings(CompatibleApiKey(m, provider, apiKey, baseUrlOverride),
                                      CompatibleBaseUrl(m, provider, baseUrlOverride), modelName)
    ensures r.Success? && provider == "OpenAI" ==> r.value == OpenAIEmbeddings(apiKey, modelName)
    ensures provider == "Ollama" ==> r == Success(OllamaEmbeddings(modelName, ollamaBaseUrl))
    ensures r.Success? ==> r.value.model == modelName
    ensures r.Failure? && !(provider in {"OpenAI", "OpenAI-Compatible", "Custom Models"}) ==>
      r.error == "Unsupported embedding provider: " + provider
  {
    if provider == "OpenAI" then
      if apiKey == "" then Failure("OpenAI API key is required")
      else Success(OpenAIEmbeddings(apiKey, modelName))
    else if provider == "OpenAI-Compatible" || provider == "Custom Models" then
      if apiKey == "" then Failure("API key is required for OpenAI-Compatible embeddings")
      else
        var baseUrl := CompatibleBaseUrl(m, provider, baseUrlOverride);
        var key := CompatibleApiKey(m, provider, apiKey, baseUrlOverride);
        if !clientAvailable then Failure("openai package not available. Please install openai>=1.0.0")
        else Success(CompatibleEmbeddings(key, baseUrl, modelName))
    else if provider == "HuggingFace" then Success(HuggingFaceEmbeddings(modelName))
    else if provider == "SentenceTransformers" then Success(SentenceTransformerEmbeddings(modelName))
    else if provider == "Ollama" then Success(OllamaEmbeddings(modelName, ollamaBaseUrl))
    else Failure("Unsupported embedding provider: " + provider)
  }

  /** What `create_embeddings` returns, and the error it shows when it returns None. */
  datatype EmbeddingsOutcome = EmbeddingsOutcome(client: Option<EmbeddingClient>, shownError: Option<string>)

  /** `create_embeddings`: never raises; a failure becomes None plus the shown message. */
  function CreateEmbeddings(m: map<Session.Key, Session.Value>, provider: string, modelName: string,
                            apiKey: string, ollamaBaseUrl: string, baseUrlOverride: string,
                            clientAvailable: bool): (o: EmbeddingsOutcome)
    ensures o.client.Some? <==> o.shownError.None?
    ensures o.client.None? <==>
      TryCreateEmbeddings(m, provider, modelName, apiKey, ollamaBaseUrl, baseUrlOverride, clientAvailable).Failure?
    ensures o.client.None? ==>
      o.shownError.value == "Error creating embeddings: " +
        TryCreateEmbeddings(m, provider, modelName, apiKey, ollamaBaseUrl, baseUrlOverride, clientAvailable).error
  {
    match TryCreateEmbeddings(m, provider, modelName, apiKey, ollamaBaseUrl, baseUrlOverride, clientAvailable)
    case Success(c) => EmbeddingsOutcome(Some(c), None)
    case Failure(e) => EmbeddingsOutcome(None, Some("Error creating embeddings: " + e))
  }

  /** With an override, the selected custom entry is not read at all: neither its URL nor its
      key is used. */
  lemma OverrideIgnoresEntry(m: map<Session.Key, Session.Value>, provider: string, apiKey: string,
                             baseUrlOverride: string)
    requires baseUrlOverride != ""
    ensures CompatibleApiKey(m, provider, apiKey, baseUrlOverride) == apiKey
    ensures CompatibleBaseUrl(m, provider, baseUrlOverride) == baseUrlOverride
  {
  }

  /** An input to the embedding endpoint: a string, or another value with its `str()`. */
  datatype EmbedInput = StrInput(s: string) | OtherInput(rendered: string)

  /** `t if isinstance(t, str) else str(t)`. */
  function SafeText(t: EmbedInput): string {
    match t
    case StrInput(s) => s
    case OtherInput(rendered) => rendered
  }

  /** The `input` of an embeddings request: one bare string, or a list of strings. */
  datatype EmbeddingPayload = Single(text: string) | Batch(texts: seq<string>)

  /** The request the wrapper sends to the embeddings endpoint. */
  datatype EmbeddingRequest = EmbeddingRequest(model: string, input: EmbeddingPayload, encodingFormat: string)

  /** `OpenAICompatibleEmbeddings`: the client settings and model are fixed at construction. */
  class CompatibleEmbeddingsClient {
    const apiKey: string
    const baseUrl: string
    const model: string

    constructor(apiKey: string, baseUrl: string, model: string)
      ensures this.apiKey == apiKey && this.baseUrl == baseUrl && this.model == model
    {
      this.apiKey := apiKey;
      this.baseUrl := baseUrl;
      this.model := model;
    }

    /** The request `embed_documents(texts)` sends: every input turned into a string, one for
        one and in order. */
    function DocumentsRequest(texts: seq<EmbedInput>): (req: EmbeddingRequest)
      ensures req.model == model && req.encodingFormat == "float" && req.input.Batch?
      ensures |req.input.texts| == |texts|
      ensures forall i :: 0 <= i < |texts| ==> req.input.texts[i] == SafeText(texts[i])
      ensures forall i :: 0 <= i < |texts| && texts[i].StrInput? ==> req.input.texts[i] == texts[i].s
    {
      EmbeddingRequest(model, Batch(seq(|texts|, i requires 0 <= i < |texts| => SafeText(texts[i]))), "float")
    }

    /** The request `embed_query(text)` sends: the same model and format as a documents request
        for that one input, but the string itself rather than a one-element list. */
    function QueryRequest(text: EmbedInput): (req: EmbeddingRequest)
      ensures req.model == model && req.encodingFormat == "float"
      ensures req.input == Single(SafeText(text))
      ensures text.StrInput? ==> req.input.text == text.s
      ensures DocumentsRequest([text]).input == Batch([req.input.text])
    {
      EmbeddingRequest(model, Single(SafeText(text)), "float")
    }
  }
}

=== FILE: eval_data.dfy ===
/** The Evaluation Data tab: an uploaded sheet is kept for evaluation runs only when it has the
    "Question" and "Ground truth" columns, and its "Chat history" column is then made present
    and free of empty cells. */
module EvalDataTab {
  import opened Wrappers
  import opened Domain
  import Text
  import Session
  import RunEvalTab

  const CHAT_HISTORY := "Chat history"

  /** The two columns a sheet must have. */
  const REQUIRED_COLUMNS: seq<string> := ["Question", "Ground truth"]

  predicate HasRequiredColumns(t: Table) {
    forall c :: c in REQUIRED_COLUMNS ==> c in t.columns
  }

  /** The history text a row ends up with: its cell when it has text, '' for an empty cell and
      for a sheet without the column. */
  function FilledHistory(t: Table, i: nat): string
    requires i < |t.rows|
  {
    if CHAT_HISTORY in t.columns && At(t, i, CHAT_HISTORY).Text? then At(t, i, CHAT_HISTORY).s else ""
  }

  /** `df['Chat history'] = df['Chat history'].fillna('')` when the column exists, and
      `df['Chat history'] = ''` (a new last column) when it does not. */
  function WithHistory(t: Table): (r: Table)
    ensures r.columns == if CHAT_HISTORY in t.columns then t.columns else t.columns + [CHAT_HISTORY]
    ensures |r.rows| == |t.rows|
    ensures forall i :: 0 <= i < |t.rows| ==> At(r, i, CHAT_HISTORY) == Text(FilledHistory(t, i))
    ensures forall i, c :: 0 <= i < |t.rows| && c != CHAT_HISTORY ==> At(r, i, c) == At(t, i, c)
  {
    var columns := if CHAT_HISTORY in t.columns then t.columns else t.columns + [CHAT_HISTORY];
    Table(columns, seq(|t.rows|, i requires 0 <= i < |t.rows| =>
      t.rows[i][CHAT_HISTORY := Text(FilledHistory(t, i))]))
  }

  /** Normalising a second time changes nothing. */
  lemma WithHistoryIdempotent(t: Table)
    ensures WithHistory(WithHistory(t)) == WithHistory(t)
  {
    var r := WithHistory(t);
    var rr := WithHistory(r);
    assert |rr.rows| == |r.rows|;
    forall i | 0 <= i < |r.rows|
      ensures rr.rows[i] == r.rows[i]
    {
      assert FilledHistory(r, i) == FilledHistory(t, i);
    }
  }

  /** What the uploader did with a sheet. */
  datatype Upload = Accepted(table: Table) | MissingColumns(found: seq<string>)

  function UploadOf(t: Table): (u: Upload)
    ensures u.Accepted? <==> HasRequiredColumns(t)
    ensures u.Accepted? ==> u.table == WithHistory(t)
    ensures u.MissingColumns? ==> u.found == t.columns
  {
    if HasRequiredColumns(t) then Accepted(WithHistory(t)) else MissingColumns(t.columns)
  }

  /** The upload handler: an accepted sheet replaces `evaluation_data`, a rejected one leaves
      the store as it was. */
  method UploadEvaluationData(st: Session.SessionState, t: Table) returns (u: Upload)
    modifies st
    ensures u == UploadOf(t)
    ensures u.Accepted? ==> st.entries == old(st.entries)[Session.EvaluationData := Session.VTable(u.table)]
    ensures u.MissingColumns? ==> st.entries == old(st.entries)
  {
    if "Question" in t.columns && "Ground truth" in t.columns {
      var df := WithHistory(t);
      st.Set(Session.EvaluationData, Session.VTable(df));
      u := Accepted(df);
    } else {
      u := MissingColumns(t.columns);
    }
  }

  /** An accepted sheet has every row of the upload and a text in every history cell, so an
      evaluation run reads a row exactly when its question cell has text. */
  lemma AcceptedRowsReadable(t: Table, i: nat)
    requires HasRequiredColumns(t) && i < |t.rows|
    ensures var r := UploadOf(t).table;
      && |r.rows| == |t.rows|
      && CHAT_HISTORY in r.columns && At(r, i, CHAT_HISTORY).Text?
      && (RunEvalTab.ReadRow(r, i).Success? <==> At(t, i, "Question").Text?)
      && (RunEvalTab.ReadRow(r, i).Success? ==> RunEvalTab.ReadRow(r, i).value.chatHistory == FilledHistory(t, i))
  {
  }

  /** The number of rows among the first `n` whose history is not ''. */
  function CountWithHistory(t: Table, n: nat): (k: nat)
    requires n <= |t.rows|
    ensures k <= n
    ensures k == 0 <==> forall i :: 0 <= i < n ==> At(t, i, CHAT_HISTORY) == Text("")
  {
    if n == 0 then 0
    else CountWithHistory(t, n - 1) + (if At(t, n - 1, CHAT_HISTORY) != Text("") then 1 else 0)
  }

  /** The statistics tiles: the number of questions, and, when the upload had a history column,
      "k/n" for k rows with a history or "0" when there are none. */
  datatype Statistics = Statistics(total: nat, withHistory: Option<string>)

  function StatisticsOf(t: Table): (s: Statistics)
    requires HasRequiredColumns(t)
    ensures s.total == |t.rows|
    ensures s.withHistory.Some? <==> CHAT_HISTORY in t.columns
    ensures s.withHistory == Some("0") <==>
      CHAT_HISTORY in t.columns && forall i :: 0 <= i < |t.rows| ==> FilledHistory(t, i) == ""
  {
    var df := WithHistory(t);
    var k := CountWithHistory(df, |df.rows|);
    var shown :=
      if k > 0 then Text.IntToString(k) + "/" + Text.IntToString(|df.rows|) else "0";
    assert k > 0 ==> shown != "0" by {
      if k > 0 {
        assert shown[|Text.IntToString(k)|] == '/';
      }
    }
    Statistics(|df.rows|, if CHAT_HISTORY in t.columns then Some(shown) else None)
  }
}

=== FILE: eval_prompt.dfy ===
/** The grading prompt the judge receives: the case section, an optional chat-history section,
    the numbered chunks, the numbered rubric, and fixed instructions ending in a JSON skeleton. */
module EvaluationPrompt {
  import opened Domain
  import Text

  /** `f"Chunk {i+1}: {chunk}"`. */
  function ChunkLabel(i: nat, chunk: string): string {
    "Chunk " + Text.NatToString(i + 1) + ": " + chunk
  }

  function ChunkLabels(chunks: seq<string>): (r: seq<string>)
    ensures |r| == |chunks| && forall i :: 0 <= i < |chunks| ==> r[i] == ChunkLabel(i, chunks[i])
  {
    seq(|chunks|, i requires 0 <= i < |chunks| => ChunkLabel(i, chunks[i]))
  }

  /** The chunks, labelled from 1 and separated by blank lines. */
  function ChunksText(chunks: seq<string>): string {
    Text.Join("\n\n", ChunkLabels(chunks))
  }

  /** `f"{i+1}. **{name}**: {description}"`. */
  function MetricLine(i: nat, m: Metric): string {
    Text.NatToString(i + 1) + ". **" + m.name + "**: " + m.description
  }

  function MetricLines(rubric: seq<Metric>): (r: seq<string>)
    ensures |r| == |rubric| && forall i :: 0 <= i < |rubric| ==> r[i] == MetricLine(i, rubric[i])
  {
    seq(|rubric|, i requires 0 <= i < |rubric| => MetricLine(i, rubric[i]))
  }

  /** The rubric entries in rubric order, numbered from 1 and separated by blank lines. */
  function MetricsText(rubric: seq<Metric>): string {
    Text.Join("\n\n", MetricLines(rubric))
  }

  /** The chat-history section: present only for a history that is not blank. */
  function ChatHistorySection(chatHistory: string): (r: string)
    ensures r == "" || r == "\n## Chat History\n" + chatHistory + "\n"
  {
    if !Text.IsBlank(chatHistory) then "\n## Chat History\n" + chatHistory + "\n" else ""
  }

  /** The section appears exactly when the history is non-empty after `strip()`. */
  lemma ChatHistoryShownIffStripNonEmpty(chatHistory: string)
    ensures ChatHistorySection(chatHistory) != "" <==> Text.Strip(chatHistory) != ""
  {
    Text.StripEmptyIffBlank(chatHistory);
  }

  /** The fixed texts of the prompt: the opening sentence, the heading of the rubric, and
      everything after the rubric (starting with the blank line that ends it). */
  datatype PromptTexts = PromptTexts(intro: string, metricsHeader: string, instructions: string)

  const METRICS_HEADER: string :=
    "\n\n## Evaluation Metrics\nPlease evaluate the response based on the following metrics:\n\n"

  /** The case section: question, response and ground truth. */
  function TaskContext(intro: string, question: string, response: string, groundTruth: string): string {
    intro + "\n\n## Task Context\n- **Question**: " + question
      + "\n- **LLM Response**: " + response
      + "\n- **Ground Truth**: " + groundTruth + "\n"
  }

  /** Everything up to the retrieved chunks. */
  function PromptBeforeChunks(intro: string, question: string, response: string, groundTruth: string,
                              chatHistory: string): string
  {
    TaskContext(intro, question, response, groundTruth) + ChatHistorySection(chatHistory)
      + "\n## Retrieved Context Chunks\n"
  }

  /** Everything after the retrieved chunks. */
  function PromptAfterChunks(metricsHeader: string, rubric: seq<Metric>, instructions: string): string {
    metricsHeader + MetricsText(rubric) + instructions
  }

  /** The prompt around the given fixed texts. */
  function PromptWith(texts: PromptTexts, question: string, response: string, groundTruth: string,
                      chunks: seq<string>, rubric: seq<Metric>, chatHistory: string): string
  {
    PromptBeforeChunks(texts.intro, question, response, groundTruth, chatHistory) + ChunksText(chunks)
      + PromptAfterChunks(texts.metricsHeader, rubric, texts.instructions)
  }

  const PROMPT_INTRO: string :=
    "You are an expert evaluator tasked with assessing the quality of LLM responses in a RAG (Retrieval-Augmented Generation) system."

  /** The grading instructions, up to the output skeleton. */
  const GRADING_INSTRUCTIONS: string :=
    "\n\n## Evaluation Instructions\n"
    + "1. For each metric, provide:\n"
    + "   - A score from 0 to 10 (where 0 is completely failing and 10 is perfect)\n"
    + "   - A brief explanation for your score\n"
    + "   - Specific examples from the response that support your evaluation\n"
    + "\n"
    + "2. Consider the following in your evaluation:\n"
    + "   - How well the response aligns with the ground truth\n"
    + "   - Whether the response uses information from the retrieved chunks appropriately\n"
    + "   - The overall quality and usefulness of the response\n"
    + "   - Any issues with factual accuracy, relevance, or appropriateness\n"
    + "   - For engagement metric, consider how well the response maintains conversation flow with the chat history\n"
    + "\n"
    + "3. Be objective and specific in your evaluation. Point to concrete examples in the response.\n"
    + "\n"
    + "## Output Format\n"
    + "Please structure your evaluation as follows:\n"
    + "\n"

  /** The JSON skeleton the judge is asked to follow, as the template writes it: it lists the
      eight built-in metric ids, whatever the rubric of the run holds. */
  const OUTPUT_SKELETON: string :=
    "```json\n"
    + "{\n"
    + "    \"overall_score\": <weighted average of all scores>,\n"
    + "    \"metrics\": {\n"
    + "        \"answer_relevancy\": {\n"
    + "            \"score\": <0-10>,\n"
    + "            \"explanation\": \"<detailed explanation>\"\n"
    + "        },\n"
    + "        \"task_completion\": {\n"
    + "            \"score\": <0-10>,\n"
    + "            \"explanation\": \"<detailed explanation>\"\n"
    + "        },\n"
    + "        \"correctness\": {\n"
    + "            \"score\": <0-10>,\n"
    + "            \"explanation\": \"<detailed explanation>\"\n"
    + "        },\n"
    + "        \"hallucination\": {\n"
    + "            \"score\": <0-10>,\n"
    + "            \"explanation\": \"<detailed explanation>\"\n"
    + "        },\n"
    + "        \"contextual_relevancy\": {\n"
    + "            \"score\": <0-10>,\n"
    + "            \"explanation\": \"<detailed explanation>\"\n"
    + "        },\n"
    + "        \"responsible_metrics\": {\n"
    + "            \"score\": <0-10>,\n"
    + "            \"explanation\": \"<detailed explanation>\"\n"
    + "        },\n"
    + "        \"task_specific\": {\n"
    + "            \"score\": <0-10>,\n"
    + "            \"explanation\": \"<detailed explanation>\"\n"
    + "        },\n"
    + "        \"engagement\": {\n"
    + "            \"score\": <0-10>,\n"
    + "            \"explanation\": \"<detailed explanation>\"\n"
    + "        }\n"
    + "    },\n"
    + "    \"summary\": \"<brief overall assessment of the response quality>\",\n"
    + "    \"recommendations\": \"<suggestions for improvement>\"\n"
    + "}\n"
    + "```\n"
    + "\n"
    + "Ensure your evaluation is thorough, fair, and provides actionable insights."

  const EVALUATION_PROMPT_TEXTS: PromptTexts :=
    PromptTexts(PROMPT_INTRO, METRICS_HEADER, GRADING_INSTRUCTIONS + OUTPUT_SKELETON)

  /** `create_evaluation_prompt`. */
  function CreateEvaluationPrompt(question: string, response: string, groundTruth: string,
                                  chunks: seq<string>, rubric: seq<Metric>, chatHistory: string): string
  {
    PromptWith(EVALUATION_PROMPT_TEXTS, question, response, groundTruth, chunks, rubric, chatHistory)
  }

  /** Chunk i of a chunk list placed between any two texts: labelled "Chunk i+1", after the
      chunks before it, and followed by a blank line unless it is the last. */
  lemma ChunkBetween(pre: string, chunks: seq<string>, post: string, i: nat)
    requires i < |chunks|
    ensures var at := |pre| + Text.JoinOffset("\n\n", ChunkLabels(chunks), i);
      && Text.StartsAt(pre + ChunksText(chunks) + post, ChunkLabel(i, chunks[i]), at)
      && (i + 1 < |chunks| ==> Text.StartsAt(pre + ChunksText(chunks) + post, "\n\n", at + |ChunkLabel(i, chunks[i])|))
  {
    var labels := ChunkLabels(chunks);
    assert labels[i] == ChunkLabel(i, chunks[i]);
    Text.JoinAt("\n\n", labels, i);
    Text.StartsAtPairConcat(pre, ChunksText(chunks), post, labels[i], "\n\n",
                            Text.JoinOffset("\n\n", labels, i), i + 1 < |chunks|);
  }

  /** The same for rubric entry i, numbered i+1, between any two texts. */
  lemma MetricBetween(pre: string, rubric: seq<Metric>, post: string, i: nat)
    requires i < |rubric|
    ensures var at := |pre| + Text.JoinOffset("\n\n", MetricLines(rubric), i);
      && Text.StartsAt(pre + MetricsText(rubric) + post, MetricLine(i, rubric[i]), at)
      && (i + 1 < |rubric| ==> Text.StartsAt(pre + MetricsText(rubric) + post, "\n\n", at + |MetricLine(i, rubric[i])|))
  {
    var lines := MetricLines(rubric);
    assert lines[i] == MetricLine(i, rubric[i]);
    Text.JoinAt("\n\n", lines, i);
    Text.StartsAtPairConcat(pre, MetricsText(rubric), post, lines[i], "\n\n",
                            Text.JoinOffset("\n\n", lines, i), i + 1 < |rubric|);
  }

  /** Chunk i appears labelled "Chunk i+1" in input order, and is followed by a blank line
      unless it is the last (for any fixed texts, so for `CreateEvaluationPrompt`). */
  lemma {:induction false} PromptShowsChunk(texts: PromptTexts, question: string, response: string,
                         groundTruth: string, chunks: seq<string>, rubric: seq<Metric>, chatHistory: string, i: nat)
    requires i < |chunks|
    ensures var at := |PromptBeforeChunks(texts.intro, question, response, groundTruth, chatHistory)|
                      + Text.JoinOffset("\n\n", ChunkLabels(chunks), i);
      var p := PromptWith(texts, question, response, groundTruth, chunks, rubric, chatHistory);
      && Text.StartsAt(p, ChunkLabel(i, chunks[i]), at)
      && (i + 1 < |chunks| ==> Text.StartsAt(p, "\n\n", at + |ChunkLabel(i, chunks[i])|))
  {
    ChunkBetween(PromptBeforeChunks(texts.intro, question, response, groundTruth, chatHistory), chunks,
                 PromptAfterChunks(texts.metricsHeader, rubric, texts.instructions), i);
  }

  /** Rubric entry i appears numbered i+1 in rubric order, and is followed by a blank line
      unless it is the last (for any fixed texts). */
  lemma {:induction false} PromptShowsMetric(texts: PromptTexts, question: string, response: string,
                          groundTruth: string, chunks: seq<string>, rubric: seq<Metric>, chatHistory: string, i: nat)
    requires i < |rubric|
    ensures Text.StartsAt(PromptWith(texts, question, response, groundTruth, chunks, rubric, chatHistory),
                          MetricLine(i, rubric[i]), MetricOffset(texts, question, response, groundTruth, chunks, rubric, chatHistory, i))
    ensures i + 1 < |rubric| ==>
      Text.StartsAt(PromptWith(texts, question, response, groundTruth, chunks, rubric, chatHistory), "\n\n",
                    MetricOffset(texts, question, response, groundTruth, chunks, rubric, chatHistory, i) + |MetricLine(i, rubric[i])|)
  {
    MetricBetween(texts.metricsHeader, rubric, texts.instructions, i);
    Text.StartsAtPairShift(PromptBeforeChunks(texts.intro, question, response, groundTruth, chatHistory) + ChunksText(chunks),
                           PromptAfterChunks(texts.metricsHeader, rubric, texts.instructions), MetricLine(i, rubric[i]), "\n\n",
                           |texts.metricsHeader| + Text.JoinOffset("\n\n", MetricLines(rubric), i), i + 1 < |rubric|);
  }

  /** Where rubric entry i begins in the prompt: after the chunks, the rubric heading and the
      entries before it. */
  function MetricOffset(texts: PromptTexts, question: string, response: string, groundTruth: string,
                        chunks: seq<string>, rubric: seq<Metric>, chatHistory: string, i: nat): nat
    requires i < |rubric|
  {
    |PromptBeforeChunks(texts.intro, question, response, groundTruth, chatHistory) + ChunksText(chunks)|
      + |texts.metricsHeader| + Text.JoinOffset("\n\n", MetricLines(rubric), i)
  }

  /** A history that is non-empty after `strip()` is shown under its own heading, right after the
      case section (for any fixed texts). */
  lemma {:induction false} PromptShowsChatHistory(texts: PromptTexts, question: string, response: string,
                               groundTruth: string, chunks: seq<string>, rubric: seq<Metric>, chatHistory: string)
    requires Text.Strip(chatHistory) != ""
    ensures Text.StartsAt(PromptWith(texts, question, response, groundTruth, chunks, rubric, chatHistory),
                          "\n## Chat History\n" + chatHistory + "\n",
                          |TaskContext(texts.intro, question, response, groundTruth)|)
  {
    ChatHistoryShownIffStripNonEmpty(chatHistory);
    var context := TaskContext(texts.intro, question, response, groundTruth);
    var section := ChatHistorySection(chatHistory);
    var before := PromptBeforeChunks(texts.intro, question, response, groundTruth, chatHistory);
    assert Text.StartsAt(section, section, 0);
    Text.StartsAtConcat(context, section, "\n## Retrieved Context Chunks\n", section, 0);
    Text.StartsAtExtend(before, ChunksText(chunks), section, |context|);
    Text.StartsAtExtend(before + ChunksText(chunks), PromptAfterChunks(texts.metricsHeader, rubric, texts.instructions), section, |context|);
  }

  /** A blank history adds nothing between the case section and the chunks. */
  lemma BlankHistoryOmitted(texts: PromptTexts, question: string, response: string,
                            groundTruth: string, chunks: seq<string>, rubric: seq<Metric>, chatHistory: string)
    requires Text.Strip(chatHistory) == ""
    ensures PromptBeforeChunks(texts.intro, question, response, groundTruth, chatHistory) ==
            TaskContext(texts.intro, question, response, groundTruth) + "\n## Retrieved Context Chunks\n"
  {
    ChatHistoryShownIffStripNonEmpty(chatHistory);
  }
}

=== FILE: evaluation.dfy ===
/** `evaluate_response` as a whole: choose the judge, build the grading prompt, invoke the judge,
    recover a dictionary from its reply and complete it.  It never raises: a failure before the
    reply is parsed, or a raise while completing it, becomes a zero-score sentinel dictionary.
    The judge's invocation is the parameter `invoke` and `json.loads` is the parameter `parse`. */
module EvaluationService {
  import opened Wrappers
  import opened PyJson
  import opened Domain
  import Session
  import JudgeClient
  import JudgeExtraction
  import JudgeCompletion
  import EvaluationPrompt
  import Text

  /** The metric entry of a sentinel: score 0 and the error text. */
  function ZeroEntry(explanation: string): Json {
    JObj([Field("score", JNum(0.0)), Field("explanation", JStr(explanation))])
  }

  /** `{key: ZeroEntry(explanation) for key in ids}`. */
  function ZeroEntries(ids: seq<string>, explanation: string): seq<Field> {
    if ids == [] then [] else [Field(ids[0], ZeroEntry(explanation))] + ZeroEntries(ids[1..], explanation)
  }

  /** The dictionary returned in place of an evaluation when something went wrong. */
  function Sentinel(ids: seq<string>, explanation: string, summary: string, recommendations: string): Json {
    JObj([Field("overall_score", JNum(0.0)),
          Field("metrics", JObj(ZeroEntries(ids, explanation))),
          Field("summary", JStr(summary)),
          Field("recommendations", JStr(recommendations))])
  }

  /** The sentinel for a raise while completing the recovered dictionary. */
  function ParseSentinel(ids: seq<string>, message: string): Json {
    Sentinel(ids, "Parse error: " + message, "Error parsing evaluation response: " + message,
             "Check the logs for the raw response")
  }

  /** The sentinel for a raise while choosing or invoking the judge. */
  function EvalSentinel(ids: seq<string>, message: string): Json {
    Sentinel(ids, "Evaluation error: " + message, "Error during evaluation: " + message, "")
  }

  lemma {:induction false} ZeroEntriesCover(ids: seq<string>, explanation: string, k: string)
    ensures Lookup(ZeroEntries(ids, explanation), k) ==
      if k in ids then Some(ZeroEntry(explanation)) else None
  {
    if ids != [] {
      ZeroEntriesCover(ids[1..], explanation, k);
    }
  }

  /** A sentinel scores 0 overall, carries the given summary and recommendations, and its
      metrics are the zero entries of the rubric ids (`ZeroEntriesCover`). */
  lemma SentinelShape(ids: seq<string>, explanation: string, summary: string, recommendations: string)
    ensures var fs := Sentinel(ids, explanation, summary, recommendations).fields;
      && Lookup(fs, "overall_score") == Some(JNum(0.0))
      && Lookup(fs, "metrics") == Some(JObj(ZeroEntries(ids, explanation)))
      && Lookup(fs, "summary") == Some(JStr(summary))
      && Lookup(fs, "recommendations") == Some(JStr(recommendations))
  {
    var fs := Sentinel(ids, explanation, summary, recommendations).fields;
    assert fs[1..][1..][1..] == [fs[3]];
    assert fs[0].key[0] == 'o' && fs[1].key[0] == 'm' && fs[2].key[0] == 's' && fs[3].key[0] == 'r';
  }

  /** The keys every sentinel holds, as the completion guarantees them for a parsed reply. */
  lemma SentinelHasAllKeys(ids: seq<string>, explanation: string, summary: string, recommendations: string,
                           k: string)
    ensures var r := Sentinel(ids, explanation, summary, recommendations);
      && PyIn("overall_score", r) == Success(true)
      && PyIn("summary", r) == Success(true)
      && PyIn("recommendations", r) == Success(true)
      && (k in ids ==> PyIn(k, JudgeCompletion.MetricsOf(r)) == Success(true))
  {
    SentinelShape(ids, explanation, summary, recommendations);
    ZeroEntriesCover(ids, explanation, k);
    KeysPresent(Sentinel(ids, explanation, summary, recommendations).fields, ZeroEntries(ids, explanation), k, k in ids);
  }

  /** A dictionary whose lookups find the three top-level keys, and `k` in its metrics when
      `has`, answers `in` with True for each. */
  lemma KeysPresent(fs: seq<Field>, ms: seq<Field>, k: string, has: bool)
    requires Lookup(fs, "overall_score").Some? && Lookup(fs, "summary").Some?
    requires Lookup(fs, "recommendations").Some? && Lookup(fs, "metrics") == Some(JObj(ms))
    requires has ==> Lookup(ms, k).Some?
    ensures PyIn("overall_score", JObj(fs)) == Success(true) && PyIn("summary", JObj(fs)) == Success(true)
    ensures PyIn("recommendations", JObj(fs)) == Success(true)
    ensures has ==> PyIn(k, JudgeCompletion.MetricsOf(JObj(fs))) == Success(true)
  {
  }

  /** What the completion stage returns for a reply: the completed dictionary, or the parse
      sentinel naming the raise. */
  function Completed(content: string, ids: seq<string>, parse: string -> Option<Json>): Json {
    match JudgeCompletion.Complete(JudgeExtraction.Recover(content, parse), ids)
    case Success(d) => d
    case Failure(f) => ParseSentinel(ids, FaultText(f))
  }

  /** What follows once the judge is constructed: its invocation on the prompt, then the
      completion of its reply, or the evaluation sentinel for the classified invocation error. */
  function Judged(judge: JudgeClient.Judge, prompt: string, provider: string, ids: seq<string>,
                  invoke: (JudgeClient.Judge, string) -> Result<string, JudgeClient.Raised>,
                  parse: string -> Option<Json>): Json
  {
    match invoke(judge, prompt)
    case Failure(err) => EvalSentinel(ids, JudgeClient.ClassifyInvokeError(provider, err).message)
    case Success(content) => Completed(content, ids, parse)
  }

  /** What follows once the judge is constructed: the grading prompt is built around the fixed
      texts `texts` and the judge invoked on it. */
  function Prompted(judge: JudgeClient.Judge, texts: EvaluationPrompt.PromptTexts, question: string,
                    response: string, groundTruth: string,
                    chunks: seq<string>, rubric: seq<Metric>, chatHistory: string, provider: string,
                    invoke: (JudgeClient.Judge, string) -> Result<string, JudgeClient.Raised>,
                    parse: string -> Option<Json>): Json
  {
    Judged(judge, EvaluationPrompt.PromptWith(texts, question, response, groundTruth, chunks, rubric,
                                              chatHistory),
           provider, Ids(rubric), invoke, parse)
  }

  /** The value `evaluate_response` returns when its prompt is built around `texts` (the source's
      are `EvaluationPrompt.EVALUATION_PROMPT_TEXTS`).  An empty `apiKey` or `baseUrl` stands for
      None. */
  function Evaluate(m: map<Session.Key, Session.Value>, texts: EvaluationPrompt.PromptTexts,
                    question: string, response: string,
                    groundTruth: string, chunks: seq<string>, rubric: seq<Metric>, chatHistory: string,
                    provider: string, model: string, apiKey: string, baseUrl: string,
                    invoke: (JudgeClient.Judge, string) -> Result<string, JudgeClient.Raised>,
                    parse: string -> Option<Json>): Json
  {
    match JudgeClient.ChooseJudge(m, provider, model, apiKey, baseUrl)
    case Failure(e) => EvalSentinel(Ids(rubric), e.message)
    case Success(judge) =>
      Prompted(judge, texts, question, response, groundTruth, chunks, rubric, chatHistory, provider, invoke, parse)
  }

  /** The invocation and parsing half of `evaluate_response`. */
  method InvokeAndComplete(judge: JudgeClient.Judge, prompt: string, provider: string, ids: seq<string>,
                           invoke: (JudgeClient.Judge, string) -> Result<string, JudgeClient.Raised>,
                           parse: string -> Option<Json>)
    returns (result: Json)
    ensures result == Judged(judge, prompt, provider, ids, invoke, parse)
  {
    var reply := invoke(judge, prompt);
    if reply.Failure? {
      return EvalSentinel(ids, JudgeClient.ClassifyInvokeError(provider, reply.error).message);
    }
    var d := JudgeExtraction.ExtractEvaluation(reply.value, parse);
    var completed := JudgeCompletion.CompleteEvaluation(d, ids);
    if completed.Failure? {
      return ParseSentinel(ids, FaultText(completed.error));
    }
    result := completed.value;
  }

  /** Everything after the judge is constructed. */
  method EvaluateWith(judge: JudgeClient.Judge, question: string, response: string, groundTruth: string,
                      chunks: seq<string>, rubric: seq<Metric>, chatHistory: string, provider: string,
                      invoke: (JudgeClient.Judge, string) -> Result<string, JudgeClient.Raised>,
                      parse: string -> Option<Json>)
    returns (result: Json)
    ensures result == Prompted(judge, EvaluationPrompt.EVALUATION_PROMPT_TEXTS, question, response,
                               groundTruth, chunks, rubric, chatHistory, provider, invoke, parse)
  {
    var prompt := EvaluationPrompt.CreateEvaluationPrompt(question, response, groundTruth, chunks,
                                                          rubric, chatHistory);
    result := InvokeAndComplete(judge, prompt, provider, Ids(rubric), invoke, parse);
  }

  /** `evaluate_response`, step by step. */
  method EvaluateResponse(m: map<Session.Key, Session.Value>, question: string, response: string,
                          groundTruth: string, chunks: seq<string>, rubric: seq<Metric>,
                          chatHistory: string, provider: string, model: string, apiKey: string,
                          baseUrl: string,
                          invoke: (JudgeClient.Judge, string) -> Result<string, JudgeClient.Raised>,
                          parse: string -> Option<Json>)
    returns (result: Json)
    ensures result == Evaluate(m, EvaluationPrompt.EVALUATION_PROMPT_TEXTS, question, response,
                               groundTruth, chunks, rubric, chatHistory, provider, model, apiKey, baseUrl,
                               invoke, parse)
  {
    var chosen := JudgeClient.ChooseJudge(m, provider, model, apiKey, baseUrl);
    if chosen.Failure? {
      result := EvalSentinel(Ids(rubric), chosen.error.message);
    } else {
      result := EvaluateWith(chosen.value, question, response, groundTruth, chunks, rubric, chatHistory,
                             provider, invoke, parse);
    }
  }

  /** Every reply ends in a value holding the overall score, the summary and the
      recommendations; with a non-empty rubric it is a dictionary whose metrics hold every
      rubric id. */
  lemma JudgedHasAllKeys(judge: JudgeClient.Judge, prompt: string, provider: string, ids: seq<string>,
                         invoke: (JudgeClient.Judge, string) -> Result<string, JudgeClient.Raised>,
                         parse: string -> Option<Json>, k: string)
    ensures var r := Judged(judge, prompt, provider, ids, invoke, parse);
      && PyIn("overall_score", r) == Success(true)
      && PyIn("summary", r) == Success(true)
      && PyIn("recommendations", r) == Success(true)
      && (ids != [] ==> r.JObj?)
      && (k in ids ==> PyIn(k, JudgeCompletion.MetricsOf(r)) == Success(true))
  {
    var reply := invoke(judge, prompt);
    if reply.Failure? {
      var message := JudgeClient.ClassifyInvokeError(provider, reply.error).message;
      SentinelHasAllKeys(ids, "Evaluation error: " + message, "Error during evaluation: " + message, "", k);
    } else {
      var d := JudgeExtraction.Recover(reply.value, parse);
      if JudgeCompletion.Complete(d, ids).Success? {
        JudgeCompletion.CompletedHasAllKeys(d, ids, k);
      } else {
        var f := FaultText(JudgeCompletion.Complete(d, ids).error);
        SentinelHasAllKeys(ids, "Parse error: " + f, "Error parsing evaluation response: " + f,
                           "Check the logs for the raw response", k);
      }
    }
  }

  /** Whatever happens, the result has the overall score, the summary and the recommendations,
      and for a non-empty rubric it is a dictionary whose metrics hold every rubric id. */
  lemma EvaluateAlwaysComplete(m: map<Session.Key, Session.Value>, texts: EvaluationPrompt.PromptTexts,
                               question: string, response: string,
                               groundTruth: string, chunks: seq<string>, rubric: seq<Metric>,
                               chatHistory: string, provider: string, model: string, apiKey: string,
                               baseUrl: string,
                               invoke: (JudgeClient.Judge, string) -> Result<string, JudgeClient.Raised>,
                               parse: string -> Option<Json>, k: string)
    ensures var r := Evaluate(m, texts, question, response, groundTruth, chunks, rubric, chatHistory,
                              provider, model, apiKey, baseUrl, invoke, parse);
      && PyIn("overall_score", r) == Success(true)
      && PyIn("summary", r) == Success(true)
      && PyIn("recommendations", r) == Success(true)
      && (rubric != [] ==> r.JObj?)
      && (k in Ids(rubric) ==> PyIn(k, JudgeCompletion.MetricsOf(r)) == Success(true))
  {
    var ids := Ids(rubric);
    var chosen := JudgeClient.ChooseJudge(m, provider, model, apiKey, baseUrl);
    if chosen.Failure? {
      var message := chosen.error.message;
      SentinelHasAllKeys(ids, "Evaluation error: " + message, "Error during evaluation: " + message, "", k);
    } else {
      PromptedHasAllKeys(chosen.value, texts, question, response, groundTruth, chunks, rubric, chatHistory,
                         provider, invoke, parse, k);
    }
  }

  lemma PromptedHasAllKeys(judge: JudgeClient.Judge, texts: EvaluationPrompt.PromptTexts, question: string,
                           response: string, groundTruth: string,
                           chunks: seq<string>, rubric: seq<Metric>, chatHistory: string, provider: string,
                           invoke: (JudgeClient.Judge, string) -> Result<string, JudgeClient.Raised>,
                           parse: string -> Option<Json>, k: string)
    ensures var r := Prompted(judge, texts, question, response, groundTruth, chunks, rubric, chatHistory,
                              provider, invoke, parse);
      && PyIn("overall_score", r) == Success(true)
      && PyIn("summary", r) == Success(true)
      && PyIn("recommendations", r) == Success(true)
      && (rubric != [] ==> r.JObj?)
      && (k in Ids(rubric) ==> PyIn(k, JudgeCompletion.MetricsOf(r)) == Success(true))
  {
    var prompt := EvaluationPrompt.PromptWith(texts, question, response, groundTruth, chunks, rubric,
                                              chatHistory);
    JudgedHasAllKeys(judge, prompt, provider, Ids(rubric), invoke, parse, k);
  }

  /** A badly formatted Claude key is rejected before the judge is invoked: the result is the
      evaluation sentinel naming the key format, whatever the judge would have replied. */
  lemma BadClaudeKeyNeverInvokes(m: map<Session.Key, Session.Value>, texts: EvaluationPrompt.PromptTexts,
                                 question: string, response: string,
                                 groundTruth: string, chunks: seq<string>, rubric: seq<Metric>,
                                 chatHistory: string, model: string, apiKey: string, baseUrl: string,
                                 invoke: (JudgeClient.Judge, string) -> Result<string, JudgeClient.Raised>,
                                 parse: string -> Option<Json>)
    requires !Text.StartsWith(apiKey, "sk-")
    ensures Evaluate(m, texts, question, response, groundTruth, chunks, rubric, chatHistory, "Claude",
                     model, apiKey, baseUrl, invoke, parse) ==
            EvalSentinel(Ids(rubric), "Invalid Claude API key format. Key should start with 'sk-'")
  {
  }

  /** A reply that already is a complete evaluation (every top-level key present, metrics a
      dictionary holding every rubric id) is returned exactly as the judge wrote it. */
  lemma CompleteReplyKept(d: Json, ids: seq<string>)
    requires d.JObj? && JudgeCompletion.MetricsOf(d).JObj?
    requires HasKey(d.fields, "metrics")
    requires forall k :: k in ids ==> HasKey(JudgeCompletion.MetricsOf(d).fields, k)
    requires HasKey(d.fields, "overall_score") && HasKey(d.fields, "summary") && HasKey(d.fields, "recommendations")
    ensures JudgeCompletion.Complete(d, ids) == Success(d)
  {
    FillKeepsComplete(d, ids);
  }

  lemma {:induction false} FillKeepsComplete(d: Json, ids: seq<string>)
    requires d.JObj? && JudgeCompletion.MetricsOf(d).JObj?
    requires forall k :: k in ids ==> HasKey(JudgeCompletion.MetricsOf(d).fields, k)
    ensures JudgeCompletion.FillMetrics(d, ids) == Success(d)
    decreases |ids|
  {
    if ids != [] {
      assert ids[0] in ids;
      assert JudgeCompletion.FillOne(d, ids[0]) == Success(d);
      FillKeepsComplete(d, ids[1..]);
    }
  }
}

=== FILE: extraction.dfy ===
/** Turning the judge's free text into a JSON value: the four regular expressions of
    `evaluate_response`, each written out as the substring search Python's regex engine performs
    for it, tried in order; then a parse of the whole stripped text; then a soft default.
    `json.loads` is the parameter `parse`, None standing for a JSONDecodeError. */
module JudgeExtraction {
  import opened Wrappers
  import Text
  import opened PyJson

  /** The patterns, in the order they are tried:
      r'```json\s*\n(.*?)\n```', r'```json\n(.*?)```', r'```\n(.*?)\n```' and r'\{.*\}',
      all with DOTALL. */
  datatype Pattern = LooseJsonFence | JsonFence | PlainFence | BraceSpan

  const PATTERNS: seq<Pattern> := [LooseJsonFence, JsonFence, PlainFence, BraceSpan]

  /** The text a pattern captures, as the half-open range [start, end) of the reply. */
  datatype Span = Span(start: nat, end: nat)

  predicate InText(s: string, sp: Span) {
    sp.start <= sp.end <= |s|
  }

  /** The length of the longest whitespace run starting at `j`. */
  function SpaceRun(s: string, j: nat): (n: nat)
    requires j <= |s|
    decreases |s| - j
    ensures j + n <= |s|
    ensures forall k :: j <= k < j + n ==> Text.IsSpace(s[k])
    ensures j + n == |s| || !Text.IsSpace(s[j + n])
  {
    if j < |s| && Text.IsSpace(s[j]) then 1 + SpaceRun(s, j + 1) else 0
  }

  /** `\s*\n(.*?)\n```` from `q`, giving the whitespace run `n` characters first and then
      backtracking one character at a time, as the regex engine does with a greedy `\s*`. */
  function LooseFrom(s: string, q: nat, n: nat): (r: Option<Span>)
    requires q + n <= |s|
    ensures r.Some? ==> InText(s, r.value) && q + 1 <= r.value.start <= q + n + 1
    ensures r.Some? ==> s[r.value.start - 1] == '\n' && Text.StartsAt(s, "\n```", r.value.end)
  {
    var fromHere :=
      if q + n < |s| && s[q + n] == '\n' then
        match Text.FindFrom(s, "\n```", q + n + 1)
        case Some(e) => Some(Span(q + n + 1, e))
        case None => None
      else None;
    if fromHere.Some? || n == 0 then fromHere else LooseFrom(s, q, n - 1)
  }

  /** The last index of `c` in `s`. */
  function LastIndexOf(s: string, c: char): (r: Option<nat>)
    ensures r.Some? ==> r.value < |s| && s[r.value] == c && forall k :: r.value < k < |s| ==> s[k] != c
    ensures r.None? ==> forall k :: 0 <= k < |s| ==> s[k] != c
  {
    if s == [] then None
    else if s[|s| - 1] == c then Some(|s| - 1)
    else LastIndexOf(s[..|s| - 1], c)
  }

  /** The span a pattern captures when the regex engine tries it at position `p`: group 1 for
      the fences, the whole match for the brace span. */
  function MatchAt(pat: Pattern, s: string, p: nat): (r: Option<Span>)
    ensures r.Some? ==> InText(s, r.value) && p <= r.value.start
  {
    match pat
    case LooseJsonFence =>
      if Text.StartsAt(s, "```json", p) then LooseFrom(s, p + 7, SpaceRun(s, p + 7)) else None
    case JsonFence =>
      if Text.StartsAt(s, "```json\n", p) then
        match Text.FindFrom(s, "```", p + 8)
        case Some(e) => Some(Span(p + 8, e))
        case None => None
      else None
    case PlainFence =>
      if Text.StartsAt(s, "```\n", p) then
        match Text.FindFrom(s, "\n```", p + 4)
        case Some(e) => Some(Span(p + 4, e))
        case None => None
      else None
    case BraceSpan =>
      if p < |s| && s[p] == '{' then
        match LastIndexOf(s, '}')
        case Some(k) => if p < k then Some(Span(p, k + 1)) else None
        case None => None
      else None
  }

  /** `re.search`: the leftmost position from `from` on where the pattern matches. */
  function Search(pat: Pattern, s: string, from: nat): (r: Option<nat>)
    decreases |s| + 1 - from
    ensures r.Some? ==> from <= r.value && MatchAt(pat, s, r.value).Some?
  {
    if from > |s| then None
    else if MatchAt(pat, s, from).Some? then Some(from)
    else Search(pat, s, from + 1)
  }

  /** `re.search` reports a match at the first position where there is one. */
  lemma {:induction false} SearchFinds(pat: Pattern, s: string, from: nat, p: nat)
    requires from <= p <= |s| && MatchAt(pat, s, p).Some?
    requires forall q :: from <= q < p ==> MatchAt(pat, s, q).None?
    ensures Search(pat, s, from) == Some(p)
    decreases p - from
  {
    if from < p {
      SearchFinds(pat, s, from + 1, p);
    }
  }

  /** `re.search` reports no match when the pattern matches nowhere. */
  lemma {:induction false} SearchMisses(pat: Pattern, s: string, from: nat)
    requires forall q :: from <= q <= |s| ==> MatchAt(pat, s, q).None?
    ensures Search(pat, s, from).None?
    decreases |s| + 1 - from
  {
    if from <= |s| {
      SearchMisses(pat, s, from + 1);
    }
  }

  /** The text a pattern captures from the whole reply, if it matches at all. */
  function Capture(pat: Pattern, s: string): (r: Option<string>)
  {
    match Search(pat, s, 0)
    case None => None
    case Some(p) =>
      var sp := MatchAt(pat, s, p).value;
      Some(s[sp.start..sp.end])
  }

  /** One pass of the loop body: the pattern's capture, stripped and parsed.  None when the
      pattern does not match or the capture does not parse. */
  function Attempt(pat: Pattern, s: string, parse: string -> Option<Json>): Option<Json> {
    match Capture(pat, s)
    case None => None
    case Some(c) => parse(Text.Strip(c))
  }

  /** What each pattern's pass would give, in the order they are tried. */
  function Attempts(s: string, parse: string -> Option<Json>): (r: seq<Option<Json>>)
    ensures |r| == |PATTERNS|
    ensures forall j :: 0 <= j < |PATTERNS| ==> r[j] == Attempt(PATTERNS[j], s, parse)
  {
    seq(|PATTERNS|, j requires 0 <= j < |PATTERNS| => Attempt(PATTERNS[j], s, parse))
  }

  /** The dictionary the pattern loop leaves from pass `i` on: the first successful parse (the
      loop breaks there, even on a parse to None), else None (JNull). */
  function FirstParsed(attempts: seq<Option<Json>>, i: nat): Json
    requires i <= |attempts|
    decreases |attempts| - i
  {
    if i == |attempts| then JNull
    else match attempts[i]
      case Some(v) => v
      case None => FirstParsed(attempts, i + 1)
  }

  /** The dictionary the pattern loop leaves. */
  function Cascade(s: string, parse: string -> Option<Json>): Json {
    FirstParsed(Attempts(s, parse), 0)
  }

  /** `json.loads(evaluation.strip())`. */
  function WholeParse(s: string, parse: string -> Option<Json>): Option<Json> {
    parse(Text.Strip(s))
  }

  const SOFT_PREFIX: string := "Raw response (first 500 chars): "

  /** The minimal evaluation built when nothing parses: a middling score, no metrics, and the
      head of the reply for the reader. */
  function SoftDefault(s: string): Json {
    JObj([Field("overall_score", JNum(5.0)),
          Field("metrics", JObj([])),
          Field("summary", JStr("Failed to parse complete evaluation")),
          Field("recommendations", JStr(SOFT_PREFIX + (if |s| <= 500 then s else s[..500])))])
  }

  /** What the soft default holds: score 5, an empty `metrics`, the fixed summary, and the first
      500 characters of the reply (all of it when it is shorter). */
  lemma SoftDefaultFields(s: string)
    ensures SoftDefault(s).JObj? && |SoftDefault(s).fields| == 4
    ensures Lookup(SoftDefault(s).fields, "overall_score") == Some(JNum(5.0))
    ensures Lookup(SoftDefault(s).fields, "metrics") == Some(JObj([]))
    ensures Lookup(SoftDefault(s).fields, "summary") == Some(JStr("Failed to parse complete evaluation"))
    ensures Lookup(SoftDefault(s).fields, "recommendations") ==
      Some(JStr(SOFT_PREFIX + if |s| <= 500 then s else s[..500]))
  {
    var fs := SoftDefault(s).fields;
    var t1 := fs[1..];
    var t2 := t1[1..];
    var t3 := t2[1..];
    assert t1[0] == fs[1] && t2[0] == fs[2] && t3 == [fs[3]];
  }

  /** What follows the pattern loop: its dictionary when it found one, else the parse of the
      whole stripped reply, else the soft default.  A parse to JSON `null` is Python's None and
      is passed on. */
  function Fallback(c: Json, s: string, parse: string -> Option<Json>): Json {
    if c != JNull then c
    else match WholeParse(s, parse)
      case Some(v) => v
      case None => SoftDefault(s)
  }

  /** The dictionary recovery hands to completion. */
  function Recover(s: string, parse: string -> Option<Json>): Json {
    Fallback(Cascade(s, parse), s, parse)
  }

  /** The extraction loop: each pattern in turn; a capture that does not parse falls through to
      the next pattern, the first that parses ends the loop. */
  method PatternLoop(s: string, parse: string -> Option<Json>) returns (d: Json)
    ensures d == Cascade(s, parse)
  {
    ghost var attempts := Attempts(s, parse);
    d := JNull;
    var i := 0;
    while i < |PATTERNS|
      invariant i <= |PATTERNS|
      invariant d == JNull && FirstParsed(attempts, 0) == FirstParsed(attempts, i)
    {
      var parsed := Attempt(PATTERNS[i], s, parse);
      if parsed.Some? {
        d := parsed.value;
        break;
      }
      i := i + 1;
    }
  }

  /** The recovery block of `evaluate_response`: the pattern loop, then the fallbacks. */
  method ExtractEvaluation(s: string, parse: string -> Option<Json>) returns (d: Json)
    ensures d == Recover(s, parse)
  {
    d := PatternLoop(s, parse);
    d := Fallback(d, s, parse);
  }

  /** The loop stops at the first pass that parses, whatever follows. */
  lemma {:induction false} FirstParsedIs(attempts: seq<Option<Json>>, k: nat, i: nat)
    requires k <= i < |attempts| && attempts[i].Some?
    requires forall j :: k <= j < i ==> attempts[j].None?
    ensures FirstParsed(attempts, k) == attempts[i].value
    decreases i - k
  {
    if k < i {
      FirstParsedIs(attempts, k + 1, i);
    }
  }

  /** Without a pass that parses the loop leaves None. */
  lemma {:induction false} FirstParsedNone(attempts: seq<Option<Json>>, k: nat)
    requires k <= |attempts|
    requires forall j :: k <= j < |attempts| ==> attempts[j].None?
    ensures FirstParsed(attempts, k) == JNull
    decreases |attempts| - k
  {
    if k < |attempts| {
      FirstParsedNone(attempts, k + 1);
    }
  }

  /** The first pattern, in the fixed order, whose stripped capture parses decides the result;
      a capture that does not parse is passed over. */
  lemma FirstParsedPatternWins(s: string, parse: string -> Option<Json>, i: nat)
    requires i < |PATTERNS|
    requires forall j :: 0 <= j < i ==> Attempts(s, parse)[j].None?
    requires Attempts(s, parse)[i].Some?
    ensures Cascade(s, parse) == Attempts(s, parse)[i].value
  {
    FirstParsedIs(Attempts(s, parse), 0, i);
  }

  /** The whole reply is parsed only when no pattern's capture parsed; when that fails too the
      soft default is the result. */
  lemma NothingCaptured(s: string, parse: string -> Option<Json>)
    requires forall j :: 0 <= j < |PATTERNS| ==> Attempts(s, parse)[j].None?
    ensures WholeParse(s, parse).Some? ==> Recover(s, parse) == WholeParse(s, parse).value
    ensures WholeParse(s, parse).None? ==> Recover(s, parse) == SoftDefault(s)
  {
    FirstParsedNone(Attempts(s, parse), 0);
  }

  /** The raw-object pattern takes everything from the first '{' to the last '}', and matches
      exactly when some '}' follows the first '{'. */
  lemma BraceSpanIsFirstToLast(s: string)
    ensures Capture(BraceSpan, s) ==
      var first := Text.FindFrom(s, "{", 0);
      var last := LastIndexOf(s, '}');
      if first.Some? && last.Some? && first.value < last.value
      then Some(s[first.value..last.value + 1])
      else None
  {
    var first := Text.FindFrom(s, "{", 0);
    var last := LastIndexOf(s, '}');
    forall q | 0 <= q <= |s| && (first.None? || q < first.value)
      ensures MatchAt(BraceSpan, s, q).None?
    {
      assert !Text.StartsAt(s, "{", q);
      assert q < |s| ==> s[q..q + 1] == [s[q]];
    }
    if first.Some? && last.Some? && first.value < last.value {
      assert s[first.value..first.value + 1] == "{";
      SearchFinds(BraceSpan, s, 0, first.value);
    } else {
      if first.Some? {
        assert s[first.value..first.value + 1] == "{";
      }
      SearchMisses(BraceSpan, s, 0);
    }
  }

  /** A fenced pattern cannot match in a reply without a code fence. */
  lemma NoFenceNoMatch(s: string, pat: Pattern)
    requires pat != BraceSpan && !Text.Contains(s, "```")
    ensures Capture(pat, s).None?
  {
    forall q | 0 <= q <= |s|
      ensures MatchAt(pat, s, q).None?
    {
      if Text.StartsAt(s, "```json", q) {
        Text.StartsAtPrefix(s, "```json", "```", q);
        Text.ContainsAt(s, "```", q);
      }
      if Text.StartsAt(s, "```\n", q) {
        Text.StartsAtPrefix(s, "```\n", "```", q);
        Text.ContainsAt(s, "```", q);
      }
    }
    SearchMisses(pat, s, 0);
  }

  /** A reply without a code fence is read from its brace span alone. */
  lemma UnfencedReply(s: string, parse: string -> Option<Json>)
    requires !Text.Contains(s, "```")
    ensures Cascade(s, parse) == Attempt(BraceSpan, s, parse).GetOr(JNull)
  {
    NoFenceNoMatch(s, LooseJsonFence);
    NoFenceNoMatch(s, JsonFence);
    NoFenceNoMatch(s, PlainFence);
    var attempts := Attempts(s, parse);
    assert attempts[0] == Attempt(LooseJsonFence, s, parse) == None;
    assert attempts[1] == Attempt(JsonFence, s, parse) == None;
    assert attempts[2] == Attempt(PlainFence, s, parse) == None;
    assert attempts[3] == Attempt(BraceSpan, s, parse);
    forall j | 0 <= j < 3
      ensures attempts[j].None?
    {
      if j == 0 { } else if j == 1 { } else { }
    }
    if attempts[3].Some? {
      FirstParsedIs(attempts, 0, 3);
    } else {
      FirstParsedNone(attempts, 0);
    }
  }

  /** In a reply that opens with a JSON fence, the first pattern captures the body up to the
      first closing fence. */
  lemma FencedCapture(body: string, rest: string)
    requires body != [] && !Text.IsSpace(body[0]) && !Text.Contains(body, "\n```")
    ensures Capture(LooseJsonFence, "```json\n" + body + "\n```" + rest) == Some(body)
  {
    var s := "```json\n" + body + "\n```" + rest;
    var e := 8 + |body|;
    assert s[..8] == "```json\n";
    assert s[8..e] == body;
    assert s[e..e + 4] == "\n```";
    assert Text.StartsAt(s, "```json", 0) by { assert s[0..7] == "```json"; }
    assert s[7] == '\n' && s[8] == body[0];
    assert SpaceRun(s, 8) == 0;
    assert SpaceRun(s, 7) == 1;
    forall j | 8 <= j < e
      ensures !Text.StartsAt(s, "\n```", j)
    {
      if j + 4 <= e {
        if Text.StartsAt(s, "\n```", j) {
          assert body[j - 8..j - 4] == s[j..j + 4];
          Text.ContainsAt(body, "\n```", j - 8);
        }
      } else {
        assert s[j..j + 4][e - j] == s[e] == '\n';
      }
    }
    Text.FindFromIs(s, "\n```", 8, e);
    assert LooseFrom(s, 7, 0) == Some(Span(8, e));
    assert LooseFrom(s, 7, 1) == Some(Span(8, e));
    assert MatchAt(LooseJsonFence, s, 0) == Some(Span(8, e));
    SearchFinds(LooseJsonFence, s, 0, 0);
  }

  /** The usual reply, a fenced JSON block: its body is what gets parsed, whatever follows the
      closing fence, provided the body starts with a non-blank character and holds no fence. */
  lemma FencedReply(body: string, rest: string, parse: string -> Option<Json>)
    requires body != [] && !Text.IsSpace(body[0]) && !Text.Contains(body, "\n```")
    requires WholeParse(body, parse).Some?
    ensures Cascade("```json\n" + body + "\n```" + rest, parse) == WholeParse(body, parse).value
  {
    var s := "```json\n" + body + "\n```" + rest;
    FencedCapture(body, rest);
    var attempts := Attempts(s, parse);
    assert attempts[0] == Attempt(LooseJsonFence, s, parse) == WholeParse(body, parse);
    FirstParsedIs(attempts, 0, 0);
  }
}

=== FILE: helpers.dfy ===
/** Collection-name generation and the downloadable sample tables. */
module Helpers {
  import opened Text
  import opened Domain
  import Constants

  predicate LowercaseLetters(s: string) {
    forall i :: 0 <= i < |s| ==> 'a' <= s[i] <= 'z'
  }

  const COLLECTION_PREFIX: string := "rag_collection_"

  /** `generate_random_collection_name` with its random draws as parameters: six letters drawn
      from the lowercase alphabet and a number drawn from [1000, 9999]. */
  function CollectionName(letters: string, number: nat): (r: string)
    requires |letters| == 6 && LowercaseLetters(letters) && 1000 <= number <= 9999
    ensures |r| == 26
    ensures StartsWith(r, COLLECTION_PREFIX) && r[15..21] == letters && r[21] == '_'
    ensures forall i :: 22 <= i < 26 ==> IsDigit(r[i])
  {
    FourDigits(number);
    COLLECTION_PREFIX + letters + "_" + NatToString(number)
  }

  /** The draws a generated name was built from: the six letters after the prefix and the
      number after the second underscore. */
  function CollectionDraws(name: string): (string, nat)
    requires |name| == 26 && forall i :: 22 <= i < 26 ==> IsDigit(name[i])
  {
    (name[15..21], DigitsValue(name[22..]))
  }

  /** A name is built from the draws alone, and the draws can be read back from it: two
      different pairs of draws never give the same name. */
  lemma CollectionNameRoundTrip(letters: string, number: nat)
    requires |letters| == 6 && LowercaseLetters(letters) && 1000 <= number <= 9999
    ensures CollectionDraws(CollectionName(letters, number)) == (letters, number)
  {
    var r := CollectionName(letters, number);
    FourDigits(number);
    assert r[22..] == NatToString(number);
    NatToStringRoundTrip(number);
  }

  /** The default collection has the shape of a generated name. */
  lemma DefaultCollectionIsGenerated()
    ensures Constants.DEFAULT_COLLECTION == CollectionName("eerrur", 8415)
  {
    assert NatToString(8415) == "8415" by {
      assert NatToString(8) == "8";
      assert NatToString(84) == NatToString(8) + ['4'];
      assert NatToString(841) == NatToString(84) + ['1'];
    }
  }

  const SAMPLE_EVALUATION_QUESTIONS: seq<string> := [
    "What is the company refund policy?",
    "How do I reset my password?",
    "What are the system requirements for the software?",
    "Can you explain the pricing tiers?",
    "How do I contact customer support?"
  ]

  const SAMPLE_GROUND_TRUTHS: seq<string> := [
    "The company offers a 30-day money-back guarantee on all products. Customers can request a full refund within 30 days of purchase by contacting customer support with their order number.",
    "To reset your password, click on the \"Forgot Password\" link on the login page. Enter your registered email address and follow the instructions sent to your email to create a new password.",
    "The minimum system requirements are: Windows 10 or macOS 10.14, 8GB RAM, 2GHz processor, and 10GB free disk space. For optimal performance, we recommend 16GB RAM and an SSD.",
    "We offer three pricing tiers: Basic ($9/month) with core features, Professional ($29/month) with advanced features and priority support, and Enterprise (custom pricing) with unlimited access and dedicated support.",
    "You can contact customer support via email at support@company.com, through the live chat on our website (available 9 AM - 6 PM EST), or by calling 1-800-XXX-XXXX during business hours."
  ]

  const SAMPLE_CHAT_HISTORIES: seq<string> := [
    "",
    "User: I forgot my login credentials. Assistant: I can help you with that. Are you having trouble with your username or password?",
    "User: I want to install your software. Assistant: Great! I can help you with the installation process.",
    "",
    "User: I have been having issues with my account. Assistant: I understand you're experiencing issues. Could you tell me more about the specific problem?"
  ]

  const SAMPLE_EVALUATION_COLUMNS: seq<string> := ["Question", "Ground truth", "Chat history"]

  /** `create_sample_evaluation_data`: five aligned rows of question, ground truth and chat
      history. */
  function SampleEvaluationData(): (t: Table)
    ensures t.columns == SAMPLE_EVALUATION_COLUMNS && |t.rows| == 5
  {
    Table(SAMPLE_EVALUATION_COLUMNS,
      seq(5, i requires 0 <= i < 5 =>
        map["Question" := Text(SAMPLE_EVALUATION_QUESTIONS[i]),
            "Ground truth" := Text(SAMPLE_GROUND_TRUTHS[i]),
            "Chat history" := Text(SAMPLE_CHAT_HISTORIES[i])]))
  }

  const SAMPLE_QUESTIONS: seq<string> := [
    "What is the company refund policy?",
    "How do I reset my password?",
    "What are the system requirements for the software?",
    "Can you explain the pricing tiers?",
    "How do I contact customer support?"
  ]

  /** `create_sample_questions_data`: the questions alone. */
  function SampleQuestionsData(): (t: Table)
    ensures t.columns == ["Question"] && |t.rows| == 5
  {
    Table(["Question"], seq(5, i requires 0 <= i < 5 => map["Question" := Text(SAMPLE_QUESTIONS[i])]))
  }

  /** Every sample row has all three columns filled; the first and the fourth have no chat
      history and the others have one. */
  lemma SampleEvaluationShape()
    ensures forall i, c :: 0 <= i < 5 && c in SAMPLE_EVALUATION_COLUMNS ==>
      At(SampleEvaluationData(), i, c).Text?
    ensures forall i :: 0 <= i < 5 ==>
      (At(SampleEvaluationData(), i, "Chat history") == Text("") <==> i == 0 || i == 3)
  {
  }

  /** The sample question file lists the sample evaluation questions, in the same order. */
  lemma SampleQuestionsMatch()
    ensures forall i :: 0 <= i < 5 ==>
      At(SampleQuestionsData(), i, "Question") == At(SampleEvaluationData(), i, "Question")
  {
  }
}

=== FILE: judge.dfy ===
/** Choosing the judge client of `evaluate_response` (the key checks and the temperature and
    token-limit conventions per provider) and classifying the errors its invocation raises. */
module JudgeClient {
  import opened Wrappers
  import opened Domain
  import Text
  import Session
  import LlmService

  datatype JudgeKind = ChatAnthropic | ChatOpenAI

  /** Which keyword carries the 4096-token limit. */
  datatype TokenLimit = MaxTokens | MaxCompletionTokens

  /** The arguments the judge's constructor receives; `baseUrl` is None when the constructor is
      called without one. */
  datatype Judge = Judge(kind: JudgeKind, model: string, apiKey: string, baseUrl: Option<string>,
                         temperature: real, tokenLimit: TokenLimit, tokens: nat, maxRetries: nat,
                         timeout: real)

  /** An exception: the name of its class and `str(e)`. */
  datatype Raised = Raised(typeName: string, message: string)

  const JUDGE_TOKENS: nat := 4096
  const JUDGE_RETRIES: nat := 2
  const JUDGE_TIMEOUT: real := 360.0
  const JUDGE_TEMPERATURE: real := 0.1

  function ValueError(message: string): Raised {
    Raised("ValueError", message)
  }

  /** The Claude branch: the key must start with "sk-" (so it is non-empty); the temperature is
      fixed low and the limit goes in `max_tokens`, whatever the model. */
  function ClaudeJudge(model: string, apiKey: string): (r: Result<Judge, Raised>)
    ensures r.Success? <==> Text.StartsWith(apiKey, "sk-")
    ensures r.Success? ==> r.value == Judge(ChatAnthropic, model, apiKey, None, 0.1, MaxTokens, 4096, 2, 360.0)
    ensures r.Failure? ==> r.error == ValueError("Invalid Claude API key format. Key should start with 'sk-'")
  {
    if apiKey == "" || !Text.StartsWith(apiKey, "sk-") then
      Failure(ValueError("Invalid Claude API key format. Key should start with 'sk-'"))
    else
      Success(Judge(ChatAnthropic, model, apiKey, None, JUDGE_TEMPERATURE, MaxTokens,
                    JUDGE_TOKENS, JUDGE_RETRIES, JUDGE_TIMEOUT))
  }

  /** The Custom Models branch given the selected evaluation entry: the entry's key always (its
      `api_key` is always present, so the passed key is never the fallback), the passed URL over
      the entry's, the entry's temperature unless the model name fixes it. */
  function CustomJudge(e: ModelEntry, model: string, baseUrl: string): (r: Result<Judge, Raised>)
    ensures r.Success? <==> e.apiKey != ""
    ensures r.Failure? ==> r.error == ValueError("API key is required for custom evaluation models")
    ensures r.Success? ==>
      && r.value.kind == ChatOpenAI && r.value.model == model && r.value.apiKey == e.apiKey
      && r.value.baseUrl == Some(if baseUrl != "" then baseUrl else e.baseUrl)
      && r.value.tokens == 4096 && r.value.maxRetries == 2 && r.value.timeout == 360.0
    ensures r.Success? && LlmService.IsFixedTemperatureModel(model) ==>
      r.value.temperature == 1.0 && r.value.tokenLimit == MaxCompletionTokens
    ensures r.Success? && !LlmService.IsFixedTemperatureModel(model) ==>
      r.value.temperature == e.TemperatureOr(0.1) && r.value.tokenLimit == MaxTokens
  {
    var temperature := e.TemperatureOr(JUDGE_TEMPERATURE);
    var url := if baseUrl != "" then baseUrl else e.baseUrl;
    if e.apiKey == "" then Failure(ValueError("API key is required for custom evaluation models"))
    else if LlmService.IsFixedTemperatureModel(model) then
      Success(Judge(ChatOpenAI, model, e.apiKey, Some(url), 1.0, MaxCompletionTokens,
                    JUDGE_TOKENS, JUDGE_RETRIES, JUDGE_TIMEOUT))
    else
      Success(Judge(ChatOpenAI, model, e.apiKey, Some(url), temperature, MaxTokens,
                    JUDGE_TOKENS, JUDGE_RETRIES, JUDGE_TIMEOUT))
  }

  /** The OpenAI branch, taken by every provider name other than Claude and Custom Models. */
  function OpenAIJudge(model: string, apiKey: string): (r: Result<Judge, Raised>)
    ensures r.Success? <==> apiKey != ""
    ensures r.Failure? ==> r.error == ValueError("OpenAI API key is required")
    ensures r.Success? ==>
      && r.value.kind == ChatOpenAI && r.value.model == model && r.value.apiKey == apiKey
      && r.value.baseUrl == None
      && r.value.tokens == 4096 && r.value.maxRetries == 2 && r.value.timeout == 360.0
    ensures r.Success? ==>
      if LlmService.IsFixedTemperatureModel(model)
      then r.value.temperature == 1.0 && r.value.tokenLimit == MaxCompletionTokens
      else r.value.temperature == 0.1 && r.value.tokenLimit == MaxTokens
  {
    if apiKey == "" then Failure(ValueError("OpenAI API key is required"))
    else if LlmService.IsFixedTemperatureModel(model) then
      Success(Judge(ChatOpenAI, model, apiKey, None, 1.0, MaxCompletionTokens,
                    JUDGE_TOKENS, JUDGE_RETRIES, JUDGE_TIMEOUT))
    else
      Success(Judge(ChatOpenAI, model, apiKey, None, JUDGE_TEMPERATURE, MaxTokens,
                    JUDGE_TOKENS, JUDGE_RETRIES, JUDGE_TIMEOUT))
  }

  /** The judge a call of `evaluate_response` constructs, or the ValueError it raises first; an
      empty `apiKey` or `baseUrl` stands for None. */
  function ChooseJudge(m: map<Session.Key, Session.Value>, provider: string, model: string,
                       apiKey: string, baseUrl: string): (r: Result<Judge, Raised>)
    ensures provider == "Claude" ==> r == ClaudeJudge(model, apiKey)
    ensures provider == "Custom Models" && Session.Selected(m, Session.SelectedEvaluationModel).None? ==>
      r == Failure(ValueError("No custom evaluation model selected"))
    ensures provider == "Custom Models" && Session.Selected(m, Session.SelectedEvaluationModel).Some? ==>
      r == CustomJudge(Session.Selected(m, Session.SelectedEvaluationModel).value, model, baseUrl)
    ensures provider != "Claude" && provider != "Custom Models" ==> r == OpenAIJudge(model, apiKey)
    ensures r.Success? ==> r.value.model == model
    ensures r.Failure? ==> r.error.typeName == "ValueError"
  {
    if provider == "Claude" then ClaudeJudge(model, apiKey)
    else if provider == "Custom Models" then
      var selected := Session.Selected(m, Session.SelectedEvaluationModel);
      if selected.None? then Failure(ValueError("No custom evaluation model selected"))
      else CustomJudge(selected.value, model, baseUrl)
    else OpenAIJudge(model, apiKey)
  }

  /** For Custom Models the key argument plays no part: the entry's key is used, or the call
      fails, whatever was passed. */
  lemma CustomJudgeIgnoresPassedKey(m: map<Session.Key, Session.Value>, model: string, key1: string,
                                    key2: string, baseUrl: string)
    ensures ChooseJudge(m, "Custom Models", model, key1, baseUrl) ==
            ChooseJudge(m, "Custom Models", model, key2, baseUrl)
  {
  }

  /** Only the models with a fixed temperature get the completion-token keyword, and they get
      temperature 1.0; Claude never does. */
  lemma CompletionTokensIffFixed(m: map<Session.Key, Session.Value>, provider: string, model: string,
                                 apiKey: string, baseUrl: string)
    requires ChooseJudge(m, provider, model, apiKey, baseUrl).Success?
    ensures var j := ChooseJudge(m, provider, model, apiKey, baseUrl).value;
      j.tokenLimit == MaxCompletionTokens <==>
        provider != "Claude" && LlmService.IsFixedTemperatureModel(model)
    ensures var j := ChooseJudge(m, provider, model, apiKey, baseUrl).value;
      j.tokenLimit == MaxCompletionTokens ==> j.temperature == 1.0
  {
  }

  /** The service a classified message names. */
  function ProviderName(provider: string): string {
    if provider == "Claude" then "Claude" else "OpenAI"
  }

  function ConnectionMessage(name: string): string {
    "Failed to connect to " + name + " API. Please check:\n1. Your API key is valid\n"
      + "2. Your network connection\n3. " + name + " API service status"
  }

  function InvalidKeyMessage(name: string): string {
    "Invalid " + name + " API key. Please check your API key."
  }

  const RATE_LIMIT_MESSAGE: string := "Rate limit exceeded. Please wait a moment and try again."

  /** The exception `evaluate_response` raises in place of the one the invocation raised, chosen
      on the lower-cased message, connection first, then the key, then the rate limit; anything
      else is raised again as it is. */
  function ClassifyInvokeError(provider: string, err: Raised): (r: Raised)
    ensures Text.Contains(Text.Lower(err.message), "connection") ==>
      r == Raised("ConnectionError", ConnectionMessage(ProviderName(provider)))
    ensures !Text.Contains(Text.Lower(err.message), "connection") &&
            (Text.Contains(Text.Lower(err.message), "authentication") ||
             Text.Contains(Text.Lower(err.message), "unauthorized")) ==>
      r == ValueError(InvalidKeyMessage(ProviderName(provider)))
    ensures !Text.Contains(Text.Lower(err.message), "connection") &&
            !Text.Contains(Text.Lower(err.message), "authentication") &&
            !Text.Contains(Text.Lower(err.message), "unauthorized") &&
            Text.Contains(Text.Lower(err.message), "rate") ==>
      r == ValueError(RATE_LIMIT_MESSAGE)
    ensures !Text.Contains(Text.Lower(err.message), "connection") &&
            !Text.Contains(Text.Lower(err.message), "authentication") &&
            !Text.Contains(Text.Lower(err.message), "unauthorized") &&
            !Text.Contains(Text.Lower(err.message), "rate") ==>
      r == err
  {
    var lower := Text.Lower(err.message);
    if Text.Contains(lower, "connection") then
      Raised("ConnectionError", ConnectionMessage(ProviderName(provider)))
    else if Text.Contains(lower, "authentication") || Text.Contains(lower, "unauthorized") then
      ValueError(InvalidKeyMessage(ProviderName(provider)))
    else if Text.Contains(lower, "rate") then
      ValueError(RATE_LIMIT_MESSAGE)
    else err
  }
}

=== FILE: llm.dfy ===
/** Choosing the chat client for RAG generation: which client class, and the model, key, base
    URL and temperature it is constructed with. */
module LlmService {
  import opened Wrappers
  import opened Domain
  import Text
  import Session

  datatype ClientKind = ChatOpenAI | ChatGroq | Together

  /** The arguments a chat-client constructor receives; `baseUrl` is None when the constructor
      is called without one (the client's own default endpoint). */
  datatype ChatClient = ChatClient(kind: ClientKind, model: string, apiKey: string,
                                   baseUrl: Option<string>, temperature: real)

  /** Model-name fragments of the families that only accept their default temperature. */
  const FIXED_TEMPERATURE_MARKERS: seq<string> := ["gpt-5", "o1-preview", "o1-mini", "o1"]

  /** `any(m in model_name.lower() for m in FIXED_TEMPERATURE_MARKERS)`. */
  predicate IsFixedTemperatureModel(modelName: string) {
    exists i :: 0 <= i < |FIXED_TEMPERATURE_MARKERS| &&
      Text.Contains(Text.Lower(modelName), FIXED_TEMPERATURE_MARKERS[i])
  }

  /** The two longer "o1" markers add nothing: the test is "contains gpt-5 or o1". */
  lemma FixedTemperatureFamily(modelName: string)
    ensures IsFixedTemperatureModel(modelName) <==>
      Text.Contains(Text.Lower(modelName), "gpt-5") || Text.Contains(Text.Lower(modelName), "o1")
  {
    var lower := Text.Lower(modelName);
    var ms := FIXED_TEMPERATURE_MARKERS;
    if IsFixedTemperatureModel(modelName) {
      var i :| 0 <= i < |ms| && Text.Contains(lower, ms[i]);
      if i == 1 || i == 2 {
        var j := Text.FindFrom(lower, ms[i], 0).value;
        Text.StartsAtPrefix(lower, ms[i], "o1", j);
        Text.ContainsAt(lower, "o1", j);
      }
    }
    if Text.Contains(lower, "gpt-5") {
      assert Text.Contains(lower, ms[0]);
    }
    if Text.Contains(lower, "o1") {
      assert Text.Contains(lower, ms[3]);
    }
  }

  const DEEPINFRA_BASE_URL: string := "https://api.deepinfra.com/v1/openai"

  /** `get_llm_provider(provider, model_name, api_key, temperature)` reading the session store
      `m`; a raised ValueError is a Failure carrying its message. */
  function GetLlmProvider(m: map<Session.Key, Session.Value>, provider: string, modelName: string,
                          apiKey: string, temperature: real): (r: Result<ChatClient, string>)
    ensures r.Success? <==>
      (provider in {"OpenAI", "Groq", "Together AI", "DeepInfra"} ||
       (provider == "Custom Models" && Session.Selected(m, Session.SelectedInferenceModel).Some?))
    // Custom Models: everything comes from the selected entry; only its flag fixes the temperature
    ensures provider == "Custom Models" && r.Success? ==>
      var e := Session.Selected(m, Session.SelectedInferenceModel).value;
      && r.value.kind == ChatOpenAI && r.value.model == e.name && r.value.apiKey == e.apiKey
      && r.value.baseUrl == Some(e.baseUrl)
      && r.value.temperature == (if e.FixedTemperatureOr(false) then 1.0 else e.TemperatureOr(temperature))
    ensures provider == "Custom Models" && r.Failure? ==> r.error == "No custom inference model selected"
    // OpenAI and DeepInfra: the marker test decides the temperature
    ensures provider in {"OpenAI", "DeepInfra"} ==>
      && r.value.kind == ChatOpenAI && r.value.model == modelName && r.value.apiKey == apiKey
      && r.value.temperature == (if IsFixedTemperatureModel(modelName) then 1.0 else temperature)
    ensures provider == "OpenAI" ==> r.value.baseUrl == None
    ensures provider == "DeepInfra" ==>
      r.value.baseUrl == Some(Session.GetStr(m, Session.DeepinfraBaseUrl, DEEPINFRA_BASE_URL))
    // Groq and Together AI pass everything through
    ensures provider in {"Groq", "Together AI"} ==>
      && r.value.kind == (if provider == "Groq" then ChatGroq else Together)
      && r.value.model == modelName && r.value.apiKey == apiKey && r.value.baseUrl == None
      && r.value.temperature == temperature
    ensures r.Failure? && provider != "Custom Models" ==> r.error == "Unsupported provider: " + provider
  {
    if provider == "Custom Models" then
      match Session.Selected(m, Session.SelectedInferenceModel)
      case None => Failure("No custom inference model selected")
      case Some(e) =>
        var finalTemperature := if e.FixedTemperatureOr(false) then 1.0 else e.TemperatureOr(temperature);
        Success(ChatClient(ChatOpenAI, e.name, e.apiKey, Some(e.baseUrl), finalTemperature))
    else if provider == "OpenAI" then
      var t := if IsFixedTemperatureModel(modelName) then 1.0 else temperature;
      Success(ChatClient(ChatOpenAI, modelName, apiKey, None, t))
    else if provider == "Groq" then
      Success(ChatClient(ChatGroq, modelName, apiKey, None, temperature))
    else if provider == "Together AI" then
      Success(ChatClient(Together, modelName, apiKey, None, temperature))
    else if provider == "DeepInfra" then
      var baseUrl := Session.GetStr(m, Session.DeepinfraBaseUrl, DEEPINFRA_BASE_URL);
      var t := if IsFixedTemperatureModel(modelName) then 1.0 else temperature;
      Success(ChatClient(ChatOpenAI, modelName, apiKey, Some(baseUrl), t))
    else
      Failure("Unsupported provider: " + provider)
  }

  /** For a custom entry the arguments' model name and key play no part, and a name such as
      "gpt-5" does not fix the temperature on its own. */
  lemma CustomEntryOverridesArguments(m: map<Session.Key, Session.Value>, model1: string, key1: string,
                                      model2: string, key2: string, temperature: real)
    requires Session.Selected(m, Session.SelectedInferenceModel).Some?
    ensures GetLlmProvider(m, "Custom Models", model1, key1, temperature) ==
            GetLlmProvider(m, "Custom Models", model2, key2, temperature)
  {
  }
}

=== FILE: pyjson.dfy ===
/** The values `json.loads` produces and the few dictionary operations the evaluator applies to
    them, with the exceptions CPython raises when a value has the wrong type.  A JSON object is
    an association list in insertion order, as a Python dict is. */
module PyJson {
  import opened Wrappers
  import Text

  datatype Json =
    | JNull
    | JBool(b: bool)
    | JNum(n: real)
    | JStr(s: string)
    | JArr(items: seq<Json>)
    | JObj(fields: seq<Field>)

  datatype Field = Field(key: string, value: Json)

  /** `type(v).__name__`; JSON numbers with no fractional part are reported as `int`. */
  function TypeName(v: Json): string {
    match v
    case JNull => "NoneType"
    case JBool(_) => "bool"
    case JNum(n) => if n.Floor as real == n then "int" else "float"
    case JStr(_) => "str"
    case JArr(_) => "list"
    case JObj(_) => "dict"
  }

  /** The exceptions the evaluator's dictionary code can raise on a badly shaped value. */
  datatype Fault =
    | KeyError(key: string)                   // d[k] on a dict without k
    | AttributeError(typeName: string, attr: string)  // v.get / v.values on a non-dict
    | NotIterable(typeName: string)           // k in v on a number, bool or None
    | NoItemAssignment(typeName: string)      // v[k] = x on a list or a string
    | BadOperand(left: string, typeName: string)  // total + v in sum() over a non-number
    | NotSubscriptable(typeName: string)      // v[k] on a value that is not a dict

  /** `str(e)` for each fault. */
  function FaultText(f: Fault): string {
    match f
    case KeyError(k) => "'" + k + "'"
    case AttributeError(t, a) => "'" + t + "' object has no attribute '" + a + "'"
    case NotIterable(t) => "argument of type '" + t + "' is not iterable"
    case NoItemAssignment(t) =>
      if t == "list" then "list indices must be integers or slices, not str"
      else "'" + t + "' object does not support item assignment"
    case BadOperand(l, t) => "unsupported operand type(s) for +: '" + l + "' and '" + t + "'"
    case NotSubscriptable(t) =>
      if t == "list" then "list indices must be integers or slices, not str"
      else if t == "str" then "string indices must be integers, not 'str'"
      else "'" + t + "' object is not subscriptable"
  }

  predicate HasKey(fields: seq<Field>, key: string) {
    exists i :: 0 <= i < |fields| && fields[i].key == key
  }

  /** The value stored under `key`. */
  function Lookup(fields: seq<Field>, key: string): (r: Option<Json>)
    ensures r.Some? <==> HasKey(fields, key)
    ensures r.Some? ==> Field(key, r.value) in fields
  {
    if fields == [] then None
    else if fields[0].key == key then Some(fields[0].value)
    else
      var r := Lookup(fields[1..], key);
      assert HasKey(fields[1..], key) ==> HasKey(fields, key) by {
        if HasKey(fields[1..], key) {
          var i :| 0 <= i < |fields[1..]| && fields[1..][i].key == key;
          assert fields[i + 1].key == key;
        }
      }
      r
  }

  /** The value under a key is the one of its first entry. */
  lemma {:induction false} LookupFirst(fields: seq<Field>, i: nat)
    requires i < |fields|
    requires forall j :: 0 <= j < i ==> fields[j].key != fields[i].key
    ensures Lookup(fields, fields[i].key) == Some(fields[i].value)
  {
    if i > 0 {
      LookupFirst(fields[1..], i - 1);
    }
  }

  /** `d[key] = v` on a dict: replaces the value in place, or appends a new entry. */
  function SetField(fields: seq<Field>, key: string, v: Json): (r: seq<Field>)
    ensures Lookup(r, key) == Some(v)
    ensures HasKey(fields, key) ==> |r| == |fields|
  {
    if fields == [] then [Field(key, v)]
    else if fields[0].key == key then [Field(key, v)] + fields[1..]
    else
      var rest := SetField(fields[1..], key, v);
      assert HasKey(fields, key) ==> HasKey(fields[1..], key) by {
        if HasKey(fields, key) {
          var i :| 0 <= i < |fields| && fields[i].key == key;
          assert fields[1..][i - 1].key == key;
        }
      }
      [fields[0]] + rest
  }

  /** Setting one key leaves every other key's value as it was. */
  lemma {:induction false} SetFieldOthers(fields: seq<Field>, key: string, v: Json, k: string)
    requires k != key
    ensures Lookup(SetField(fields, key, v), k) == Lookup(fields, k)
  {
    if fields != [] && fields[0].key != key {
      SetFieldOthers(fields[1..], key, v, k);
    }
  }

  /** A new key goes at the end, after the existing entries in their order. */
  lemma {:induction false} SetFieldAppends(fields: seq<Field>, key: string, v: Json)
    requires Lookup(fields, key).None?
    ensures SetField(fields, key, v) == fields + [Field(key, v)]
  {
    if fields != [] {
      var h, t := fields[0], fields[1..];
      assert fields == [h] + t;
      assert h.key != key && Lookup(t, key).None?;
      SetFieldAppends(t, key, v);
      assert SetField(fields, key, v) == [h] + SetField(t, key, v);
    }
  }

  /** `key in v`: a key test on a dict, membership on a list, a substring test on a string. */
  function PyIn(key: string, v: Json): Result<bool, Fault> {
    match v
    case JObj(fs) => Success(HasKey(fs, key))
    case JArr(items) => Success(JStr(key) in items)
    case JStr(s) => Success(Text.Contains(s, key))
    case _ => Failure(NotIterable(TypeName(v)))
  }

  /** `v.get(key, default)`. */
  function PyGet(v: Json, key: string, default: Json): (r: Result<Json, Fault>)
    ensures r.Success? <==> v.JObj?
    ensures r.Success? ==> r.value == Lookup(v.fields, key).GetOr(default)
  {
    match v
    case JObj(fs) => Success(Lookup(fs, key).GetOr(default))
    case _ => Failure(AttributeError(TypeName(v), "get"))
  }

  /** `d[key]` on a dict. */
  function PySubscript(fields: seq<Field>, key: string): Result<Json, Fault> {
    match Lookup(fields, key)
    case Some(v) => Success(v)
    case None => Failure(KeyError(key))
  }

  /** `v[key]` on any value. */
  function PyGetItem(v: Json, key: string): (r: Result<Json, Fault>)
    ensures r.Success? <==> v.JObj? && HasKey(v.fields, key)
    ensures r.Success? ==> Lookup(v.fields, key) == Some(r.value)
  {
    match v
    case JObj(fs) => PySubscript(fs, key)
    case _ => Failure(NotSubscriptable(TypeName(v)))
  }

  /** `v[key] = x`. */
  function PySetItem(v: Json, key: string, x: Json): Result<Json, Fault> {
    match v
    case JObj(fs) => Success(JObj(SetField(fs, key, x)))
    case _ => Failure(NoItemAssignment(TypeName(v)))
  }

  function FieldValues(fields: seq<Field>): (r: seq<Json>)
    ensures |r| == |fields| && forall i :: 0 <= i < |fields| ==> r[i] == fields[i].value
  {
    if fields == [] then [] else [fields[0].value] + FieldValues(fields[1..])
  }

  /** `v.values()`. */
  function PyValues(v: Json): Result<seq<Json>, Fault> {
    match v
    case JObj(fs) => Success(FieldValues(fs))
    case _ => Failure(AttributeError(TypeName(v), "values"))
  }

  /** The number a value stands for in Python arithmetic (`bool` is an `int`). */
  function NumberOf(v: Json): Option<real> {
    match v
    case JNum(n) => Some(n)
    case JBool(b) => Some(if b then 1.0 else 0.0)
    case _ => None
  }

  /** `sum(values)`: the running total starts as the `int` 0 and becomes a `float` once a
      `float` is added; a non-number raises naming the total's type and its own. */
  function PySum(values: seq<Json>): Result<real, Fault> {
    SumFrom(values, "int")
  }

  /** The rest of a `sum` whose running total has type `totalType`. */
  function SumFrom(values: seq<Json>, totalType: string): Result<real, Fault> {
    if values == [] then Success(0.0)
    else
      var head :- match NumberOf(values[0])
        case Some(n) => Success(n)
        case None => Failure(BadOperand(totalType, TypeName(values[0])));
      var rest :- SumFrom(values[1..], if TypeName(values[0]) == "float" then "float" else totalType);
      Success(head + rest)
  }

  /** `sum` raises exactly when some value is not a number, and then names the first such value
      and the type of the total before it: `float` when an earlier value is a `float`, else `int`. */
  lemma {:induction false} SumFault(values: seq<Json>, totalType: string, i: nat)
    requires i < |values| && NumberOf(values[i]).None?
    requires forall j :: 0 <= j < i ==> NumberOf(values[j]).Some?
    ensures SumFrom(values, totalType) == Failure(BadOperand(
      if exists j :: 0 <= j < i && TypeName(values[j]) == "float" then "float" else totalType,
      TypeName(values[i])))
  {
    if i > 0 {
      var next := if TypeName(values[0]) == "float" then "float" else totalType;
      SumFault(values[1..], next, i - 1);
      assert (exists j :: 0 <= j < i && TypeName(values[j]) == "float") <==>
             (TypeName(values[0]) == "float" || exists j :: 0 <= j < i - 1 && TypeName(values[1..][j]) == "float") by {
        if exists j :: 0 <= j < i && TypeName(values[j]) == "float" {
          var j :| 0 <= j < i && TypeName(values[j]) == "float";
          if j > 0 {
            assert TypeName(values[1..][j - 1]) == "float";
          }
        }
      }
    }
  }

  /** `sum([7.5, "x"])` names the float total: "unsupported operand type(s) for +: 'float' and
      'str'"; `sum([7, "x"])` names an int total. */
  lemma SumFaultTexts()
    ensures PySum([JNum(7.5), JStr("x")]) == Failure(BadOperand("float", "str"))
    ensures FaultText(BadOperand("float", "str")) == "unsupported operand type(s) for +: 'float' and 'str'"
    ensures PySum([JNum(7.0), JStr("x")]) == Failure(BadOperand("int", "str"))
  {
    var withFloat, withInt := [JNum(7.5), JStr("x")], [JNum(7.0), JStr("x")];
    assert TypeName(withFloat[0]) == "float" by {
      assert (7.5).Floor == 7;
    }
    assert TypeName(withInt[0]) == "int" by {
      assert (7.0).Floor == 7;
    }
    SumFault(withFloat, "int", 1);
    SumFault(withInt, "int", 1);
  }
}

=== FILE: rag.dfy ===
/** The conversational retrieval chain: a fresh memory buffer seeded with an earlier
    conversation, a retriever returning `k` chunks, the RAG prompt, and the mapping of a chain
    call (or its exception) to the answer record the tabs read. */
module RagService {
  import opened Wrappers
  import opened Domain
  import Text
  import FormatTemplate
  import Constants
  import PyJson

  datatype Role = Human | Ai
  datatype Message = Message(role: Role, content: string)

  const SEED_PROMPT: string := "Previous conversation context"

  /** `ConversationBufferMemory`: the message list the chain reads as `chat_history`. */
  class ChatMemory {
    var messages: seq<Message>

    constructor()
      ensures messages == []
    {
      messages := [];
    }

    method AddUserMessage(content: string)
      modifies this
      ensures messages == old(messages) + [Message(Human, content)]
    {
      messages := messages + [Message(Human, content)];
    }

    method AddAiMessage(content: string)
      modifies this
      ensures messages == old(messages) + [Message(Ai, content)]
    {
      messages := messages + [Message(Ai, content)];
    }
  }

  /** The messages a new chain's memory starts with for a given earlier conversation. */
  function SeedMessages(chatHistory: string): (r: seq<Message>)
    ensures r == [] || r == [Message(Human, SEED_PROMPT), Message(Ai, chatHistory)]
  {
    if !Text.IsBlank(chatHistory) then [Message(Human, SEED_PROMPT), Message(Ai, chatHistory)] else []
  }

  /** The memory is seeded exactly when the earlier conversation is non-empty after `strip()`. */
  lemma SeededIffStripNonEmpty(chatHistory: string)
    ensures SeedMessages(chatHistory) != [] <==> Text.Strip(chatHistory) != ""
    ensures SeedMessages(chatHistory) != [] ==> SeedMessages(chatHistory)[1].content == chatHistory
  {
    Text.StripEmptyIffBlank(chatHistory);
  }

  /** The configuration a chain is built with; its prompt is always `RagPrompt()`, and the model
      and the vector store are not part of this model. */
  datatype RagChain = RagChain(
    memory: ChatMemory,
    memoryKey: string,
    outputKey: string,
    k: int,
    inputVariables: seq<string>,
    returnSourceDocuments: bool)

  const RAG_INPUT_VARIABLES: seq<string> := ["context", "chat_history", "question"]

  /** The answer prompt every chain is built with. */
  function RagPrompt(): string {
    Constants.RAG_PROMPT_TEMPLATE
  }

  /** `create_rag_chain`; the source's default for `numChunks` is 4. */
  method CreateRagChain(numChunks: int, chatHistory: string) returns (chain: RagChain)
    ensures fresh(chain.memory)
    ensures chain.memory.messages == SeedMessages(chatHistory)
    ensures chain.memoryKey == "chat_history" && chain.outputKey == "answer"
    ensures chain.k == numChunks
    ensures chain.inputVariables == RAG_INPUT_VARIABLES
    ensures chain.returnSourceDocuments
  {
    var memory := new ChatMemory();
    if !Text.IsBlank(chatHistory) {
      memory.AddUserMessage(SEED_PROMPT);
      memory.AddAiMessage(chatHistory);
    }
    chain := RagChain(memory, "chat_history", "answer", numChunks,
                      RAG_INPUT_VARIABLES, true);
  }

  /** The variables the chain declares are exactly the ones a formatter finds in its template. */
  lemma ChainVariablesMatchTemplate()
    ensures FormatTemplate.Fields(RagPrompt()) == Some(RAG_INPUT_VARIABLES)
  {
    Constants.RagTemplateVariables();
  }

  /** What a chain call returns: the `answer` entry and the `source_documents` entry, each
      possibly absent. */
  datatype ChainOutput = ChainOutput(answer: Option<string>, sourceDocuments: Option<seq<Document>>)

  datatype RagResponse = RagResponse(answer: string, sourceDocuments: seq<Document>)

  /** `generate_rag_response` given what the chain call did: returned an output, or raised an
      exception with the given message. */
  function GenerateRagResponse(call: Result<ChainOutput, string>): (r: RagResponse)
    ensures call.Success? && call.value.answer.Some? ==>
      r.answer == call.value.answer.value &&
      r.sourceDocuments == call.value.sourceDocuments.GetOr([])
    ensures call.Failure? ==> r == RagResponse("Error generating response: " + call.error, [])
    ensures call.Success? && call.value.answer.None? ==>
      r == RagResponse("Error generating response: 'answer'", [])
    ensures r.sourceDocuments != [] ==> call.Success? && call.value.sourceDocuments == Some(r.sourceDocuments)
  {
    match call
    case Failure(e) => RagResponse("Error generating response: " + e, [])
    case Success(out) =>
      match out.answer
      case None => RagResponse("Error generating response: " + PyJson.FaultText(PyJson.KeyError("answer")), [])
      case Some(a) => RagResponse(a, out.sourceDocuments.GetOr([]))
  }
}

=== FILE: rag_gen.dfy ===
/** The RAG Generation tab: a sheet of questions is answered row by row by the RAG chain, and
    the questions with their answers are kept as the generation results.  Each row's chain is
    seeded with the row's own chat history, read before the column is cleared for the answers. */
module RagGenTab {
  import opened Wrappers
  import opened Domain
  import Session
  import LlmService
  import RagService
  import EvalDataTab
  import RunEvalTab

  /** What the chain call of a row does, given the client, the seeded memory, the number of
      chunks and the question: return an output or raise with a message. */
  type ChainCall = (LlmService.ChatClient, seq<RagService.Message>, int, string) -> Result<RagService.ChainOutput, string>

  /** The answer of one row: the chain is seeded with the row's earlier conversation and asked
      its question; a failed call becomes an error text. */
  function Answer(llm: LlmService.ChatClient, numChunks: int, call: ChainCall, question: string, history: string)
    : string
  {
    RagService.GenerateRagResponse(call(llm, RagService.SeedMessages(history), numChunks, question)).answer
  }

  /** The text a history cell hands to the chain: a normalised sheet holds text in every cell. */
  function HistoryText(c: Cell): string {
    if c.Text? then c.s else ""
  }

  /** What slicing an empty question cell for the status line raises. */
  const NAN_QUESTION_FAULT := "'float' object is not subscriptable"

  /** A question with the answer generated for it. */
  datatype Answered = Answered(question: string, answer: string)

  /** The answers to the first `n` questions of the normalised sheet `df`, or the message of the
      first row whose question cell is empty (slicing it for the status line raises). */
  function Answers(df: Table, n: nat, llm: LlmService.ChatClient, numChunks: int, call: ChainCall)
    : Result<seq<Answered>, string>
    requires n <= |df.rows|
  {
    if n == 0 then Success([])
    else
      var done :- Answers(df, n - 1, llm, numChunks, call);
      match At(df, n - 1, "Question")
      case NaN => Failure(NAN_QUESTION_FAULT)
      case Text(q) =>
        Success(done + [Answered(q, Answer(llm, numChunks, call, q, HistoryText(At(df, n - 1, EvalDataTab.CHAT_HISTORY))))])
  }

  /** The loop answers every row in order, or stops at the first empty question. */
  lemma {:induction false} AnswersPerRow(df: Table, n: nat, llm: LlmService.ChatClient, numChunks: int, call: ChainCall)
    requires n <= |df.rows|
    ensures Answers(df, n, llm, numChunks, call).Success? <==>
      forall i :: 0 <= i < n ==> At(df, i, "Question").Text?
    ensures Answers(df, n, llm, numChunks, call).Failure? ==>
      Answers(df, n, llm, numChunks, call).error == NAN_QUESTION_FAULT
    ensures Answers(df, n, llm, numChunks, call).Success? ==>
      var qa := Answers(df, n, llm, numChunks, call).value;
      && |qa| == n
      && forall i :: 0 <= i < n ==>
           qa[i] == Answered(At(df, i, "Question").s,
                             Answer(llm, numChunks, call, At(df, i, "Question").s,
                                    HistoryText(At(df, i, EvalDataTab.CHAT_HISTORY))))
  {
    if n > 0 {
      AnswersPerRow(df, n - 1, llm, numChunks, call);
    }
  }

  /** The body of the row loop: a chain seeded with the row's history answers its question. */
  method AnswerRow(llm: LlmService.ChatClient, numChunks: int, call: ChainCall, question: string, history: string)
    returns (answer: string)
    ensures answer == Answer(llm, numChunks, call, question, history)
  {
    var chain := RagService.CreateRagChain(numChunks, history);
    var response := RagService.GenerateRagResponse(call(llm, chain.memory.messages, chain.k, question));
    answer := response.answer;
  }

  /** The row loop over `df.head(n)`: the input histories are read first, the output column is
      cleared, then each row's answer is written into it. */
  method AnswerRows(df: Table, n: nat, llm: LlmService.ChatClient, numChunks: int, call: ChainCall)
    returns (r: Result<seq<Answered>, string>)
    requires n <= |df.rows|
    ensures r == Answers(df, n, llm, numChunks, call)
  {
    var inputHistory := seq(n, i requires 0 <= i < n => HistoryText(At(df, i, EvalDataTab.CHAT_HISTORY)));
    var output := seq(n, i => "");
    var questions: seq<string> := [];
    var raised: Option<string> := None;
    var i := 0;
    while i < n && raised.None?
      decreases n - i, if raised.None? then 1 else 0
      invariant 0 <= i <= n && |output| == n && |questions| == i
      invariant forall j :: 0 <= j < i ==>
        && At(df, j, "Question") == Text(questions[j])
        && output[j] == Answer(llm, numChunks, call, questions[j], inputHistory[j])
      invariant raised.Some? ==> i < n && At(df, i, "Question").NaN? && raised.value == NAN_QUESTION_FAULT
    {
      var question := At(df, i, "Question");
      if question.NaN? {
        raised := Some(NAN_QUESTION_FAULT);
      } else {
        var answer := AnswerRow(llm, numChunks, call, question.s, inputHistory[i]);
        output := output[i := answer];
        questions := questions + [question.s];
        i := i + 1;
      }
    }
    AnswersPerRow(df, n, llm, numChunks, call);
    if raised.Some? {
      assert !At(df, i, "Question").Text?;
      r := Failure(raised.value);
    } else {
      var answered := seq(n, j requires 0 <= j < n => Answered(questions[j], output[j]));
      assert i == n;
      assert Answers(df, n, llm, numChunks, call).Success?;
      assert answered == Answers(df, n, llm, numChunks, call).value;
      r := Success(answered);
    }
  }

  /** The saved results: exactly the Question and Chat history columns, the answer in the
      latter. */
  function OutputTable(qa: seq<Answered>): (t: Table)
    ensures t.columns == ["Question", EvalDataTab.CHAT_HISTORY] && |t.rows| == |qa|
    ensures forall i :: 0 <= i < |qa| ==>
      At(t, i, "Question") == Text(qa[i].question) && At(t, i, EvalDataTab.CHAT_HISTORY) == Text(qa[i].answer)
  {
    Table(["Question", EvalDataTab.CHAT_HISTORY],
      seq(|qa|, i requires 0 <= i < |qa| =>
        map["Question" := Text(qa[i].question), EvalDataTab.CHAT_HISTORY := Text(qa[i].answer)]))
  }

  /** The number of rows among the first `n` with a non-empty answer. */
  function CompletedCount(qa: seq<Answered>, n: nat): (k: nat)
    requires n <= |qa|
    ensures k <= n
    ensures k == n <==> forall i :: 0 <= i < n ==> qa[i].answer != ""
  {
    if n == 0 then 0 else CompletedCount(qa, n - 1) + (if qa[n - 1].answer != "" then 1 else 0)
  }

  /** This tab draws the same question slider as the Run Evaluation tab (`RunEvalTab.OnSlider`),
      starting at ten or the row count. */
  lemma SliderStartOnSlider(rows: nat)
    ensures RunEvalTab.OnSlider(rows, if rows < 10 then rows else 10)
  {
  }

  /** What a press of Generate Answers did. */
  datatype Outcome =
    | NotConnected                      // no vector store: only a warning is drawn
    | NoQuestionColumn(found: seq<string>)
    | EmptySheet                        // the question slider over 1..0 raises: "Error processing file: ..."
    | MissingKey                        // "Please provide LLM API key in the Configuration tab"
    | Raised(message: string)           // "Error processing file: ..."
    | Generated(output: Table, completed: nat)

  /** A press of Generate Answers on store `m` with sheet `t` uploaded and the slider at `slider`. */
  function GenerationOf(m: map<Session.Key, Session.Value>, dockerEnv: bool, t: Table, slider: nat,
                        call: ChainCall): Outcome
    requires RunEvalTab.OnSlider(|t.rows|, slider)
  {
    if !RunEvalTab.RagReady(m) then NotConnected
    else if "Question" !in t.columns then NoQuestionColumn(t.columns)
    else if |t.rows| == 0 then EmptySheet
    else
      var c := Session.LoadConfig(m, dockerEnv);
      if c.apiKey == "" then MissingKey
      else match LlmService.GetLlmProvider(m, c.provider, c.modelName, c.apiKey, c.temperature)
        case Failure(e) => Raised("Error processing file: " + e)
        case Success(llm) =>
          var df := EvalDataTab.WithHistory(t);
          var n := RunEvalTab.NumQuestions(|t.rows|, slider);
          match Answers(df, n, llm, c.numChunks, call)
          case Failure(e) => Raised("Error processing file: " + e)
          case Success(qa) => Generated(OutputTable(qa), CompletedCount(qa, |qa|))
  }

  /** The tab's handler for an uploaded sheet and a press of Generate Answers. */
  method GenerateAnswers(st: Session.SessionState, dockerEnv: bool, t: Table, slider: nat, call: ChainCall)
    returns (outcome: Outcome)
    requires RunEvalTab.OnSlider(|t.rows|, slider)
    modifies st
    ensures outcome == GenerationOf(old(st.entries), dockerEnv, t, slider, call)
    ensures outcome.Generated? ==>
      st.entries == old(st.entries)[Session.RagGenerationResults := Session.VTable(outcome.output)]
    ensures !outcome.Generated? ==> st.entries == old(st.entries)
  {
    var m := st.entries;
    if !RunEvalTab.RagReady(m) {
      return NotConnected;
    }
    if "Question" !in t.columns {
      return NoQuestionColumn(t.columns);
    }
    if |t.rows| == 0 {
      return EmptySheet;
    }
    var df := EvalDataTab.WithHistory(t);
    var n := RunEvalTab.NumQuestions(|t.rows|, slider);
    var c := Session.LoadConfig(m, dockerEnv);
    if c.apiKey == "" {
      return MissingKey;
    }
    var llm := LlmService.GetLlmProvider(m, c.provider, c.modelName, c.apiKey, c.temperature);
    if llm.Failure? {
      return Raised("Error processing file: " + llm.error);
    }
    var answers := AnswerRows(df, n, llm.value, c.numChunks, call);
    if answers.Failure? {
      return Raised("Error processing file: " + answers.error);
    }
    var output := OutputTable(answers.value);
    st.Set(Session.RagGenerationResults, Session.VTable(output));
    outcome := Generated(output, CompletedCount(answers.value, |answers.value|));
  }

  /** A generation happens only with a vector store, a Question column, at least one row and a
      key; it answers the first `RunEvalTab.NumQuestions` rows, each with the answer its chain gave for the
      row's question and the row's own earlier conversation (never the cleared column). */
  lemma GeneratedRows(m: map<Session.Key, Session.Value>, dockerEnv: bool, t: Table, slider: nat,
                      call: ChainCall, i: nat)
    requires RunEvalTab.OnSlider(|t.rows|, slider)
    requires GenerationOf(m, dockerEnv, t, slider, call).Generated?
    ensures RunEvalTab.RagReady(m) && "Question" in t.columns
    ensures var c := Session.LoadConfig(m, dockerEnv);
      && c.apiKey != ""
      && LlmService.GetLlmProvider(m, c.provider, c.modelName, c.apiKey, c.temperature).Success?
    ensures var out := GenerationOf(m, dockerEnv, t, slider, call).output;
      var n := RunEvalTab.NumQuestions(|t.rows|, slider);
      && 1 <= n <= |t.rows|
      && out.columns == ["Question", EvalDataTab.CHAT_HISTORY] && |out.rows| == n
      && (i < n ==>
            var c := Session.LoadConfig(m, dockerEnv);
            var llm := LlmService.GetLlmProvider(m, c.provider, c.modelName, c.apiKey, c.temperature).value;
            && At(t, i, "Question").Text?
            && At(out, i, "Question") == At(t, i, "Question")
            && At(out, i, EvalDataTab.CHAT_HISTORY) ==
                 Text(Answer(llm, c.numChunks, call, At(t, i, "Question").s, EvalDataTab.FilledHistory(t, i))))
  {
    var c := Session.LoadConfig(m, dockerEnv);
    var llm := LlmService.GetLlmProvider(m, c.provider, c.modelName, c.apiKey, c.temperature).value;
    var df := EvalDataTab.WithHistory(t);
    var n := RunEvalTab.NumQuestions(|t.rows|, slider);
    AnswersPerRow(df, n, llm, c.numChunks, call);
    if i < n {
      assert At(df, i, "Question") == At(t, i, "Question");
      assert HistoryText(At(df, i, EvalDataTab.CHAT_HISTORY)) == EvalDataTab.FilledHistory(t, i);
    }
  }

  /** A chain call that raises still leaves a non-empty answer, so the "Completed" tile counts
      that row as completed. */
  lemma FailedCallCountsAsCompleted(llm: LlmService.ChatClient, numChunks: int, call: ChainCall,
                                    question: string, history: string)
    requires call(llm, RagService.SeedMessages(history), numChunks, question).Failure?
    ensures Answer(llm, numChunks, call, question, history) != ""
  {
  }
}

=== FILE: results.dfy ===
/** The Results tab: the stored result log shown sorted on a copy and filtered by a minimum
    overall score, each metric under its rubric display name, and the export that flattens every
    record, in stored order, into one spreadsheet row. */
module ResultsTab {
  import opened Wrappers
  import opened Domain
  import opened PyJson
  import Text
  import Session
  import RunEvalTab

  // ---------------------------------------------------------------------------------------------
  // A stable sort, descending, as `list.sort(key=..., reverse=True)` performs it

  /** `less` is a strict order: irreflexive and transitive. */
  ghost predicate StrictOrder<K(!new)>(less: (K, K) -> bool) {
    && (forall a :: !less(a, a))
    && (forall a, b, c :: less(a, b) && less(b, c) ==> less(a, c))
  }

  /** No element is below a later one. */
  predicate Descending<T, K>(s: seq<T>, key: T -> K, less: (K, K) -> bool) {
    forall i, j :: 0 <= i < j < |s| ==> !less(key(s[i]), key(s[j]))
  }

  /** Places `x` after every element whose key is not below its own. */
  function Insert<T, K>(sorted: seq<T>, x: T, key: T -> K, less: (K, K) -> bool): (r: seq<T>)
    ensures |r| == |sorted| + 1
    ensures multiset(r) == multiset(sorted) + multiset{x}
  {
    if sorted == [] then [x]
    else if !less(key(sorted[0]), key(x)) then
      assert sorted == [sorted[0]] + sorted[1..];
      [sorted[0]] + Insert(sorted[1..], x, key, less)
    else [x] + sorted
  }

  /** The sorted copy: each element inserted in turn, so that among equal keys input order
      stays. */
  function SortDesc<T, K>(s: seq<T>, key: T -> K, less: (K, K) -> bool): (r: seq<T>)
    ensures |r| == |s|
    ensures multiset(r) == multiset(s)
  {
    if s == [] then []
    else
      assert s == s[..|s| - 1] + [s[|s| - 1]];
      Insert(SortDesc(s[..|s| - 1], key, less), s[|s| - 1], key, less)
  }

  lemma {:induction false} InsertDescending<T, K(!new)>(sorted: seq<T>, x: T, key: T -> K, less: (K, K) -> bool)
    requires StrictOrder(less) && Descending(sorted, key, less)
    ensures Descending(Insert(sorted, x, key, less), key, less)
  {
    if sorted != [] {
      var r := Insert(sorted, x, key, less);
      if !less(key(sorted[0]), key(x)) {
        InsertDescending(sorted[1..], x, key, less);
        var rest := Insert(sorted[1..], x, key, less);
        forall j | 1 <= j < |r|
          ensures !less(key(r[0]), key(r[j]))
        {
          assert r[j] == rest[j - 1];
          assert rest[j - 1] in multiset(sorted[1..]) + multiset{x};
          if rest[j - 1] != x {
            var k :| 0 <= k < |sorted[1..]| && sorted[1..][k] == rest[j - 1];
            assert r[j] == sorted[k + 1];
          }
        }
      } else {
        assert forall j :: 0 <= j < |sorted| ==> !less(key(x), key(sorted[j]));
        assert forall j :: 1 <= j < |r| ==> r[j] == sorted[j - 1];
      }
    }
  }

  /** The sorted copy is descending. */
  lemma {:induction false} SortDescending<T, K(!new)>(s: seq<T>, key: T -> K, less: (K, K) -> bool)
    requires StrictOrder(less)
    ensures Descending(SortDesc(s, key, less), key, less)
  {
    if s != [] {
      SortDescending(s[..|s| - 1], key, less);
      InsertDescending(SortDesc(s[..|s| - 1], key, less), s[|s| - 1], key, less);
    }
  }

  /** The elements whose key is `k`, in their order. */
  function WithKey<T, K(==)>(s: seq<T>, key: T -> K, k: K): (r: seq<T>)
    ensures |r| <= |s|
  {
    if s == [] then []
    else (if key(s[0]) == k then [s[0]] else []) + WithKey(s[1..], key, k)
  }

  lemma {:induction false} WithKeyConcat<T, K>(a: seq<T>, b: seq<T>, key: T -> K, k: K)
    ensures WithKey(a + b, key, k) == WithKey(a, key, k) + WithKey(b, key, k)
  {
    if a == [] {
      assert a + b == b;
    } else {
      var h := if key(a[0]) == k then [a[0]] else [];
      calc {
        WithKey(a + b, key, k);
        { assert (a + b)[0] == a[0] && (a + b)[1..] == a[1..] + b; }
        h + WithKey(a[1..] + b, key, k);
        { WithKeyConcat(a[1..], b, key, k); }
        h + (WithKey(a[1..], key, k) + WithKey(b, key, k));
        (h + WithKey(a[1..], key, k)) + WithKey(b, key, k);
      }
    }
  }

  lemma {:induction false} WithKeyNone<T, K>(s: seq<T>, key: T -> K, k: K)
    requires forall j :: 0 <= j < |s| ==> key(s[j]) != k
    ensures WithKey(s, key, k) == []
  {
    if s != [] {
      WithKeyNone(s[1..], key, k);
    }
  }

  lemma {:induction false} InsertWithKey<T, K(!new)>(sorted: seq<T>, x: T, key: T -> K, less: (K, K) -> bool, k: K)
    requires StrictOrder(less) && Descending(sorted, key, less)
    ensures WithKey(Insert(sorted, x, key, less), key, k) ==
            WithKey(sorted, key, k) + (if key(x) == k then [x] else [])
  {
    if sorted != [] {
      var x' := if key(x) == k then [x] else [];
      var head := if key(sorted[0]) == k then [sorted[0]] else [];
      if !less(key(sorted[0]), key(x)) {
        assert Descending(sorted[1..], key, less);
        InsertWithKey(sorted[1..], x, key, less, k);
        calc {
          WithKey(Insert(sorted, x, key, less), key, k);
          head + WithKey(Insert(sorted[1..], x, key, less), key, k);
          head + (WithKey(sorted[1..], key, k) + x');
          WithKey(sorted, key, k) + x';
        }
      } else {
        assert [x][1..] == [];
        WithKeyConcat([x], sorted, key, k);
        if key(x) == k {
          forall j | 0 <= j < |sorted|
            ensures key(sorted[j]) != k
          {
            if j > 0 {
              assert !less(key(sorted[0]), key(sorted[j]));
            }
          }
          WithKeyNone(sorted, key, k);
        }
      }
    }
  }

  /** Stability: the elements sharing a key leave the sort in the order they entered it. */
  lemma {:induction false} SortStable<T, K(!new)>(s: seq<T>, key: T -> K, less: (K, K) -> bool, k: K)
    requires StrictOrder(less)
    ensures WithKey(SortDesc(s, key, less), key, k) == WithKey(s, key, k)
  {
    if s != [] {
      var init, last := s[..|s| - 1], s[|s| - 1];
      var last' := if key(last) == k then [last] else [];
      calc {
        WithKey(SortDesc(s, key, less), key, k);
        WithKey(Insert(SortDesc(init, key, less), last, key, less), key, k);
        { SortDescending(init, key, less);
          InsertWithKey(SortDesc(init, key, less), last, key, less, k); }
        WithKey(SortDesc(init, key, less), key, k) + last';
        { SortStable(init, key, less, k); }
        WithKey(init, key, k) + last';
        { assert WithKey([last], key, k) == last' + WithKey([], key, k);
          WithKeyConcat(init, [last], key, k); }
        WithKey(init + [last], key, k);
        { assert init + [last] == s; }
        WithKey(s, key, k);
      }
    }
  }

  predicate RealLess(a: real, b: real) { a < b }

  /** `<` on scores and on timestamp strings are strict orders. */
  lemma OrdersAreStrict()
    ensures StrictOrder(RealLess)
    ensures StrictOrder(Text.StrLess)
  {
    forall a: string
      ensures !Text.StrLess(a, a)
    {
      Text.StrLessIrreflexive(a);
    }
    forall a: string, b: string, c: string | Text.StrLess(a, b) && Text.StrLess(b, c)
      ensures Text.StrLess(a, c)
    {
      Text.StrLessTransitive(a, b, c);
    }
  }

  // ---------------------------------------------------------------------------------------------
  // The list view

  /** The "Sort by" choices. */
  datatype SortMode = ByOverallScore | ByQuestion | ByTimestamp

  /** A stored record with the overall score the view compares and sorts by. */
  datatype Ranked = Ranked(record: EvalRecord, score: real)

  /** `result['evaluation'].get('overall_score', 0)` as a number; `None` when the evaluation is
      not a dict or the score is not a number, which makes the comparison with the minimum score
      raise. */
  function OverallScore(evaluation: Json): (r: Option<real>)
    ensures r.Some? <==>
      (evaluation.JObj? && NumberOf(Lookup(evaluation.fields, "overall_score").GetOr(JNum(0.0))).Some?)
  {
    match PyGet(evaluation, "overall_score", JNum(0.0))
    case Success(v) => NumberOf(v)
    case Failure(_) => None
  }

  /** Every record with its overall score, or `None` when one of them has none. */
  function Ranks(records: seq<EvalRecord>): (r: Option<seq<Ranked>>)
    ensures r.Some? <==> forall i :: 0 <= i < |records| ==> OverallScore(records[i].evaluation).Some?
    ensures r.Some? ==> |r.value| == |records|
    ensures r.Some? ==>
      forall i :: 0 <= i < |records| ==>
        r.value[i] == Ranked(records[i], OverallScore(records[i].evaluation).value)
  {
    if records == [] then Some([])
    else
      var last := records[|records| - 1];
      match (Ranks(records[..|records| - 1]), OverallScore(last.evaluation))
      case (Some(init), Some(s)) => Some(init + [Ranked(last, s)])
      case _ => None
  }

  function ScoreOf(r: Ranked): real { r.score }

  function TimestampOf(r: Ranked): string { r.record.timestamp }

  /** The sorted copy the view walks through. */
  function Sorted(mode: SortMode, rs: seq<Ranked>): seq<Ranked> {
    match mode
    case ByOverallScore => SortDesc(rs, ScoreOf, RealLess)
    case ByQuestion => rs
    case ByTimestamp => SortDesc(rs, TimestampOf, Text.StrLess)
  }

  /** Sorting reorders the log and nothing else; "Overall Score" puts higher scores first and
      "Timestamp" later timestamps first, equal keys in log order; "Question" keeps log order. */
  lemma SortedProperties(mode: SortMode, rs: seq<Ranked>)
    ensures multiset(Sorted(mode, rs)) == multiset(rs)
    ensures mode == ByQuestion ==> Sorted(mode, rs) == rs
    ensures mode == ByOverallScore ==>
      (forall i, j :: 0 <= i < j < |rs| ==> Sorted(mode, rs)[i].score >= Sorted(mode, rs)[j].score) &&
      (forall s :: WithKey(Sorted(mode, rs), ScoreOf, s) == WithKey(rs, ScoreOf, s))
    ensures mode == ByTimestamp ==>
      (forall i, j :: 0 <= i < j < |rs| ==>
        !Text.StrLess(Sorted(mode, rs)[i].record.timestamp, Sorted(mode, rs)[j].record.timestamp)) &&
      (forall t :: WithKey(Sorted(mode, rs), TimestampOf, t) == WithKey(rs, TimestampOf, t))
  {
    OrdersAreStrict();
    var r := Sorted(mode, rs);
    assert |multiset(r)| == |multiset(rs)|;
    if mode == ByOverallScore {
      SortDescending(rs, ScoreOf, RealLess);
      forall s {
        SortStable(rs, ScoreOf, RealLess, s);
      }
    } else if mode == ByTimestamp {
      SortDescending(rs, TimestampOf, Text.StrLess);
      forall t {
        SortStable(rs, TimestampOf, Text.StrLess, t);
      }
    }
  }

  /** One metric line of an expanded record, and one pair of export columns. */
  datatype MetricLine = MetricLine(name: string, score: Json, explanation: Json)

  /** `all_metrics.get(key, {}).get('name', key)`: the rubric name of a metric id, or the id
      itself when the rubric does not know it. */
  function DisplayName(rubric: seq<Metric>, key: string): (name: string)
    ensures key in Ids(rubric) ==> name == RunEvalTab.Find(rubric, key).value.name
    ensures key !in Ids(rubric) ==> name == key
  {
    match RunEvalTab.Find(rubric, key)
    case Some(m) => m.name
    case None => key
  }

  /** Over the merged rubric, a custom metric's name takes precedence over a built-in one, and an
      id neither knows is shown as it is. */
  lemma MergedDisplayName(base: seq<Metric>, custom: seq<Metric>, key: string)
    ensures RunEvalTab.LastWithId(custom, key).Some? ==>
      DisplayName(RunEvalTab.Merged(base, custom), key) == RunEvalTab.LastWithId(custom, key).value.name
    ensures RunEvalTab.LastWithId(custom, key).None? && RunEvalTab.Find(base, key).Some? ==>
      DisplayName(RunEvalTab.Merged(base, custom), key) == RunEvalTab.Find(base, key).value.name
    ensures key !in Ids(base) && key !in Ids(custom) ==> DisplayName(RunEvalTab.Merged(base, custom), key) == key
  {
    RunEvalTab.MergedFind(base, custom, key);
  }

  /** The lines of the metrics of one evaluation, in dict order. */
  function LinesOf(fields: seq<Field>, rubric: seq<Metric>): (r: Result<seq<MetricLine>, Fault>)
    ensures r.Success? <==> forall i :: 0 <= i < |fields| ==> fields[i].value.JObj?
    ensures r.Success? ==> |r.value| == |fields|
    ensures r.Success? ==>
      forall i :: 0 <= i < |fields| ==>
        r.value[i] == MetricLine(DisplayName(rubric, fields[i].key),
                                 Lookup(fields[i].value.fields, "score").GetOr(JNum(0.0)),
                                 Lookup(fields[i].value.fields, "explanation").GetOr(JStr("")))
  {
    if fields == [] then Success([])
    else
      var f := fields[|fields| - 1];
      var init :- LinesOf(fields[..|fields| - 1], rubric);
      match f.value
      case JObj(d) =>
        var score := Lookup(d, "score").GetOr(JNum(0.0));
        var explanation := Lookup(d, "explanation").GetOr(JStr(""));
        Success(init + [MetricLine(DisplayName(rubric, f.key), score, explanation)])
      case _ => Failure(AttributeError(TypeName(f.value), "get"))
  }

  /** `result['evaluation'].get('metrics', {}).items()` walked into lines. */
  function MetricLines(evaluation: Json, rubric: seq<Metric>): (r: Result<seq<MetricLine>, Fault>)
    ensures !evaluation.JObj? ==> r == Failure(AttributeError(TypeName(evaluation), "get"))
    ensures evaluation.JObj? && !HasKey(evaluation.fields, "metrics") ==> r == Success([])
  {
    var metrics :- PyGet(evaluation, "metrics", JObj([]));
    match metrics
    case JObj(fs) => LinesOf(fs, rubric)
    case _ => Failure(AttributeError(TypeName(metrics), "items"))
  }

  /** The places, in the sorted list, of the records whose overall score reaches the minimum. */
  function Selected(sorted: seq<Ranked>, minScore: real): (r: seq<nat>)
    ensures forall i: nat :: i in r <==> i < |sorted| && sorted[i].score >= minScore
    ensures forall k :: 0 <= k < |r| ==> r[k] < |sorted|
    ensures forall k, l :: 0 <= k < l < |r| ==> r[k] < r[l]
  {
    if sorted == [] then []
    else
      var n := |sorted| - 1;
      var init := Selected(sorted[..n], minScore);
      assert forall i: nat :: i < n ==> sorted[..n][i] == sorted[i];
      if sorted[n].score >= minScore then init + [n] else init
  }

  /** An expanded record: its 1-based place in the sorted list, the record, its overall score and
      its metric lines. */
  datatype Expander = Expander(number: nat, record: EvalRecord, score: real, lines: seq<MetricLine>)

  /** The metric lines of an evaluation under a fixed rubric. */
  function LinesUnder(rubric: seq<Metric>): Json -> Result<seq<MetricLine>, Fault> {
    e => MetricLines(e, rubric)
  }

  /** The expanders of the selected places; `None` when the metric lines of one of them raise. */
  function Expanders(sorted: seq<Ranked>, places: seq<nat>, lines: Json -> Result<seq<MetricLine>, Fault>)
    : (r: Option<seq<Expander>>)
    requires forall k :: 0 <= k < |places| ==> places[k] < |sorted|
    ensures r.Some? <==> forall k :: 0 <= k < |places| ==> lines(sorted[places[k]].record.evaluation).Success?
    ensures r.Some? ==> |r.value| == |places|
    ensures r.Some? ==>
      forall k :: 0 <= k < |places| ==>
        r.value[k] == Expander(places[k] + 1, sorted[places[k]].record, sorted[places[k]].score,
                               lines(sorted[places[k]].record.evaluation).value)
  {
    if places == [] then Some([])
    else
      var i := places[|places| - 1];
      var init :- Expanders(sorted, places[..|places| - 1], lines);
      match lines(sorted[i].record.evaluation)
      case Success(ls) => Some(init + [Expander(i + 1, sorted[i].record, sorted[i].score, ls)])
      case Failure(_) => None
  }

  /** What the tab shows. */
  datatype View =
    | NoResults                  // the "No evaluation results available" notice
    | Raised                     // a record without a comparable score or with malformed metrics
    | Listed(expanders: seq<Expander>)

  /** The tab over the stored log, the chosen sort, the minimum score and the merged rubric. */
  function ViewOf(records: seq<EvalRecord>, mode: SortMode, minScore: real, rubric: seq<Metric>): (v: View)
    ensures v.NoResults? <==> records == []
    ensures records != [] && Ranks(records).None? ==> v.Raised?
  {
    if records == [] then NoResults
    else match Ranks(records)
      case None => Raised
      case Some(rs) =>
        var sorted := Sorted(mode, rs);
        match Expanders(sorted, Selected(sorted, minScore), LinesUnder(rubric))
        case None => Raised
        case Some(es) => Listed(es)
  }

  /** `list.sort` on a copy, modelled as insertion of each element in turn into a sorted list. */
  method InsertionSort<T, K>(s: seq<T>, key: T -> K, less: (K, K) -> bool) returns (r: seq<T>)
    ensures r == SortDesc(s, key, less)
  {
    r := [];
    for i := 0 to |s|
      invariant r == SortDesc(s[..i], key, less)
    {
      assert s[..i + 1][..i] == s[..i];
      r := Insert(r, s[i], key, less);
    }
    assert s[..|s|] == s;
  }

  /** The sorted copy for the chosen mode; the stored log is only read. */
  method SortResults(rs: seq<Ranked>, mode: SortMode) returns (r: seq<Ranked>)
    ensures r == Sorted(mode, rs)
  {
    match mode
    case ByOverallScore => r := InsertionSort(rs, ScoreOf, RealLess);
    case ByQuestion => r := rs;
    case ByTimestamp => r := InsertionSort(rs, TimestampOf, Text.StrLess);
  }

  /** The Results tab over the session store: the merged rubric names the metrics; the store is
      only read, so the result log keeps its order whatever the sort. */
  method ShowResults(st: Session.SessionState, mode: SortMode, minScore: real, base: seq<Metric>)
    returns (view: View)
    requires Session.EvaluationResults in st.entries && st.entries[Session.EvaluationResults].VRecords?
    requires Session.CustomMetrics in st.entries && st.entries[Session.CustomMetrics].VMetrics?
    ensures view == ViewOf(st.entries[Session.EvaluationResults].records, mode, minScore,
                           RunEvalTab.Merged(base, st.entries[Session.CustomMetrics].metrics))
  {
    var records := st.entries[Session.EvaluationResults].records;
    if records == [] {
      return NoResults;
    }
    var rubric := RunEvalTab.MergeRubric(base, st.entries[Session.CustomMetrics].metrics);
    var ranks := Ranks(records);
    if ranks.None? {
      return Raised;
    }
    var sorted := SortResults(ranks.value, mode);
    match Expanders(sorted, Selected(sorted, minScore), LinesUnder(rubric))
    case None => view := Raised;
    case Some(es) => view := Listed(es);
  }

  // ---------------------------------------------------------------------------------------------
  // The export

  /** What the export writes for a sheet cell: its text, or an empty spreadsheet cell (`JNull`,
      as pandas writes None) for NaN. */
  function CellValue(c: Cell): (v: Json)
    ensures v == JNull <==> c.NaN?
    ensures c.Text? ==> v == JStr(c.s)
  {
    match c
    case Text(s) => JStr(s)
    case NaN => JNull
  }

  /** The eight leading columns of an export row, given the overall score. */
  function LeadingColumns(rec: EvalRecord, overall: Json): seq<Field> {
    [Field("Question", JStr(rec.question)),
     Field("Ground Truth", CellValue(rec.groundTruth)),
     Field("Chat History", JStr(rec.chatHistory)),
     Field("Model Response", JStr(rec.response)),
     Field("Overall Score", overall),
     Field("Model", JStr(rec.model)),
     Field("Collection", JStr(rec.collection)),
     Field("Timestamp", JStr(rec.timestamp))]
  }

  /** The leading columns of one record; the evaluation must be a dict for its
      `.get('overall_score', 0)`. */
  function FixedColumns(rec: EvalRecord): (r: Result<seq<Field>, Fault>)
    ensures r.Success? <==> rec.evaluation.JObj?
  {
    var overall :- PyGet(rec.evaluation, "overall_score", JNum(0.0));
    Success(LeadingColumns(rec, overall))
  }

  /** The score and explanation columns of each metric line in turn, written into the row dict. */
  function AddColumns(row: seq<Field>, lines: seq<MetricLine>): seq<Field>
    decreases |lines|
  {
    if lines == [] then row
    else
      var l := lines[|lines| - 1];
      var r := AddColumns(row, lines[..|lines| - 1]);
      SetField(SetField(r, l.name + " Score", l.score), l.name + " Explanation", l.explanation)
  }

  /** The export row of one record. */
  function ExportRow(rec: EvalRecord, rubric: seq<Metric>): Result<seq<Field>, Fault> {
    var fixed :- FixedColumns(rec);
    var lines :- MetricLines(rec.evaluation, rubric);
    Success(AddColumns(fixed, lines))
  }

  function RowUnder(rubric: seq<Metric>): EvalRecord -> Result<seq<Field>, Fault> {
    rec => ExportRow(rec, rubric)
  }

  /** One row per record, in the order of the log, or the fault of the first record that has
      none. */
  function Rows(records: seq<EvalRecord>, row: EvalRecord -> Result<seq<Field>, Fault>)
    : (r: Result<seq<seq<Field>>, Fault>)
    ensures r.Success? <==> forall i :: 0 <= i < |records| ==> row(records[i]).Success?
    ensures r.Success? ==> |r.value| == |records|
    ensures r.Success? ==> forall i :: 0 <= i < |records| ==> r.value[i] == row(records[i]).value
  {
    if records == [] then Success([])
    else
      var init :- Rows(records[..|records| - 1], row);
      var last :- row(records[|records| - 1]);
      Success(init + [last])
  }

  /** Once a prefix of the log has no rows, neither has the whole log, with the same fault. */
  lemma {:induction false} RowsFailureSticks(records: seq<EvalRecord>, row: EvalRecord -> Result<seq<Field>, Fault>, i: nat)
    requires i <= |records| && Rows(records[..i], row).Failure?
    ensures Rows(records, row) == Rows(records[..i], row)
  {
    if i < |records| {
      var init := records[..|records| - 1];
      assert init[..i] == records[..i];
      RowsFailureSticks(init, row, i);
    } else {
      assert records[..i] == records;
    }
  }

  /** Once a prefix of a metrics dict has a malformed entry, so has the whole dict. */
  lemma {:induction false} LinesFailureSticks(fields: seq<Field>, rubric: seq<Metric>, i: nat)
    requires i <= |fields| && LinesOf(fields[..i], rubric).Failure?
    ensures LinesOf(fields, rubric) == LinesOf(fields[..i], rubric)
  {
    if i < |fields| {
      var init := fields[..|fields| - 1];
      assert init[..i] == fields[..i];
      LinesFailureSticks(init, rubric, i);
    } else {
      assert fields[..i] == fields;
    }
  }

  /** A well-formed entry after a well-formed prefix adds its line, and so its two columns. */
  lemma AddLine(fixed: seq<Field>, fs: seq<Field>, rubric: seq<Metric>, i: nat)
    requires i < |fs| && LinesOf(fs[..i], rubric).Success? && fs[i].value.JObj?
    ensures var d := fs[i].value.fields;
      var name := DisplayName(rubric, fs[i].key);
      && LinesOf(fs[..i + 1], rubric).Success?
      && AddColumns(fixed, LinesOf(fs[..i + 1], rubric).value) ==
         SetField(SetField(AddColumns(fixed, LinesOf(fs[..i], rubric).value),
                           name + " Score", Lookup(d, "score").GetOr(JNum(0.0))),
                  name + " Explanation", Lookup(d, "explanation").GetOr(JStr("")))
  {
    assert fs[..i + 1][..i] == fs[..i];
    var ls := LinesOf(fs[..i], rubric).value;
    var d := fs[i].value.fields;
    var l := MetricLine(DisplayName(rubric, fs[i].key), Lookup(d, "score").GetOr(JNum(0.0)),
                        Lookup(d, "explanation").GetOr(JStr("")));
    assert LinesOf(fs[..i + 1], rubric).value == ls + [l];
    assert (ls + [l])[..|ls|] == ls;
  }

  /** The loop over one record's metrics that writes their columns into the row dict `fixed`:
      the row of every line, or the fault of the first malformed entry. */
  method AddMetricColumns(fixed: seq<Field>, fs: seq<Field>, rubric: seq<Metric>)
    returns (r: Result<seq<Field>, Fault>)
    ensures r.Success? <==> LinesOf(fs, rubric).Success?
    ensures r.Success? ==> r.value == AddColumns(fixed, LinesOf(fs, rubric).value)
    ensures r.Failure? ==> r.error == LinesOf(fs, rubric).error
  {
    var row := fixed;
    var i := 0;
    while i < |fs|
      invariant i <= |fs| && LinesOf(fs[..i], rubric).Success?
      invariant row == AddColumns(fixed, LinesOf(fs[..i], rubric).value)
    {
      match fs[i].value
      case JObj(d) =>
        var name := DisplayName(rubric, fs[i].key);
        AddLine(fixed, fs, rubric, i);
        row := SetField(row, name + " Score", Lookup(d, "score").GetOr(JNum(0.0)));
        row := SetField(row, name + " Explanation", Lookup(d, "explanation").GetOr(JStr("")));
        i := i + 1;
      case _ =>
        assert fs[..i + 1][..i] == fs[..i];
        LinesFailureSticks(fs, rubric, i + 1);
        assert fs[..|fs|] == fs;
        return Failure(AttributeError(TypeName(fs[i].value), "get"));
    }
    assert fs[..|fs|] == fs;
    r := Success(row);
  }

  /** The body of the export loop for one record: its leading columns, then its metric columns. */
  method BuildRow(rec: EvalRecord, rubric: seq<Metric>) returns (r: Result<seq<Field>, Fault>)
    ensures r == ExportRow(rec, rubric)
  {
    var fixed := FixedColumns(rec);
    if fixed.Failure? {
      return Failure(fixed.error);
    }
    var metrics := Lookup(rec.evaluation.fields, "metrics").GetOr(JObj([]));
    if !metrics.JObj? {
      return Failure(AttributeError(TypeName(metrics), "items"));
    }
    r := AddMetricColumns(fixed.value, metrics.fields, rubric);
  }

  /** A press of the export button, which is drawn only below a listed view. */
  datatype ExportOutcome =
    | NoButton                                          // no results, or the list raised first
    | Exported(rows: Result<seq<seq<Field>>, Fault>)

  /** The export button: it is drawn after the list, so only for a non-empty log whose list did
      not raise; it then exports one row per stored record, in log order, neither sorted nor
      filtered. */
  method ExportRows(st: Session.SessionState, mode: SortMode, minScore: real, base: seq<Metric>)
    returns (outcome: ExportOutcome)
    requires Session.EvaluationResults in st.entries && st.entries[Session.EvaluationResults].VRecords?
    requires Session.CustomMetrics in st.entries && st.entries[Session.CustomMetrics].VMetrics?
    ensures outcome.NoButton? <==>
      var records := st.entries[Session.EvaluationResults].records;
      records == [] ||
      ViewOf(records, mode, minScore, RunEvalTab.Merged(base, st.entries[Session.CustomMetrics].metrics)).Raised?
    ensures outcome.Exported? ==>
      outcome.rows == Rows(st.entries[Session.EvaluationResults].records,
                           RowUnder(RunEvalTab.Merged(base, st.entries[Session.CustomMetrics].metrics)))
  {
    var view := ShowResults(st, mode, minScore, base);
    if !view.Listed? {
      return NoButton;
    }
    var r := ExportLoop(st, base);
    outcome := Exported(r);
  }

  /** The loop of the export button over the stored log. */
  method ExportLoop(st: Session.SessionState, base: seq<Metric>) returns (r: Result<seq<seq<Field>>, Fault>)
    requires Session.EvaluationResults in st.entries && st.entries[Session.EvaluationResults].VRecords?
    requires Session.CustomMetrics in st.entries && st.entries[Session.CustomMetrics].VMetrics?
    ensures r == Rows(st.entries[Session.EvaluationResults].records,
                      RowUnder(RunEvalTab.Merged(base, st.entries[Session.CustomMetrics].metrics)))
  {
    var records := st.entries[Session.EvaluationResults].records;
    var rubric := RunEvalTab.MergeRubric(base, st.entries[Session.CustomMetrics].metrics);
    r := Success([]);
    var i := 0;
    while i < |records| && r.Success?
      invariant i <= |records|
      invariant r == Rows(records[..i], RowUnder(rubric))
    {
      assert records[..i + 1][..i] == records[..i];
      var row := BuildRow(records[i], rubric);
      assert row == RowUnder(rubric)(records[i]);
      if row.Success? {
        r := Success(r.value + [row.value]);
      } else {
        r := Failure(row.error);
      }
      i := i + 1;
    }
    if r.Failure? {
      RowsFailureSticks(records, RowUnder(rubric), i);
    } else {
      assert records[..|records|] == records;
    }
  }

  /** `c` cannot be the name of a score or an explanation column. */
  predicate NotMetricColumn(c: string) {
    && (|c| < 6 || c[|c| - 6..] != " Score")
    && (|c| < 12 || c[|c| - 12..] != " Explanation")
  }

  lemma MissesMetricColumns(c: string, name: string)
    requires NotMetricColumn(c)
    ensures name + " Score" != c && name + " Explanation" != c
  {
    var sc, ex := name + " Score", name + " Explanation";
    assert sc[|sc| - 6..] == " Score";
    assert ex[|ex| - 12..] == " Explanation";
  }

  /** A score column and an explanation column never share a name, and two score (or two
      explanation) columns share one only for the same display name. */
  lemma ColumnNames(a: string, b: string)
    ensures a + " Score" != b + " Explanation"
    ensures a + " Score" == b + " Score" ==> a == b
    ensures a + " Explanation" == b + " Explanation" ==> a == b
  {
    var sa, eb := a + " Score", b + " Explanation";
    assert sa[|sa| - 1] == 'e' && eb[|eb| - 1] == 'n';
    if a + " Score" == b + " Score" {
      assert a == (a + " Score")[..|a|] && b == (b + " Score")[..|b|];
    }
    if a + " Explanation" == b + " Explanation" {
      assert a == (a + " Explanation")[..|a|] && b == (b + " Explanation")[..|b|];
    }
  }

  /** Writing the metric columns leaves alone every column none of them is named like. */
  lemma {:induction false} AddColumnsKeeps(row: seq<Field>, lines: seq<MetricLine>, c: string)
    requires forall k :: 0 <= k < |lines| ==> lines[k].name + " Score" != c && lines[k].name + " Explanation" != c
    ensures Lookup(AddColumns(row, lines), c) == Lookup(row, c)
    decreases |lines|
  {
    if lines != [] {
      var l := lines[|lines| - 1];
      var init := lines[..|lines| - 1];
      AddColumnsKeeps(row, init, c);
      var r := AddColumns(row, init);
      SetFieldOthers(SetField(r, l.name + " Score", l.score), l.name + " Explanation", l.explanation, c);
      SetFieldOthers(r, l.name + " Score", l.score, c);
    }
  }

  /** A metric's columns hold its score and explanation unless a later metric has the same
      display name. */
  lemma {:induction false} LastLineWins(row: seq<Field>, lines: seq<MetricLine>, k: nat)
    requires k < |lines|
    requires forall l :: k < l < |lines| ==> lines[l].name != lines[k].name
    ensures Lookup(AddColumns(row, lines), lines[k].name + " Score") == Some(lines[k].score)
    ensures Lookup(AddColumns(row, lines), lines[k].name + " Explanation") == Some(lines[k].explanation)
    decreases |lines|
  {
    var l := lines[|lines| - 1];
    var init := lines[..|lines| - 1];
    var r := AddColumns(row, init);
    var n := lines[k].name;
    var r1 := SetField(r, l.name + " Score", l.score);
    assert AddColumns(row, lines) == SetField(r1, l.name + " Explanation", l.explanation);
    ColumnNames(n, l.name);
    ColumnNames(l.name, n);
    if k < |lines| - 1 {
      LastLineWins(row, init, k);
      SetFieldOthers(r, l.name + " Score", l.score, n + " Score");
      SetFieldOthers(r, l.name + " Score", l.score, n + " Explanation");
      SetFieldOthers(r1, l.name + " Explanation", l.explanation, n + " Explanation");
    }
    SetFieldOthers(r1, l.name + " Explanation", l.explanation, n + " Score");
  }

  /** The leading columns other than the overall score are never overwritten by a metric
      column. */
  lemma FixedColumnsKept(rec: EvalRecord, lines: seq<MetricLine>, c: string)
    requires FixedColumns(rec).Success?
    requires c in ["Question", "Ground Truth", "Chat History", "Model Response", "Model", "Collection", "Timestamp"]
    ensures Lookup(AddColumns(FixedColumns(rec).value, lines), c) == Lookup(FixedColumns(rec).value, c)
  {
    assert NotMetricColumn(c);
    forall k | 0 <= k < |lines|
      ensures lines[k].name + " Score" != c && lines[k].name + " Explanation" != c
    {
      MissesMetricColumns(c, lines[k].name);
    }
    AddColumnsKeeps(FixedColumns(rec).value, lines, c);
  }

  /** The leading columns hold the record's fields and the overall score. */
  lemma LeadingColumnValues(rec: EvalRecord, overall: Json)
    ensures var fixed := LeadingColumns(rec, overall);
      && Lookup(fixed, "Question") == Some(JStr(rec.question))
      && Lookup(fixed, "Ground Truth") == Some(CellValue(rec.groundTruth))
      && Lookup(fixed, "Chat History") == Some(JStr(rec.chatHistory))
      && Lookup(fixed, "Model Response") == Some(JStr(rec.response))
      && Lookup(fixed, "Overall Score") == Some(overall)
      && Lookup(fixed, "Model") == Some(JStr(rec.model))
      && Lookup(fixed, "Collection") == Some(JStr(rec.collection))
      && Lookup(fixed, "Timestamp") == Some(JStr(rec.timestamp))
  {
    var fixed := LeadingColumns(rec, overall);
    forall i | 0 <= i < 8
      ensures Lookup(fixed, fixed[i].key) == Some(fixed[i].value)
    {
      PyJson.LookupFirst(fixed, i);
    }
    assert Lookup(fixed, fixed[1].key) == Some(fixed[1].value);
    assert Lookup(fixed, fixed[2].key) == Some(fixed[2].value);
    assert Lookup(fixed, fixed[3].key) == Some(fixed[3].value);
    assert Lookup(fixed, fixed[4].key) == Some(fixed[4].value);
    assert Lookup(fixed, fixed[5].key) == Some(fixed[5].value);
    assert Lookup(fixed, fixed[6].key) == Some(fixed[6].value);
    assert Lookup(fixed, fixed[7].key) == Some(fixed[7].value);
  }

  /** No metric is displayed as "Overall", so the overall score column is not overwritten. */
  lemma OverallKept(fixed: seq<Field>, lines: seq<MetricLine>)
    requires forall k :: 0 <= k < |lines| ==> lines[k].name != "Overall"
    ensures Lookup(AddColumns(fixed, lines), "Overall Score") == Lookup(fixed, "Overall Score")
  {
    forall k | 0 <= k < |lines|
      ensures lines[k].name + " Score" != "Overall Score" && lines[k].name + " Explanation" != "Overall Score"
    {
      ColumnNames(lines[k].name, "Overall");
      ColumnNames("Overall", lines[k].name);
    }
    AddColumnsKeeps(fixed, lines, "Overall Score");
  }

  /** Every export row starts from the record's own fields: question, ground truth, chat history,
      response, model, collection and timestamp are never overwritten by a metric column, and the
      overall score (0 when absent) is kept unless a metric is displayed as "Overall". */
  lemma ExportRowColumns(rec: EvalRecord, rubric: seq<Metric>)
    requires ExportRow(rec, rubric).Success?
    ensures var row := ExportRow(rec, rubric).value;
      && Lookup(row, "Question") == Some(JStr(rec.question))
      && Lookup(row, "Ground Truth") == Some(CellValue(rec.groundTruth))
      && Lookup(row, "Chat History") == Some(JStr(rec.chatHistory))
      && Lookup(row, "Model Response") == Some(JStr(rec.response))
      && Lookup(row, "Model") == Some(JStr(rec.model))
      && Lookup(row, "Collection") == Some(JStr(rec.collection))
      && Lookup(row, "Timestamp") == Some(JStr(rec.timestamp))
    ensures var lines := MetricLines(rec.evaluation, rubric).value;
      (forall k :: 0 <= k < |lines| ==> lines[k].name != "Overall") ==>
        Lookup(ExportRow(rec, rubric).value, "Overall Score") ==
        Some(Lookup(rec.evaluation.fields, "overall_score").GetOr(JNum(0.0)))
  {
    var lines := MetricLines(rec.evaluation, rubric).value;
    var overall := Lookup(rec.evaluation.fields, "overall_score").GetOr(JNum(0.0));
    assert FixedColumns(rec).value == LeadingColumns(rec, overall);
    assert ExportRow(rec, rubric).value == AddColumns(FixedColumns(rec).value, lines);
    LeadingColumnValues(rec, overall);
    FixedColumnsKept(rec, lines, "Question");
    FixedColumnsKept(rec, lines, "Ground Truth");
    FixedColumnsKept(rec, lines, "Chat History");
    FixedColumnsKept(rec, lines, "Model Response");
    FixedColumnsKept(rec, lines, "Model");
    FixedColumnsKept(rec, lines, "Collection");
    FixedColumnsKept(rec, lines, "Timestamp");
    if forall k :: 0 <= k < |lines| ==> lines[k].name != "Overall" {
      OverallKept(FixedColumns(rec).value, lines);
    }
  }
}

=== FILE: run_eval.dfy ===
/** The Run Evaluation tab's Start button: check both keys, merge the custom metrics into the
    built-in rubric, then for each of the first rows of the evaluation data build a chain seeded
    with the row's chat history, answer the question, judge the answer, and finally store the
    records and average every metric over them.  The chain call, the judge's invocation, the
    JSON parser and the clock are parameters. */
module RunEvalTab {
  import opened Wrappers
  import opened Domain
  import opened PyJson
  import Session
  import LlmService
  import RagService
  import JudgeClient
  import JudgeCompletion
  import EvaluationService
  import EvaluationPrompt
  import Constants
  import CustomMetricsTab
  import Text

  // ---------------------------------------------------------------------------------------------
  // The start guard

  /** The error shown instead of a run: None when both the answering key and the judge key are
      set. */
  function StartCheck(c: Session.Config): (r: Option<string>)
    ensures r.None? <==> c.apiKey != "" && c.evalApiKey != ""
    ensures r.Some? ==> Text.Contains(r.value, c.evalProvider)
  {
    if c.apiKey == "" || c.evalApiKey == "" then
      var message := "Please provide both LLM and " + c.evalProvider + " API keys in the Configuration tab";
      Text.ContainsAt(message, c.evalProvider, 28);
      Some(message)
    else None
  }

  // ---------------------------------------------------------------------------------------------
  // The rubric: the built-in metrics with the custom ones written over them by id

  /** `all_metrics[m.id] = {...}` on the rubric dict: an id already there keeps its place and
      takes the new entry, a new id goes at the end. */
  function Upsert(rubric: seq<Metric>, m: Metric): (r: seq<Metric>)
    ensures m.id !in Ids(rubric) ==> r == rubric + [m]
    ensures m.id in Ids(rubric) ==> Ids(r) == Ids(rubric)
  {
    if rubric == [] then [m]
    else if rubric[0].id == m.id then [m] + rubric[1..]
    else
      IdsTail(rubric, m.id);
      IdsPrepend(rubric[0], Upsert(rubric[1..], m));
      IdsPrepend(rubric[0], rubric[1..]);
      assert [rubric[0]] + rubric[1..] == rubric;
      [rubric[0]] + Upsert(rubric[1..], m)
  }

  /** The first entry with a given id: what `all_metrics[id]` reads. */
  function Find(rubric: seq<Metric>, id: string): (r: Option<Metric>)
    ensures r.Some? <==> id in Ids(rubric)
    ensures r.Some? ==> r.value in rubric && r.value.id == id
  {
    if rubric == [] then None
    else if rubric[0].id == id then Some(rubric[0])
    else
      IdsTail(rubric, id);
      Find(rubric[1..], id)
  }

  /** The last entry with a given id. */
  function LastWithId(ms: seq<Metric>, id: string): (r: Option<Metric>)
    ensures r.Some? <==> id in Ids(ms)
    ensures r.Some? ==> r.value in ms && r.value.id == id
  {
    if ms == [] then None
    else if ms[|ms| - 1].id == id then
      assert Ids(ms)[|ms| - 1] == id;
      Some(ms[|ms| - 1])
    else
      var init := ms[..|ms| - 1];
      assert Ids(ms) == Ids(init) + [ms[|ms| - 1].id];
      var r := LastWithId(init, id);
      assert r.Some? ==> r.value in ms by {
        if r.Some? {
          var j :| 0 <= j < |init| && init[j] == r.value;
          assert ms[j] == r.value;
        }
      }
      r
  }

  /** The rubric after writing the custom metrics, in order, over the built-in ones. */
  function Merged(base: seq<Metric>, custom: seq<Metric>): seq<Metric>
    decreases |custom|
  {
    if custom == [] then base
    else Upsert(Merged(base, custom[..|custom| - 1]), custom[|custom| - 1])
  }

  /** Writing one entry changes what its own id reads and nothing else. */
  lemma {:induction false} UpsertFind(rubric: seq<Metric>, m: Metric, k: string)
    ensures Find(Upsert(rubric, m), k) == if k == m.id then Some(m) else Find(rubric, k)
  {
    if rubric != [] && rubric[0].id != m.id {
      UpsertFind(rubric[1..], m, k);
    }
  }

  /** A custom metric decides what its id reads (the last one, when the custom list repeats an
      id); every other id reads the built-in entry. */
  lemma {:induction false} MergedFind(base: seq<Metric>, custom: seq<Metric>, k: string)
    ensures Find(Merged(base, custom), k) ==
      match LastWithId(custom, k)
      case Some(c) => Some(c)
      case None => Find(base, k)
    decreases |custom|
  {
    if custom != [] {
      var init := custom[..|custom| - 1];
      MergedFind(base, init, k);
      UpsertFind(Merged(base, init), custom[|custom| - 1], k);
    }
  }

  /** The merged rubric holds exactly the built-in and the custom ids. */
  lemma MergedIds(base: seq<Metric>, custom: seq<Metric>, k: string)
    ensures k in Ids(Merged(base, custom)) <==> k in Ids(base) || k in Ids(custom)
  {
    MergedFind(base, custom, k);
  }

  /** The built-in ids keep their places at the head of the merged rubric. */
  lemma {:induction false} MergedKeepsBaseOrder(base: seq<Metric>, custom: seq<Metric>)
    ensures |base| <= |Merged(base, custom)|
    ensures Ids(Merged(base, custom))[..|base|] == Ids(base)
    decreases |custom|
  {
    if custom != [] {
      var init := custom[..|custom| - 1];
      var c := custom[|custom| - 1];
      MergedKeepsBaseOrder(base, init);
      var prev := Merged(base, init);
      if c.id !in Ids(prev) {
        assert Ids(prev + [c])[..|prev|] == Ids(prev);
        assert Ids(prev + [c])[..|base|] == Ids(prev)[..|base|];
      }
    }
  }

  lemma UpsertKeepsDistinct(rubric: seq<Metric>, m: Metric)
    requires DistinctIds(rubric)
    ensures DistinctIds(Upsert(rubric, m))
  {
    var r := Upsert(rubric, m);
    if m.id in Ids(rubric) {
      forall i, j | 0 <= i < j < |r|
        ensures r[i].id != r[j].id
      {
        assert r[i].id == Ids(r)[i] == Ids(rubric)[i];
        assert r[j].id == Ids(r)[j] == Ids(rubric)[j];
      }
    } else {
      forall i, j | 0 <= i < j < |r|
        ensures r[i].id != r[j].id
      {
        if j == |rubric| {
          assert r[i].id == Ids(rubric)[i];
        }
      }
    }
  }

  /** Merging never makes an id appear twice. */
  lemma {:induction false} MergedKeepsDistinct(base: seq<Metric>, custom: seq<Metric>)
    requires DistinctIds(base)
    ensures DistinctIds(Merged(base, custom))
    decreases |custom|
  {
    if custom != [] {
      MergedKeepsDistinct(base, custom[..|custom| - 1]);
      UpsertKeepsDistinct(Merged(base, custom[..|custom| - 1]), custom[|custom| - 1]);
    }
  }

  /** The custom-metric loop: `all_metrics = DEFAULT_METRICS.copy()` and one write per custom
      metric. */
  method MergeRubric(base: seq<Metric>, custom: seq<Metric>) returns (rubric: seq<Metric>)
    ensures rubric == Merged(base, custom)
  {
    rubric := base;
    for i := 0 to |custom|
      invariant rubric == Merged(base, custom[..i])
    {
      assert custom[..i + 1][..i] == custom[..i];
      rubric := Upsert(rubric, custom[i]);
    }
    assert custom[..|custom|] == custom;
  }

  function IdSet(ms: seq<Metric>): set<string> {
    set i | 0 <= i < |ms| :: ms[i].id
  }

  /** Distinct ids: as many ids as entries. */
  lemma {:induction false} DistinctIdCount(ms: seq<Metric>)
    requires DistinctIds(ms)
    ensures |IdSet(ms)| == |ms|
  {
    if ms != [] {
      var init := ms[..|ms| - 1];
      DistinctIdCount(init);
      assert IdSet(ms) == IdSet(init) + {ms[|ms| - 1].id} by {
        forall k | k in IdSet(ms)
          ensures k in IdSet(init) + {ms[|ms| - 1].id}
        {
          var i :| 0 <= i < |ms| && ms[i].id == k;
          if i < |ms| - 1 {
            assert init[i].id == k;
          }
        }
        forall k | k in IdSet(init)
          ensures k in IdSet(ms)
        {
          var i :| 0 <= i < |init| && init[i].id == k;
          assert ms[i].id == k;
        }
      }
      assert ms[|ms| - 1].id !in IdSet(init);
    }
  }

  lemma IdSetIsIds(ms: seq<Metric>, k: string)
    ensures k in IdSet(ms) <==> k in Ids(ms)
  {
    if k in IdSet(ms) {
      var i :| 0 <= i < |ms| && ms[i].id == k;
      assert Ids(ms)[i] == k;
    }
  }

  /** The number of metrics a run grades: the number of distinct ids among the built-in and the
      custom metrics. */
  function TotalMetrics(base: seq<Metric>, custom: seq<Metric>): (n: nat)
    requires DistinctIds(base)
    ensures n == |IdSet(base) + IdSet(custom)|
  {
    var merged := Merged(base, custom);
    MergedKeepsDistinct(base, custom);
    DistinctIdCount(merged);
    assert IdSet(merged) == IdSet(base) + IdSet(custom) by {
      forall k
        ensures k in IdSet(merged) <==> k in IdSet(base) + IdSet(custom)
      {
        IdSetIsIds(merged, k);
        IdSetIsIds(base, k);
        IdSetIsIds(custom, k);
        MergedIds(base, custom, k);
      }
    }
    |merged|
  }

  /** The "Total Metrics" line of the configuration summary as written: built-in count plus
      custom count. */
  function DisplayedTotal(base: seq<Metric>, custom: seq<Metric>): nat {
    |base| + |custom|
  }

  /** A custom metric whose id is a built-in one replaces that entry, so the summary counts one
      metric more than a run grades. */
  lemma DisplayedTotalOvercounts(base: seq<Metric>, c: Metric)
    requires DistinctIds(base) && c.id in Ids(base)
    ensures DisplayedTotal(base, [c]) == TotalMetrics(base, [c]) + 1
  {
    assert [c][..0] == [];
    assert Merged(base, [c]) == Upsert(base, c);
  }

  /** The custom tab accepts a metric named "Correctness" (only custom ids are checked), and
      then the summary shows nine metrics while a run grades eight. */
  lemma CorrectnessOvercount(description: string)
    requires description != ""
    ensures var custom := CustomMetricsTab.AfterAdd([], "Correctness", description);
      DisplayedTotal(Constants.DEFAULT_METRICS, custom) == 9 &&
      TotalMetrics(Constants.DEFAULT_METRICS, custom) == 8
  {
    Constants.DefaultMetricsShape();
    CustomMetricsTab.BuiltInIdsNotChecked([], description);
    var c := Metric("correctness", "Correctness", description);
    assert Ids(Constants.DEFAULT_METRICS)[2] == "correctness";
    DisplayedTotalOvercounts(Constants.DEFAULT_METRICS, c);
  }

  // ---------------------------------------------------------------------------------------------
  // One row of the evaluation data

  /** What a row supplies to a run. */
  datatype RowInput = RowInput(question: string, groundTruth: Cell, chatHistory: string)

  /** Reading row `i`: `row['Question']`, `row['Ground truth']` and `row.get('Chat history', '')`.
      An empty question cell fails when the progress line slices it, and an empty chat-history
      cell when the chain strips it.  The ground-truth cell is kept as it is; an empty one is
      NaN, which the prompt shows as "nan". */
  function ReadRow(t: Table, i: nat): (r: Result<RowInput, string>)
    requires i < |t.rows|
    ensures r.Success? <==>
      At(t, i, "Question").Text? && ("Chat history" in t.columns ==> At(t, i, "Chat history").Text?)
    ensures r.Success? ==>
      && r.value.question == At(t, i, "Question").s
      && r.value.groundTruth == At(t, i, "Ground truth")
      && r.value.chatHistory == (if "Chat history" in t.columns then At(t, i, "Chat history").s else "")
  {
    match At(t, i, "Question")
    case NaN => Failure("'float' object is not subscriptable")
    case Text(q) =>
      var history := if "Chat history" in t.columns then At(t, i, "Chat history") else Text("");
      match history
      case NaN => Failure("'float' object has no attribute 'strip'")
      case Text(h) => Success(RowInput(q, At(t, i, "Ground truth"), h))
  }

  /** The services a run calls out to. */
  datatype Services = Services(
    chainCall: (LlmService.ChatClient, seq<RagService.Message>, int, string) -> Result<RagService.ChainOutput, string>,
    invoke: (JudgeClient.Judge, string) -> Result<string, JudgeClient.Raised>,
    parse: string -> Option<Json>,
    clock: nat -> string)

  /** The base URL passed to the judge: the selected evaluation entry's, for Custom Models. */
  function EvalBaseUrl(m: map<Session.Key, Session.Value>, c: Session.Config): string {
    var selected := Session.Selected(m, Session.SelectedEvaluationModel);
    if c.evalProvider == "Custom Models" && selected.Some? then selected.value.baseUrl else ""
  }

  /** The arguments of `evaluate_response` that change from row to row. */
  datatype Grading = Grading(question: string, response: string, groundTruth: string,
                             chunks: seq<string>, chatHistory: string)

  /** `evaluate_response` with the arguments a run fixes: the store, the rubric, the judge
      settings of the configuration and the grading texts. */
  function Grader(m: map<Session.Key, Session.Value>, c: Session.Config, rubric: seq<Metric>,
                  texts: EvaluationPrompt.PromptTexts, env: Services): Grading -> Json
  {
    (g: Grading) =>
      EvaluationService.Evaluate(m, texts, g.question, g.response, g.groundTruth, g.chunks, rubric,
                                 g.chatHistory, c.evalProvider, c.evalModel, c.evalApiKey,
                                 EvalBaseUrl(m, c), env.invoke, env.parse)
  }

  /** What every row of a run shares: the answering client, the number of chunks to retrieve,
      the model label and collection the records carry, and the judge. */
  datatype RunSettings = RunSettings(llm: LlmService.ChatClient, numChunks: int, model: string,
                                     collection: string, grade: Grading -> Json)

  function Settings(m: map<Session.Key, Session.Value>, c: Session.Config, llm: LlmService.ChatClient,
                    rubric: seq<Metric>, texts: EvaluationPrompt.PromptTexts, env: Services): RunSettings
  {
    RunSettings(llm, c.numChunks, c.provider + " - " + c.modelName,
                Session.GetStr(m, Session.ActiveCollection, ""), Grader(m, c, rubric, texts, env))
  }

  /** The record of one row: the chain is seeded with the row's chat history and asked the
      question, and the answer is judged. */
  function RowRecord(s: RunSettings, row: RowInput, i: nat, env: Services): EvalRecord {
    var rag := RagService.GenerateRagResponse(
      env.chainCall(s.llm, RagService.SeedMessages(row.chatHistory), s.numChunks, row.question));
    var chunks := PageContents(rag.sourceDocuments);
    EvalRecord(row.question, row.groundTruth, row.chatHistory, rag.answer, chunks,
               s.grade(Grading(row.question, rag.answer, CellText(row.groundTruth), chunks, row.chatHistory)),
               s.model, s.collection, env.clock(i))
  }

  /** `RowRecord` with a run's settings fixed. */
  function RowFn(s: RunSettings, env: Services): (RowInput, nat) -> EvalRecord {
    (row: RowInput, i: nat) => RowRecord(s, row, i, env)
  }

  /** The records of the first `n` rows, or the message of the first row that raised. */
  function Records(t: Table, n: nat, record: (RowInput, nat) -> EvalRecord): Result<seq<EvalRecord>, string>
    requires n <= |t.rows|
  {
    if n == 0 then Success([])
    else
      var done :- Records(t, n - 1, record);
      var row :- ReadRow(t, n - 1);
      Success(done + [record(row, n - 1)])
  }

  /** A run stores one record per row, in row order, or stops at the first unreadable row. */
  lemma {:induction false} RecordsPerRow(t: Table, n: nat, record: (RowInput, nat) -> EvalRecord)
    requires n <= |t.rows|
    ensures Records(t, n, record).Success? <==> forall i :: 0 <= i < n ==> ReadRow(t, i).Success?
    ensures Records(t, n, record).Success? ==>
      var rs := Records(t, n, record).value;
      |rs| == n && forall i :: 0 <= i < n ==> rs[i] == record(ReadRow(t, i).value, i)
  {
    if n > 0 {
      RecordsPerRow(t, n - 1, record);
    }
  }

  /** Once a row has raised, later rows change nothing. */
  lemma {:induction false} RecordsFailureSticks(t: Table, i: nat, n: nat, record: (RowInput, nat) -> EvalRecord)
    requires i <= n <= |t.rows|
    requires Records(t, i, record).Failure?
    ensures Records(t, n, record) == Records(t, i, record)
    decreases n
  {
    if i < n {
      RecordsFailureSticks(t, i, n - 1, record);
    }
  }

  /** A readable row after readable rows adds its record at the end. */
  lemma RecordsStep(t: Table, i: nat, record: (RowInput, nat) -> EvalRecord, rec: EvalRecord)
    requires i < |t.rows| && Records(t, i, record).Success? && ReadRow(t, i).Success?
    requires rec == record(ReadRow(t, i).value, i)
    ensures Records(t, i + 1, record) == Success(Records(t, i, record).value + [rec])
  {
  }

  /** An unreadable row after readable rows raises its message. */
  lemma RecordsStop(t: Table, i: nat, record: (RowInput, nat) -> EvalRecord)
    requires i < |t.rows| && Records(t, i, record).Success? && ReadRow(t, i).Failure?
    ensures Records(t, i + 1, record) == Failure(ReadRow(t, i).error)
  {
  }

  /** One pass of the row loop: build the chain, answer, judge, assemble the record. */
  method RunRow(s: RunSettings, row: RowInput, i: nat, env: Services) returns (record: EvalRecord)
    ensures record == RowRecord(s, row, i, env)
  {
    var chain := RagService.CreateRagChain(s.numChunks, row.chatHistory);
    var rag := RagService.GenerateRagResponse(env.chainCall(s.llm, chain.memory.messages, chain.k, row.question));
    var chunks := PageContents(rag.sourceDocuments);
    var evaluation := s.grade(Grading(row.question, rag.answer, CellText(row.groundTruth), chunks, row.chatHistory));
    record := EvalRecord(row.question, row.groundTruth, row.chatHistory, rag.answer, chunks, evaluation,
                         s.model, s.collection, env.clock(i));
  }

  /** One pass of the row loop after readable rows: the row read and, when readable, its record
      added. */
  method RowStep(s: RunSettings, t: Table, i: nat, env: Services, records: seq<EvalRecord>)
    returns (r: Result<seq<EvalRecord>, string>)
    requires i < |t.rows| && Records(t, i, RowFn(s, env)) == Success(records)
    ensures r == Records(t, i + 1, RowFn(s, env))
  {
    var row := ReadRow(t, i);
    if row.Failure? {
      RecordsStop(t, i, RowFn(s, env));
      r := Failure(row.error);
    } else {
      var record := RunRow(s, row.value, i, env);
      assert record == RowFn(s, env)(row.value, i);
      RecordsStep(t, i, RowFn(s, env), record);
      r := Success(records + [record]);
    }
  }

  /** The row loop over `df.head(n)`. */
  method RunRows(s: RunSettings, t: Table, n: nat, env: Services) returns (r: Result<seq<EvalRecord>, string>)
    requires n <= |t.rows|
    ensures r == Records(t, n, RowFn(s, env))
  {
    var records: seq<EvalRecord> := [];
    var i := 0;
    while i < n
      invariant 0 <= i <= n
      invariant Records(t, i, RowFn(s, env)) == Success(records)
    {
      var next := RowStep(s, t, i, env, records);
      if next.Failure? {
        RecordsFailureSticks(t, i + 1, n, RowFn(s, env));
        return next;
      }
      records := next.value;
      i := i + 1;
    }
    r := Success(records);
  }

  // ---------------------------------------------------------------------------------------------
  // Average scores

  /** `r['evaluation']['metrics'].get(key, {}).get('score', 0)`; a score that is not a number
      makes the mean raise. */
  function MetricScore(evaluation: Json, key: string): Result<real, Fault> {
    var metrics :- PyGetItem(evaluation, "metrics");
    var entry :- PyGet(metrics, key, JObj([]));
    var score :- PyGet(entry, "score", JNum(0.0));
    match NumberOf(score)
    case Some(x) => Success(x)
    case None => Failure(BadOperand("int", TypeName(score)))
  }

  /** How a record's evaluation yields its score on a metric (`MetricScore` in a run). */
  type Scorer = (Json, string) -> Result<real, Fault>

  /** The scores of one metric over the records, in record order; the first failure raises. */
  function ScoresOf(records: seq<EvalRecord>, key: string, score: Scorer): Result<seq<real>, Fault> {
    if records == [] then Success([])
    else
      var init :- ScoresOf(records[..|records| - 1], key, score);
      var x :- score(records[|records| - 1].evaluation, key);
      Success(init + [x])
  }

  lemma {:induction false} ScoresPerRecord(records: seq<EvalRecord>, key: string, score: Scorer)
    ensures ScoresOf(records, key, score).Success? <==>
      forall i :: 0 <= i < |records| ==> score(records[i].evaluation, key).Success?
    ensures ScoresOf(records, key, score).Success? ==>
      var xs := ScoresOf(records, key, score).value;
      |xs| == |records| && forall i :: 0 <= i < |records| ==> xs[i] == score(records[i].evaluation, key).value
  {
    if records != [] {
      var init := records[..|records| - 1];
      ScoresPerRecord(init, key, score);
      assert forall i :: 0 <= i < |init| ==> init[i] == records[i];
    }
  }

  /** `np.mean(scores) if scores else 0`. */
  function Mean(xs: seq<real>): real {
    if xs == [] then 0.0 else JudgeCompletion.Sum(xs) / |xs| as real
  }

  /** The mean of scores on a scale stays on that scale. */
  lemma MeanWithin(xs: seq<real>, lo: real, hi: real)
    requires xs != [] && forall i :: 0 <= i < |xs| ==> lo <= xs[i] <= hi
    ensures lo <= Mean(xs) <= hi
  {
    JudgeCompletion.SumBounds(xs, lo, hi);
    JudgeCompletion.QuotientBounds(JudgeCompletion.Sum(xs), |xs| as real, lo, hi);
  }

  /** The average of each rubric id over the records, in rubric order. */
  function Averages(records: seq<EvalRecord>, keys: seq<string>, score: Scorer): Result<seq<real>, Fault> {
    if keys == [] then Success([])
    else
      var init :- Averages(records, keys[..|keys| - 1], score);
      var xs :- ScoresOf(records, keys[|keys| - 1], score);
      Success(init + [Mean(xs)])
  }

  /** The average-score loop. */
  method AverageScores(records: seq<EvalRecord>, keys: seq<string>, score: Scorer) returns (r: Result<seq<real>, Fault>)
    ensures r == Averages(records, keys, score)
  {
    var averages: seq<real> := [];
    r := Success([]);
    var j := 0;
    while j < |keys| && r.Success?
      decreases |keys| - j, if r.Success? then 1 else 0
      invariant 0 <= j <= |keys|
      invariant r.Success? ==> r == Success(averages) && Averages(records, keys[..j], score) == r
      invariant r.Failure? ==> Averages(records, keys, score) == r
    {
      assert keys[..j + 1][..j] == keys[..j];
      var scores := ScoresOf(records, keys[j], score);
      if scores.Failure? {
        AveragesFailureSticks(records, keys, j + 1, |keys|, score);
        assert keys[..|keys|] == keys;
        r := Failure(scores.error);
      } else {
        averages := averages + [Mean(scores.value)];
        j := j + 1;
        r := Success(averages);
      }
    }
    assert keys[..|keys|] == keys;
  }

  lemma {:induction false} AveragesFailureSticks(records: seq<EvalRecord>, keys: seq<string>, i: nat, n: nat,
                                                 score: Scorer)
    requires i <= n <= |keys|
    requires Averages(records, keys[..i], score).Failure?
    ensures Averages(records, keys[..n], score) == Averages(records, keys[..i], score)
    decreases n
  {
    if i < n {
      AveragesFailureSticks(records, keys, i, n - 1, score);
      assert keys[..n][..n - 1] == keys[..n - 1];
    }
  }

  /** A metric the judge left out, or an entry without a score, counts as 0. */
  lemma MissingScoreCountsZero(fs: seq<Field>, ms: seq<Field>, key: string)
    requires Lookup(fs, "metrics") == Some(JObj(ms))
    requires !HasKey(ms, key) || (exists es :: Lookup(ms, key) == Some(JObj(es)) && !HasKey(es, "score"))
    ensures MetricScore(JObj(fs), key) == Success(0.0)
  {
  }

  /** An evaluation whose entry for `key` is absent or scores 0 yields 0 for `key`. */
  lemma ZeroScoreFrom(fs: seq<Field>, ms: seq<Field>, key: string)
    requires Lookup(fs, "metrics") == Some(JObj(ms))
    requires Lookup(ms, key).Some? ==>
      Lookup(ms, key).value.JObj? && Lookup(Lookup(ms, key).value.fields, "score") == Some(JNum(0.0))
    ensures MetricScore(JObj(fs), key) == Success(0.0)
  {
  }

  /** A sentinel evaluation scores 0 on every metric, in the rubric or not. */
  lemma SentinelScoresZero(ids: seq<string>, explanation: string, summary: string, recommendations: string,
                           key: string)
    ensures MetricScore(EvaluationService.Sentinel(ids, explanation, summary, recommendations), key) ==
      Success(0.0)
  {
    var e := EvaluationService.Sentinel(ids, explanation, summary, recommendations);
    var zs := EvaluationService.ZeroEntries(ids, explanation);
    EvaluationService.SentinelShape(ids, explanation, summary, recommendations);
    EvaluationService.ZeroEntriesCover(ids, explanation, key);
    assert Lookup(EvaluationService.ZeroEntry(explanation).fields, "score") == Some(JNum(0.0));
    ZeroScoreFrom(e.fields, zs, key);
  }

  /** With every score on the 0-10 scale, every average is too. */
  lemma AveragesWithinScale(records: seq<EvalRecord>, keys: seq<string>, score: Scorer, j: nat)
    requires records != []
    requires forall i, k :: 0 <= i < |records| && k in keys ==>
      score(records[i].evaluation, k).Success? && 0.0 <= score(records[i].evaluation, k).value <= 10.0
    requires Averages(records, keys, score).Success? && j < |keys|
    ensures |Averages(records, keys, score).value| == |keys|
    ensures 0.0 <= Averages(records, keys, score).value[j] <= 10.0
  {
    AveragesPerKey(records, keys, score);
    var k := keys[j];
    assert k in keys;
    ScoresPerRecord(records, k, score);
    var xs := ScoresOf(records, k, score).value;
    forall i | 0 <= i < |xs|
      ensures 0.0 <= xs[i] <= 10.0
    {
      assert xs[i] == score(records[i].evaluation, k).value;
    }
    MeanWithin(xs, 0.0, 10.0);
  }

  /** The averages are the means of each key's scores, one per key. */
  lemma {:induction false} AveragesPerKey(records: seq<EvalRecord>, keys: seq<string>, score: Scorer)
    requires Averages(records, keys, score).Success?
    ensures |Averages(records, keys, score).value| == |keys|
    ensures forall j :: 0 <= j < |keys| ==>
      ScoresOf(records, keys[j], score).Success? &&
      Averages(records, keys, score).value[j] == Mean(ScoresOf(records, keys[j], score).value)
  {
    if keys != [] {
      var init := keys[..|keys| - 1];
      AveragesPerKey(records, init, score);
      assert forall j :: 0 <= j < |init| ==> init[j] == keys[j];
    }
  }

  // ---------------------------------------------------------------------------------------------
  // The Start button

  /** What pressing Start did. */
  datatype RunOutcome =
    | NotReady                       // no vector store or no evaluation data: no Start button
    | MissingKeys(message: string)   // the key check failed
    | EmptySheet                     // the question slider over 1..0 raises before Start is drawn
    | Raised(message: string)        // an exception ended the run before the records were stored
    | Completed(records: seq<EvalRecord>, averages: Result<seq<real>, Fault>)

  /** A vector store is connected. */
  predicate RagReady(m: map<Session.Key, Session.Value>) {
    Session.Vectorstore in m && !m[Session.Vectorstore].VNone?
  }

  /** Evaluation data is loaded (a store that keeps its invariant holds None or a table). */
  predicate EvalReady(m: map<Session.Key, Session.Value>) {
    Session.EvaluationData in m && m[Session.EvaluationData].VTable?
  }

  function CustomMetricsOf(m: map<Session.Key, Session.Value>): seq<Metric> {
    if Session.CustomMetrics in m && m[Session.CustomMetrics].VMetrics? then m[Session.CustomMetrics].metrics
    else []
  }

  /** The number of questions a run takes: one for a single-row sheet, else the slider's
      value. */
  function NumQuestions(rows: nat, slider: nat): nat {
    if rows == 1 then 1 else slider
  }

  /** The question slider runs from 1 to the row count (it is drawn only for two rows or more). */
  predicate OnSlider(rows: nat, slider: nat) {
    rows < 2 || 1 <= slider <= rows
  }

  /** The slider starts at five or the row count. */
  lemma SliderStartOnSlider(rows: nat)
    ensures OnSlider(rows, if rows < 5 then rows else 5)
    ensures rows >= 1 ==> 1 <= NumQuestions(rows, if rows < 5 then rows else 5) <= rows
  {
  }

  /** The slider value of a store whose evaluation data is loaded lies on its slider. */
  predicate SliderFits(m: map<Session.Key, Session.Value>, slider: nat) {
    EvalReady(m) ==> OnSlider(|m[Session.EvaluationData].table.rows|, slider)
  }

  /** `df.head(n)`. */
  function Head(n: nat, rows: nat): nat {
    if n < rows then n else rows
  }

  /** The stages of a press of Start once the data is there: the key check, the rubric, the
      answering client, the rows and the averages. */
  function RunConfigured(m: map<Session.Key, Session.Value>, c: Session.Config, base: seq<Metric>,
                         texts: EvaluationPrompt.PromptTexts, n: nat, env: Services): RunOutcome
    requires EvalReady(m)
  {
    match StartCheck(c)
    case Some(message) => MissingKeys(message)
    case None =>
      var rubric := Merged(base, CustomMetricsOf(m));
      match LlmService.GetLlmProvider(m, c.provider, c.modelName, c.apiKey, c.temperature)
      case Failure(e) => Raised(e)
      case Success(llm) =>
        RunRecords(m[Session.EvaluationData].table, n, Settings(m, c, llm, rubric, texts, env), Ids(rubric), env)
  }

  /** The row loop and the averages of a run. */
  function RunRecords(t: Table, n: nat, s: RunSettings, ids: seq<string>, env: Services): RunOutcome {
    match Records(t, Head(n, |t.rows|), RowFn(s, env))
    case Failure(e) => Raised(e)
    case Success(records) =>
      Completed(records, if records == [] then Success([]) else Averages(records, ids, MetricScore))
  }

  /** A press of Start on store `m`, with rubric base `base`, grading texts `texts` and the slider
      at `slider`.  A sheet without rows never gets a Start button: its slider raises first. */
  function Run(m: map<Session.Key, Session.Value>, dockerEnv: bool, base: seq<Metric>,
               texts: EvaluationPrompt.PromptTexts, slider: nat, env: Services): RunOutcome
    requires SliderFits(m, slider)
  {
    if !(RagReady(m) && EvalReady(m)) then NotReady
    else
      var rows := |m[Session.EvaluationData].table.rows|;
      if rows == 0 then EmptySheet
      else RunConfigured(m, Session.LoadConfig(m, dockerEnv), base, texts, NumQuestions(rows, slider), env)
  }

  /** A run completes only with both keys set and a client for the configured provider. */
  lemma CompletedNeedsKeys(m: map<Session.Key, Session.Value>, dockerEnv: bool, base: seq<Metric>,
                           texts: EvaluationPrompt.PromptTexts, slider: nat, env: Services)
    requires SliderFits(m, slider)
    requires Run(m, dockerEnv, base, texts, slider, env).Completed?
    ensures RagReady(m) && EvalReady(m)
    ensures var c := Session.LoadConfig(m, dockerEnv);
      && c.apiKey != "" && c.evalApiKey != ""
      && LlmService.GetLlmProvider(m, c.provider, c.modelName, c.apiKey, c.temperature).Success?
  {
  }

  /** A completed run evaluated the number of questions the slider asked for, which is at least
      one and at most the sheet's row count; so it stores at least one record. */
  lemma CompletedRecordCount(m: map<Session.Key, Session.Value>, dockerEnv: bool, base: seq<Metric>,
                             texts: EvaluationPrompt.PromptTexts, slider: nat, env: Services)
    requires SliderFits(m, slider)
    requires Run(m, dockerEnv, base, texts, slider, env).Completed?
    ensures EvalReady(m)
    ensures var rows := |m[Session.EvaluationData].table.rows|;
      var records := Run(m, dockerEnv, base, texts, slider, env).records;
      && rows >= 1
      && |records| == NumQuestions(rows, slider)
      && 1 <= |records| <= rows
  {
    var t := m[Session.EvaluationData].table;
    var c := Session.LoadConfig(m, dockerEnv);
    var rubric := Merged(base, CustomMetricsOf(m));
    var llm := LlmService.GetLlmProvider(m, c.provider, c.modelName, c.apiKey, c.temperature).value;
    RecordsOfRun(t, NumQuestions(|t.rows|, slider), Settings(m, c, llm, rubric, texts, env), Ids(rubric), env, 0);
  }

  /** A sheet without rows completes nothing and stores nothing. */
  lemma EmptySheetNeverRuns(m: map<Session.Key, Session.Value>, dockerEnv: bool, base: seq<Metric>,
                            texts: EvaluationPrompt.PromptTexts, slider: nat, env: Services)
    requires RagReady(m) && EvalReady(m) && m[Session.EvaluationData].table.rows == []
    ensures Run(m, dockerEnv, base, texts, slider, env) == EmptySheet
  {
  }

  /** A completed run holds one record per evaluated row, each carrying the answering model's
      label and the collection, and the judge's evaluation of that row's answer. */
  lemma {:induction false} RecordsOfRun(t: Table, n: nat, s: RunSettings, ids: seq<string>, env: Services, i: nat)
    requires RunRecords(t, n, s, ids, env).Completed?
    ensures var rs := RunRecords(t, n, s, ids, env).records;
      && |rs| == Head(n, |t.rows|)
      && (i < |rs| ==>
            && ReadRow(t, i).Success?
            && rs[i] == RowRecord(s, ReadRow(t, i).value, i, env)
            && rs[i].model == s.model && rs[i].collection == s.collection)
  {
    RecordsPerRow(t, Head(n, |t.rows|), RowFn(s, env));
  }

  /** Every evaluation a run stores has an overall score, a summary, recommendations and an
      entry for every metric of the rubric, whatever the judge replied. */
  lemma {:induction false} RowRecordGraded(m: map<Session.Key, Session.Value>, c: Session.Config,
                                           llm: LlmService.ChatClient, rubric: seq<Metric>,
                                           texts: EvaluationPrompt.PromptTexts, env: Services,
                                           row: RowInput, i: nat, k: string)
    requires rubric != [] && k in Ids(rubric)
    ensures var e := RowRecord(Settings(m, c, llm, rubric, texts, env), row, i, env).evaluation;
      && e.JObj?
      && PyIn("overall_score", e) == Success(true)
      && PyIn("summary", e) == Success(true)
      && PyIn("recommendations", e) == Success(true)
      && PyIn(k, JudgeCompletion.MetricsOf(e)) == Success(true)
  {
    var rag := RagService.GenerateRagResponse(
      env.chainCall(llm, RagService.SeedMessages(row.chatHistory), c.numChunks, row.question));
    var chunks := PageContents(rag.sourceDocuments);
    EvaluationService.EvaluateAlwaysComplete(
      m, texts, row.question, rag.answer, CellText(row.groundTruth), chunks, rubric,
      row.chatHistory, c.evalProvider, c.evalModel, c.evalApiKey, EvalBaseUrl(m, c), env.invoke, env.parse, k);
  }

  /** The rubric a run grades against is never empty and holds every built-in and custom id. */
  lemma RunRubric(base: seq<Metric>, custom: seq<Metric>, k: string)
    requires base != [] && (k in Ids(base) || k in Ids(custom))
    ensures Merged(base, custom) != [] && k in Ids(Merged(base, custom))
  {
    MergedIds(base, custom, k);
    MergedKeepsBaseOrder(base, custom);
  }

  /** `render_run_eval_tab`'s Start handler; `base` is the built-in rubric and `texts` the
      grading texts of the evaluation prompt. */
  method StartEvaluation(st: Session.SessionState, dockerEnv: bool, base: seq<Metric>,
                         texts: EvaluationPrompt.PromptTexts, slider: nat, env: Services)
    returns (outcome: RunOutcome)
    requires SliderFits(st.entries, slider)
    modifies st
    ensures outcome == Run(old(st.entries), dockerEnv, base, texts, slider, env)
    ensures outcome.Completed? ==>
      st.entries == old(st.entries)[Session.EvaluationResults := Session.VRecords(outcome.records)]
    ensures !outcome.Completed? ==> st.entries == old(st.entries)
  {
    var m := st.entries;
    if !(RagReady(m) && EvalReady(m)) {
      outcome := NotReady;
    } else if |m[Session.EvaluationData].table.rows| == 0 {
      outcome := EmptySheet;
    } else {
      var t := m[Session.EvaluationData].table;
      var n := NumQuestions(|t.rows|, slider);
      var c := Session.LoadConfig(m, dockerEnv);
      var check := StartCheck(c);
      if check.Some? {
        outcome := MissingKeys(check.value);
      } else {
        var rubric := MergeRubric(base, CustomMetricsOf(m));
        var llm := LlmService.GetLlmProvider(m, c.provider, c.modelName, c.apiKey, c.temperature);
        if llm.Failure? {
          outcome := Raised(llm.error);
        } else {
          var run := RunRows(Settings(m, c, llm.value, rubric, texts, env), t, Head(n, |t.rows|), env);
          if run.Failure? {
            outcome := Raised(run.error);
          } else {
            st.Set(Session.EvaluationResults, Session.VRecords(run.value));
            var averages: Result<seq<real>, Fault> := Success([]);
            if run.value != [] {
              averages := AverageScores(run.value, Ids(rubric), MetricScore);
            }
            outcome := Completed(run.value, averages);
          }
        }
      }
    }
  }
}

=== FILE: sample_templates.dfy ===
/** The two downloadable templates as the tabs that offer them read them back. */
module SampleTemplates {
  import opened Domain
  import Helpers
  import LlmService
  import EvalDataTab
  import RagGenTab

  /** The evaluation template is accepted by the Evaluation Data tab unchanged, with three of
      its five questions carrying a history. */
  lemma SampleEvaluationAccepted()
    ensures EvalDataTab.HasRequiredColumns(Helpers.SampleEvaluationData())
    ensures EvalDataTab.UploadOf(Helpers.SampleEvaluationData()).table == Helpers.SampleEvaluationData()
    ensures EvalDataTab.CountWithHistory(Helpers.SampleEvaluationData(), 5) == 3
  {
    var t := Helpers.SampleEvaluationData();
    Helpers.SampleEvaluationShape();
    var r := EvalDataTab.WithHistory(t);
    forall i | 0 <= i < 5
      ensures r.rows[i] == t.rows[i]
    {
      assert t.rows[i][EvalDataTab.CHAT_HISTORY := Text(EvalDataTab.FilledHistory(t, i))] == t.rows[i];
    }
  }

  /** The question template is answered in full by the RAG Generation tab: every row has a
      question, and every row starts from an empty conversation. */
  lemma SampleQuestionsAnswerable(llm: LlmService.ChatClient, numChunks: int, call: RagGenTab.ChainCall)
    ensures var t := Helpers.SampleQuestionsData();
      && "Question" in t.columns
      && (forall i :: 0 <= i < 5 ==> EvalDataTab.FilledHistory(t, i) == "")
      && RagGenTab.Answers(EvalDataTab.WithHistory(t), 5, llm, numChunks, call).Success?
  {
    var t := Helpers.SampleQuestionsData();
    var df := EvalDataTab.WithHistory(t);
    forall i | 0 <= i < 5
      ensures At(df, i, "Question").Text?
    {
      assert At(df, i, "Question") == At(t, i, "Question");
    }
    RagGenTab.AnswersPerRow(df, 5, llm, numChunks, call);
  }
}

=== FILE: select_models.dfy ===
/** The Select Models tab: four forms, one per model role, each prefilled from the entry its
    role holds and each replacing that entry on a valid submit. */
module SelectModelsTab {
  import opened Wrappers
  import opened Domain
  import Constants
  import Session

  /** The four roles a model can be selected for. */
  datatype Role = EmbeddingRole | InferenceRole | EvaluationRole | OcrRole

  /** The store key holding a role's entry. */
  function KeyOf(role: Role): (k: Session.Key)
    ensures Session.KindOf(k) == Some(Session.EntryKind)
  {
    match role
    case EmbeddingRole => Session.SelectedEmbeddingModel
    case InferenceRole => Session.SelectedInferenceModel
    case EvaluationRole => Session.SelectedEvaluationModel
    case OcrRole => Session.SelectedOcrModel
  }

  /** Distinct roles keep their entries under distinct keys. */
  lemma KeysDistinct(a: Role, b: Role)
    ensures KeyOf(a) == KeyOf(b) <==> a == b
  {
  }

  /** The four `if key not in st.session_state: ... = None` writes at the top of the tab. */
  function WithSelectionKeys(m: map<Session.Key, Session.Value>): map<Session.Key, Session.Value> {
    var m1 := Session.WithDefault(m, Session.SelectedEmbeddingModel, Session.VNone);
    var m2 := Session.WithDefault(m1, Session.SelectedInferenceModel, Session.VNone);
    var m3 := Session.WithDefault(m2, Session.SelectedEvaluationModel, Session.VNone);
    Session.WithDefault(m3, Session.SelectedOcrModel, Session.VNone)
  }

  method EnsureSelectionKeys(st: Session.SessionState)
    modifies st
    ensures st.entries == WithSelectionKeys(old(st.entries))
  {
    st.SetDefault(Session.SelectedEmbeddingModel, Session.VNone);
    st.SetDefault(Session.SelectedInferenceModel, Session.VNone);
    st.SetDefault(Session.SelectedEvaluationModel, Session.VNone);
    st.SetDefault(Session.SelectedOcrModel, Session.VNone);
  }

  /** Making sure the keys exist never changes which entries are selected, and afterwards every
      role's key is present. */
  lemma SelectionKeysKeepSelection(m: map<Session.Key, Session.Value>, role: Role)
    ensures Session.Selected(WithSelectionKeys(m), KeyOf(role)) == Session.Selected(m, KeyOf(role))
    ensures KeyOf(role) in WithSelectionKeys(m)
  {
  }

  /** The first position of `x` in `s`: `s.index(x)`. */
  function IndexOf(s: seq<string>, x: string): (i: nat)
    requires x in s
    ensures i < |s| && s[i] == x
    ensures forall j :: 0 <= j < i ==> s[j] != x
  {
    if s[0] == x then 0 else 1 + IndexOf(s[1..], x)
  }

  /** The provider the stored entry names, "DeepInfra" when there is none. */
  function StoredProvider(stored: Option<ModelEntry>): string {
    if stored.Some? then stored.value.provider else "DeepInfra"
  }

  /** The provider select box's initial index: the stored provider's position in the list, or
      the first provider when the stored one is not offered. */
  function ProviderIndex(stored: Option<ModelEntry>): (i: nat)
    ensures i < |Constants.PROVIDERS|
    ensures StoredProvider(stored) in Constants.PROVIDERS ==>
      Constants.PROVIDERS[i] == StoredProvider(stored)
    ensures StoredProvider(stored) !in Constants.PROVIDERS ==> i == 0
  {
    var current := StoredProvider(stored);
    if current in Constants.PROVIDERS then IndexOf(Constants.PROVIDERS, current) else 0
  }

  /** What a form holds when it is submitted. */
  datatype Form = Form(name: string, apiKey: string, provider: string, fixedTemperature: bool,
                       temperature: real)

  /** The values the widgets can produce: a provider from the select box and a temperature on
      the 0.0..2.0 slider. */
  predicate OnWidgets(f: Form) {
    f.provider in Constants.PROVIDERS && 0.0 <= f.temperature <= 2.0
  }

  /** The form as it is first drawn from the role's stored entry: its name and key, the
      provider at the select box's index, and for the chat roles the fixed-temperature flag
      (default off) and the temperature (default 0.1). */
  function Prefill(stored: Option<ModelEntry>): (f: Form)
    ensures f.provider == Constants.PROVIDERS[ProviderIndex(stored)]
    ensures stored.None? ==> f.name == "" && f.apiKey == "" && !f.fixedTemperature && f.temperature == 0.1
    ensures stored.Some? ==>
      && f.name == stored.value.name && f.apiKey == stored.value.apiKey
      && f.fixedTemperature == stored.value.FixedTemperatureOr(false)
      && f.temperature == stored.value.TemperatureOr(0.1)
  {
    var provider := Constants.PROVIDERS[ProviderIndex(stored)];
    match stored
    case None => Form("", "", provider, false, 0.1)
    case Some(e) => Form(e.name, e.apiKey, provider, e.FixedTemperatureOr(false), e.TemperatureOr(0.1))
  }

  /** The base URL every form saves. */
  function BaseUrl(): (url: string)
    ensures url == Constants.BASE_URLS["DeepInfra"] && url != ""
  {
    Constants.BASE_URLS["DeepInfra"]
  }

  /** The entry a valid submit saves for a role.  Only the chat roles keep the temperature
      settings; an embedding entry asks the host to choose the dimensions and needs a key. */
  function EntryFor(role: Role, f: Form): (e: ModelEntry)
    ensures e.name == f.name && e.apiKey == f.apiKey && e.provider == f.provider
    ensures e.baseUrl == BaseUrl()
    ensures role == EmbeddingRole <==> e.EmbeddingEntry?
    ensures role == OcrRole <==> e.OcrEntry?
    ensures e.EmbeddingEntry? ==> e.dimensions.None? && e.requiresApiKey
    ensures e.ChatEntry? ==> e.fixedTemperature == f.fixedTemperature && e.temperature == f.temperature
  {
    match role
    case EmbeddingRole => EmbeddingEntry(f.name, f.apiKey, BaseUrl(), f.provider, None, true)
    case InferenceRole => ChatEntry(f.name, f.apiKey, BaseUrl(), f.provider, f.fixedTemperature, f.temperature)
    case EvaluationRole => ChatEntry(f.name, f.apiKey, BaseUrl(), f.provider, f.fixedTemperature, f.temperature)
    case OcrRole => OcrEntry(f.name, f.apiKey, BaseUrl(), f.provider)
  }

  /** A submit is accepted when name, base URL and key are all filled in. */
  predicate Accepted(f: Form) {
    f.name != "" && BaseUrl() != "" && f.apiKey != ""
  }

  /** The store after a submit of a role's form. */
  function AfterSubmit(m: map<Session.Key, Session.Value>, role: Role, f: Form)
    : (r: map<Session.Key, Session.Value>)
    ensures Accepted(f) ==> r == m[KeyOf(role) := Session.VEntry(EntryFor(role, f))]
    ensures !Accepted(f) ==> r == m
  {
    if Accepted(f) then m[KeyOf(role) := Session.VEntry(EntryFor(role, f))] else m
  }

  /** The form's Save button; `accepted` says whether the success banner or the "required"
      error is shown. */
  method SubmitForm(st: Session.SessionState, role: Role, f: Form) returns (accepted: bool)
    modifies st
    ensures accepted <==> f.name != "" && f.apiKey != ""
    ensures st.entries == AfterSubmit(old(st.entries), role, f)
  {
    var baseUrl := BaseUrl();
    if f.name == "" || baseUrl == "" || f.apiKey == "" {
      return false;
    }
    st.Set(KeyOf(role), Session.VEntry(EntryFor(role, f)));
    accepted := true;
  }

  /** A submit selects the form's model for its role when name and key are filled in, and
      otherwise leaves the selection as it was; the other roles are never touched. */
  lemma SubmitSelects(m: map<Session.Key, Session.Value>, role: Role, f: Form, other: Role)
    requires other != role
    ensures var r := AfterSubmit(m, role, f);
      && (f.name != "" && f.apiKey != "" ==> Session.Selected(r, KeyOf(role)) == Some(EntryFor(role, f)))
      && (f.name == "" || f.apiKey == "" ==> Session.Selected(r, KeyOf(role)) == Session.Selected(m, KeyOf(role)))
      && Session.Selected(r, KeyOf(other)) == Session.Selected(m, KeyOf(other))
  {
    KeysDistinct(role, other);
  }

  /** Reopening a form after a valid submit shows what was submitted. */
  lemma PrefillRoundTrip(role: Role, f: Form)
    requires OnWidgets(f)
    ensures var g := Prefill(Some(EntryFor(role, f)));
      && g.name == f.name && g.apiKey == f.apiKey && g.provider == f.provider
      && (role == InferenceRole || role == EvaluationRole ==>
            g.fixedTemperature == f.fixedTemperature && g.temperature == f.temperature)
  {
  }

  /** The temperature a chat role's form starts from lies on its slider, both for a fresh form
      and for one prefilled from an entry the form saved. */
  lemma PrefillTemperatureOnSlider(role: Role, f: Form)
    requires OnWidgets(f)
    ensures OnWidgets(Prefill(None))
    ensures OnWidgets(Prefill(Some(EntryFor(role, f))))
  {
  }

  /** After a valid submit of the inference, evaluation or embedding form, the configuration
      snapshot uses the new model under the "Custom Models" provider with its key. */
  lemma SubmitReachesConfig(m: map<Session.Key, Session.Value>, role: Role, f: Form, dockerEnv: bool)
    requires Accepted(f)
    ensures var c := Session.LoadConfig(AfterSubmit(m, role, f), dockerEnv);
      && (role == InferenceRole ==>
            c.provider == "Custom Models" && c.modelName == f.name && c.apiKey == f.apiKey)
      && (role == EvaluationRole ==>
            c.evalProvider == "Custom Models" && c.evalModel == f.name && c.evalApiKey == f.apiKey)
      && (role == EmbeddingRole ==>
            c.embeddingProvider == "Custom Models" && c.embeddingModel == f.name
            && c.embeddingApiKey == f.apiKey)
  {
    var r := AfterSubmit(m, role, f);
    assert Session.Selected(r, KeyOf(role)) == Some(EntryFor(role, f));
  }

  /** The summary line of a role: configured exactly when an entry is selected. */
  function Status(m: map<Session.Key, Session.Value>, role: Role): (s: string)
    ensures s == "✅ Configured" <==> Session.Selected(m, KeyOf(role)).Some?
  {
    if Session.Selected(m, KeyOf(role)).Some? then "✅ Configured" else "❌ Not Configured"
  }
}

=== FILE: session.dfy ===
/** The per-browser-session key/value store, its first-run defaults, and the configuration
    snapshot every tab reads from it. */
module Session {
  import opened Wrappers
  import opened Domain
  import Constants

  /** The values the application keeps in the store. */
  datatype Value =
    | VNone
    | VBool(b: bool)
    | VInt(i: int)
    | VReal(r: real)
    | VStr(s: string)
    | VList(items: seq<Value>)
    | VDict(entries: map<Key, Value>)
    | VEntry(entry: ModelEntry)
    | VMetrics(metrics: seq<Metric>)
    | VRecords(records: seq<EvalRecord>)
    | VTable(table: Table)

  /** The keys the application stores, named after their Python strings (`ChatHistory` is
      ChatHistory, and so on); `Other` stands for any further key. */
  datatype Key =
    | ChatHistory
    | EvaluationResults
    | CustomMetrics
    | Vectorstore
    | RagDocuments
    | EvaluationData
    | ActiveCollection
    | CollectionFiles
    | SelectedEmbeddingModel
    | SelectedInferenceModel
    | SelectedEvaluationModel
    | SelectedOcrModel
    | ExtractedTexts
    | MilvusHost
    | MilvusPort
    | MilvusUser
    | MilvusPassword
    | Provider
    | ModelName
    | ApiKey
    | ClaudeApiKey
    | EvalProvider
    | EvalApiKey
    | EvalModel
    | EmbeddingProvider
    | EmbeddingModel
    | EmbeddingApiKey
    | OllamaBaseUrl
    | DeepinfraBaseUrl
    | EmbeddingOpenaiBaseUrl
    | ClaudeModel
    | NumChunks
    | ChunkSize
    | ChunkOverlap
    | Temperature
    | RagGenerationResults
    | Other(name: string)

  /** What a known key holds. */
  datatype Kind = StrKind | IntKind | RealKind | EntryKind | MetricsKind | RecordsKind | TableKind

  predicate Fits(v: Value, k: Kind) {
    match k
    case StrKind => v.VStr?
    case IntKind => v.VInt?
    case RealKind => v.VReal?
    case EntryKind => v.VNone? || v.VEntry?
    case MetricsKind => v.VMetrics?
    case RecordsKind => v.VRecords?
    case TableKind => v.VNone? || v.VTable?
  }

  /** The type of value a key holds, for the keys the application reads back with a fixed
      type; the remaining keys may hold anything. */
  function KindOf(k: Key): Option<Kind> {
    match k
    case MilvusHost | MilvusUser | MilvusPassword | OllamaBaseUrl | DeepinfraBaseUrl
      | EmbeddingOpenaiBaseUrl | ActiveCollection | Provider | ModelName | ApiKey | ClaudeApiKey
      | EvalProvider | EvalApiKey | EvalModel | EmbeddingProvider | EmbeddingModel
      | EmbeddingApiKey | ClaudeModel => Some(StrKind)
    case MilvusPort | NumChunks | ChunkSize | ChunkOverlap => Some(IntKind)
    case Temperature => Some(RealKind)
    case SelectedEmbeddingModel | SelectedInferenceModel | SelectedEvaluationModel
      | SelectedOcrModel => Some(EntryKind)
    case CustomMetrics => Some(MetricsKind)
    case EvaluationResults => Some(RecordsKind)
    case EvaluationData | RagGenerationResults => Some(TableKind)
    case _ => None
  }

  /** Every key with a fixed type holds a value of that type: the invariant all writers keep. */
  predicate WellTyped(m: map<Key, Value>) {
    forall k :: k in m && KindOf(k).Some? ==> Fits(m[k], KindOf(k).value)
  }

  /** Writing a value of a key's type keeps the store well typed. */
  lemma WriteKeepsWellTyped(m: map<Key, Value>, k: Key, v: Value)
    requires WellTyped(m)
    requires KindOf(k).Some? ==> Fits(v, KindOf(k).value)
    ensures WellTyped(m[k := v])
  {
  }

  /** The store itself. */
  class SessionState {
    var entries: map<Key, Value>

    constructor()
      ensures entries == map[]
    {
      entries := map[];
    }

    /** `st.session_state[key] = v`. */
    method Set(key: Key, v: Value)
      modifies this
      ensures entries == old(entries)[key := v]
    {
      entries := entries[key := v];
    }

    /** `if key not in st.session_state: st.session_state[key] = v`. */
    method SetDefault(key: Key, v: Value)
      modifies this
      ensures entries == WithDefault(old(entries), key, v)
    {
      if key !in entries {
        entries := entries[key := v];
      }
    }
  }

  /** The thirteen keys a session starts with, and their first values. */
  function InitialValues(): map<Key, Value> {
    map[
      ChatHistory := VList([]),
      EvaluationResults := VRecords([]),
      CustomMetrics := VMetrics([]),
      Vectorstore := VNone,
      RagDocuments := VList([]),
      EvaluationData := VNone,
      ActiveCollection := VStr(Constants.DEFAULT_COLLECTION),
      CollectionFiles := VDict(map[]),
      SelectedEmbeddingModel := VNone,
      SelectedInferenceModel := VNone,
      SelectedEvaluationModel := VNone,
      SelectedOcrModel := VNone,
      ExtractedTexts := VDict(map[])
    ]
  }

  /** The store after `if key not in store: store[key] = v`. */
  function WithDefault(m: map<Key, Value>, key: Key, v: Value): map<Key, Value> {
    if key in m then m else m[key := v]
  }

  /** The thirteen default-if-absent writes of `initialize_session_state`, in order. */
  function Initialized(m: map<Key, Value>): map<Key, Value> {
    var m1 := WithDefault(m, ChatHistory, VList([]));
    var m2 := WithDefault(m1, EvaluationResults, VRecords([]));
    var m3 := WithDefault(m2, CustomMetrics, VMetrics([]));
    var m4 := WithDefault(m3, Vectorstore, VNone);
    var m5 := WithDefault(m4, RagDocuments, VList([]));
    var m6 := WithDefault(m5, EvaluationData, VNone);
    var m7 := WithDefault(m6, ActiveCollection, VStr(Constants.DEFAULT_COLLECTION));
    var m8 := WithDefault(m7, CollectionFiles, VDict(map[]));
    var m9 := WithDefault(m8, SelectedEmbeddingModel, VNone);
    var m10 := WithDefault(m9, SelectedInferenceModel, VNone);
    var m11 := WithDefault(m10, SelectedEvaluationModel, VNone);
    var m12 := WithDefault(m11, SelectedOcrModel, VNone);
    var m13 := WithDefault(m12, ExtractedTexts, VDict(map[]));
    m13
  }

  /** `initialize_session_state`: each of the thirteen keys is written only when absent. */
  method InitializeSessionState(st: SessionState)
    modifies st
    ensures st.entries == Initialized(old(st.entries))
  {
    st.SetDefault(ChatHistory, VList([]));
    st.SetDefault(EvaluationResults, VRecords([]));
    st.SetDefault(CustomMetrics, VMetrics([]));
    st.SetDefault(Vectorstore, VNone);
    st.SetDefault(RagDocuments, VList([]));
    st.SetDefault(EvaluationData, VNone);
    st.SetDefault(ActiveCollection, VStr(Constants.DEFAULT_COLLECTION));
    st.SetDefault(CollectionFiles, VDict(map[]));
    st.SetDefault(SelectedEmbeddingModel, VNone);
    st.SetDefault(SelectedInferenceModel, VNone);
    st.SetDefault(SelectedEvaluationModel, VNone);
    st.SetDefault(SelectedOcrModel, VNone);
    st.SetDefault(ExtractedTexts, VDict(map[]));
  }

  /** Initialising overlays what it writes into an empty store with whatever the store
      already held. */
  lemma InitializedIsOverlayOfEmpty(m: map<Key, Value>)
    ensures Initialized(m) == Initialized(map[]) + m
  {
    var written: map<Key, Value> := map[];
    DefaultStep(written, m, m, ChatHistory, VList([]));
    var m1 := WithDefault(m, ChatHistory, VList([]));
    written := WithDefault(written, ChatHistory, VList([]));
    DefaultStep(written, m, m1, EvaluationResults, VRecords([]));
    var m2 := WithDefault(m1, EvaluationResults, VRecords([]));
    written := WithDefault(written, EvaluationResults, VRecords([]));
    DefaultStep(written, m, m2, CustomMetrics, VMetrics([]));
    var m3 := WithDefault(m2, CustomMetrics, VMetrics([]));
    written := WithDefault(written, CustomMetrics, VMetrics([]));
    DefaultStep(written, m, m3, Vectorstore, VNone);
    var m4 := WithDefault(m3, Vectorstore, VNone);
    written := WithDefault(written, Vectorstore, VNone);
    DefaultStep(written, m, m4, RagDocuments, VList([]));
    var m5 := WithDefault(m4, RagDocuments, VList([]));
    written := WithDefault(written, RagDocuments, VList([]));
    DefaultStep(written, m, m5, EvaluationData, VNone);
    var m6 := WithDefault(m5, EvaluationData, VNone);
    written := WithDefault(written, EvaluationData, VNone);
    DefaultStep(written, m, m6, ActiveCollection, VStr(Constants.DEFAULT_COLLECTION));
    var m7 := WithDefault(m6, ActiveCollection, VStr(Constants.DEFAULT_COLLECTION));
    written := WithDefault(written, ActiveCollection, VStr(Constants.DEFAULT_COLLECTION));
    DefaultStep(written, m, m7, CollectionFiles, VDict(map[]));
    var m8 := WithDefault(m7, CollectionFiles, VDict(map[]));
    written := WithDefault(written, CollectionFiles, VDict(map[]));
    DefaultStep(written, m, m8, SelectedEmbeddingModel, VNone);
    var m9 := WithDefault(m8, SelectedEmbeddingModel, VNone);
    written := WithDefault(written, SelectedEmbeddingModel, VNone);
    DefaultStep(written, m, m9, SelectedInferenceModel, VNone);
    var m10 := WithDefault(m9, SelectedInferenceModel, VNone);
    written := WithDefault(written, SelectedInferenceModel, VNone);
    DefaultStep(written, m, m10, SelectedEvaluationModel, VNone);
    var m11 := WithDefault(m10, SelectedEvaluationModel, VNone);
    written := WithDefault(written, SelectedEvaluationModel, VNone);
    DefaultStep(written, m, m11, SelectedOcrModel, VNone);
    var m12 := WithDefault(m11, SelectedOcrModel, VNone);
    written := WithDefault(written, SelectedOcrModel, VNone);
    DefaultStep(written, m, m12, ExtractedTexts, VDict(map[]));
    var m13 := WithDefault(m12, ExtractedTexts, VDict(map[]));
    written := WithDefault(written, ExtractedTexts, VDict(map[]));
  }

  /** Into an empty store, initialising writes exactly the thirteen defaults. */
  lemma InitializedEmpty()
    ensures Initialized(map[]) == InitialValues()
  {
    var e0: map<Key, Value> := map[];
    assert ChatHistory !in e0;
    var e1 := e0[ChatHistory := VList([])];
    assert EvaluationResults !in e1;
    var e2 := e1[EvaluationResults := VRecords([])];
    assert CustomMetrics !in e2;
    var e3 := e2[CustomMetrics := VMetrics([])];
    assert Vectorstore !in e3;
    var e4 := e3[Vectorstore := VNone];
    assert RagDocuments !in e4;
    var e5 := e4[RagDocuments := VList([])];
    assert EvaluationData !in e5;
    var e6 := e5[EvaluationData := VNone];
    assert ActiveCollection !in e6;
    var e7 := e6[ActiveCollection := VStr(Constants.DEFAULT_COLLECTION)];
    assert CollectionFiles !in e7;
    var e8 := e7[CollectionFiles := VDict(map[])];
    assert SelectedEmbeddingModel !in e8;
    var e9 := e8[SelectedEmbeddingModel := VNone];
    assert SelectedInferenceModel !in e9;
    var e10 := e9[SelectedInferenceModel := VNone];
    assert SelectedEvaluationModel !in e10;
    var e11 := e10[SelectedEvaluationModel := VNone];
    assert SelectedOcrModel !in e11;
    var e12 := e11[SelectedOcrModel := VNone];
    assert ExtractedTexts !in e12;
    var e13 := e12[ExtractedTexts := VDict(map[])];
  }

  /** Initialising overlays the defaults with whatever the store already held. */
  lemma InitializedIsOverlay(m: map<Key, Value>)
    ensures Initialized(m) == InitialValues() + m
  {
    InitializedIsOverlayOfEmpty(m);
    InitializedEmpty();
  }

  /** One default-if-absent write keeps the store equal to the defaults written so far
      overlaid by the original store. */
  lemma DefaultStep(written: map<Key, Value>, original: map<Key, Value>, current: map<Key, Value>,
                    k: Key, v: Value)
    requires current == written + original
    ensures WithDefault(current, k, v) == WithDefault(written, k, v) + original
  {
  }

  /** Initialising never overwrites a value and leaves every default key present; a fresh
      session starts on the default collection. */
  lemma InitializeKeeps(m: map<Key, Value>)
    ensures forall k :: k in m ==> k in Initialized(m) && Initialized(m)[k] == m[k]
    ensures InitialValues().Keys <= Initialized(m).Keys
    ensures ActiveCollection !in m ==>
      Initialized(m)[ActiveCollection] == VStr(Constants.DEFAULT_COLLECTION)
  {
    InitializedIsOverlay(m);
  }

  /** Initialising a store that already holds every default key changes nothing. */
  lemma InitializedNoop(m: map<Key, Value>)
    requires InitialValues().Keys <= m.Keys
    ensures Initialized(m) == m
  {
  }

  /** A second initialisation changes nothing. */
  lemma InitializeIdempotent(m: map<Key, Value>)
    ensures Initialized(Initialized(m)) == Initialized(m)
  {
    InitializeKeeps(m);
    InitializedNoop(Initialized(m));
  }

  /** `st.session_state.get(key, default)` for a text key. */
  function GetStr(m: map<Key, Value>, key: Key, default: string): string {
    if key in m && m[key].VStr? then m[key].s else default
  }

  function GetInt(m: map<Key, Value>, key: Key, default: int): int {
    if key in m && m[key].VInt? then m[key].i else default
  }

  function GetReal(m: map<Key, Value>, key: Key, default: real): real {
    if key in m && m[key].VReal? then m[key].r else default
  }

  /** The model entry saved under `key`, when one is: `st.session_state.get(key, None)` is
      truthy exactly when a form has saved an entry there. */
  function Selected(m: map<Key, Value>, key: Key): Option<ModelEntry> {
    if key in m && m[key].VEntry? then Some(m[key].entry) else None
  }

  /** The configuration snapshot `load_config` returns. */
  datatype Config = Config(
    milvusHost: string,
    milvusPort: int,
    milvusUser: string,
    milvusPassword: string,
    provider: string,
    modelName: string,
    apiKey: string,
    claudeApiKey: string,
    evalProvider: string,
    evalApiKey: string,
    evalModel: string,
    embeddingProvider: string,
    embeddingModel: string,
    embeddingApiKey: string,
    ollamaBaseUrl: string,
    deepinfraBaseUrl: string,
    embeddingOpenaiBaseUrl: string,
    claudeModel: string,
    numChunks: int,
    chunkSize: int,
    chunkOverlap: int,
    temperature: real)

  const DEFAULT_EVAL_MODEL: string := "claude-sonnet-4-20250514"
  const DEEPINFRA_BASE_URL: string := "https://api.deepinfra.com/v1/openai"
  const DEFAULT_OLLAMA_BASE_URL: string := "http://localhost:11434"

  /** `load_config`, where `dockerEnv` says whether `/.dockerenv` exists.  It only reads the
      store, so it is a function of the store and that flag. */
  function LoadConfig(m: map<Key, Value>, dockerEnv: bool): (c: Config)
    // a selected entry forces "Custom Models" and supplies model and key for its role
    ensures Selected(m, SelectedEmbeddingModel).Some? ==>
      var e := Selected(m, SelectedEmbeddingModel).value;
      c.embeddingProvider == "Custom Models" && c.embeddingModel == e.name && c.embeddingApiKey == e.apiKey
    ensures Selected(m, SelectedInferenceModel).Some? ==>
      var e := Selected(m, SelectedInferenceModel).value;
      c.provider == "Custom Models" && c.modelName == e.name && c.apiKey == e.apiKey
    ensures Selected(m, SelectedEvaluationModel).Some? ==>
      var e := Selected(m, SelectedEvaluationModel).value;
      c.evalProvider == "Custom Models" && c.evalModel == e.name && c.evalApiKey == e.apiKey
    // otherwise the stored settings apply, with their defaults
    ensures Selected(m, SelectedEmbeddingModel).None? ==>
      && c.embeddingProvider == GetStr(m, EmbeddingProvider, "OpenAI")
      && c.embeddingModel == GetStr(m, EmbeddingModel, "text-embedding-3-large")
      && c.embeddingApiKey == GetStr(m, EmbeddingApiKey, "")
    ensures Selected(m, SelectedInferenceModel).None? ==>
      && c.provider == GetStr(m, Provider, "OpenAI")
      && c.modelName == GetStr(m, ModelName, "gpt-4o")
      && c.apiKey == GetStr(m, ApiKey, "")
    ensures Selected(m, SelectedEvaluationModel).None? ==>
      && c.evalProvider == GetStr(m, EvalProvider, "Claude")
      && c.evalModel == GetStr(m, EvalModel, GetStr(m, ClaudeModel, DEFAULT_EVAL_MODEL))
      && c.evalApiKey == GetStr(m, EvalApiKey, GetStr(m, ClaudeApiKey, ""))
    ensures c.milvusHost == GetStr(m, MilvusHost, if dockerEnv then "standalone" else "localhost")
    ensures c.embeddingOpenaiBaseUrl ==
      GetStr(m, EmbeddingOpenaiBaseUrl, GetStr(m, DeepinfraBaseUrl, DEEPINFRA_BASE_URL))
  {
    var embedding := Selected(m, SelectedEmbeddingModel);
    var inference := Selected(m, SelectedInferenceModel);
    var evaluation := Selected(m, SelectedEvaluationModel);
    var defaultHost := if dockerEnv then "standalone" else "localhost";
    Config(
      milvusHost := GetStr(m, MilvusHost, defaultHost),
      milvusPort := GetInt(m, MilvusPort, 19530),
      milvusUser := GetStr(m, MilvusUser, ""),
      milvusPassword := GetStr(m, MilvusPassword, ""),
      provider := if inference.Some? then "Custom Models" else GetStr(m, Provider, "OpenAI"),
      modelName := if inference.Some? then inference.value.name else GetStr(m, ModelName, "gpt-4o"),
      apiKey := if inference.Some? then inference.value.apiKey else GetStr(m, ApiKey, ""),
      claudeApiKey := GetStr(m, ClaudeApiKey, ""),
      evalProvider := if evaluation.Some? then "Custom Models" else GetStr(m, EvalProvider, "Claude"),
      evalApiKey :=
        if evaluation.Some? then evaluation.value.apiKey
        else GetStr(m, EvalApiKey, GetStr(m, ClaudeApiKey, "")),
      evalModel :=
        if evaluation.Some? then evaluation.value.name
        else GetStr(m, EvalModel, GetStr(m, ClaudeModel, DEFAULT_EVAL_MODEL)),
      embeddingProvider :=
        if embedding.Some? then "Custom Models" else GetStr(m, EmbeddingProvider, "OpenAI"),
      embeddingModel :=
        if embedding.Some? then embedding.value.name
        else GetStr(m, EmbeddingModel, "text-embedding-3-large"),
      embeddingApiKey := if embedding.Some? then embedding.value.apiKey else GetStr(m, EmbeddingApiKey, ""),
      ollamaBaseUrl := GetStr(m, OllamaBaseUrl, DEFAULT_OLLAMA_BASE_URL),
      deepinfraBaseUrl := GetStr(m, DeepinfraBaseUrl, DEEPINFRA_BASE_URL),
      embeddingOpenaiBaseUrl :=
        GetStr(m, EmbeddingOpenaiBaseUrl, GetStr(m, DeepinfraBaseUrl, DEEPINFRA_BASE_URL)),
      claudeModel := GetStr(m, ClaudeModel, DEFAULT_EVAL_MODEL),
      numChunks := GetInt(m, NumChunks, 5),
      chunkSize := GetInt(m, ChunkSize, 1000),
      chunkOverlap := GetInt(m, ChunkOverlap, 50),
      temperature := GetReal(m, Temperature, 0.1))
  }

  /** The evaluation model falls back from `eval_model` to `claude_model` to the Sonnet
      literal, and the evaluation key from `eval_api_key` to `claude_api_key` to "". */
  lemma EvalFallbackChains(m: map<Key, Value>, dockerEnv: bool)
    requires WellTyped(m) && Selected(m, SelectedEvaluationModel).None?
    ensures var c := LoadConfig(m, dockerEnv);
      && (EvalModel in m ==> m[EvalModel] == VStr(c.evalModel))
      && (EvalModel !in m && ClaudeModel in m ==> m[ClaudeModel] == VStr(c.evalModel))
      && (EvalModel !in m && ClaudeModel !in m ==> c.evalModel == "claude-sonnet-4-20250514")
      && (EvalApiKey in m ==> m[EvalApiKey] == VStr(c.evalApiKey))
      && (EvalApiKey !in m && ClaudeApiKey in m ==> m[ClaudeApiKey] == VStr(c.evalApiKey))
      && (EvalApiKey !in m && ClaudeApiKey !in m ==> c.evalApiKey == "")
  {
    assert KindOf(EvalModel) == KindOf(ClaudeModel) == Some(StrKind);
    assert KindOf(EvalApiKey) == KindOf(ClaudeApiKey) == Some(StrKind);
  }

  /** On an empty store the snapshot holds the documented defaults. */
  lemma LoadConfigDefaults(dockerEnv: bool)
    ensures var c := LoadConfig(map[], dockerEnv);
      && c.milvusHost == (if dockerEnv then "standalone" else "localhost")
      && c.milvusPort == 19530 && c.numChunks == 5 && c.chunkSize == 1000
      && c.chunkOverlap == 50 && c.temperature == 0.1
      && c.provider == "OpenAI" && c.modelName == "gpt-4o" && c.apiKey == ""
      && c.embeddingProvider == "OpenAI" && c.embeddingModel == "text-embedding-3-large"
      && c.evalProvider == "Claude" && c.evalModel == "claude-sonnet-4-20250514"
  {
  }
}

=== FILE: template.dfy ===
/** Prompt templates in Python's `str.format` syntax, as LangChain's `PromptTemplate` reads
    them: `{name}` is a variable, `{{` and `}}` stand for literal braces.  A template is kept as
    the list of its literal pieces and variable slots; `Render` writes it out and `Fields` is
    the variable list a formatter finds in the text. */
module FormatTemplate {
  import opened Wrappers

  datatype Segment = Lit(text: string) | Slot(name: string)

  /** A variable name the formatter reads back unchanged: no braces, and no `:` or `!`, which
      would start a format spec or a conversion.  The empty name is the auto-numbered `{}`. */
  predicate PlainName(name: string) {
    '{' !in name && '}' !in name && ':' !in name && '!' !in name
  }

  predicate WellFormed(segs: seq<Segment>) {
    forall i :: 0 <= i < |segs| ==> (segs[i].Slot? ==> PlainName(segs[i].name))
  }

  /** Literal text with its braces doubled. */
  function Escape(t: string): (r: string)
    ensures |r| >= |t|
  {
    if t == [] then []
    else if t[0] == '{' || t[0] == '}' then [t[0], t[0]] + Escape(t[1..])
    else [t[0]] + Escape(t[1..])
  }

  function Render(segs: seq<Segment>): string {
    if segs == [] then []
    else
      match segs[0]
      case Lit(t) => Escape(t) + Render(segs[1..])
      case Slot(n) => "{" + n + "}" + Render(segs[1..])
  }

  /** The variable names, in order of appearance. */
  function Slots(segs: seq<Segment>): (r: seq<string>)
    ensures |r| <= |segs|
  {
    if segs == [] then []
    else if segs[0].Slot? then [segs[0].name] + Slots(segs[1..])
    else Slots(segs[1..])
  }

  /** Index of the first `}` at or after `i`. */
  function CloseBrace(s: string, i: nat): (r: Option<nat>)
    decreases |s| - i
    ensures r.Some? ==> i <= r.value < |s| && s[r.value] == '}'
    ensures r.Some? ==> forall j :: i <= j < r.value ==> s[j] != '}'
  {
    if i >= |s| then None
    else if s[i] == '}' then Some(i)
    else CloseBrace(s, i + 1)
  }

  /** The field name of a replacement field's text: what comes before the first `:` (a format
      spec) or `!` (a conversion). */
  function FieldName(f: string): (r: string)
    ensures r <= f && ':' !in r && '!' !in r
    ensures |r| < |f| ==> f[|r|] == ':' || f[|r|] == '!'
    ensures ':' !in f && '!' !in f ==> r == f
  {
    if f == [] || f[0] == ':' || f[0] == '!' then [] else [f[0]] + FieldName(f[1..])
  }

  /** A conversion is one character after the `!`, followed by the end of the field or by `:`. */
  predicate ConversionOk(f: string) {
    var k := |FieldName(f)|;
    k < |f| && f[k] == '!' ==> k + 1 < |f| && (k + 2 == |f| || f[k + 2] == ':')
  }

  /** The name a replacement field's text `f` (between its braces) stands for, or None when a `{`
      lies inside it or its conversion is malformed. */
  function FieldAt(f: string): (r: Option<string>)
    ensures r.Some? <==> '{' !in f && ConversionOk(f)
    ensures r.Some? ==> r.value == FieldName(f)
  {
    if '{' in f || !ConversionOk(f) then None else Some(FieldName(f))
  }

  /** The field names a formatter finds in `s`, in order, or None when `s` is malformed (a lone
      `}`, an unclosed `{`, a `{` inside a field, or a conversion not of the form `!c`). */
  function Fields(s: string): Option<seq<string>>
    decreases |s|
  {
    if s == [] then Some([])
    else if |s| >= 2 && s[0] == '{' && s[1] == '{' then Fields(s[2..])
    else if |s| >= 2 && s[0] == '}' && s[1] == '}' then Fields(s[2..])
    else if s[0] == '}' then None
    else if s[0] == '{' then
      match CloseBrace(s, 1)
      case None => None
      case Some(e) =>
        var name :- FieldAt(s[1..e]);
        var rest :- Fields(s[e + 1..]);
        Some([name] + rest)
    else Fields(s[1..])
  }

  lemma {:induction false} FieldsSkipEscaped(t: string, rest: string)
    ensures Fields(Escape(t) + rest) == Fields(rest)
  {
    if t != [] {
      var tail := Escape(t[1..]) + rest;
      var s := Escape(t) + rest;
      if t[0] == '{' || t[0] == '}' {
        assert s == [t[0], t[0]] + tail;
        assert s[0] == t[0] && s[1] == t[0] && s[2..] == tail;
        assert Fields(s) == Fields(tail);
      } else {
        assert s == [t[0]] + tail;
        assert s[0] == t[0] && s[1..] == tail;
        assert Fields(s) == Fields(tail);
      }
      FieldsSkipEscaped(t[1..], rest);
    } else {
      assert Escape(t) + rest == rest;
    }
  }

  lemma {:induction false} CloseBraceAt(s: string, i: nat, e: nat)
    requires i <= e < |s| && s[e] == '}'
    requires forall j :: i <= j < e ==> s[j] != '}'
    ensures CloseBrace(s, i) == Some(e)
    decreases e - i
  {
    if i < e {
      CloseBraceAt(s, i + 1, e);
    }
  }

  /** The pieces the scan finds in `{f}` followed by `rest`. */
  lemma FieldParts(f: string, rest: string)
    requires '{' !in f && '}' !in f
    ensures var s := "{" + f + "}" + rest;
      && |s| >= 2 && s[0] == '{' && s[1] != '{'
      && CloseBrace(s, 1) == Some(1 + |f|) && s[1..1 + |f|] == f && s[|f| + 2..] == rest
  {
    var s := "{" + f + "}" + rest;
    assert s[1..1 + |f|] == f;
    assert s[1 + |f|] == '}';
    assert forall j :: 1 <= j < 1 + |f| ==> s[j] == f[j - 1];
    CloseBraceAt(s, 1, 1 + |f|);
    assert s[|f| + 2..] == rest;
  }

  /** A replacement field `{f}` is read as the field name of `f`, its format spec and
      conversion dropped. */
  lemma FieldsReadField(f: string, rest: string)
    requires '{' !in f && '}' !in f && ConversionOk(f)
    ensures Fields("{" + f + "}" + rest) ==
      (match Fields(rest) case Some(fs) => Some([FieldName(f)] + fs) case None => None)
  {
    FieldParts(f, rest);
  }

  /** A plain name is read back unchanged. */
  lemma FieldsReadSlot(name: string, rest: string)
    requires PlainName(name)
    ensures Fields("{" + name + "}" + rest) ==
      (match Fields(rest) case Some(fs) => Some([name] + fs) case None => None)
  {
    FieldsReadField(name, rest);
  }

  /** A format spec is not part of the field name. */
  lemma FieldsDropSpec()
    ensures Fields("{a:b}") == Some(["a"])
  {
    var field, empty: string := "a:b", [];
    assert FieldName(field[1..]) == [];
    assert FieldName(field) == "a";
    assert Fields(empty) == Some([]);
    FieldsReadField(field, empty);
    assert "{" + field + "}" + empty == "{a:b}";
    assert Fields("{a:b}") == Some([FieldName(field)] + []);
    assert [FieldName(field)] + [] == ["a"];
  }

  /** A conversion, and a format spec after it, are not part of the field name. */
  lemma FieldsDropConversion()
    ensures Fields("{a!r:>5}") == Some(["a"])
  {
    var field, empty: string := "a!r:>5", [];
    assert FieldName(field[1..]) == [];
    assert FieldName(field) == "a";
    assert Fields(empty) == Some([]);
    FieldsReadField(field, empty);
    assert "{" + field + "}" + empty == "{a!r:>5}";
    assert Fields("{a!r:>5}") == Some([FieldName(field)] + []);
    assert [FieldName(field)] + [] == ["a"];
  }

  /** `{}` is the auto-numbered field, whose name is empty. */
  lemma FieldsAutoNumbered()
    ensures Fields("{}") == Some([""])
  {
    var empty: string := [];
    assert FieldName(empty) == empty;
    assert Fields(empty) == Some([]);
    FieldsReadField(empty, empty);
    assert "{" + empty + "}" + empty == "{}";
    assert Fields("{}") == Some([FieldName(empty)] + []);
    assert [FieldName(empty)] + [] == [""];
  }

  /** A conversion must be one character, followed by the end of the field or by `:`. */
  lemma FieldsBadConversion()
    ensures Fields("{a!}") == None && Fields("{a!rx}") == None
  {
    assert FieldName("a!") == "a";
    assert FieldName("a!rx") == "a";
    CloseBraceAt("{a!}", 1, 3);
    assert "{a!}"[1..3] == "a!";
    CloseBraceAt("{a!rx}", 1, 5);
    assert "{a!rx}"[1..5] == "a!rx";
  }

  /** Rendering and then reading back the fields gives exactly the slots, in order: the
      formatter sees no variable the template does not declare and misses none. */
  lemma {:induction false} FieldsOfRender(segs: seq<Segment>)
    requires WellFormed(segs)
    ensures Fields(Render(segs)) == Some(Slots(segs))
  {
    if segs != [] {
      assert WellFormed(segs[1..]) by {
        forall i | 0 <= i < |segs[1..]| ensures (segs[1..][i].Slot? ==> PlainName(segs[1..][i].name)) {
          assert segs[1..][i] == segs[i + 1];
        }
      }
      FieldsOfRender(segs[1..]);
      match segs[0]
      case Lit(t) => FieldsSkipEscaped(t, Render(segs[1..]));
      case Slot(n) => FieldsReadSlot(n, Render(segs[1..]));
    }
  }
}

=== FILE: text.dfy ===
/** The string operations of Python the model needs: `isspace`/`strip`, ASCII `lower`,
    substring search (`in`, `str.find`), `startswith`, `join`, decimal rendering of integers
    and the code-point ordering used by `sorted` on strings. */
module Text {
  import opened Wrappers

  /** `c.isspace()` in Python: the ASCII controls 9-13 and 28-31, the space, and the
      Unicode separators Python treats as whitespace. */
  predicate IsSpace(c: char) {
    || c == ' ' || '\t' <= c <= '\r' || '\U{1C}' <= c <= '\U{1F}'
    || c == '\U{85}' || c == '\U{A0}' || c == '\U{1680}' || '\U{2000}' <= c <= '\U{200A}'
    || c == '\U{2028}' || c == '\U{2029}' || c == '\U{202F}' || c == '\U{205F}' || c == '\U{3000}'
  }

  /** A string that is empty after `strip()`. */
  predicate IsBlank(s: string) {
    forall i :: 0 <= i < |s| ==> IsSpace(s[i])
  }

  function TrimStart(s: string): (r: string)
    ensures |r| <= |s| && r == s[|s| - |r|..]
    ensures r == [] || !IsSpace(r[0])
    ensures IsBlank(s[..|s| - |r|])
  {
    if s != [] && IsSpace(s[0]) then
      var r := TrimStart(s[1..]);
      assert s[1..][..|s[1..]| - |r|] == s[1..|s| - |r|];
      r
    else s
  }

  function TrimEnd(s: string): (r: string)
    ensures |r| <= |s| && r == s[..|r|]
    ensures r == [] || !IsSpace(r[|r| - 1])
    ensures IsBlank(s[|r|..])
  {
    if s != [] && IsSpace(s[|s| - 1]) then
      var r := TrimEnd(s[..|s| - 1]);
      assert s[..|s| - 1][|r|..] == s[|r|..|s| - 1];
      assert s[|r|..] == s[|r|..|s| - 1] + [s[|s| - 1]];
      r
    else s
  }

  /** Python's `s.strip()`. */
  function Strip(s: string): (r: string)
    ensures r == [] || (!IsSpace(r[0]) && !IsSpace(r[|r| - 1]))
  {
    TrimEnd(TrimStart(s))
  }

  /** `s.strip()` is empty exactly when every character of `s` is whitespace. */
  lemma StripEmptyIffBlank(s: string)
    ensures Strip(s) == [] <==> IsBlank(s)
  {
    var t := TrimStart(s);
    if Strip(s) == [] {
      assert t[0..] == t;
      assert t == [];
      assert s[..|s| - |t|] == s;
    }
    if Strip(s) != [] {
      assert Strip(s)[0] == t[0] == s[|s| - |t|];
      assert !IsSpace(s[|s| - |t|]);
    }
  }

  /** A string that neither starts nor ends with whitespace is its own `strip()`. */
  lemma StripKeepsTrimmed(s: string)
    requires s != [] && !IsSpace(s[0]) && !IsSpace(s[|s| - 1])
    ensures Strip(s) == s
  {
  }

  function LowerChar(c: char): char {
    if 'A' <= c <= 'Z' then (c as int + 32) as char else c
  }

  /** Python's `s.lower()` restricted to ASCII letters. */
  function Lower(s: string): (r: string)
    ensures |r| == |s| && forall i :: 0 <= i < |s| ==> r[i] == LowerChar(s[i])
  {
    seq(|s|, i requires 0 <= i < |s| => LowerChar(s[i]))
  }

  predicate StartsWith(s: string, prefix: string) {
    |prefix| <= |s| && s[..|prefix|] == prefix
  }

  predicate EndsWith(s: string, suffix: string) {
    |suffix| <= |s| && s[|s| - |suffix|..] == suffix
  }

  /** `needle` occurs in `hay` at index `j`. */
  predicate StartsAt(hay: string, needle: string, j: nat) {
    j + |needle| <= |hay| && hay[j..j + |needle|] == needle
  }

  /** Python's `hay.find(needle, from)`: the leftmost occurrence at or after `from`. */
  function FindFrom(hay: string, needle: string, from: nat): (r: Option<nat>)
    decreases |hay| - from
    ensures r.Some? ==> from <= r.value && StartsAt(hay, needle, r.value)
    ensures r.Some? ==> forall j :: from <= j < r.value ==> !StartsAt(hay, needle, j)
    ensures r.None? ==> forall j :: from <= j ==> !StartsAt(hay, needle, j)
  {
    if from + |needle| > |hay| then None
    else if StartsAt(hay, needle, from) then Some(from)
    else FindFrom(hay, needle, from + 1)
  }

  /** `find` reports an occurrence with none before it. */
  lemma {:induction false} FindFromIs(hay: string, needle: string, from: nat, e: nat)
    requires from <= e && StartsAt(hay, needle, e)
    requires forall j :: from <= j < e ==> !StartsAt(hay, needle, j)
    ensures FindFrom(hay, needle, from) == Some(e)
    decreases e - from
  {
    if from < e {
      FindFromIs(hay, needle, from + 1, e);
    }
  }

  /** Python's `needle in hay` on strings. */
  predicate Contains(hay: string, needle: string) {
    FindFrom(hay, needle, 0).Some?
  }

  lemma ContainsAt(hay: string, needle: string, j: nat)
    requires StartsAt(hay, needle, j)
    ensures Contains(hay, needle)
  {
  }

  /** An occurrence of a string is also an occurrence of each of its prefixes. */
  lemma StartsAtPrefix(hay: string, long: string, short: string, j: nat)
    requires StartsAt(hay, long, j) && StartsWith(long, short)
    ensures StartsAt(hay, short, j)
  {
    assert hay[j..j + |short|] == hay[j..j + |long|][..|short|];
  }

  /** Python's `sep.join(parts)`. */
  function Join(sep: string, parts: seq<string>): string {
    if parts == [] then ""
    else if |parts| == 1 then parts[0]
    else parts[0] + sep + Join(sep, parts[1..])
  }

  /** Where `parts[i]` begins in `Join(sep, parts)`. */
  function JoinOffset(sep: string, parts: seq<string>, i: nat): nat
    requires i <= |parts|
  {
    if i == 0 then 0 else |parts[0]| + |sep| + JoinOffset(sep, parts[1..], i - 1)
  }

  /** An occurrence moves right by the length of whatever is put in front. */
  lemma StartsAtShift(prefix: string, hay: string, needle: string, j: nat)
    requires StartsAt(hay, needle, j)
    ensures StartsAt(prefix + hay, needle, |prefix| + j)
  {
    assert (prefix + hay)[|prefix| + j..|prefix| + j + |needle|] == hay[j..j + |needle|];
  }

  /** Two adjacent occurrences (the second one only when `both`) both move right by the length
      of a prefix. */
  lemma StartsAtPairShift(prefix: string, hay: string, a: string, b: string, j: nat, both: bool)
    requires StartsAt(hay, a, j) && (both ==> StartsAt(hay, b, j + |a|))
    ensures StartsAt(prefix + hay, a, |prefix| + j)
    ensures both ==> StartsAt(prefix + hay, b, |prefix| + j + |a|)
  {
    StartsAtShift(prefix, hay, a, j);
    if both {
      StartsAtShift(prefix, hay, b, j + |a|);
    }
  }

  /** An occurrence stays put when text is appended. */
  lemma StartsAtExtend(hay: string, suffix: string, needle: string, j: nat)
    requires StartsAt(hay, needle, j)
    ensures StartsAt(hay + suffix, needle, j)
  {
    assert (hay + suffix)[j..j + |needle|] == hay[j..j + |needle|];
  }

  /** An occurrence inside the middle piece of a concatenation. */
  lemma StartsAtConcat(a: string, b: string, c: string, needle: string, j: nat)
    requires StartsAt(b, needle, j)
    ensures StartsAt(a + b + c, needle, |a| + j)
  {
    assert (a + b + c)[|a| + j..|a| + j + |needle|] == b[j..j + |needle|];
  }

  /** Two adjacent occurrences (the second one only when `both`) inside the middle piece. */
  lemma StartsAtPairConcat(a: string, b: string, c: string, x: string, y: string, j: nat, both: bool)
    requires StartsAt(b, x, j) && (both ==> StartsAt(b, y, j + |x|))
    ensures StartsAt(a + b + c, x, |a| + j)
    ensures both ==> StartsAt(a + b + c, y, |a| + j + |x|)
  {
    StartsAtConcat(a, b, c, x, j);
    if both {
      StartsAtConcat(a, b, c, y, j + |x|);
    }
  }

  /** The parts appear in `Join(sep, parts)` in their order, each followed by the separator
      except the last. */
  lemma {:induction false} JoinAt(sep: string, parts: seq<string>, i: nat)
    requires i < |parts|
    ensures StartsAt(Join(sep, parts), parts[i], JoinOffset(sep, parts, i))
    ensures i + 1 < |parts| ==> StartsAt(Join(sep, parts), sep, JoinOffset(sep, parts, i) + |parts[i]|)
    ensures i + 1 < |parts| ==> JoinOffset(sep, parts, i + 1) == JoinOffset(sep, parts, i) + |parts[i]| + |sep|
  {
    var whole := Join(sep, parts);
    if |parts| == 1 {
      assert whole[0..|parts[0]|] == parts[0];
    } else if i == 0 {
      assert whole == parts[0] + sep + Join(sep, parts[1..]);
      assert whole[0..|parts[0]|] == parts[0];
      assert whole[|parts[0]|..|parts[0]| + |sep|] == sep;
    } else {
      var head := parts[0] + sep;
      assert whole == head + Join(sep, parts[1..]);
      JoinAt(sep, parts[1..], i - 1);
      StartsAtShift(head, Join(sep, parts[1..]), parts[i], JoinOffset(sep, parts[1..], i - 1));
      if i + 1 < |parts| {
        StartsAtShift(head, Join(sep, parts[1..]), sep, JoinOffset(sep, parts[1..], i - 1) + |parts[i]|);
      }
    }
  }

  function DigitChar(d: nat): char
    requires d < 10
  {
    ('0' as int + d) as char
  }

  predicate IsDigit(c: char) { '0' <= c <= '9' }

  /** `str(n)` for a natural number. */
  function NatToString(n: nat): (r: string)
    ensures |r| >= 1 && forall i :: 0 <= i < |r| ==> IsDigit(r[i])
  {
    if n < 10 then [DigitChar(n)] else NatToString(n / 10) + [DigitChar(n % 10)]
  }

  /** `int(s)` for a string of decimal digits. */
  function DigitsValue(s: string): nat
    requires forall i :: 0 <= i < |s| ==> IsDigit(s[i])
  {
    if s == [] then 0
    else
      assert IsDigit(s[|s| - 1]);
      DigitsValue(s[..|s| - 1]) * 10 + (s[|s| - 1] as int - '0' as int)
  }

  /** Reading back the decimal rendering of a number gives the number. */
  lemma {:induction false} NatToStringRoundTrip(n: nat)
    ensures DigitsValue(NatToString(n)) == n
  {
    if n >= 10 {
      NatToStringRoundTrip(n / 10);
      var r := NatToString(n);
      assert r[..|r| - 1] == NatToString(n / 10);
    }
  }

  /** `str(n)` for any integer. */
  function IntToString(n: int): string {
    if n < 0 then "-" + NatToString(-n) else NatToString(n)
  }

  /** A number in [1000, 9999] is written with exactly four digits. */
  lemma {:induction false} FourDigits(n: nat)
    requires 1000 <= n <= 9999
    ensures |NatToString(n)| == 4
  {
    var a := n / 10;
    var b := a / 10;
    var c := b / 10;
    assert 1 <= c <= 9 && 10 <= b && 100 <= a;
    assert |NatToString(c)| == 1;
    assert |NatToString(b)| == 2;
    assert |NatToString(a)| == 3;
  }

  /** Python's `a < b` on strings: code-point lexicographic order. */
  predicate StrLess(a: string, b: string) {
    if a == [] then b != []
    else if b == [] then false
    else if a[0] == b[0] then StrLess(a[1..], b[1..])
    else a[0] < b[0]
  }

  lemma StrLessIrreflexive(a: string)
    ensures !StrLess(a, a)
  {
  }

  lemma {:induction false} StrLessTransitive(a: string, b: string, c: string)
    requires StrLess(a, b) && StrLess(b, c)
    ensures StrLess(a, c)
  {
    if a != [] && b != [] && c != [] && a[0] == b[0] && b[0] == c[0] {
      StrLessTransitive(a[1..], b[1..], c[1..]);
    }
  }

  lemma {:induction false} StrLessTotal(a: string, b: string)
    requires a != b
    ensures StrLess(a, b) || StrLess(b, a)
  {
    if a != [] && b != [] && a[0] == b[0] {
      assert a == [a[0]] + a[1..] && b == [b[0]] + b[1..];
      StrLessTotal(a[1..], b[1..]);
    }
  }

  lemma {:induction false} StrLessAsymmetric(a: string, b: string)
    requires StrLess(a, b)
    ensures !StrLess(b, a)
  {
    if a != [] && b != [] && a[0] == b[0] {
      StrLessAsymmetric(a[1..], b[1..]);
    }
  }
}

=== FILE: vectorstore.dfy ===
/** The Milvus side of the application: the connection probe that runs before every store is
    built or opened, with its connect / list / disconnect sequence and the classification of its
    failures; the two guarded store constructors; and the list of source files of a collection. */
module VectorstoreService {
  import opened Wrappers
  import opened Domain
  import Text

  /** The `connection_args` dict: each key may be absent. */
  datatype ConnectionArgs = ConnectionArgs(host: Option<string>, port: Option<int>,
                                           user: Option<string>, password: Option<string>)

  function HostOf(args: ConnectionArgs): string { args.host.GetOr("localhost") }
  function PortOf(args: ConnectionArgs): int { args.port.GetOr(19530) }

  /** The calls the application makes into pymilvus and LangChain's Milvus store. */
  datatype Call =
    | Connect(alias: string, host: string, port: int, user: string, password: string)
    | ListCollections
    | Disconnect(alias: string)
    | FromDocuments(collection: string, documents: nat)
    | OpenCollection(collection: string)

  /** The record of the calls made so far; each foreign call is appended as it is made. */
  class Milvus {
    var log: seq<Call>

    constructor()
      ensures log == []
    {
      log := [];
    }

    method Record(c: Call)
      modifies this
      ensures log == old(log) + [c]
    {
      log := log + [c];
    }
  }

  /** What each call of the probe raises, if anything: `None` is a call that returned.  An error
      of the `finally` disconnect is swallowed, so it is not among them. */
  datatype Replies = Replies(connect: Option<string>, list: Option<string>, disconnect: Option<string>)

  const INSTALL_HINT := "pymilvus not available. Install it with: pip install pymilvus"
  const CONNECTED := "Connection successful!"

  /** The three kinds of probe failure, told apart by the lower-cased error text in this order. */
  datatype ProbeFailure = CannotConnect | AuthenticationFailed | OtherFailure

  function Classify(err: string): ProbeFailure {
    var e := Text.Lower(err);
    if Text.Contains(e, "connection") || Text.Contains(e, "unavailable") then CannotConnect
    else if Text.Contains(e, "authentication") then AuthenticationFailed
    else OtherFailure
  }

  /** The text of "Host and port are correct (...)". */
  function Address(args: ConnectionArgs): string {
    HostOf(args) + ":" + Text.IntToString(PortOf(args))
  }

  const CANNOT_CONNECT_HEAD :=
    "Cannot connect to Milvus server. Please ensure:\n1. Milvus is running (check with: docker ps)\n2. Host and port are correct ("
  const CANNOT_CONNECT_TAIL := ")\n3. If using Docker, ensure ports are exposed correctly\n\nError: "
  const AUTH_FAILED_HEAD := "Authentication failed. Please check username/password.\n\nError: "
  const TEST_FAILED_HEAD := "Connection test failed: "

  /** The message of a failed probe: it always ends with the raw error; a connection failure
      names the address that was tried. */
  function FailureMessage(args: ConnectionArgs, err: string): (m: string)
    ensures Text.EndsWith(m, err)
    ensures Classify(err) == CannotConnect ==> Text.Contains(m, Address(args))
    ensures Classify(err) == AuthenticationFailed ==> Text.StartsWith(m, AUTH_FAILED_HEAD)
    ensures Classify(err) == OtherFailure ==> Text.StartsWith(m, TEST_FAILED_HEAD)
  {
    match Classify(err)
    case CannotConnect =>
      var m := CANNOT_CONNECT_HEAD + Address(args) + (CANNOT_CONNECT_TAIL + err);
      Text.StartsAtConcat(CANNOT_CONNECT_HEAD, Address(args), CANNOT_CONNECT_TAIL + err, Address(args), 0);
      Text.ContainsAt(m, Address(args), |CANNOT_CONNECT_HEAD|);
      assert m == (CANNOT_CONNECT_HEAD + Address(args) + CANNOT_CONNECT_TAIL) + err;
      m
    case AuthenticationFailed =>
      assert (AUTH_FAILED_HEAD + err)[..|AUTH_FAILED_HEAD|] == AUTH_FAILED_HEAD;
      AUTH_FAILED_HEAD + err
    case OtherFailure =>
      assert (TEST_FAILED_HEAD + err)[..|TEST_FAILED_HEAD|] == TEST_FAILED_HEAD;
      TEST_FAILED_HEAD + err
  }

  /** The first error raised inside the `try`, if any. */
  function FirstError(replies: Replies): Option<string> {
    if replies.connect.Some? then replies.connect
    else if replies.list.Some? then replies.list
    else replies.disconnect
  }

  /** `test_milvus_connection`: success exactly when pymilvus is installed and connect, list and
      disconnect all return; any failure message embeds the raw error. */
  function ProbeResult(available: bool, args: ConnectionArgs, replies: Replies): (r: (bool, string))
    ensures r.0 <==> available && replies.connect.None? && replies.list.None? && replies.disconnect.None?
    ensures !available ==> r.1 == INSTALL_HINT
    ensures r.0 ==> r.1 == CONNECTED
    ensures available && !r.0 ==> Text.EndsWith(r.1, FirstError(replies).value)
  {
    if !available then (false, INSTALL_HINT)
    else match FirstError(replies)
      case None => (true, CONNECTED)
      case Some(e) => (false, FailureMessage(args, e))
  }

  function ConnectCall(args: ConnectionArgs): Call {
    Connect("default", HostOf(args), PortOf(args), args.user.GetOr(""), args.password.GetOr(""))
  }

  /** The calls an installed probe makes: it connects, lists the collections only once connected,
      and disconnects on every path, the last time in its `finally`. */
  function ProbeCalls(args: ConnectionArgs, replies: Replies): (calls: seq<Call>)
    ensures 2 <= |calls| <= 4
    ensures calls[0] == ConnectCall(args) && calls[|calls| - 1] == Disconnect("default")
    ensures ListCollections in calls <==> replies.connect.None?
  {
    var body :=
      if replies.connect.Some? then []
      else [ListCollections] + (if replies.list.Some? then [] else [Disconnect("default")]);
    [ConnectCall(args)] + body + [Disconnect("default")]
  }

  /** The probe, call by call. */
  method TestConnection(milvus: Milvus, available: bool, args: ConnectionArgs, replies: Replies)
    returns (ok: bool, message: string)
    modifies milvus
    ensures (ok, message) == ProbeResult(available, args, replies)
    ensures milvus.log == old(milvus.log) + (if available then ProbeCalls(args, replies) else [])
  {
    if !available {
      return false, INSTALL_HINT;
    }
    var err: Option<string> := None;
    milvus.Record(ConnectCall(args));
    if replies.connect.Some? {
      err := replies.connect;
    } else {
      milvus.Record(ListCollections);
      if replies.list.Some? {
        err := replies.list;
      } else {
        milvus.Record(Disconnect("default"));
        err := replies.disconnect;
      }
    }
    // the `finally` clause
    milvus.Record(Disconnect("default"));
    match err
    case None => ok, message := true, CONNECTED;
    case Some(e) => ok, message := false, FailureMessage(args, e);
  }

  /** A built or opened store handle. */
  datatype Store = Store(collection: string, args: ConnectionArgs)

  /** The error box a guarded constructor shows, if any. */
  datatype Notice =
    | NoNotice
    | ProbeFailedNotice(message: string)
    | StoreErrorNotice(error: string, dockerHint: bool)   // the hint only for connection errors

  /** A constructor guarded by the probe: nothing is attempted after a failed probe, and an error of
      the constructor gives no store. */
  function Guarded(probe: (bool, string), collection: string, args: ConnectionArgs, createError: Option<string>)
    : (r: (Option<Store>, Notice))
    ensures r.0.Some? <==> probe.0 && createError.None?
    ensures r.0.Some? ==> r.0.value == Store(collection, args) && r.1 == NoNotice
    ensures !probe.0 ==> r.1 == ProbeFailedNotice(probe.1)
    ensures probe.0 && createError.Some? ==>
      r.1 == StoreErrorNotice(createError.value, Classify(createError.value) == CannotConnect)
  {
    if !probe.0 then (None, ProbeFailedNotice(probe.1))
    else match createError
      case None => (Some(Store(collection, args)), NoNotice)
      case Some(e) => (None, StoreErrorNotice(e, Classify(e) == CannotConnect))
  }

  /** `setup_milvus_vectorstore`: the probe, then `Milvus.from_documents` only when it passed. */
  method SetupVectorstore(milvus: Milvus, available: bool, args: ConnectionArgs, replies: Replies,
                          documents: seq<Document>, collection: string, createError: Option<string>)
    returns (store: Option<Store>, notice: Notice)
    modifies milvus
    ensures (store, notice) == Guarded(ProbeResult(available, args, replies), collection, args, createError)
    ensures var probe := if available then ProbeCalls(args, replies) else [];
      milvus.log == old(milvus.log) + probe +
        (if ProbeResult(available, args, replies).0 then [FromDocuments(collection, |documents|)] else [])
  {
    var ok, message := TestConnection(milvus, available, args, replies);
    if !ok {
      return None, ProbeFailedNotice(message);
    }
    milvus.Record(FromDocuments(collection, |documents|));
    match createError
    case None => store, notice := Some(Store(collection, args)), NoNotice;
    case Some(e) => store, notice := None, StoreErrorNotice(e, Classify(e) == CannotConnect);
  }

  /** `get_existing_milvus_vectorstore`: the probe, then opening the collection only when it
      passed. */
  method GetExistingVectorstore(milvus: Milvus, available: bool, args: ConnectionArgs, replies: Replies,
                                collection: string, openError: Option<string>)
    returns (store: Option<Store>, notice: Notice)
    modifies milvus
    ensures (store, notice) == Guarded(ProbeResult(available, args, replies), collection, args, openError)
    ensures var probe := if available then ProbeCalls(args, replies) else [];
      milvus.log == old(milvus.log) + probe +
        (if ProbeResult(available, args, replies).0 then [OpenCollection(collection)] else [])
  {
    var ok, message := TestConnection(milvus, available, args, replies);
    if !ok {
      return None, ProbeFailedNotice(message);
    }
    milvus.Record(OpenCollection(collection));
    match openError
    case None => store, notice := Some(Store(collection, args)), NoNotice;
    case Some(e) => store, notice := None, StoreErrorNotice(e, Classify(e) == CannotConnect);
  }

  // ---------------------------------------------------------------------------------------------
  // Source files of a collection

  /** The 'source' values of the documents that have one. */
  function SourcesOf(docs: seq<Document>): (r: set<string>)
    ensures forall i :: 0 <= i < |docs| && "source" in docs[i].metadata ==> docs[i].metadata["source"] in r
    ensures forall x :: x in r ==>
      exists i :: 0 <= i < |docs| && "source" in docs[i].metadata && docs[i].metadata["source"] == x
  {
    if docs == [] then {}
    else
      var last := docs[|docs| - 1];
      var init := SourcesOf(docs[..|docs| - 1]);
      assert forall i :: 0 <= i < |docs| - 1 ==> docs[..|docs| - 1][i] == docs[i];
      init + (if "source" in last.metadata then {last.metadata["source"]} else {})
  }

  /** Strictly increasing in Python's string order, so also free of duplicates. */
  predicate Increasing(s: seq<string>) {
    forall i, j :: 0 <= i < j < |s| ==> Text.StrLess(s[i], s[j])
  }

  /** Puts a new string into its place in an increasing list. */
  function InsertSorted(s: seq<string>, x: string): (r: seq<string>)
    requires Increasing(s) && x !in s
    ensures Increasing(r)
    ensures forall y :: y in r <==> y in s || y == x
    ensures |r| == |s| + 1
  {
    if s == [] then [x]
    else if Text.StrLess(x, s[0]) then
      forall j | 1 <= j < |s|
        ensures Text.StrLess(x, s[j])
      {
        Text.StrLessTransitive(x, s[0], s[j]);
      }
      [x] + s
    else
      Text.StrLessTotal(x, s[0]);
      var rest := InsertSorted(s[1..], x);
      assert forall y :: y in s[1..] ==> Text.StrLess(s[0], y);
      [s[0]] + rest
  }

  /** `get_collection_files`: the sorted, duplicate-free 'source' values of the sampled
      documents, or nothing when the search raises. */
  method CollectionFiles(search: Result<seq<Document>, string>) returns (files: seq<string>)
    ensures search.Failure? ==> files == []
    ensures search.Success? ==> Increasing(files)
    ensures search.Success? ==> forall f :: f in files <==> f in SourcesOf(search.value)
  {
    if search.Failure? {
      return [];
    }
    var docs := search.value;
    var sources: set<string> := {};
    for i := 0 to |docs|
      invariant sources == SourcesOf(docs[..i])
    {
      assert docs[..i + 1][..i] == docs[..i];
      if "source" in docs[i].metadata {
        sources := sources + {docs[i].metadata["source"]};
      }
    }
    assert docs[..|docs|] == docs;
    files := [];
    var rest := sources;
    while rest != {}
      invariant Increasing(files)
      invariant forall f :: f in files <==> f in sources && f !in rest
      invariant rest <= sources
      decreases |rest|
    {
      var x :| x in rest;
      files := InsertSorted(files, x);
      rest := rest - {x};
    }
  }
}

=== FILE: wrappers.dfy ===
/** Option and Result, with the failure-propagation members that `:-` needs. */
module Wrappers {

  datatype Option<+T> = None | Some(value: T) {
    predicate IsFailure() { None? }

    function PropagateFailure<U>(): Option<U>
      requires None?
    {
      None
    }

    function Extract(): T
      requires Some?
    {
      value
    }

    /** Python's `d.get(k, default)` once the lookup has been done. */
    function GetOr(default: T): T {
      match this
      case Some(v) => v
      case None => default
    }
  }

  datatype Result<+R, +E> = Success(value: R) | Failure(error: E) {
    predicate IsFailure() { Failure? }

    function PropagateFailure<U>(): Result<U, E>
      requires Failure?
    {
      Failure(error)
    }

    function Extract(): R
      requires Success?
    {
      value
    }
  }
}
